=== FILE: README.md ===
# Lume personal finance: a Dafny model of its core

Lume is a personal-finance application. A Spring backend keeps a user's
accounts, credit cards, transactions, budgets, recurring bills and assets.
A React client shows them as a dashboard, a wallet, a cash-flow report, a
transaction list and a budgets page. This project models, as pure Dafny
functions over immutable data, the parts of the application that compute
something:

- the CPF (Brazilian taxpayer number) check and the client's CPF input mask;
- the per-IP login throttle, login itself and registration;
- the transaction controller's create, update and delete with its card-limit
  bookkeeping, the repository queries they read, and the transaction view;
- recurring bills, budgets, accounts, cards, plan gating and profile edits;
- the dashboard, the cash-flow and category reports, and the debug top list;
- the client pages: dashboard, wallet, credit cards, budgets, cash flow,
  transactions list, transaction form, settings initials and demo mode.

Conventions:

- Money is integer cents.
- Dates are proleptic Gregorian year/month/day triples.
- Every database table is a sequence with unique ids.
- The clock, the password check, hashing and `parseFloat` are parameters.
- Backend percentages are integers in hundredths of a percent. They come
  from the HALF_UP rounding of `value * 10000 / total`, which is what
  `BigDecimal.divide(scale 4, HALF_UP) * 100` yields.
- Client `number`s are exact rationals, with the infinities and NaN that a
  division by zero produces (module `JsNumbers`).
- Errors are `Result` values carrying the HTTP status the source answers with.

One module per source unit:

| module | models |
|---|---|
| `Cpf`, `CpfMask` | `CpfValidator`, the mask in `RegisterPage` |
| `LoginThrottle`, `Authentication` | `LoginAttemptService`, `AuthenticationController` |
| `TransactionLedger`, `TransactionQueries`, `TransactionView` | `TransactionController`, `TransactionRepository`, `TransactionDTO` |
| `Recurring`, `Budgets`, `Accounts`, `Cards`, `Users`, `UsageLimit` | the matching services and controllers |
| `Reports`, `Dashboard`, `TopCategories`, `DebugEndpoint` | `ReportService`, `DashboardService`, `DebugController` |
| `TransactionForm`, `TransactionList`, `CashFlowView`, `WalletView`, `CardDisplay`, `BudgetsView`, `DashboardView`, `ProfileInitials`, `DemoMode`, `ClientFormat` | the client pages and hooks |
| `Domain`, `Calendar`, `Money`, `Text`, `Seqs`, `Grouping`, `JsNumbers`, `Wrappers` | shared entities, calendar, arithmetic and sequence helpers |

## Model

| member | source | states |
|---|---|---|
| Cpf.Values | src/main/java/com/example/projetofinanceiro/util/CpfValidator.java:21 | a digit string's numeric values, one per character, each 0..9 |
| Cpf.CheckDigit | src/main/java/com/example/projetofinanceiro/util/CpfValidator.java:23-24 | the check digit `11 - sum % 11` with 10 and 11 folded to 0 always lies in 0..9 |
| Cpf.IsValid | src/main/java/com/example/projetofinanceiro/util/CpfValidator.java:5-40 | a null CPF is invalid; a valid one has exactly 11 digits that are not all the same |
| Cpf.CheckCpf | src/main/java/com/example/projetofinanceiro/util/CpfValidator.java:5-40 | the check written with the source's two summing loops gives the same answer as the closed-form definition |
| Cpf.DigitsOnly | src/main/java/com/example/projetofinanceiro/util/CpfValidator.java:9 | validity depends only on the ASCII digits of the input |
| Cpf.WrongLengthInvalid | src/main/java/com/example/projetofinanceiro/util/CpfValidator.java:12 | an input whose digit string is not 11 long is invalid |
| Cpf.CheckDigitModEleven | src/main/java/com/example/projetofinanceiro/util/CpfValidator.java:23-24 | the folded check digit equals the textbook form `(10 * sum) mod 11 mod 10` |
| Cpf.RepeatedDigitsRejected | src/main/java/com/example/projetofinanceiro/util/CpfValidator.java:15 | eleven equal digits are rejected, although "00000000000" satisfies both checksums |
| Cpf.SampleIsValid | src/main/java/com/example/projetofinanceiro/util/CpfValidator.java:5-40 | "529.982.247-25" is valid; changing its last digit makes it invalid |
| Cpf.SampleTyped | src/main/java/com/example/projetofinanceiro/util/CpfValidator.java:9 | stripping the punctuation of the typed sample leaves its eleven digits |
| Cpf.SampleDigits | src/main/java/com/example/projetofinanceiro/util/CpfValidator.java:12-36 | the sample's digit string is valid and its one-digit change is not |
| Cpf.SampleValid | src/main/java/com/example/projetofinanceiro/util/CpfValidator.java:19-36 | a number whose digit values are those of the sample passes both checksums and is valid |
| Cpf.SampleInvalid | src/main/java/com/example/projetofinanceiro/util/CpfValidator.java:19-36 | the same number with its last digit off by one fails the second checksum and is invalid |
| Cpf.ChecksumsOfSums | src/main/java/com/example/projetofinanceiro/util/CpfValidator.java:19-36 | given a number's digit values and its two weighted sums, the checksums hold exactly when the tenth and eleventh digits are the check digits of those sums |
| Cpf.TypedDigits | src/main/java/com/example/projetofinanceiro/util/CpfValidator.java:9 | stripping the punctuation of the sample typed as `529.982.247-` plus two final digits leaves `529982247` plus those digits |
| Cpf.Punctuated | src/main/java/com/example/projetofinanceiro/util/CpfValidator.java:9 | the digits of `a.b.c-d` are `a + b + c + d` for digit groups |
| LoginThrottle.Succeeded | src/main/java/com/example/projetofinanceiro/service/LoginAttemptService.java:20-23 | a success removes the key's count and block and leaves every other key's entries unchanged |
| LoginThrottle.Failed | src/main/java/com/example/projetofinanceiro/service/LoginAttemptService.java:25-33 | a failure raises the key's count by one; from the fifth failure on, the key's unblock time becomes now + 15 minutes, and below that the block entry is as before; other keys are unchanged |
| LoginThrottle.IsBlocked | src/main/java/com/example/projetofinanceiro/service/LoginAttemptService.java:35-48 | blocked iff a block entry exists and now is strictly before it; an expired entry removes the key's count and block; nothing else changes |
| LoginThrottle.EmptyConsistent | src/main/java/com/example/projetofinanceiro/service/LoginAttemptService.java:17-18 | the empty caches satisfy the invariant "blocked iff at least five failures, counts positive" |
| LoginThrottle.OperationsKeepConsistent | src/main/java/com/example/projetofinanceiro/service/LoginAttemptService.java:20-48 | success, failure and the blocked check all preserve that invariant |
| LoginThrottle.FewFailuresNotBlocked | src/main/java/com/example/projetofinanceiro/service/LoginAttemptService.java:25-33 | under the invariant, a key with fewer than five failures has no block entry and is not blocked |
| LoginThrottle.FailuresCount | src/main/java/com/example/projetofinanceiro/service/LoginAttemptService.java:12-33 | n failures of a fresh key count n; the key is blocked iff n >= 5, until the last failure's time plus 15 minutes |
| LoginThrottle.ExpiryResets | src/main/java/com/example/projetofinanceiro/service/LoginAttemptService.java:41-45 | a check after expiry unblocks and forgets the key, so the next failure counts one |
| Authentication.ClientIp | src/main/java/com/example/projetofinanceiro/controller/AuthenticationController.java:108-114 | no X-Forwarded-For gives the remote address; otherwise the untrimmed text before the first comma, and a header of commas only makes the request fail |
| Authentication.Login | src/main/java/com/example/projetofinanceiro/controller/AuthenticationController.java:45-65 | a blocked IP gets 429 with the throttle untouched; otherwise good credentials record a success and bad ones record a failure and end in the rethrown authentication failure |
| Authentication.FifthFailureBlocks | src/main/java/com/example/projetofinanceiro/controller/AuthenticationController.java:49-63 | after four failures, a fifth bad login makes even a correct login within the next 15 minutes answer 429 |
| Authentication.SuccessForgets | src/main/java/com/example/projetofinanceiro/controller/AuthenticationController.java:57 | a successful login leaves the IP with no count and not blocked |
| Authentication.LoginKeepsConsistent | src/main/java/com/example/projetofinanceiro/controller/AuthenticationController.java:45-65 | login preserves the throttle invariant |
| Authentication.DefaultCategories | src/main/java/com/example/projetofinanceiro/controller/AuthenticationController.java:95-106 | seven categories owned by the new user, with consecutive ids |
| Authentication.OneIncomeCategory | src/main/java/com/example/projetofinanceiro/controller/AuthenticationController.java:96-104 | exactly one default category is INCOME, and it is "Salário" |
| Authentication.Register | src/main/java/com/example/projetofinanceiro/controller/AuthenticationController.java:67-93 | a known e-mail is refused first, then an invalid CPF; errors change nothing; success appends a FREE user created now, with the digit-only CPF and the hashed password, and adds the seven default categories |
| Authentication.RegisterKeepsUnique | src/main/java/com/example/projetofinanceiro/controller/AuthenticationController.java:69-88 | registration keeps e-mails, CPFs, user ids and category ids unique |
| Users.UpdateMyProfile | src/main/java/com/example/projetofinanceiro/controller/UserController.java:24-37 | the name is replaced only by a present non-empty one; the image by any present one; id, e-mail, password, CPF, plan and createdAt are kept |
| Users.NothingToUpdate | src/main/java/com/example/projetofinanceiro/controller/UserController.java:28-35 | an empty request, or one with an empty name only, leaves the user unchanged |
| Users.UpdateIdempotent | src/main/java/com/example/projetofinanceiro/controller/UserController.java:28-33 | applying the same edit twice equals applying it once |
| UsageLimit.DaysBetween | src/main/java/com/example/projetofinanceiro/service/UsageLimitService.java:68 | the whole days between two instants, truncated toward zero |
| UsageLimit.CheckTrial | src/main/java/com/example/projetofinanceiro/service/UsageLimitService.java:65-72 | a user without createdAt passes; a failure is FORBIDDEN with the trial-over message |
| UsageLimit.TrialBoundary | src/main/java/com/example/projetofinanceiro/service/UsageLimitService.java:27-71 | the trial fails iff at least 31 whole days have passed, so exactly 30 still passes |
| UsageLimit.CheckLimit | src/main/java/com/example/projetofinanceiro/service/UsageLimitService.java:29-63 | PRO and LIFETIME always pass; every failure is FORBIDDEN |
| UsageLimit.OwnedCountPositive | src/main/java/com/example/projetofinanceiro/service/UsageLimitService.java:35-59 | a table holding one of the user's rows counts at least one for that user |
| UsageLimit.PaidPlansPass | src/main/java/com/example/projetofinanceiro/service/UsageLimitService.java:30-55 | PRO and LIFETIME users pass all three checks |
| UsageLimit.FreeCountLimits | src/main/java/com/example/projetofinanceiro/service/UsageLimitService.java:24-62 | inside the trial, a FREE user is refused iff they own at least 50 transactions, 2 accounts or 1 card |
| UsageLimit.FreeInTrialLimit | src/main/java/com/example/projetofinanceiro/service/UsageLimitService.java:29-63 | inside the trial a FREE user gets FORBIDDEN with the limit's own message exactly when the count has reached the limit, and passes otherwise |
| UsageLimit.TrialReportedFirst | src/main/java/com/example/projetofinanceiro/service/UsageLimitService.java:33-57 | an expired trial is the error reported by all three checks, whatever the count |
| Domain.FindOwned | src/main/java/com/example/projetofinanceiro/service/AccountService.java:52-57 | NOT_FOUND exactly when no row has the id, FORBIDDEN when it belongs to someone else, and otherwise the caller's own row with that id |
| Domain.FreshId | src/main/java/com/example/projetofinanceiro/model/Account.java:13-15 | a generated id is larger than every id already in the table |
| Domain.InsertKeepsUnique | src/main/java/com/example/projetofinanceiro/service/AccountService.java:47 | saving a new row under a fresh id keeps the table's ids unique |
| Domain.DeleteInserted | src/main/java/com/example/projetofinanceiro/service/AccountService.java:59 | deleting the row just inserted under a fresh id restores the table |
| Domain.DeleteByIdAt | src/main/java/com/example/projetofinanceiro/service/AccountService.java:59 | with unique ids, deleting the id at position k removes exactly that position and keeps the order of the rest |
| Calendar.LengthOfMonth | src/main/java/com/example/projetofinanceiro/controller/RecurringController.java:90 | month lengths are 28..31, and February has 29 days exactly in ISO leap years |
| Calendar.KeyOrder | src/main/java/com/example/projetofinanceiro/service/ReportService.java:31 | comparing date keys compares (year, month, day) lexicographically, and equal keys mean equal dates |
| Calendar.Of | src/main/java/com/example/projetofinanceiro/controller/RecurringController.java:89 | `LocalDate.of` succeeds exactly for a month 1..12 and a day within the month's length |
| Calendar.MonthRangeExact | src/main/java/com/example/projetofinanceiro/controller/TransactionController.java:42-46 | a date lies between the first and last day of a month iff it is in that month |
| Calendar.NextDay | src/main/java/com/example/projetofinanceiro/service/ReportService.java:56 | the next day comes strictly later |
| Calendar.PrevDay | src/main/java/com/example/projetofinanceiro/service/DashboardService.java:46 | the previous day comes strictly earlier |
| Calendar.NextDayIsSuccessor | src/main/java/com/example/projetofinanceiro/service/ReportService.java:56 | no date lies strictly between a day and the next one |
| Calendar.NextPrevInverse | src/main/java/com/example/projetofinanceiro/service/DashboardService.java:46-57 | the next day and the previous day are inverse to each other |
| Calendar.PlusDaysShift | src/main/java/com/example/projetofinanceiro/service/DashboardService.java:57 | adding n days to the next day is adding n + 1 days |
| Calendar.PlusMinusDays | src/main/java/com/example/projetofinanceiro/service/DashboardService.java:46-57 | going back n days and then forward n days returns to the start |
| Calendar.PlusDaysKey | src/main/java/com/example/projetofinanceiro/service/DashboardService.java:57 | adding n days moves the date key forward by at least n |
| Calendar.Days | src/main/java/com/example/projetofinanceiro/service/ReportService.java:39-57 | the walk from start to end is empty iff end is before start; otherwise it starts at start, stays in range and steps one day at a time |
| Calendar.DaysCover | src/main/java/com/example/projetofinanceiro/service/ReportService.java:39-57 | the walk visits every day of the range, ends on end and never repeats a day |
| Calendar.DaysAhead | src/main/java/com/example/projetofinanceiro/service/DashboardService.java:56-57 | the walk from a day to n days later is exactly that day plus 0, 1, ..., n days |
| Calendar.PlusDaysSameMonth | src/main/java/com/example/projetofinanceiro/service/DashboardService.java:128 | inside a month, adding days only moves the day of the month |
| Calendar.PrevMonth | frontend/src/pages/CashFlowPage.tsx:65-67 | the month before is a valid month |
| Calendar.NextMonth | frontend/src/pages/CashFlowPage.tsx:69-71 | the month after is a valid month |
| Calendar.PrevNextMonthInverse | frontend/src/pages/CashFlowPage.tsx:65-71 | the month after the month before, and the month before the month after, are the month itself, across year ends |
| Calendar.Pad2 | src/main/java/com/example/projetofinanceiro/service/DashboardService.java:59 | two digit characters that read back as the number, so 0..9 get a leading zero |
| Calendar.FormatDdMm | src/main/java/com/example/projetofinanceiro/service/DashboardService.java:59 | the "dd/MM" label is five characters: two digits that read back as the day, a slash, and two digits that read back as the month |
| Money.Abs | src/main/java/com/example/projetofinanceiro/service/DashboardService.java:111 | `abs` is non-negative and equals x or -x |
| Money.RoundNat | src/main/java/com/example/projetofinanceiro/service/ReportService.java:90 | n/m rounded half up: twice the error is within the divisor, with halves rounding upwards |
| Money.RoundHalfUpDiv | src/main/java/com/example/projetofinanceiro/service/ReportService.java:90 | HALF_UP division: the nearest integer to q/d, ties going away from zero, with the sign of the exact quotient |
| Money.PercentBounds | src/main/java/com/example/projetofinanceiro/service/ReportService.java:90-92 | a part of a positive whole is between 0% and 100% |
| Money.PercentOfWhole | src/main/java/com/example/projetofinanceiro/service/ReportService.java:90-92 | the whole is exactly 100% |
| Money.PercentMono | src/main/java/com/example/projetofinanceiro/service/BudgetService.java:54-58 | a larger part of the same positive whole never shows a smaller percentage |
| Money.PercentAtLeastWhole | src/main/java/com/example/projetofinanceiro/service/BudgetService.java:54-58 | a part at or above the whole shows at least 100% |
| Accounts.Balance | src/main/java/com/example/projetofinanceiro/service/AccountService.java:28-36 | the current balance is the initial balance (zero when null) plus the account's INCOME sum minus its EXPENSE sum |
| Accounts.BalanceIsLedger | src/main/java/com/example/projetofinanceiro/service/AccountService.java:28-36 | that balance equals the initial balance plus the signed amounts of the account's transactions |
| Accounts.NoTransactionsBalance | src/main/java/com/example/projetofinanceiro/service/AccountService.java:31-36 | an account without transactions has its initial balance, or zero if that is null |
| Accounts.BalanceAfterBooking | src/main/java/com/example/projetofinanceiro/service/AccountService.java:28-36 | booking one more transaction moves the balance by exactly its signed amount on that account |
| Accounts.AccountsOf | src/main/java/com/example/projetofinanceiro/service/AccountService.java:23-40 | exactly the user's accounts, in table order, unchanged, each with its balance |
| Accounts.CreateAccount | src/main/java/com/example/projetofinanceiro/service/AccountService.java:42-48 | the new account is the caller's, under a fresh id for a body without one, with a null initial balance replaced by zero and a non-null one kept |
| Accounts.NewAccountBalance | src/main/java/com/example/projetofinanceiro/service/AccountService.java:42-48 | a new account's balance is its initial balance |
| Accounts.DeleteAccount | src/main/java/com/example/projetofinanceiro/service/AccountService.java:50-60 | NOT_FOUND and FORBIDDEN change nothing; otherwise the account and its cascaded transactions are removed |
| Accounts.DeleteAccountKeepsLimitsInSync | src/main/java/com/example/projetofinanceiro/model/Account.java:33 | cascading an account's transactions keeps every card's limitUsed equal to its EXPENSE charges |
| Accounts.DeleteAccountKeepsOtherBalances | src/main/java/com/example/projetofinanceiro/model/Account.java:33 | after deleting an account no transaction points to it, and every other account's balance is unchanged |
| Cards.CardsOf | src/main/java/com/example/projetofinanceiro/controller/CreditCardController.java:24-28 | exactly the caller's cards |
| Cards.CreateCard | src/main/java/com/example/projetofinanceiro/controller/CreditCardController.java:30-39 | the plan check runs first and a refusal writes nothing; otherwise the body is saved as the caller's, under a fresh id for a body without one (an id-carrying body is not modelled, see "## Left out") |
| Cards.SecondFreeCardRefused | src/main/java/com/example/projetofinanceiro/controller/CreditCardController.java:35 | a FREE user who already has a card is refused a second one, and nothing is written |
| Cards.CreateCardKeepsLimitsInSync | src/main/java/com/example/projetofinanceiro/controller/CreditCardController.java:30-39 | a new unused card keeps every card's limitUsed equal to its EXPENSE charges |
| Cards.UpdateCard | src/main/java/com/example/projetofinanceiro/controller/CreditCardController.java:41-59 | NOT_FOUND and FORBIDDEN change nothing; otherwise name, last four digits, limit, closing day, due day and colour come from the body while id, owner and limitUsed stay |
| Cards.UpdateCardKeepsLimitsInSync | src/main/java/com/example/projetofinanceiro/controller/CreditCardController.java:51-56 | editing a card keeps the card-limit bookkeeping in step |
| Cards.DeleteCard | src/main/java/com/example/projetofinanceiro/controller/CreditCardController.java:61-73 | NOT_FOUND and FORBIDDEN change nothing; a card some transaction still references is refused with a server error and nothing removed, since the transactions' foreign key to the card has no cascade; otherwise exactly that card is removed |
| Cards.DeleteCardKeepsReferencesResolve | src/main/java/com/example/projetofinanceiro/controller/CreditCardController.java:61-73 | deleting a card never leaves a transaction linked to a card, account or category that is not there |
| Cards.DeleteCardKeepsLimitsInSync | src/main/java/com/example/projetofinanceiro/controller/CreditCardController.java:61-73 | deleting a card keeps every remaining card's limitUsed equal to its EXPENSE total |
| Cards.CreateThenDeleteRestores | src/main/java/com/example/projetofinanceiro/controller/CreditCardController.java:30-73 | deleting a card just created restores the database |
| Budgets.ProgressPercentage | src/main/java/com/example/projetofinanceiro/service/BudgetService.java:54-58 | zero for a limit of zero or less; otherwise spent/limit in hundredths of a percent, rounded to within half a unit, within [0,100%] for spending up to the limit and at least 100% from the limit on |
| Budgets.PercentAgainstWhole | src/main/java/com/example/projetofinanceiro/service/BudgetService.java:55-57 | against a positive limit, spending at or above it shows at least 100% and spending up to it shows at most 100% |
| Budgets.Progress | src/main/java/com/example/projetofinanceiro/service/BudgetService.java:38-68 | a row carries the budget's id, category id and name and amount, the category's EXPENSE total in the range (null as zero) and its percentage |
| Budgets.BudgetsWithProgress | src/main/java/com/example/projetofinanceiro/service/BudgetService.java:31-69 | an invalid month fails; otherwise one row per budget of the user for that month and year, in order |
| Budgets.SpentIsMonthExpense | src/main/java/com/example/projetofinanceiro/service/BudgetService.java:35-50 | a row's spending counts exactly the user's EXPENSE transactions of that category dated in that month |
| Budgets.Upsert | src/main/java/com/example/projetofinanceiro/service/BudgetService.java:71-94 | NOT_FOUND or FORBIDDEN for the category changes nothing; an existing budget in the slot only gets the new amount; otherwise one new budget is appended under a fresh id |
| Budgets.ReplaceKeepsSlots | src/main/java/com/example/projetofinanceiro/model/Budget.java:10-12 | changing a budget's amount keeps slots and ids unique |
| Budgets.AppendKeepsSlots | src/main/java/com/example/projetofinanceiro/model/Budget.java:10-12 | a budget for an empty slot keeps slots unique and is then the slot's only budget |
| Budgets.UpsertKeepsSlotsUnique | src/main/java/com/example/projetofinanceiro/service/BudgetService.java:80-93 | after an upsert, slots and ids stay unique and the returned budget is the only one in its slot |
| Budgets.UpsertIdempotent | src/main/java/com/example/projetofinanceiro/service/BudgetService.java:80-93 | repeating an upsert changes nothing more: it never duplicates a budget |
| Budgets.DeleteBudget | src/main/java/com/example/projetofinanceiro/service/BudgetService.java:96-106 | NOT_FOUND and FORBIDDEN change nothing; otherwise exactly that budget is removed |
| Budgets.UpsertThenDeleteRestores | src/main/java/com/example/projetofinanceiro/service/BudgetService.java:85-105 | deleting the budget a fresh upsert created restores the table |
| Recurring.Owned | src/main/java/com/example/projetofinanceiro/controller/RecurringController.java:43-48 | a found template is the caller's own, with that id |
| Recurring.Create | src/main/java/com/example/projetofinanceiro/controller/RecurringController.java:33-38 | the body is saved as the caller's, under a fresh id for a body without one (an id-carrying body is not modelled, see "## Left out") |
| Recurring.Update | src/main/java/com/example/projetofinanceiro/controller/RecurringController.java:40-58 | NOT_FOUND and FORBIDDEN change nothing; otherwise exactly description, amount, type, category, due day and frequency are overwritten, and id and owner stay |
| Recurring.UpdateIdempotent | src/main/java/com/example/projetofinanceiro/controller/RecurringController.java:50-57 | sending the same edit twice equals sending it once |
| Recurring.Delete | src/main/java/com/example/projetofinanceiro/controller/RecurringController.java:60-72 | NOT_FOUND and FORBIDDEN change nothing; otherwise exactly that template is removed |
| Recurring.CreateThenDeleteRestores | src/main/java/com/example/projetofinanceiro/controller/RecurringController.java:33-72 | deleting a template just created restores the table |
| Recurring.ClampedDay | src/main/java/com/example/projetofinanceiro/controller/RecurringController.java:90-91 | the bill's day is its due day, or the month's last day when the due day is past it |
| Recurring.Launch | src/main/java/com/example/projetofinanceiro/controller/RecurringController.java:74-104 | a missing year or month defaults to today's; the launch succeeds iff the template is the caller's, the month is 1..12 and the due day is at least 1; the new transaction has that year and month, the clamped day, the template's description, amount, type and category, no account and no card; the template is not written |
| Recurring.FebruaryClamp | src/main/java/com/example/projetofinanceiro/controller/RecurringController.java:88-92 | a bill due on the 30th lands on 29 February in a leap year and on the 28th otherwise |
| Recurring.LaunchKeepsBookkeeping | src/main/java/com/example/projetofinanceiro/controller/RecurringController.java:94-103 | launching leaves the cards and the limit bookkeeping unchanged and links the new row to no source |
| TransactionLedger.List | src/main/java/com/example/projetofinanceiro/controller/TransactionController.java:33-53 | month and year default to today's; an impossible month fails; otherwise the view of every row `findFiltered` returns for day 1 to the month's last day, in order |
| TransactionLedger.ListIsTheMonth | src/main/java/com/example/projetofinanceiro/controller/TransactionController.java:42-48 | without a category filter, the listed rows are exactly the user's transactions dated in that month |
| TransactionLedger.EscapeDescription | src/main/java/com/example/projetofinanceiro/controller/TransactionController.java:65-148 | a present description is escaped and a null one stays null |
| TransactionLedger.ChooseSource | src/main/java/com/example/projetofinanceiro/controller/TransactionController.java:70-95 | a card id wins over an account id and must name one of the user's cards; otherwise an account id must name one of the user's accounts; with neither, nothing is linked; failures are NOT_FOUND or FORBIDDEN |
| TransactionLedger.ResolveCategory | src/main/java/com/example/projetofinanceiro/controller/TransactionController.java:97-108 | no category id gives a null category; a given id must name one of the user's categories |
| TransactionLedger.AdjustLimit | src/main/java/com/example/projetofinanceiro/controller/TransactionController.java:82-83 | only the card with that id gets its limitUsed moved by the amount |
| TransactionLedger.Debit | src/main/java/com/example/projetofinanceiro/controller/TransactionController.java:80-84 | every card's limitUsed rises by what the transaction charges it: the amount for an EXPENSE on that card, zero otherwise |
| TransactionLedger.Credit | src/main/java/com/example/projetofinanceiro/controller/TransactionController.java:206-211 | every card's limitUsed falls by what the transaction charged it |
| TransactionLedger.CreditUndoesDebit | src/main/java/com/example/projetofinanceiro/controller/TransactionController.java:80-211 | refunding a transaction's charge restores every card |
| TransactionLedger.Notify | src/main/java/com/example/projetofinanceiro/controller/TransactionController.java:112-121 | a notification is added iff the saved transaction is an EXPENSE |
| TransactionLedger.TxIndex | src/main/java/com/example/projetofinanceiro/controller/TransactionController.java:129-130 | the position of the row with that id, or none when no row has it |
| TransactionLedger.NewRow | src/main/java/com/example/projetofinanceiro/controller/TransactionController.java:62-110 | a created row gets a fresh id, as it does for a body without one; an id-carrying body is not modelled (see "## Left out") |
| TransactionLedger.CreateAsWritten | src/main/java/com/example/projetofinanceiro/controller/TransactionController.java:55-124 | as the source does it: the plan check's FORBIDDEN and a card or account refusal write nothing; every refusal is NOT_FOUND or FORBIDDEN and changes at most the cards; a success means the category resolved |
| TransactionLedger.CreateAsWrittenKeepsCardCharge | src/main/java/com/example/projetofinanceiro/controller/TransactionController.java:69-100 | for every request whose card or account resolves but whose category is refused: the category's refusal is returned, the transactions and every other table are unchanged, and the cards are left charged for the row that was never saved |
| TransactionLedger.Create | src/main/java/com/example/projetofinanceiro/controller/TransactionController.java:55-124 | the plan check comes first; any refusal (FORBIDDEN or NOT_FOUND) writes nothing; success appends the row under a fresh id (a body without an id; see "## Left out") with the request's amount, date, type, escaped description and category, linked to the card (account cleared) or else to the account, charges the card for an EXPENSE and adds a notification for an EXPENSE |
| TransactionLedger.CreateAgreesWhenCategoryResolves | src/main/java/com/example/projetofinanceiro/controller/TransactionController.java:97-108 | when the category resolves, the as-written create and the checked create give the same result |
| TransactionLedger.CreateRejectsForeignRows | src/main/java/com/example/projetofinanceiro/controller/TransactionController.java:74-104 | another user's card, account or category gives FORBIDDEN with its message and changes nothing |
| TransactionLedger.CreateKeepsLimitsInSync | src/main/java/com/example/projetofinanceiro/controller/TransactionController.java:80-84 | create keeps every card's limitUsed equal to the sum of its EXPENSE transactions |
| TransactionLedger.CreateKeepsLinksExclusive | src/main/java/com/example/projetofinanceiro/controller/TransactionController.java:77-94 | a created row is linked to at most one of card and account |
| TransactionLedger.UpdatedRow | src/main/java/com/example/projetofinanceiro/controller/TransactionController.java:143-191 | the updated row keeps id and owner, takes amount, date, type, category and escaped description from the request, and takes the requested link or, when none is named, keeps its previous link |
| TransactionLedger.UpdateAsWritten | src/main/java/com/example/projetofinanceiro/controller/TransactionController.java:126-194 | as the source does it: an unknown id is NOT_FOUND and another user's row FORBIDDEN, both with nothing written; every refusal is NOT_FOUND or FORBIDDEN and changes at most the cards and the edited row, every other row staying as it was; a success replaces the row in place with the request's values, and the new amount is charged only when the request names a card |
| TransactionLedger.EditAsWritten | src/main/java/com/example/projetofinanceiro/controller/TransactionController.java:136-193 | once the row is known to be the caller's: a refusal changes at most the cards and that row, with every other table as it was; a success replaces the row with the request's values and refunds the old charge, charging the new amount only when the request names a card |
| TransactionLedger.UpdateAsWrittenKeepsPartialWrites | src/main/java/com/example/projetofinanceiro/controller/TransactionController.java:136-186 | after the ownership check, a card or account refusal keeps the saved refund of the old charge and nothing else; a category refusal keeps the refund and, when the request names a card, the new charge; when that request is an EXPENSE, the card's save also flushes the edited row, which keeps its new fields and card link with the old category, and otherwise the transactions stay unchanged |
| TransactionLedger.ChooseSourceAfterCredit | src/main/java/com/example/projetofinanceiro/controller/TransactionController.java:136-177 | the refund saved before the lookups changes only `limitUsed`, so the card or account lookup answers as it would have before the refund |
| TransactionLedger.UpdateAgreesWhenLinkNamed | src/main/java/com/example/projetofinanceiro/controller/TransactionController.java:126-194 | when the request names a card or an account and every reference resolves, update as written and the corrected update give the same answer and the same database |
| TransactionLedger.EditAgreesWhenLinkNamed | src/main/java/com/example/projetofinanceiro/controller/TransactionController.java:136-193 | past the ownership check, when the request names a card or an account and every reference resolves, the as-written edit refunds the old charge, charges the new card and replaces the row with the request's values and category |
| Domain.FindOwnedReadsIdsAndOwners | src/main/java/com/example/projetofinanceiro/controller/TransactionController.java:156-161 | the find-then-owner-check reads only ids and owners: tables that agree on those give the same refusal or both find the row |
| TransactionLedger.Update | src/main/java/com/example/projetofinanceiro/controller/TransactionController.java:126-194 | NOT_FOUND and FORBIDDEN come first and every refusal writes nothing; success replaces the row in place, refunds the old row's card charge and charges the new row's card |
| TransactionLedger.UpdateKeepsLimitsInSync | src/main/java/com/example/projetofinanceiro/controller/TransactionController.java:136-169 | update keeps every card's limitUsed equal to the sum of its EXPENSE transactions |
| TransactionLedger.UpdateKeepsLinksExclusive | src/main/java/com/example/projetofinanceiro/controller/TransactionController.java:162-178 | update keeps every row linked to at most one of card and account |
| TransactionLedger.Delete | src/main/java/com/example/projetofinanceiro/controller/TransactionController.java:196-215 | NOT_FOUND, then FORBIDDEN, change nothing; otherwise the row is removed and its card charge refunded |
| TransactionLedger.DeleteKeepsLimitsInSync | src/main/java/com/example/projetofinanceiro/controller/TransactionController.java:206-213 | delete keeps every card's limitUsed equal to the sum of its EXPENSE transactions |
| TransactionLedger.DeleteKeepsLinksExclusive | src/main/java/com/example/projetofinanceiro/controller/TransactionController.java:213 | delete keeps every row linked to at most one of card and account |
| TransactionLedger.CreateThenDeleteRestores | src/main/java/com/example/projetofinanceiro/controller/TransactionController.java:81-213 | deleting a transaction just created restores every card's limitUsed and the transaction table |
| TransactionLedger.UpdateAsWrittenDropsKeptCharge | src/main/java/com/example/projetofinanceiro/controller/TransactionController.java:136-179 | a card EXPENSE edited without naming a card or account keeps its card link, but its card ends at limitUsed 0 while its charges still total 5000 |
| TransactionLedger.UpdateKeepsKeptCharge | src/main/java/com/example/projetofinanceiro/controller/TransactionController.java:136-179 | the same edit through the checked update leaves the card at 5000 and the bookkeeping in step |
| TransactionLedger.UpdateAsWrittenSavesRefusedEdit | src/main/java/com/example/projetofinanceiro/controller/TransactionController.java:144-186 | raising a 50.00 card EXPENSE to 80.00 while naming a missing category is refused with NOT_FOUND, yet the row is stored at 80.00 and the card at 80.00 |
| TransactionLedger.UpdateRefusesWithoutWriting | src/main/java/com/example/projetofinanceiro/controller/TransactionController.java:126-194 | the same request through the checked update is refused with NOT_FOUND and the database is unchanged |
| TransactionLedger.CreateAsWrittenChargesRejectedRow | src/main/java/com/example/projetofinanceiro/controller/TransactionController.java:80-100 | a card EXPENSE with an unknown category is refused with NOT_FOUND, yet the card stays charged 5000 for a row that was never saved |
| TransactionLedger.CreateRejectsWithoutWriting | src/main/java/com/example/projetofinanceiro/controller/TransactionController.java:98-100 | the same request through the checked create is refused and leaves the database unchanged |
| TransactionView.CategoryView | src/main/java/com/example/projetofinanceiro/dto/CategoryDTO.java:6-13 | the category view copies id, name and type |
| TransactionView.FromEntity | src/main/java/com/example/projetofinanceiro/dto/TransactionDTO.java:18-36 | id, description, amount, date and type are copied; the category view is null iff the category is, and otherwise carries its id |
| TransactionView.SourceNameCases | src/main/java/com/example/projetofinanceiro/dto/TransactionDTO.java:19-25 | with a card the source reads "Cartão: " and the card's name, whether or not an account is set; with only an account, the account's name; with neither, "N/A" |
| TransactionQueries.SumWhereIsFilteredSum | src/main/java/com/example/projetofinanceiro/repository/TransactionRepository.java:32-36 | summing the amounts of the matching rows equals summing the filtered rows |
| TransactionQueries.FilterEmpty | src/main/java/com/example/projetofinanceiro/repository/TransactionRepository.java:32-36 | the filtered rows are empty iff no row matches |
| TransactionQueries.SqlSum | src/main/java/com/example/projetofinanceiro/repository/TransactionRepository.java:32-59 | `SUM` is NULL iff no row matches, and otherwise the sum of the matching amounts |
| TransactionQueries.NewestFirst | src/main/java/com/example/projetofinanceiro/repository/TransactionRepository.java:26-29 | `ORDER BY t.date DESC` returns the matching rows, each once as often as in the table, sorted newest first |
| TransactionQueries.FindFilteredSpec | src/main/java/com/example/projetofinanceiro/repository/TransactionRepository.java:23-27 | `findFiltered` returns exactly the user's rows with start <= date <= end, restricted to the category only when one is given, newest first |
| TransactionQueries.FindRecentSpec | src/main/java/com/example/projetofinanceiro/repository/TransactionRepository.java:29-30 | `findRecentTransactionsByUser` returns exactly the user's rows dated on or after start, newest first |
| TransactionQueries.AccountSumsSpec | src/main/java/com/example/projetofinanceiro/repository/TransactionRepository.java:52-56 | an account's INCOME (EXPENSE) sum is NULL iff it has no such row, and read as zero it is the sum of that account's INCOME (EXPENSE) amounts |
| TransactionQueries.SumWhereNone | src/main/java/com/example/projetofinanceiro/repository/TransactionRepository.java:32-36 | a sum over no matching rows is zero |
| TransactionQueries.SqlSumOrZero | src/main/java/com/example/projetofinanceiro/repository/TransactionRepository.java:58-59 | reading a NULL sum as zero gives the plain sum of the matching amounts |
| TransactionQueries.FindByTypeAndDateRange | src/main/java/com/example/projetofinanceiro/repository/TransactionRepository.java:63-64 | exactly the user's rows of that type with start <= date <= end |
| TransactionQueries.FindByDateRange | src/main/java/com/example/projetofinanceiro/repository/TransactionRepository.java:66-67 | exactly the user's rows with start <= date <= end |
| TransactionQueries.FindAllByDateRange | src/main/java/com/example/projetofinanceiro/repository/TransactionRepository.java:69-70 | exactly the user's rows with start <= date <= end |
| TransactionQueries.RangeQueriesAgree | src/main/java/com/example/projetofinanceiro/repository/TransactionRepository.java:61-70 | the two range queries return the same rows, and so do the two typed range queries |
| TransactionQueries.FindTopCategories | src/main/java/com/example/projetofinanceiro/repository/TransactionRepository.java:38-43 | one row per category name, each holding that name's sum of in-range EXPENSE amounts, sorted by sum descending; every matching row's category name has a row and every row's name comes from a matching row; together they hold the whole in-range EXPENSE total |
| Grouping.RankedKeysCover | src/main/java/com/example/projetofinanceiro/repository/TransactionRepository.java:38-43 | after `GROUP BY` and ordering there is a group for the key of every grouped row and for no other key |
| TransactionQueries.StrictlyAscending | src/main/java/com/example/projetofinanceiro/repository/TransactionRepository.java:48-49 | distinct days sorted in ascending order strictly increase |
| TransactionQueries.FindDailyExpenses | src/main/java/com/example/projetofinanceiro/repository/TransactionRepository.java:45-50 | one row per day since start, days strictly ascending, each holding that day's EXPENSE sum; together they hold the whole EXPENSE total since start |
| Grouping.KeySumsCover | src/main/java/com/example/projetofinanceiro/service/ReportService.java:81-85 | summing the per-key sums over distinct keys that cover every element gives the sum of all elements |
| Grouping.KeySumBounds | src/main/java/com/example/projetofinanceiro/service/ReportService.java:81-85 | with no negative values, one key's sum lies between zero and the sum of all |
| Grouping.AddTo | src/main/java/com/example/projetofinanceiro/service/ReportService.java:84 | adding a value to a key's group raises that key's total only, opening a group for a new key, and keeps keys distinct |
| Grouping.GroupSum | src/main/java/com/example/projetofinanceiro/service/ReportService.java:81-85 | `groupingBy` with a summing reducer: one group per key that occurs, keys distinct, each group holding its key's sum, all groups together holding the sum of all elements |
| Grouping.RankDesc | src/main/java/com/example/projetofinanceiro/service/ReportService.java:95 | sorting groups by descending total is a permutation of them, sorted, with the same grand total |
| Grouping.PermutedKeys | src/main/java/com/example/projetofinanceiro/service/ReportService.java:95 | a reordering of the groups has the same keys |
| Grouping.MemberTotals | src/main/java/com/example/projetofinanceiro/service/ReportService.java:95 | every group of a reordering holds its key's recorded total |
| Reports.DailyEntries | src/main/java/com/example/projetofinanceiro/service/ReportService.java:39-57 | one entry per listed day with that day's INCOME and EXPENSE sums and net = income - expense; the columns sum to the per-day sums |
| Reports.CashFlow | src/main/java/com/example/projetofinanceiro/service/ReportService.java:27-60 | one entry per day of the walk from start to end, empty iff end is before start; each entry sums the user's in-range rows of that day, and net = income - expense |
| Reports.CashFlowDays | src/main/java/com/example/projetofinanceiro/service/ReportService.java:39-57 | the entries' days strictly increase, cover exactly the range, and run from start to end; days without transactions still appear |
| Reports.CashFlowTotals | src/main/java/com/example/projetofinanceiro/service/ReportService.java:30-51 | summed over the entries, income and expense equal the user's INCOME and EXPENSE totals inside the range |
| Reports.RowsSum | src/main/java/com/example/projetofinanceiro/service/ReportService.java:30-51 | summing a column over filtered rows equals summing the amounts of the rows the column counts |
| Reports.ToReports | src/main/java/com/example/projetofinanceiro/service/ReportService.java:87-94 | each group becomes a report with its name, its total and its share of the month's total |
| Reports.Names | src/main/java/com/example/projetofinanceiro/service/ReportService.java:93 | the category names of the reports, in order |
| Reports.Labels | src/main/java/com/example/projetofinanceiro/service/ReportService.java:83 | each row's category name, "Sem Categoria" for none |
| Reports.RankedOrder | src/main/java/com/example/projetofinanceiro/service/ReportService.java:95 | the ranked reports are sorted by value descending and keep the grand total |
| Reports.RankedNames | src/main/java/com/example/projetofinanceiro/service/ReportService.java:81-96 | the ranked reports have distinct names, exactly the keys of the grouping |
| Reports.RankedTotals | src/main/java/com/example/projetofinanceiro/service/ReportService.java:81-96 | each ranked report holds its key's total |
| Reports.RankedShares | src/main/java/com/example/projetofinanceiro/service/ReportService.java:89-92 | each ranked report's percentage is its total's share of the month's total |
| Reports.GroupedLabels | src/main/java/com/example/projetofinanceiro/service/ReportService.java:81-85 | the keys of the grouping are exactly the category names that occur |
| Reports.CategoryReports | src/main/java/com/example/projetofinanceiro/service/ReportService.java:81-96 | reports sorted by value descending, one per distinct category name of the rows, each holding that name's sum and its share; the values sum to the total |
| Reports.ExpensesByCategory | src/main/java/com/example/projetofinanceiro/service/ReportService.java:62-97 | an invalid month fails; a month whose EXPENSE total is zero reports nothing; otherwise the month's EXPENSE rows grouped by category name as above |
| Reports.ReportsFollowGroups | src/main/java/com/example/projetofinanceiro/service/ReportService.java:87-96 | the reports keep the groups' order and grand total |
| Reports.SharesInRange | src/main/java/com/example/projetofinanceiro/service/ReportService.java:90-92 | with no negative amounts every share lies between 0% and 100% |
| Reports.OtherRowsIgnored | src/main/java/com/example/projetofinanceiro/service/ReportService.java:65-71 | adding an INCOME row, another user's row or a row outside the month leaves the report unchanged |
| TopCategories.TopN | src/main/java/com/example/projetofinanceiro/service/DashboardService.java:115-119 | the first `limit` groups by descending total: as many as there are up to the limit, sorted, distinct, each with its own total; a group left out totals no more than any kept one, and under the limit none is left out |
| TopCategories.Top | src/main/java/com/example/projetofinanceiro/service/DashboardService.java:101-119 | the ranking of the spending rows (EXPENSE, or a negative amount) by category name, totals of absolute amounts: at most `limit`, sorted, distinct, each group the summed absolute amounts of its name, nothing larger left out |
| TopCategories.GroupedLabelsBy | src/main/java/com/example/projetofinanceiro/service/DashboardService.java:108-112 | the names the grouping produces are exactly the category names of the rows |
| TopCategories.TopTotalsNonNegative | src/main/java/com/example/projetofinanceiro/service/DashboardService.java:101-112 | the ranked totals are never negative, and a non-negative INCOME row is never counted |
| DebugEndpoint.UserByEmail | src/main/java/com/example/projetofinanceiro/controller/DebugController.java:32 | the user found has the e-mail asked for; none is found exactly when no user has it |
| DebugEndpoint.TopCategoriesLastMonth | src/main/java/com/example/projetofinanceiro/controller/DebugController.java:30-53 | for the e-mail given, or "demo@lume.com" by default, last month's ranking cut at ten, sorted and distinct; an unknown e-mail gives an empty list |
| DebugEndpoint.DashboardTopIsPrefix | src/main/java/com/example/projetofinanceiro/controller/DebugController.java:37-53 | the dashboard's five top categories are the first five the endpoint returns for the same user and month |
| Dashboard.DailyExpenses | src/main/java/com/example/projetofinanceiro/service/DashboardService.java:46-61 | thirty entries, one per day of the window ending today, each labelled dd/MM and holding that day's EXPENSE total |
| Dashboard.ChartDaysAreTheWindow | src/main/java/com/example/projetofinanceiro/service/DashboardService.java:39-61 | the chart's days follow one another, the last is today, and together they are the calendar walk from 29 days ago to today |
| Dashboard.DailyExpensesAddUp | src/main/java/com/example/projetofinanceiro/service/DashboardService.java:46-61 | the daily totals add up to the user's EXPENSE total over the window: each expense is drawn exactly once |
| Dashboard.MonthKindTotal | src/main/java/com/example/projetofinanceiro/service/DashboardService.java:64-75 | totalling a type over a month's rows is summing that type over the user's rows of the month |
| Dashboard.TypedRowsSum | src/main/java/com/example/projetofinanceiro/service/DashboardService.java:64-75 | filtering twice sums like filtering once by the conjunction |
| Dashboard.SpendingChange | src/main/java/com/example/projetofinanceiro/service/DashboardService.java:77-82 | zero unless last month's spending is positive, otherwise the relative change in hundredths of a percent rounded half up: its sign follows the change and doubling is +100% |
| Dashboard.DoubledIsHundredPercent | src/main/java/com/example/projetofinanceiro/service/DashboardService.java:77-82 | twice last month's spending is a 100% change |
| Dashboard.MonthlyFigures | src/main/java/com/example/projetofinanceiro/service/DashboardService.java:64-89 | this month's EXPENSE and INCOME totals of the user, the result as income minus expense, and the spending change against last month's EXPENSE total |
| Dashboard.IncomeMovesResult | src/main/java/com/example/projetofinanceiro/service/DashboardService.java:84-89 | an INCOME of this month raises income and result by its amount and leaves the spending figures alone |
| Dashboard.AssetValues | src/main/java/com/example/projetofinanceiro/service/DashboardService.java:164-167 | the possibly-null asset values, in order |
| Dashboard.Present | src/main/java/com/example/projetofinanceiro/service/DashboardService.java:164-167 | dropping nulls keeps at most as many values |
| Dashboard.PresentSum | src/main/java/com/example/projetofinanceiro/service/DashboardService.java:164-167 | summing the non-null values is summing with nulls counted as zero |
| Dashboard.AssetsTotalIsSum | src/main/java/com/example/projetofinanceiro/service/DashboardService.java:164-167 | the asset total is the sum over the user's assets, a valueless asset counting zero |
| Dashboard.AccountsTotalMatchesListing | src/main/java/com/example/projetofinanceiro/service/DashboardService.java:151-161 | the dashboard's account total equals the sum of the balances the account listing shows |
| Dashboard.NetWorth | src/main/java/com/example/projetofinanceiro/service/DashboardService.java:148-186 | net worth is accounts plus assets; the start of the month takes this month's income minus expense back out; the change against it is rounded half up, 100% from a zero start to a non-zero worth and 0 when both are zero, with the sign of the month's result over the start |
| Dashboard.FlatMonthNoChange | src/main/java/com/example/projetofinanceiro/service/DashboardService.java:170-183 | a month whose income equals its expense shows no net-worth change |
| Dashboard.RecentTransactions | src/main/java/com/example/projetofinanceiro/service/DashboardService.java:122-123 | at most five, all of them when fewer exist, each the view of one of the user's transactions since a week ago |
| Dashboard.RecentFromLastWeek | src/main/java/com/example/projetofinanceiro/service/DashboardService.java:122-123 | every listed entry is a transaction of the user dated from seven days ago on |
| Dashboard.RecentNewestFirst | src/main/java/com/example/projetofinanceiro/service/DashboardService.java:122-123 | the list is newest first |
| Dashboard.RecentCompleteWhenShort | src/main/java/com/example/projetofinanceiro/service/DashboardService.java:122-123 | when fewer than five are listed none of the week's transactions is left out |
| Dashboard.UpcomingAsWritten | src/main/java/com/example/projetofinanceiro/service/DashboardService.java:126-130 | the code as written: exactly the user's recurring rows whose due day lies between today's day and the day of the month of today + 14, ordered by due day |
| Dashboard.UpcomingEmptyAcrossMonthEnd | src/main/java/com/example/projetofinanceiro/service/DashboardService.java:127-128 | when today + 14 falls in the next month the list as written is always empty |
| Dashboard.BillFiveDaysAwayMissed | src/main/java/com/example/projetofinanceiro/service/DashboardService.java:127-128 | on 20 January 2024 a bill due on the 25th is not listed |
| Dashboard.FirstDueFrom | src/main/java/com/example/projetofinanceiro/service/DashboardService.java:127-128 | the first offset from a start up to 14 whose day of the month is the due day, or none when no such offset exists |
| Dashboard.DaysUntilDue | src/main/java/com/example/projetofinanceiro/service/DashboardService.java:127-128 | the number of days until the due day next comes, at most 14, or none exactly when it does not come within two weeks |
| Dashboard.DaysUntilDueFound | src/main/java/com/example/projetofinanceiro/service/DashboardService.java:127-128 | a bill is found exactly when its due day comes within the next 14 days, today included |
| Dashboard.Upcoming | src/main/java/com/example/projetofinanceiro/service/DashboardService.java:126-130 | as intended: exactly the user's recurring rows that fall due within the next 14 days, the soonest first |
| Dashboard.UpcomingMembers | src/main/java/com/example/projetofinanceiro/service/DashboardService.java:126-130 | a row is listed exactly when it is the user's and falls due within two weeks |
| Dashboard.DaysUntilDueInMonth | src/main/java/com/example/projetofinanceiro/service/DashboardService.java:127-128 | inside one month the days until due are the due day minus today's day |
| Dashboard.UpcomingAgreesWithinMonth | src/main/java/com/example/projetofinanceiro/service/DashboardService.java:126-130 | when today + 14 stays in the month, the intended list and the code as written coincide |
| Dashboard.LastMonthTop | src/main/java/com/example/projetofinanceiro/service/DashboardService.java:96-119 | the ranking of last month's rows of the user, at most the limit, sorted, distinct |
| Dashboard.LastMonthRowsCounted | src/main/java/com/example/projetofinanceiro/service/DashboardService.java:96-103 | a row counts exactly when it is the user's, dated last month, and is an EXPENSE or negative |
| Dashboard.GetDashboard | src/main/java/com/example/projetofinanceiro/service/DashboardService.java:34-146 | thirty chart days, the month figures, at most five top categories sorted, at most five recent rows, the upcoming bills as intended, which are the source's own list whenever today + 14 days stays in the month, and the net worth built from this month's income and expense |
| DemoMode.IsDemo | frontend/src/hooks/useDemoMode.ts:8 | only the exact demo address is the demo account; no user, or any other address, is not |
| DemoMode.CheckDemo | frontend/src/hooks/useDemoMode.ts:10-16 | for the demo account the action does not run, the state is unchanged and the blocked notice shows; otherwise the action runs once and nothing shows |
| DemoMode.DemoIsCaseSensitive | frontend/src/hooks/useDemoMode.ts:8 | a differently capitalised address is not the demo account |
| DemoMode.CheckDemoSequence | frontend/src/hooks/useDemoMode.ts:10-16 | two guarded actions in a row either both do nothing or both run, in order |
| CpfMask.Clean | frontend/src/pages/RegisterPage.tsx:38 | the cleaned CPF holds only digits |
| CpfMask.MaskIsPunctuate | frontend/src/pages/RegisterPage.tsx:16-23 | the three replacements applied to the first eleven digits give the intended ddd.ddd.ddd-dd punctuation of however many digits were typed |
| CpfMask.PunctuateKeepsDigits | frontend/src/pages/RegisterPage.tsx:20-23 | punctuating keeps the digits, in order, and fits the field's fourteen characters |
| CpfMask.MaskKeepsDigits | frontend/src/pages/RegisterPage.tsx:16-38 | the masked field holds the first eleven digits typed, in order, cleaning it before submission gives them back, and it never exceeds fourteen characters |
| CpfMask.MaskIdempotent | frontend/src/pages/RegisterPage.tsx:16-25 | masking an already masked field changes nothing |
| CpfMask.ShortInputUnpunctuated | frontend/src/pages/RegisterPage.tsx:21-23 | up to three digits are shown bare |
| CpfMask.FullInputShape | frontend/src/pages/RegisterPage.tsx:17-23 | eleven or more digits typed show as fourteen characters, dots at positions 3 and 7, a dash at 11, digits elsewhere |
| TransactionForm.SourceParts | frontend/src/components/TransactionModal.tsx:107-110 | the part before the first dash, and the rest exactly when there is a dash |
| TransactionForm.Submit | frontend/src/components/TransactionModal.tsx:99-133 | the demo account is refused; an empty source is refused; otherwise exactly one of account and card is sent, chosen by the source's tag and carrying its number, the category only when one is picked, and the other fields as typed |
| TransactionForm.SourceRoundTrip | frontend/src/components/TransactionModal.tsx:107-249 | "account-N" and "card-N" split back into their tag and the number N |
| TransactionForm.SubmitSource | frontend/src/components/TransactionModal.tsx:123-129 | submitting "account-N" sends account N and no card; "card-N" sends card N and no account |
| TransactionForm.OfferedCategories | frontend/src/components/TransactionModal.tsx:136 | exactly the categories of the selected type |
| TransactionForm.SelectType | frontend/src/components/TransactionModal.tsx:169-183 | the type switches, the chosen category is cleared, the rest of the form is kept |
| TransactionForm.SwitchingTypeDropsCategory | frontend/src/components/TransactionModal.tsx:136-183 | after a type switch the form submits no category of the other type |
| TransactionForm.SourceOptions | frontend/src/components/TransactionModal.tsx:237-249 | one option per account, followed, for an EXPENSE only, by one per card |
| TransactionForm.OfferedSourcesDecode | frontend/src/components/TransactionModal.tsx:107-249 | any offered option submits, an INCOME never charges a card, and the account or card sent is one of the lists |
| TransactionForm.OpenForEdit | frontend/src/components/TransactionModal.tsx:72-85 | the edited transaction's fields; the source is its account when it has one, else its card, else the previous choice; no category when it has none |
| TransactionForm.EditRoundTrip | frontend/src/components/TransactionModal.tsx:72-133 | for an object that carries its account or card link, re-submitting the opened form sends back that account (or, without one, that card) and its category; the list page never passes such an object |
| TransactionForm.EditWithoutLinksResendsPrevious | frontend/src/components/TransactionModal.tsx:72-85 | opened on an object without account or card links, as the list page's `TransactionDTO` always is, the form re-sends the previously chosen source: refused when there was none, otherwise that account or card, whatever the row's own link |
| TransactionForm.EditFromListMovesCardRowToAccount | frontend/src/pages/TransactionsPage.tsx:146-151 | a card EXPENSE opened from the list after the form last showed account 4 is sent back booked on account 4 and on no card |
| TransactionForm.OpenForNew | frontend/src/components/TransactionModal.tsx:86-93 | an empty EXPENSE dated today, keeping the previous source |
| TransactionForm.DefaultSource | frontend/src/components/TransactionModal.tsx:56-58 | a new form without a source takes the first account; otherwise the source is kept |
| TransactionForm.NewFormSubmitsFirstAccount | frontend/src/components/TransactionModal.tsx:35-133 | a fresh form submitted as it opens records an EXPENSE on the first account |
| TransactionList.ToggleSelect | frontend/src/pages/TransactionsPage.tsx:197-202 | the toggled id flips membership; every other id keeps its state |
| TransactionList.ToggleSelectTwice | frontend/src/pages/TransactionsPage.tsx:197-202 | toggling twice restores the selection |
| TransactionList.ToggleSelectAllGroup | frontend/src/pages/TransactionsPage.tsx:204-213 | a fully selected group is cleared; otherwise the whole group becomes selected; ids outside the group keep their state |
| TransactionList.ToggleGroupTwice | frontend/src/pages/TransactionsPage.tsx:204-213 | from an all-or-nothing group selection, toggling the group twice restores it |
| TransactionList.ToggleSelectionMode | frontend/src/pages/TransactionsPage.tsx:192-195 | the mode flips and the selection empties |
| TransactionList.AfterFetch | frontend/src/pages/TransactionsPage.tsx:134 | reloading keeps the mode and empties the selection |
| TransactionList.Search | frontend/src/pages/TransactionsPage.tsx:256-259 | exactly the rows whose lower-cased description contains the lower-cased term or whose amount text contains the term, in order |
| TransactionList.EmptySearchKeepsAll | frontend/src/pages/TransactionsPage.tsx:256-259 | an empty term keeps every row |
| TransactionList.SearchIgnoresCase | frontend/src/pages/TransactionsPage.tsx:256-259 | a row found by its description is found by the upper-cased term too |
| TransactionList.Summarize | frontend/src/pages/TransactionsPage.tsx:261-265 | income sums the INCOME rows, expense sums every other row |
| TransactionList.NetIsSignedSum | frontend/src/pages/TransactionsPage.tsx:261-399 | the balance shown is the sum of the amounts signed by type |
| TransactionList.GroupDates | frontend/src/pages/TransactionsPage.tsx:267-272 | the dates of the groups, in order |
| TransactionList.GroupByDateGroups | frontend/src/pages/TransactionsPage.tsx:267-272 | the grouping has distinct dates, each group holds exactly its date's rows in order and is not empty, and every row's date has a group |
| TransactionList.EachRowInOneGroup | frontend/src/pages/TransactionsPage.tsx:267-272 | a row is in a group exactly when the group is of its date |
| TransactionList.GroupSumsAddUp | frontend/src/pages/TransactionsPage.tsx:267-430 | summing any per-row figure group by group gives its sum over all rows |
| TransactionList.DailyTotalsAddUp | frontend/src/pages/TransactionsPage.tsx:398-430 | the daily totals add up to the balance shown in the summary |
| TransactionList.GroupsHoldEveryRow | frontend/src/pages/TransactionsPage.tsx:267-272 | the groups together hold every row once |
| TransactionList.IsRecurringLike | frontend/src/pages/TransactionsPage.tsx:91-94 | true exactly when the lower-cased description contains one of the twelve keywords |
| TransactionList.RecurringLikeIgnoresCase | frontend/src/pages/TransactionsPage.tsx:91-94 | the badge does not depend on letter case |
| TransactionList.RecurringLikeExamples | frontend/src/pages/TransactionsPage.tsx:91-94 | "NETFLIX" is flagged, and so is "Estimativa", which contains "tim" |
| CashFlowView.WithRunningBalance | frontend/src/pages/CashFlowPage.tsx:43-50 | the days are kept in order and each gets the running balance: income minus expense summed over that day and every earlier one |
| CashFlowView.PeriodTotals | frontend/src/pages/CashFlowPage.tsx:73-75 | the period balance is total income minus total expense, the sum of the daily movements |
| CashFlowView.LastRunningIsPeriodBalance | frontend/src/pages/CashFlowPage.tsx:43-75 | the last running balance equals the period balance |
| CashFlowView.RunningBalanceKeepsTotals | frontend/src/pages/CashFlowPage.tsx:43-75 | adding the running balance leaves the period totals unchanged |
| CashFlowView.PrevMonthStart | frontend/src/pages/CashFlowPage.tsx:65-67 | the first day of the previous month |
| CashFlowView.NextMonthStart | frontend/src/pages/CashFlowPage.tsx:69-71 | the first day of the next month |
| CashFlowView.NavigationRoundTrip | frontend/src/pages/CashFlowPage.tsx:65-71 | going back a month then forward, or forward then back, lands on the first of the current month, across year ends too |
| CashFlowView.RequestedRange | frontend/src/pages/CashFlowPage.tsx:35-36 | the dates in the requested range are exactly the dates of the shown month |
| ClientFormat.Pad4 | src/main/java/com/example/projetofinanceiro/dto/TransactionDTO.java:13 | the year of a serialised `LocalDate` is four digit characters that read back as the year |
| ClientFormat.FormatDateOrEmpty | frontend/src/pages/DashboardPage.tsx:140-144 | the dashboard's `formatDate`, which the page defines but never calls (its chart and tooltip show the server's "dd/MM" label as received): an empty date stays empty, any other is formatted as on the cash-flow page |
| ClientFormat.NoDashInDigits | frontend/src/pages/CashFlowPage.tsx:80-83 | digits hold no dash, so an ISO date splits into exactly its three fields |
| ClientFormat.FormatIsoDate | frontend/src/pages/CashFlowPage.tsx:80-83 | on an ISO date the cash-flow formatter gives its day and month as dd/MM, the label the server uses; the dashboard's uncalled formatter would give the same |
| ClientFormat.EmptyDateLabels | frontend/src/pages/CashFlowPage.tsx:80-83 | an empty date prints "undefined/undefined" on the cash-flow page; the dashboard's uncalled formatter would give "" |
| JsNumbers.Div | frontend/src/pages/WalletPage.tsx:354 | a quotient exactly when the divisor is not zero; otherwise an infinity of the numerator's sign, NaN for zero over zero |
| JsNumbers.Scale | frontend/src/pages/WalletPage.tsx:354 | multiplying by a positive constant scales a finite value and keeps an infinity or NaN |
| JsNumbers.MinWith | frontend/src/pages/WalletPage.tsx:354 | NaN stays NaN, +Infinity becomes the bound, a finite value is capped at the bound |
| JsNumbers.ShareAbove | frontend/src/pages/WalletPage.tsx:403 | a share of a positive whole is above a fraction exactly when the part is above that fraction of the whole |
| JsNumbers.ScaleOrder | frontend/src/pages/WalletPage.tsx:403 | multiplying by a positive number keeps the order |
| CardDisplay.BestDayFollowsClosing | frontend/src/pages/WalletPage.tsx:169-175 | a card closing on day 1..30 is flagged exactly on the day after its closing day in the same month; one closing on the 31st or later, on every 1st |
| CardDisplay.ThirtiethInShortMonth | frontend/src/pages/CreditCardsPage.tsx:76-85 | a card closing on the 30th is never flagged in a 30-day month, nor on the 1st that follows |
| CardDisplay.UsagePercentage | frontend/src/pages/WalletPage.tsx:354 | with a positive limit the used share in percent, capped at 100 and reaching it exactly when the limit is used up; with a zero limit 100 for any use, NaN for none, -Infinity for a negative use |
| CardDisplay.RatioAgainstWhole | frontend/src/pages/WalletPage.tsx:354 | with a positive limit the share reaches 100% exactly when the limit is used up |
| CardDisplay.BandOfUsage | frontend/src/pages/WalletPage.tsx:403 | with a positive limit red means more than 90% used and yellow more than 70% up to 90%; with a zero limit red means any use |
| CardDisplay.BandMonotone | frontend/src/pages/CreditCardsPage.tsx:168 | using more of the same limit never makes the band less severe |
| CardDisplay.Available | frontend/src/pages/WalletPage.tsx:355 | what is left of the limit, negative exactly when the card is over it |
| CardDisplay.DisplayColour | frontend/src/pages/WalletPage.tsx:357 | never empty: the card's own colour when it has one, the default blue otherwise |
| CardDisplay.ResetForm | frontend/src/pages/WalletPage.tsx:158-165 | every field empty except the colour, which is the default |
| CardDisplay.Payload | frontend/src/pages/WalletPage.tsx:139-156 | the fields as typed, the limit parsed as a decimal and the two days as integers |
| CardDisplay.PayloadDays | frontend/src/pages/CreditCardsPage.tsx:47-74 | days typed as decimal numbers reach the server unchanged; a form submitted straight after a reset sends no days and the default colour |
| WalletView.WalletTotals | frontend/src/pages/WalletPage.tsx:92-94 | purchasing power is the total balance minus the total limit used; nothing listed gives zeros |
| WalletView.WalletBalanceIsAccountsTotal | frontend/src/pages/WalletPage.tsx:92 | the wallet's total balance equals the dashboard's account total for the same user |
| WalletView.ChargeLowersPurchasingPower | frontend/src/pages/WalletPage.tsx:93-94 | raising one card's used limit by an amount lowers the purchasing power by that amount |
| WalletView.DeleteAccountLocally | frontend/src/pages/WalletPage.tsx:117 | exactly the listed accounts with another id remain |
| WalletView.DeleteAccountLowersBalance | frontend/src/pages/WalletPage.tsx:92-117 | with unique ids the local delete drops exactly that account, and the total balance falls by its balance |
| BudgetsView.ColoursNameTheBand | frontend/src/pages/BudgetsPage.tsx:66-78 | both colour helpers name the band the percentage lies in |
| BudgetsView.BandOf | frontend/src/pages/BudgetsPage.tsx:66-78 | the band the percentage lies in |
| BudgetsView.BandMonotone | frontend/src/pages/BudgetsPage.tsx:66-71 | a higher percentage never gives a less severe band |
| BudgetsView.BarWidth | frontend/src/pages/BudgetsPage.tsx:155 | the percentage capped at 100% |
| BudgetsView.ExceededIsRed | frontend/src/pages/BudgetsPage.tsx:66-159 | the warning shows exactly when the bar is red and exactly when it is drawn full |
| BudgetsView.ServerPercentageWarning | frontend/src/pages/BudgetsPage.tsx:155-159 | spending the whole limit always shows the warning; a zero or negative limit never does and stays green; under the limit the bar is drawn at the percentage |
| BudgetsView.WarningOneCentEarly | frontend/src/pages/BudgetsPage.tsx:159 | 199.99 spent of a 200.00 budget already shows the warning, as the server rounds 99.995% up to 100.00% |
| BudgetsView.DeleteBudgetLocally | frontend/src/pages/BudgetsPage.tsx:59 | exactly the listed budgets with another id remain |
| BudgetsView.DeleteBudgetDropsOne | frontend/src/pages/BudgetsPage.tsx:59 | with unique ids the local delete drops exactly that budget |
| DashboardView.Present | frontend/src/pages/DashboardPage.tsx:113-130 | with no payload every figure is zero and the lists empty; otherwise each figure is the payload's and the chart keeps one point per day in order |
| DashboardView.ServerDashboardView | frontend/src/pages/DashboardPage.tsx:113-130 | on the server's payload the chart has thirty points labelled dd/MM ending today whose values add up to the window's expenses; the result is income minus expense and the net worth balance plus assets |
| DashboardView.TotalAssetsMatchesNetWorthBalance | frontend/src/pages/DashboardPage.tsx:97-128 | the page's own sum over the accounts equals the balance part of the server's net worth |
| DashboardView.ShareOfPositive | frontend/src/pages/DashboardPage.tsx:133-135 | a share of a positive maximum lies in 0..100 for a value in 0..maximum and is 100 at the maximum |
| DashboardView.PercentOf | frontend/src/pages/DashboardPage.tsx:351-352 | the value's share of the maximum in percent; 100 at the maximum; NaN for zero over zero |
| DashboardView.PercentOfPositive | frontend/src/pages/DashboardPage.tsx:351-352 | with a positive maximum the JavaScript arithmetic gives the exact share |
| DashboardView.Bars | frontend/src/pages/DashboardPage.tsx:133-135 | both bars are scaled to the larger flow, which is drawn full; both are empty when neither flow is positive |
| DashboardView.MaxIndex | frontend/src/pages/DashboardPage.tsx:351 | the position of a largest total |
| DashboardView.CategoryBars | frontend/src/pages/DashboardPage.tsx:351-352 | one bar per category |
| DashboardView.CategoryBarsScale | frontend/src/pages/DashboardPage.tsx:351-352 | with a positive maximum the largest category's bar is full and every bar lies within 0..100; with a zero maximum a zero total gives NaN |
| DashboardView.FirstCategoryBarFull | frontend/src/pages/DashboardPage.tsx:351-352 | the server sends categories largest first, so the first bar is full |
| DashboardView.CategoryColour | frontend/src/pages/DashboardPage.tsx:354-355 | a colour of the five-colour palette |
| DashboardView.ColoursCycle | frontend/src/pages/DashboardPage.tsx:354-355 | colours repeat every five positions and differ within five |
| DashboardView.DashboardColoursDistinct | frontend/src/pages/DashboardPage.tsx:354-355 | every category the dashboard shows gets a colour of its own |
| ProfileInitials.Firsts | frontend/src/pages/SettingsPage.tsx:41 | at most one character per part |
| ProfileInitials.Initials | frontend/src/pages/SettingsPage.tsx:39-42 | at most two characters |
| ProfileInitials.Heads | frontend/src/pages/SettingsPage.tsx:41 | one first letter per word |
| ProfileInitials.FirstsAreHeadsOfWords | frontend/src/pages/SettingsPage.tsx:41 | joining the first characters of the parts skips exactly the empty parts |
| ProfileInitials.InitialsOfWords | frontend/src/pages/SettingsPage.tsx:39-42 | a missing or empty name shows "?"; any other shows the upper-cased first letters of its first two words, empty parts contributing nothing |
| ProfileInitials.OneWord | frontend/src/pages/SettingsPage.tsx:39-42 | a single word gives its first letter upper-cased |
| ProfileInitials.OnlySpaces | frontend/src/pages/SettingsPage.tsx:39-42 | a name of spaces only has no words and shows an empty string, not "?" |
| Text.DigitsOf | src/main/java/com/example/projetofinanceiro/util/CpfValidator.java:9 | `replaceAll("[^0-9]", "")`: only digits remain, never more characters than the input |
| Text.DigitsOfIdempotent | frontend/src/pages/RegisterPage.tsx:17-38 | stripping non-digits twice equals stripping once |
| Text.JavaSplitFirst | src/main/java/com/example/projetofinanceiro/controller/AuthenticationController.java:113 | `split(",")[0]` fails exactly on a non-empty string of commas; otherwise it is the text before the first comma |
| Text.ParseIntNatToString | frontend/src/components/TransactionModal.tsx:107-110 | `parseInt` reads back the decimal text of a natural number |

## Left out

- Persistence and HTTP: JPA saves and deletes, Spring request binding, response bodies beyond status and message, and every axios call of the client (`frontend/src/services/api.ts`). Repositories are sequences and each operation returns the new store.
- Concurrency: `LoginAttemptService` uses `ConcurrentHashMap`; the model is a single-threaded map.
- The wall clock: `System.currentTimeMillis`, `LocalDate.now()`, `LocalDateTime.now()` and `new Date()` are the parameter `now`.
- Java `Double` and `summingDouble` in `DashboardService` and `DebugController`: amounts are exact integer cents, so double rounding of large or many sums is not modelled.
- Dashboard.SpendingChange: the source keeps the figure as a `Double` of a four-place HALF_UP quotient; the model keeps the same value as an integer in hundredths of a percent.
- Dashboard.NetWorth: the percentage is held the same way as the spending change, and its `Double` conversion is not modelled.
- TopCategories.Top: groups with equal totals may come out in any order, because `HashMap` iteration order is not modelled; the contract states only the descending order and which names are kept.
- Reports.CategoryReports: equal values may come out in any order, for the same reason.
- JavaScript numbers: client arithmetic is exact rational arithmetic with infinities and NaN; double rounding and negative zero are not modelled.
- The two dashboard lists that the server always sends empty (`fillMissingDays` and `accumulateMetrics` are never used): `DashboardData` omits them.
- The null-amount guard of `DebugController` (line 39 and line 45): transaction amounts are non-null in the model, so that branch cannot be reached.
- The client-side `|| 0` fallbacks for chart values (`DashboardPage.tsx` line 122): the server never sends a null or NaN total, so these fallbacks change nothing.
- `HtmlUtils.htmlEscape`, `BCryptPasswordEncoder`, the currency text of `NumberFormat`, and the client's `parseFloat` are library code. They enter as function parameters.
- `parseInt` is modelled for unsigned decimal text only: its prefix reading, with no sign and no whitespace.
- Case mapping (`toLowerCase`, `toUpperCase`) is modelled for ASCII letters only.
- `toLocaleString`, `Intl`, `formatCurrency`, `getRelativeDate` and Recharts: display text only.
- The timezone shift of `toISOString` in `CashFlowPage.tsx` lines 35-36: CashFlowView.RequestedRange states the range in local calendar dates.
- Dates are valid proleptic Gregorian triples of any year; the year bounds of `LocalDate` are not modelled.
- ClientFormat.FormatIsoDate: stated for years 0 to 9999, the years `LocalDate` writes with four digits.
- The controllers that are plain repository CRUD behind the same ownership check (categories, assets, investments, notifications, and account listing in `AccountController`). Their pattern is modelled once, by `Domain.FindOwned` and the card, budget, recurring and transaction operations.
- The bulk handlers and the form plumbing of the other modals and pages, routing, the landing and login pages, and the `AuthContext` local storage handling.
- The Pluggy bank integration (an external API), `DatabaseSeeder` (random data) and `SubscriptionScheduler` (a cron job).
- Budgets.CategoryName: the source follows a non-null foreign key, so the category always exists. In the model, a category id missing from the store gives the name "" instead of the error the source would raise.
- Authentication.Login: the HTTP status of the rethrown `BadCredentialsException` is chosen by the security configuration, which is not part of this model; the model reports it as `AuthenticationFailed` without a status code.
- Accounts.CreateAccount: the request body is bound to the entity itself, and a body carrying `"id": k` makes `save` merge over row k, whoever owns it, and hand that row to the caller. The model ignores the body's id and always saves under a fresh id; the merge branch is not modelled.
- Cards.CreateCard: the request body is bound to the entity itself, and a body carrying `"id": k` makes `save` merge over row k, whoever owns it, and hand that row to the caller. The model ignores the body's id and always saves under a fresh id; the merge branch is not modelled.
- Recurring.Create: the request body is bound to the entity itself, and a body carrying `"id": k` makes `save` merge over row k, whoever owns it, and hand that row to the caller. The model ignores the body's id and always saves under a fresh id; the merge branch is not modelled.
- TransactionLedger.NewRow: the request body is bound to the entity itself, and a body carrying `"id": k` makes `save` merge over row k, whoever owns it, and hand that row to the caller. The model ignores the body's id and always saves under a fresh id; the merge branch is not modelled.
- TransactionLedger.Create: the request body is bound to the entity itself, and a body carrying `"id": k` makes `save` merge over row k, whoever owns it, and hand that row to the caller. The model ignores the body's id and always saves under a fresh id; the merge branch is not modelled.
- TransactionLedger.CreateAsWritten: the request body is bound to the entity itself, and a body carrying `"id": k` makes `save` merge over row k, whoever owns it, and hand that row to the caller. The model ignores the body's id and always saves under a fresh id; the merge branch is not modelled.
- Cards.DeleteCard: the database's own error text is not modelled, so the refusal of a referenced card carries a fixed message. The transaction entity is not part of this model; the missing cascade is read from CreditCard.java, which maps no collection of transactions.
- Dashboard.GetDashboard: the upcoming bills are the intended list, not the source's filter. The two agree whenever today + 14 days stays in the current month. When it crosses the month end, the source's list is empty (see Findings) and the model lists the bills due in the next 14 days.

## Findings

| source | as written | input that shows it | evidently intended | confidence | as-written member | corrected member |
|---|---|---|---|---|---|---|
| src/main/java/com/example/projetofinanceiro/controller/TransactionController.java:80-100 | create adds the amount to the card's `limitUsed` and saves the card before it looks up the category, which may still reject the request | a card EXPENSE of 50.00 naming category 3, which does not exist: the answer is NOT_FOUND, no transaction is saved, and the card stays charged 50.00 | all lookups succeed before anything is written, so a rejected request changes nothing | high, not executed | TransactionLedger.CreateAsWrittenChargesRejectedRow | TransactionLedger.CreateRejectsWithoutWriting |
| src/main/java/com/example/projetofinanceiro/controller/TransactionController.java:136-179 | update refunds the old card charge, then adds the new charge only when the request names a card; a request naming neither card nor account keeps the old card link | editing a 50.00 card EXPENSE with a request that names neither card nor account: the transaction stays on the card, but the card's `limitUsed` drops to 0 | a kept card link keeps its charge, so `limitUsed` still equals the sum of the card's EXPENSE amounts | high, not executed | TransactionLedger.UpdateAsWrittenDropsKeptCharge | TransactionLedger.UpdateKeepsKeptCharge |
| src/main/java/com/example/projetofinanceiro/controller/TransactionController.java:144-186 | update sets the loaded row's fields before the card lookup, and the row stays managed for the request (Spring's default open-session-in-view), so the `save(card)` of a card EXPENSE flushes it before the category lookup may still refuse | raising a 50.00 card EXPENSE to 80.00 while naming category 3, which does not exist: the answer is NOT_FOUND, yet the row is stored at 80.00 with its old category and the card is charged 80.00 | all lookups succeed before anything is written, so a refused request changes nothing | medium (depends on the open-in-view default), not executed | TransactionLedger.UpdateAsWrittenSavesRefusedEdit | TransactionLedger.UpdateRefusesWithoutWriting |
| src/main/java/com/example/projetofinanceiro/service/DashboardService.java:127-130 | the upcoming filter asks for today's day <= dueDay <= the day of the month of today + 14 | on 20 January 2024 a bill due on the 25th is five days away, but today + 14 is 3 February and 25 > 3, so the list is empty; whenever today + 14 falls in the next month the list is empty | the bills that fall due within the next 14 days, across a month end too | medium, not executed | Dashboard.BillFiveDaysAwayMissed | Dashboard.UpcomingMembers |
| frontend/src/components/TransactionModal.tsx:79-85 | the edit form takes its source from the object's `account` or `creditCard`, but the list page passes a `TransactionDTO`, which has neither, so the form keeps the previously chosen source (the branch on `accountName` is left empty) | after a form that last showed account 4, opening a card EXPENSE from the list and saving it unchanged sends account 4 and no card, so the row moves to account 4 and its card charge is refunded | re-submitting an opened transaction sends back its own account or card | high, not executed | TransactionForm.EditFromListMovesCardRowToAccount | TransactionForm.EditRoundTrip |

=== FILE: accounts.dfy ===
/** `AccountService`: the accounts a user sees, each with its current
    balance computed from the transactions linked to it, account creation
    with a zero default balance, and deletion behind the ownership checks.
    An account owns its transactions (`cascade = ALL`, orphan removal), so
    deleting it deletes them. */
module Accounts {
  import opened Wrappers
  import opened Seqs
  import opened Domain
  import opened TransactionQueries

  const NotFoundMessage: string := "Account not found"
  const DeniedMessage: string := "Access denied"

  /** An account as the service returns it: the stored row and the
      computed, never saved, `currentBalance`. */
  datatype AccountView = AccountView(account: Account, currentBalance: int)

  /** What one transaction does to the balance of an account: an INCOME
      linked to it adds its amount, an EXPENSE linked to it takes it away,
      anything else leaves the balance alone. */
  function Effect(t: Transaction, account: Id): int {
    if t.account != Some(account) then 0
    else if t.kind == Income then t.amount
    else -t.amount
  }

  function EffectOn(account: Id): Transaction -> int {
    t => Effect(t, account)
  }

  /** The balance formula: initial balance, plus the INCOME sum, minus the
      EXPENSE sum, with a NULL initial balance or a NULL sum read as zero. */
  function Balance(ts: seq<Transaction>, a: Account): (b: int)
    ensures b == a.initialBalance.GetOr(0) + SumWhere(ts, AccountKind(a.id, Income)) - SumWhere(ts, AccountKind(a.id, Expense))
  {
    AccountSumsSpec(ts, a.id);
    a.initialBalance.GetOr(0) + SumIncomeByAccount(ts, a.id).GetOr(0) - SumExpenseByAccount(ts, a.id).GetOr(0)
  }

  /** The two sums make a ledger: the balance is the initial balance plus
      the effect of every transaction, one at a time. */
  lemma {:induction false} BalanceIsLedger(ts: seq<Transaction>, a: Account)
    ensures Balance(ts, a) == a.initialBalance.GetOr(0) + SumBy(ts, EffectOn(a.id))
    decreases |ts|
  {
    if |ts| > 0 {
      BalanceIsLedger(ts[..|ts| - 1], a);
    }
  }

  /** An account no transaction is linked to has its initial balance, or
      zero when that is NULL. */
  lemma NoTransactionsBalance(ts: seq<Transaction>, a: Account)
    requires forall k :: 0 <= k < |ts| ==> ts[k].account != Some(a.id)
    ensures Balance(ts, a) == a.initialBalance.GetOr(0)
  {
    BalanceIsLedger(ts, a);
    SumByZero(ts, EffectOn(a.id));
  }

  /** Booking one more transaction moves the balance by that transaction's
      effect alone. */
  lemma BalanceAfterBooking(ts: seq<Transaction>, a: Account, t: Transaction)
    ensures Balance(ts + [t], a) == Balance(ts, a) + Effect(t, a.id)
  {
    BalanceIsLedger(ts, a);
    BalanceIsLedger(ts + [t], a);
    SumByConcat(ts, [t], EffectOn(a.id));
    SumBySingleton(t, EffectOn(a.id));
  }

  function OwnedBy(user: UserId): Account -> bool {
    (a: Account) => a.owner == user
  }

  /** `getAccountsByUser`: the user's accounts, in table order, each with
      its balance; the stored rows themselves are not changed. */
  function AccountsOf(st: Store, user: UserId): (r: seq<AccountView>)
    ensures |r| == |Filter(st.accounts, OwnedBy(user))|
    ensures forall i :: 0 <= i < |r| ==>
              r[i].account == Filter(st.accounts, OwnedBy(user))[i]
              && r[i].currentBalance == Balance(st.transactions, r[i].account)
    ensures forall a :: (exists i :: 0 <= i < |r| && r[i].account == a) <==> a in st.accounts && a.owner == user
  {
    var mine := Filter(st.accounts, OwnedBy(user));
    FilterMembershipAll(st.accounts, OwnedBy(user));
    var r := seq(|mine|, i requires 0 <= i < |mine| => AccountView(mine[i], Balance(st.transactions, mine[i])));
    ViewsCover(mine, r);
    r
  }

  /** A list of views taken index by index from a list of accounts shows
      exactly those accounts. */
  lemma ViewsCover(mine: seq<Account>, r: seq<AccountView>)
    requires |r| == |mine| && forall i :: 0 <= i < |r| ==> r[i].account == mine[i]
    ensures forall a :: (exists i :: 0 <= i < |r| && r[i].account == a) <==> a in mine
  {
    forall a | a in mine
      ensures exists i :: 0 <= i < |r| && r[i].account == a
    {
      var j :| 0 <= j < |mine| && mine[j] == a;
      assert r[j].account == a;
    }
  }

  /** `createAccount`: the row is saved as the caller's under a new id; a
      NULL initial balance becomes zero, any other is kept. A body that
      carries its own id would be merged over that row by `save`; that
      branch is not modelled. */
  function CreateAccount(st: Store, user: UserId, body: Account): (o: Outcome<Account>)
    ensures o.response.Ok?
    ensures var a := o.response.value;
            && a.owner == user && a.name == body.name && a.bank == body.bank && a.kind == body.kind
            && a.initialBalance == Some(body.initialBalance.GetOr(0))
            && (forall k :: 0 <= k < |st.accounts| ==> st.accounts[k].id != a.id)
            && o.store == st.(accounts := st.accounts + [a])
  {
    var a := body.(id := FreshId(st.accounts, AccountId), owner := user,
                   initialBalance := if body.initialBalance.None? then Some(0) else body.initialBalance);
    Outcome(st.(accounts := st.accounts + [a]), Ok(a))
  }

  /** A newly created account starts at its initial balance: no
      transaction can be linked to an id nobody had. */
  lemma NewAccountBalance(st: Store, user: UserId, body: Account)
    requires ReferencesResolve(st)
    ensures var a := CreateAccount(st, user, body).response.value;
            Balance(st.transactions, a) == body.initialBalance.GetOr(0)
  {
    var a := CreateAccount(st, user, body).response.value;
    forall k | 0 <= k < |st.transactions|
      ensures st.transactions[k].account != Some(a.id)
    {
      if st.transactions[k].account == Some(a.id) {
        var found := FindById(st.accounts, a.id, AccountId);
        assert false;
      }
    }
    NoTransactionsBalance(st.transactions, a);
  }

  function Owned(st: Store, user: UserId, id: Id): Result<Account> {
    FindOwned(st.accounts, id, AccountId, AccountOwner, user, NotFoundMessage, DeniedMessage)
  }

  function NotOnAccount(id: Id): Transaction -> bool {
    (t: Transaction) => t.account != Some(id)
  }

  /** `deleteAccount`: NOT_FOUND for an unknown id and FORBIDDEN for
      another user's account, both before anything is deleted; otherwise
      the account goes, and its transactions with it. */
  function DeleteAccount(st: Store, user: UserId, id: Id): (o: Outcome<()>)
    ensures o.response.Err? ==> o.store == st
    ensures o.response.Err? <==> Owned(st, user, id).Err?
    ensures o.response.Ok? ==>
              o.store == st.(accounts := DeleteById(st.accounts, id, AccountId),
                             transactions := Filter(st.transactions, NotOnAccount(id)))
  {
    match Owned(st, user, id)
    case Err(s, m) => Outcome(st, Err(s, m))
    case Ok(_) =>
      Outcome(st.(accounts := DeleteById(st.accounts, id, AccountId),
                  transactions := Filter(st.transactions, NotOnAccount(id))), Ok(()))
  }

  /** The cascaded rows are account rows, so no card is charged by any of
      them: deleting an account keeps every card's `limitUsed` in step. */
  lemma DeleteAccountKeepsLimitsInSync(st: Store, user: UserId, id: Id)
    requires LimitsInSync(st) && LinkExclusive(st.transactions)
    ensures LimitsInSync(DeleteAccount(st, user, id).store)
  {
    var o := DeleteAccount(st, user, id);
    if o.response.Ok? {
      var ts := st.transactions;
      forall k | 0 <= k < |st.cards|
        ensures st.cards[k].limitUsed == CardUsage(o.store.transactions, st.cards[k].id)
      {
        var c := st.cards[k].id;
        SumByFilter(ts, NotOnAccount(id), ChargeOf(c), ChargeOf(c));
      }
    }
  }

  /** Deleting a user's account leaves no transaction pointing at it and
      every other account's balance as it was. */
  lemma DeleteAccountKeepsOtherBalances(st: Store, user: UserId, id: Id, other: Account)
    requires other.id != id
    ensures var o := DeleteAccount(st, user, id);
            o.response.Ok? ==>
              (forall k :: 0 <= k < |o.store.transactions| ==> o.store.transactions[k].account != Some(id))
              && Balance(o.store.transactions, other) == Balance(st.transactions, other)
  {
    var o := DeleteAccount(st, user, id);
    if o.response.Ok? {
      var ts := st.transactions;
      BalanceIsLedger(ts, other);
      BalanceIsLedger(o.store.transactions, other);
      SumByFilter(ts, NotOnAccount(id), EffectOn(other.id), EffectOn(other.id));
    }
  }
}

=== FILE: auth.dfy ===
/** `AuthenticationController`: login behind the per-IP throttle, and
    registration with the e-mail check, the CPF check and the seven
    default categories. Password checking, hashing and token issuing are
    library code: their outcome enters as parameters. */
module Authentication {
  import opened Wrappers
  import opened Text
  import opened Domain
  import opened Cpf
  import opened LoginThrottle

  const TooManyAttemptsMessage: string := "Muitas tentativas falhas. Tente novamente em 15 minutos."

  /** `getClientIP`: the remote address without an X-Forwarded-For header,
      otherwise `header.split(",")[0]`, untrimmed. Java drops trailing
      empty pieces, so a header of commas only has no element 0 and the
      request fails. */
  function ClientIp(forwardedFor: Option<string>, remoteAddr: string): (r: Result<string>)
    ensures forwardedFor.None? ==> r == Ok(remoteAddr)
    ensures forwardedFor.Some? ==>
              (r.Err? <==> |forwardedFor.value| > 0 && forall i :: 0 <= i < |forwardedFor.value| ==> forwardedFor.value[i] == ',')
    ensures forwardedFor.Some? && r.Ok? ==>
              var h := forwardedFor.value;
              r.value <= h && ',' !in r.value && (r.value == h || h[|r.value|] == ',')
    ensures r.Err? ==> r.status == ServerError
  {
    match forwardedFor
    case None => Ok(remoteAddr)
    case Some(h) =>
      JavaSplitFirst(h, ',');
      var parts := JavaSplit(h, ',');
      if |parts| == 0 then Err(ServerError, "Index 0 out of bounds for length 0") else Ok(parts[0])
  }

  /** `login`: a blocked IP is turned away before the credentials are
      looked at; otherwise a success clears the IP's record and a failure
      adds to it before the error propagates. `credentialsOk` is what the
      authentication manager decided. */
  function Login(th: Throttle, ip: string, now: int, credentialsOk: bool): (r: (Throttle, Result<()>))
    ensures IsBlocked(th, ip, now).0 ==> r == (th, Err(TooManyRequests, TooManyAttemptsMessage))
    ensures !IsBlocked(th, ip, now).0 && credentialsOk ==>
              r == (Succeeded(IsBlocked(th, ip, now).1, ip), Ok(()))
    ensures !IsBlocked(th, ip, now).0 && !credentialsOk ==>
              r.1.Err? && r.1.status == AuthenticationFailed && r.0 == Failed(IsBlocked(th, ip, now).1, ip, now)
  {
    var (blocked, th1) := IsBlocked(th, ip, now);
    if blocked then (th1, Err(TooManyRequests, TooManyAttemptsMessage))
    else if credentialsOk then (Succeeded(th1, ip), Ok(()))
    else (Failed(th1, ip, now), Err(AuthenticationFailed, "Bad credentials"))
  }

  /** The fifth failure in a row blocks the IP: for the next fifteen
      minutes even the right password is refused. */
  lemma FifthFailureBlocks(th: Throttle, ip: string, now: int, later: int, credentialsOk: bool)
    requires Consistent(th) && Count(th, ip) == MaxAttempts - 1
    requires now <= later < now + BlockMillis
    ensures var (th1, r1) := Login(th, ip, now, false);
            r1.Err? && r1.status == AuthenticationFailed
            && Login(th1, ip, later, credentialsOk).1 == Err(TooManyRequests, TooManyAttemptsMessage)
  {
    FewFailuresNotBlocked(th, ip, now);
  }

  /** A successful login forgets the IP, so its count starts again. */
  lemma SuccessForgets(th: Throttle, ip: string, now: int)
    requires !IsBlocked(th, ip, now).0
    ensures Count(Login(th, ip, now, true).0, ip) == 0
    ensures !IsBlocked(Login(th, ip, now, true).0, ip, now).0
  {
  }

  /** Logins keep the throttle state consistent. */
  lemma LoginKeepsConsistent(th: Throttle, ip: string, now: int, credentialsOk: bool)
    requires Consistent(th)
    ensures Consistent(Login(th, ip, now, credentialsOk).0)
  {
    OperationsKeepConsistent(th, ip, now);
    var th1 := IsBlocked(th, ip, now).1;
    OperationsKeepConsistent(th1, ip, now);
  }

  /* ---------------------------------------------------------------- */
  /* Registration                                                     */
  /* ---------------------------------------------------------------- */

  datatype RegisterRequest = RegisterRequest(name: Option<string>, email: string, password: string, cpf: Option<string>)

  const SalaryCategory: string := "Salário"

  /** `createDefaultCategories`: six EXPENSE categories and "Salário", the
      only INCOME one, saved with consecutive ids. */
  function DefaultCategories(owner: UserId, firstId: Id): (cs: seq<Category>)
    ensures |cs| == 7
    ensures forall k :: 0 <= k < 7 ==> cs[k].owner == owner && cs[k].id == firstId + k
  {
    [ Category(firstId, "Moradia", Expense, owner),
      Category(firstId + 1, "Alimentação", Expense, owner),
      Category(firstId + 2, "Transporte", Expense, owner),
      Category(firstId + 3, "Lazer", Expense, owner),
      Category(firstId + 4, "Estudos", Expense, owner),
      Category(firstId + 5, SalaryCategory, Income, owner),
      Category(firstId + 6, "Investimentos", Expense, owner) ]
  }

  /** Exactly one default category is INCOME, and it is "Salário". */
  lemma OneIncomeCategory(owner: UserId, firstId: Id)
    ensures forall k :: 0 <= k < 7 ==>
              (DefaultCategories(owner, firstId)[k].kind == Income <==> k == 5)
    ensures DefaultCategories(owner, firstId)[5].name == SalaryCategory
  {
  }

  function UserKey(u: User): UserId { u.id }

  /** `register`. The e-mail is checked first, then the CPF; the CPF is
      stored as its digits; saving fails with CONFLICT when the unique CPF
      (or e-mail) column already holds the value. The new user is FREE and
      created now; its id is the next free one. */
  function Register(users: seq<User>, st: Store, req: RegisterRequest, now: int, hash: string -> string)
    : (r: (seq<User>, Store, Result<()>))
    ensures (exists u :: u in users && u.email == req.email) ==>
              r == (users, st, Err(BadRequest, "Email já cadastrado"))
    ensures (forall u :: u in users ==> u.email != req.email) && !IsValid(req.cpf) ==>
              r == (users, st, Err(BadRequest, "CPF inválido"))
    ensures r.2.Err? ==> r.0 == users && r.1 == st
    ensures r.2.Ok? ==>
              && IsValid(req.cpf)
              && |r.0| == |users| + 1 && r.0[..|users|] == users
              && var u := r.0[|users|];
              && u.email == req.email && u.name == req.name && u.password == hash(req.password)
              && u.cpf == DigitsOf(req.cpf.value) && AllDigits(u.cpf) && |u.cpf| == CpfLength
              && u.plan == Free && u.createdAt == Some(now)
              && r.1 == st.(categories := st.categories + DefaultCategories(u.id, FreshId(st.categories, CategoryId)))
  {
    if exists u :: u in users && u.email == req.email then (users, st, Err(BadRequest, "Email já cadastrado"))
    else if !IsValid(req.cpf) then (users, st, Err(BadRequest, "CPF inválido"))
    else
      var clean := DigitsOf(req.cpf.value);
      if exists u :: u in users && u.cpf == clean then (users, st, Err(Conflict, "CPF ou Email já cadastrado"))
      else
        var u := User(FreshId(users, UserKey), req.name, req.email, hash(req.password), clean, None, Some(now), Free);
        (users + [u], st.(categories := st.categories + DefaultCategories(u.id, FreshId(st.categories, CategoryId))), Ok(()))
  }

  /** Registration never lets two users share an e-mail or a CPF. */
  lemma RegisterKeepsUnique(users: seq<User>, st: Store, req: RegisterRequest, now: int, hash: string -> string)
    requires forall i, j :: 0 <= i < j < |users| ==> users[i].email != users[j].email && users[i].cpf != users[j].cpf
    requires UniqueIds(users, UserKey) && UniqueIds(st.categories, CategoryId)
    ensures var (us, st', _) := Register(users, st, req, now, hash);
            && (forall i, j :: 0 <= i < j < |us| ==> us[i].email != us[j].email && us[i].cpf != us[j].cpf)
            && UniqueIds(us, UserKey)
            && UniqueIds(st'.categories, CategoryId)
  {
    var (us, st', r) := Register(users, st, req, now, hash);
    if r.Ok? {
      assert forall i :: 0 <= i < |users| ==> users[i] in users;
      var base := FreshId(st.categories, CategoryId);
      var cs := st'.categories;
      forall i, j | 0 <= i < j < |cs|
        ensures cs[i].id != cs[j].id
      {
        if j >= |st.categories| && i < |st.categories| {
          assert cs[i].id < base;
        }
      }
    }
  }
}

=== FILE: budgets.dfy ===
/** `BudgetService`: monthly spending limits per category. A budget's
    progress is what the user spent in its category that month, as a
    percentage of the limit; the upsert keeps at most one budget per
    (user, category, month, year), as the table's unique constraint
    demands. */
module Budgets {
  import opened Wrappers
  import opened Seqs
  import opened Calendar
  import opened Money
  import opened Domain
  import opened TransactionQueries

  /** `BudgetProgressDTO`; `percentage` in hundredths of a percent. */
  datatype BudgetProgress = BudgetProgress(
    id: Id,
    categoryName: string,
    categoryId: Id,
    limitAmount: int,
    spentAmount: int,
    percentage: int)

  /** The progress percentage: zero unless the limit is positive, else the
      spent share of the limit rounded HALF_UP to hundredths of a percent. */
  function ProgressPercentage(spent: int, limit: int): (p: int)
    ensures limit <= 0 ==> p == 0
    ensures limit > 0 ==> 2 * Abs(p * limit - spent * 10000) <= limit
    ensures limit > 0 && 0 <= spent <= limit ==> 0 <= p <= 10000
    ensures limit > 0 && spent >= limit ==> p >= 10000
    ensures limit > 0 && spent < limit ==> p <= 10000
  {
    if limit > 0 then
      PercentAgainstWhole(spent, limit);
      PercentHundredths(spent, limit)
    else 0
  }

  /** Where a part stands against 100%: below, at or beyond the whole. */
  lemma PercentAgainstWhole(spent: int, limit: int)
    requires limit > 0
    ensures spent >= limit ==> PercentHundredths(spent, limit) >= 10000
    ensures spent <= limit ==> PercentHundredths(spent, limit) <= 10000
    ensures 0 <= spent <= limit ==> 0 <= PercentHundredths(spent, limit)
  {
    if spent >= limit { PercentAtLeastWhole(spent, limit); }
    if spent <= limit { PercentOfWhole(limit); PercentMono(spent, limit, limit); }
    if 0 <= spent <= limit { PercentBounds(spent, limit); }
  }

  function OfMonth(user: UserId, month: int, year: int): Budget -> bool {
    (b: Budget) => b.owner == user && b.month == month && b.year == year
  }

  /** The name of a budget's category; the non-null foreign key means the
      category is always there. */
  function CategoryName(cats: seq<Category>, id: Id): string {
    match FindById(cats, id, CategoryId)
    case Some(c) => c.name
    case None => ""
  }

  /** One progress row: the budget's own fields, its category's EXPENSE
      total over the range (NULL read as zero) and the percentage. */
  function Progress(st: Store, user: UserId, b: Budget, start: Date, end: Date): (p: BudgetProgress)
    ensures p.id == b.id && p.categoryId == b.category && p.limitAmount == b.amount
    ensures p.categoryName == CategoryName(st.categories, b.category)
    ensures p.spentAmount == SumWhere(st.transactions, CategoryExpenseInRange(user, b.category, start, end))
    ensures p.percentage == ProgressPercentage(p.spentAmount, p.limitAmount)
  {
    SqlSumOrZero(st.transactions, CategoryExpenseInRange(user, b.category, start, end));
    var s := SumExpenseByCategoryAndDateRange(st.transactions, user, b.category, start, end).GetOr(0);
    BudgetProgress(b.id, CategoryName(st.categories, b.category), b.category, b.amount, s, ProgressPercentage(s, b.amount))
  }

  /** `getBudgetsWithProgress`: `LocalDate.of(year, month, 1)` throws for a
      month outside 1..12 before any budget is looked at; otherwise one row
      per budget the user has for that month, in table order. */
  function BudgetsWithProgress(st: Store, user: UserId, month: int, year: int): (r: Result<seq<BudgetProgress>>)
    ensures r.Err? <==> !(1 <= month <= 12)
    ensures r.Err? ==> r.status == ServerError
    ensures r.Ok? ==>
              var bs := Filter(st.budgets, OfMonth(user, month, year));
              && |r.value| == |bs|
              && forall i :: 0 <= i < |bs| ==>
                   r.value[i] == Progress(st, user, bs[i], FirstDayOfMonth(year, month), LastDayOfMonth(year, month))
  {
    if !(1 <= month <= 12) then Err(ServerError, "Invalid value for MonthOfYear")
    else
      var bs := Filter(st.budgets, OfMonth(user, month, year));
      var start := FirstDayOfMonth(year, month);
      var end := LastDayOfMonth(year, month);
      Ok(seq(|bs|, i requires 0 <= i < |bs| => Progress(st, user, bs[i], start, end)))
  }

  /** The spent amount of a row is exactly the user's EXPENSE total in the
      budget's category over the days of that month. */
  lemma SpentIsMonthExpense(st: Store, user: UserId, month: int, year: int, i: nat)
    requires BudgetsWithProgress(st, user, month, year).Ok?
    requires i < |BudgetsWithProgress(st, user, month, year).value|
    ensures var p := BudgetsWithProgress(st, user, month, year).value[i];
            forall t: Transaction ::
              CategoryExpenseInRange(user, p.categoryId, FirstDayOfMonth(year, month), LastDayOfMonth(year, month))(t)
              <==> t.owner == user && t.category == Some(p.categoryId) && t.kind == Expense
                   && t.date.year == year && t.date.month == month
  {
    forall t: Transaction
      ensures InRange(t.date, FirstDayOfMonth(year, month), LastDayOfMonth(year, month))
              <==> t.date.year == year && t.date.month == month
    {
      MonthRangeExact(t.date, year, month);
    }
  }

  /* ---------------------------------------------------------------- */
  /* Upsert and delete                                                */
  /* ---------------------------------------------------------------- */

  /** A budget for that user, category, month and year. */
  predicate InSlot(b: Budget, user: UserId, category: Id, month: int, year: int) {
    b.owner == user && b.category == category && b.month == month && b.year == year
  }

  function SlotOf(user: UserId, category: Id, month: int, year: int): Budget -> bool {
    (b: Budget) => InSlot(b, user, category, month, year)
  }

  /** The unique constraint on (category, month, year, user). */
  predicate SlotsUnique(bs: seq<Budget>) {
    forall i, j :: 0 <= i < j < |bs| ==> !InSlot(bs[j], bs[i].owner, bs[i].category, bs[i].month, bs[i].year)
  }

  function OwnedCategory(st: Store, user: UserId, id: Id): Result<Category> {
    FindOwned(st.categories, id, CategoryId, CategoryOwner, user, "Category not found", "Access denied")
  }

  /** `createOrUpdateBudget`: NOT_FOUND or FORBIDDEN for the category
      before any write; then the budget of that slot gets the new amount,
      or a new budget is created when the slot is empty. */
  function Upsert(st: Store, user: UserId, category: Id, amount: int, month: int, year: int): (o: Outcome<Budget>)
    ensures o.response.Err? ==> o.store == st
    ensures o.response.Err? <==> OwnedCategory(st, user, category).Err?
    ensures o.response.Ok? ==>
              var b := o.response.value;
              && InSlot(b, user, category, month, year) && b.amount == amount
              && o.store == st.(budgets := o.store.budgets)
    ensures o.response.Ok? && (forall k :: 0 <= k < |st.budgets| ==> !InSlot(st.budgets[k], user, category, month, year)) ==>
              && o.store.budgets == st.budgets + [o.response.value]
              && (forall k :: 0 <= k < |st.budgets| ==> st.budgets[k].id != o.response.value.id)
    ensures o.response.Ok? && (exists k :: 0 <= k < |st.budgets| && InSlot(st.budgets[k], user, category, month, year)) ==>
              exists k :: 0 <= k < |st.budgets| && InSlot(st.budgets[k], user, category, month, year)
                          && o.response.value == st.budgets[k].(amount := amount)
                          && o.store.budgets == st.budgets[k := o.response.value]
  {
    match OwnedCategory(st, user, category)
    case Err(s, m) => Outcome(st, Err(s, m))
    case Ok(_) =>
      match FindIndex(st.budgets, SlotOf(user, category, month, year))
      case Some(k) =>
        var b := st.budgets[k].(amount := amount);
        Outcome(st.(budgets := st.budgets[k := b]), Ok(b))
      case None =>
        var b := Budget(FreshId(st.budgets, BudgetId), category, amount, month, year, user);
        Outcome(st.(budgets := st.budgets + [b]), Ok(b))
  }

  /** A new amount on a budget keeps every slot and every id as it was;
      the edited budget is the only one in its slot. */
  lemma ReplaceKeepsSlots(bs: seq<Budget>, k: nat, amount: int)
    requires SlotsUnique(bs) && UniqueIds(bs, BudgetId) && k < |bs|
    ensures var bs' := bs[k := bs[k].(amount := amount)];
            && SlotsUnique(bs') && UniqueIds(bs', BudgetId)
            && forall m :: 0 <= m < |bs'| && InSlot(bs'[m], bs[k].owner, bs[k].category, bs[k].month, bs[k].year) ==> m == k
  {
    var bs' := bs[k := bs[k].(amount := amount)];
    forall i, j | 0 <= i < j < |bs'|
      ensures !InSlot(bs'[j], bs'[i].owner, bs'[i].category, bs'[i].month, bs'[i].year)
    {
      assert InSlot(bs'[j], bs'[i].owner, bs'[i].category, bs'[i].month, bs'[i].year)
             == InSlot(bs[j], bs[i].owner, bs[i].category, bs[i].month, bs[i].year);
    }
  }

  /** A budget for an empty slot keeps the slots unique and is then the
      only one in its slot. */
  lemma AppendKeepsSlots(bs: seq<Budget>, b: Budget)
    requires SlotsUnique(bs)
    requires forall k :: 0 <= k < |bs| ==> !InSlot(bs[k], b.owner, b.category, b.month, b.year)
    ensures SlotsUnique(bs + [b])
    ensures forall m :: 0 <= m < |bs + [b]| && InSlot((bs + [b])[m], b.owner, b.category, b.month, b.year) ==> m == |bs|
  {
    var bs' := bs + [b];
    forall i, j | 0 <= i < j < |bs'|
      ensures !InSlot(bs'[j], bs'[i].owner, bs'[i].category, bs'[i].month, bs'[i].year)
    {
      if j == |bs| {
        assert !InSlot(bs[i], b.owner, b.category, b.month, b.year);
      }
    }
  }

  /** After an upsert the returned budget is the only one in its slot, the
      constraint still holds and the ids stay unique. */
  lemma UpsertKeepsSlotsUnique(st: Store, user: UserId, category: Id, amount: int, month: int, year: int)
    requires SlotsUnique(st.budgets) && UniqueIds(st.budgets, BudgetId)
    ensures var o := Upsert(st, user, category, amount, month, year);
            && SlotsUnique(o.store.budgets) && UniqueIds(o.store.budgets, BudgetId)
            && (o.response.Ok? ==>
                  forall k :: 0 <= k < |o.store.budgets| && InSlot(o.store.budgets[k], user, category, month, year) ==>
                    o.store.budgets[k] == o.response.value)
  {
    var o := Upsert(st, user, category, amount, month, year);
    if o.response.Ok? {
      match FindIndex(st.budgets, SlotOf(user, category, month, year))
      case Some(k) =>
        ReplaceKeepsSlots(st.budgets, k, amount);
      case None =>
        AppendKeepsSlots(st.budgets, o.response.value);
        InsertKeepsUnique(st.budgets, o.response.value, BudgetId);
    }
  }

  /** Repeating an upsert changes nothing more: the slot is never filled
      twice. */
  lemma UpsertIdempotent(st: Store, user: UserId, category: Id, amount: int, month: int, year: int)
    requires SlotsUnique(st.budgets) && UniqueIds(st.budgets, BudgetId)
    ensures var o := Upsert(st, user, category, amount, month, year);
            Upsert(o.store, user, category, amount, month, year) == o
  {
    var o := Upsert(st, user, category, amount, month, year);
    if o.response.Ok? {
      var b := o.response.value;
      var bs' := o.store.budgets;
      assert OwnedCategory(o.store, user, category) == OwnedCategory(st, user, category);
      var at: nat;
      match FindIndex(st.budgets, SlotOf(user, category, month, year)) {
        case Some(k) =>
          ReplaceKeepsSlots(st.budgets, k, amount);
          at := k;
        case None =>
          AppendKeepsSlots(st.budgets, b);
          at := |st.budgets|;
      }
      assert bs'[at] == b;
      assert SlotOf(user, category, month, year)(bs'[at]);
      var found := FindIndex(bs', SlotOf(user, category, month, year));
      assert found == Some(at);
      assert bs'[at := bs'[at].(amount := amount)] == bs';
    }
  }

  /** `deleteBudget`: NOT_FOUND or FORBIDDEN before anything is deleted. */
  function DeleteBudget(st: Store, user: UserId, id: Id): (o: Outcome<()>)
    ensures o.response.Err? ==> o.store == st
    ensures o.response.Err? <==>
              FindOwned(st.budgets, id, BudgetId, BudgetOwner, user, "Budget not found", "Access denied").Err?
    ensures o.response.Ok? ==> o.store == st.(budgets := DeleteById(st.budgets, id, BudgetId))
  {
    match FindOwned(st.budgets, id, BudgetId, BudgetOwner, user, "Budget not found", "Access denied")
    case Err(s, m) => Outcome(st, Err(s, m))
    case Ok(_) => Outcome(st.(budgets := DeleteById(st.budgets, id, BudgetId)), Ok(()))
  }

  /** Deleting the budget a fresh upsert created empties the slot again. */
  lemma UpsertThenDeleteRestores(st: Store, user: UserId, category: Id, amount: int, month: int, year: int)
    requires forall k :: 0 <= k < |st.budgets| ==> !InSlot(st.budgets[k], user, category, month, year)
    requires Upsert(st, user, category, amount, month, year).response.Ok?
    ensures var o := Upsert(st, user, category, amount, month, year);
            var d := DeleteBudget(o.store, user, o.response.value.id);
            d.response.Ok? && d.store == st
  {
    var o := Upsert(st, user, category, amount, month, year);
    var b := o.response.value;
    assert o.store.budgets[|st.budgets|] == b;
    DeleteInserted(st.budgets, b, BudgetId);
  }
}

=== FILE: budgets_page.dfy ===
/** `BudgetsPage`: each budget's progress bar, its colour and the
    "limit exceeded" warning, read off the percentage the server computes
    (in hundredths of a percent, so the page's 100 is 10000 here), and
    the local list update after a delete. */
module BudgetsView {
  import opened Seqs
  import opened Domain
  import opened Budgets

  /** 100%, 85% and 70% in hundredths of a percent. */
  const Full: int := 10000
  const Warning: int := 8500
  const Caution: int := 7000

  /** `getProgressColor`. */
  function ProgressColour(h: int): string {
    if h >= Full then "bg-red-500"
    else if h >= Warning then "bg-orange-500"
    else if h >= Caution then "bg-yellow-500"
    else "bg-green-500"
  }

  /** `getTextColor`. */
  function TextColour(h: int): string {
    if h >= Full then "text-red-600"
    else if h >= Warning then "text-orange-600"
    else if h >= Caution then "text-yellow-600"
    else "text-green-600"
  }

  /** The four bands as ranges of the percentage. */
  datatype Band = Green | Yellow | Orange | Red

  function Severity(b: Band): nat {
    match b
    case Green => 0
    case Yellow => 1
    case Orange => 2
    case Red => 3
  }

  predicate InBand(h: int, b: Band) {
    match b
    case Green => h < Caution
    case Yellow => Caution <= h < Warning
    case Orange => Warning <= h < Full
    case Red => Full <= h
  }

  function BarClass(b: Band): string {
    match b
    case Green => "bg-green-500"
    case Yellow => "bg-yellow-500"
    case Orange => "bg-orange-500"
    case Red => "bg-red-500"
  }

  function TextClass(b: Band): string {
    match b
    case Green => "text-green-600"
    case Yellow => "text-yellow-600"
    case Orange => "text-orange-600"
    case Red => "text-red-600"
  }

  /** Both helpers name the band the percentage lies in, and so always
      the same band. */
  lemma ColoursNameTheBand(h: int, b: Band)
    ensures InBand(h, b) <==> ProgressColour(h) == BarClass(b)
    ensures InBand(h, b) <==> TextColour(h) == TextClass(b)
  {
  }

  /** The band the percentage lies in. */
  function BandOf(h: int): (b: Band)
    ensures InBand(h, b)
  {
    if h >= Full then Red else if h >= Warning then Orange else if h >= Caution then Yellow else Green
  }

  /** A higher percentage never gives a less severe band. */
  lemma BandMonotone(h: int, k: int)
    requires h <= k
    ensures Severity(BandOf(h)) <= Severity(BandOf(k))
  {
  }

  /** `Math.min(budget.percentage, 100)`. */
  function BarWidth(h: int): (w: int)
    ensures w <= Full
    ensures h <= Full ==> w == h
    ensures h >= Full ==> w == Full
  {
    if h <= Full then h else Full
  }

  /** `budget.percentage >= 100`. */
  predicate Exceeded(h: int) {
    h >= Full
  }

  /** The warning shows exactly when the bar is red and drawn full. */
  lemma ExceededIsRed(h: int)
    ensures Exceeded(h) <==> ProgressColour(h) == "bg-red-500"
    ensures Exceeded(h) <==> BarWidth(h) == Full
  {
  }

  /** Against the server's figure: spending the whole limit always shows
      the warning; a limit that is zero or negative never shows it; and
      under the limit the bar is drawn at the percentage itself. */
  lemma ServerPercentageWarning(spent: int, limit: int)
    ensures limit > 0 && spent >= limit ==> Exceeded(ProgressPercentage(spent, limit))
    ensures limit <= 0 ==> !Exceeded(ProgressPercentage(spent, limit)) && BandOf(ProgressPercentage(spent, limit)) == Green
    ensures limit > 0 && spent < limit ==> BarWidth(ProgressPercentage(spent, limit)) == ProgressPercentage(spent, limit)
  {
  }

  /** The rounding to hundredths of a percent can show the warning one
      cent before the limit: 199.99 of a 200.00 budget is 99.995%, which
      rounds to 100.00%. */
  lemma WarningOneCentEarly()
    ensures Exceeded(ProgressPercentage(19999, 20000))
  {
  }

  function ProgressId(b: BudgetProgress): Id { b.id }

  /** `setBudgets(budgets.filter(b => b.id !== id))` after a successful
      delete. */
  function DeleteBudgetLocally(budgets: seq<BudgetProgress>, id: Id): (r: seq<BudgetProgress>)
    ensures forall b :: b in r <==> b in budgets && b.id != id
  {
    FilterMembershipAll(budgets, OtherId(ProgressId, id));
    DeleteById(budgets, id, ProgressId)
  }

  /** With unique ids the local delete drops exactly the one entry. */
  lemma DeleteBudgetDropsOne(budgets: seq<BudgetProgress>, k: nat)
    requires UniqueIds(budgets, ProgressId) && k < |budgets|
    ensures DeleteBudgetLocally(budgets, budgets[k].id) == budgets[..k] + budgets[k + 1..]
  {
    DeleteByIdAt(budgets, k, ProgressId);
  }
}

=== FILE: calendar.dfy ===
/** The slice of `java.time.LocalDate` the services use: ISO-8601
    proleptic Gregorian months, `lengthOfMonth`, `plusDays`/`minusDays`,
    `isBefore`/`isAfter`, `LocalDate.of` with its validity check, and the
    "dd/MM" label of `DateTimeFormatter.ofPattern("dd/MM")`. */
module Calendar {
  import opened Wrappers
  import Text

  datatype YMD = YMD(year: int, month: int, day: int)

  /** `IsoChronology.isLeapYear`: divisible by 4, and not by 100 unless by
      400. Java's `%` truncates but only its zero-ness matters here. */
  predicate IsLeapYear(y: int) {
    y % 4 == 0 && (y % 100 != 0 || y % 400 == 0)
  }

  function LengthOfMonth(y: int, m: int): (n: int)
    requires 1 <= m <= 12
    ensures 28 <= n <= 31
    ensures m == 2 ==> (n == 29 <==> IsLeapYear(y))
  {
    if m == 2 then (if IsLeapYear(y) then 29 else 28)
    else if m == 4 || m == 6 || m == 9 || m == 11 then 30
    else 31
  }

  predicate ValidYMD(d: YMD) {
    1 <= d.month <= 12 && 1 <= d.day <= LengthOfMonth(d.year, d.month)
  }

  /** A `LocalDate`: a year, month and day that name a real calendar day. */
  type Date = d: YMD | ValidYMD(d) witness YMD(1970, 1, 1)

  /** An order-preserving integer encoding of a date: months fit in 4 bits
      and days in 5, so comparing keys compares (year, month, day). */
  function Key(d: YMD): int {
    d.year * 512 + d.month * 32 + d.day
  }

  predicate LexLess(a: YMD, b: YMD) {
    a.year < b.year
    || (a.year == b.year && a.month < b.month)
    || (a.year == b.year && a.month == b.month && a.day < b.day)
  }

  /** Comparing keys is comparing dates field by field. */
  lemma KeyOrder(a: Date, b: Date)
    ensures Key(a) < Key(b) <==> LexLess(a, b)
    ensures Key(a) == Key(b) <==> a == b
  {
  }

  /** `LocalDate.of(year, month, day)`: `None` where Java throws
      `DateTimeException`. */
  function Of(year: int, month: int, day: int): (r: Option<Date>)
    ensures r.Some? <==> 1 <= month <= 12 && 1 <= day <= LengthOfMonth(year, month)
    ensures r.Some? ==> r.value == YMD(year, month, day)
  {
    if 1 <= month <= 12 && 1 <= day <= LengthOfMonth(year, month) then Some(YMD(year, month, day))
    else None
  }

  /** `d.withDayOfMonth(day)`. */
  function WithDayOfMonth(d: Date, day: int): Option<Date> {
    Of(d.year, d.month, day)
  }

  function FirstDayOfMonth(year: int, month: int): Date
    requires 1 <= month <= 12
  {
    YMD(year, month, 1)
  }

  function LastDayOfMonth(year: int, month: int): Date
    requires 1 <= month <= 12
  {
    YMD(year, month, LengthOfMonth(year, month))
  }

  /** `!d.isBefore(lo) && !d.isAfter(hi)`, and JPQL `BETWEEN lo AND hi`. */
  predicate InRange(d: Date, lo: Date, hi: Date) {
    Key(lo) <= Key(d) <= Key(hi)
  }

  /** Every day of a month lies between its first and last day, and only
      those days do. */
  lemma MonthRangeExact(d: Date, year: int, month: int)
    requires 1 <= month <= 12
    ensures InRange(d, FirstDayOfMonth(year, month), LastDayOfMonth(year, month))
            <==> d.year == year && d.month == month
  {
    KeyOrder(d, FirstDayOfMonth(year, month));
    KeyOrder(d, LastDayOfMonth(year, month));
  }

  /** `d.plusDays(1)`. */
  function NextDay(d: Date): (r: Date)
    ensures Key(d) < Key(r)
  {
    if d.day < LengthOfMonth(d.year, d.month) then YMD(d.year, d.month, d.day + 1)
    else if d.month < 12 then YMD(d.year, d.month + 1, 1)
    else YMD(d.year + 1, 1, 1)
  }

  /** `d.minusDays(1)`. */
  function PrevDay(d: Date): (r: Date)
    ensures Key(r) < Key(d)
  {
    if d.day > 1 then YMD(d.year, d.month, d.day - 1)
    else if d.month > 1 then YMD(d.year, d.month - 1, LengthOfMonth(d.year, d.month - 1))
    else YMD(d.year - 1, 12, 31)
  }

  /** No valid date lies strictly between a day and the next one. */
  lemma NextDayIsSuccessor(d: Date, x: Date)
    requires Key(d) < Key(x)
    ensures Key(NextDay(d)) <= Key(x)
  {
    KeyOrder(d, x);
    KeyOrder(NextDay(d), x);
  }

  lemma NextPrevInverse(d: Date)
    ensures NextDay(PrevDay(d)) == d
    ensures PrevDay(NextDay(d)) == d
  {
  }

  /** `d.plusDays(n)` for n >= 0. */
  function PlusDays(d: Date, n: nat): Date
    decreases n
  {
    if n == 0 then d else NextDay(PlusDays(d, n - 1))
  }

  /** `d.minusDays(n)` for n >= 0. */
  function MinusDays(d: Date, n: nat): Date
    decreases n
  {
    if n == 0 then d else PrevDay(MinusDays(d, n - 1))
  }

  lemma {:induction false} PlusDaysShift(d: Date, n: nat)
    ensures PlusDays(NextDay(d), n) == PlusDays(d, n + 1)
    decreases n
  {
    if n > 0 {
      PlusDaysShift(d, n - 1);
    }
  }

  /** Going back n days and forward n days returns to the start. */
  lemma {:induction false} PlusMinusDays(d: Date, n: nat)
    ensures PlusDays(MinusDays(d, n), n) == d
    decreases n
  {
    if n > 0 {
      var m := MinusDays(d, n - 1);
      NextPrevInverse(m);
      PlusDaysShift(PrevDay(m), n - 1);
      PlusMinusDays(d, n - 1);
    }
  }

  /** Each added day moves the key forward by at least one. */
  lemma {:induction false} PlusDaysKey(d: Date, n: nat)
    ensures Key(PlusDays(d, n)) >= Key(d) + n
    ensures n > 0 ==> Key(d) < Key(PlusDays(d, n))
    decreases n
  {
    if n > 0 {
      PlusDaysKey(d, n - 1);
    }
  }

  /** The days from `start` to `end`, both included, one after the other:
      the walk `while (!current.isAfter(end)) current = current.plusDays(1)`. */
  function Days(start: Date, end: Date): (r: seq<Date>)
    ensures Key(end) < Key(start) <==> |r| == 0
    ensures |r| > 0 ==> r[0] == start
    ensures forall i :: 0 <= i < |r| ==> InRange(r[i], start, end)
    ensures forall i :: 0 <= i < |r| - 1 ==> r[i + 1] == NextDay(r[i])
    decreases Key(end) - Key(start)
  {
    if Key(end) < Key(start) then [] else [start] + Days(NextDay(start), end)
  }

  /** Every day of the range is visited, the last one is `end`, and the
      visited days strictly increase, so none is visited twice. */
  lemma {:induction false} DaysCover(start: Date, end: Date)
    ensures forall d: Date :: InRange(d, start, end) ==> d in Days(start, end)
    ensures |Days(start, end)| > 0 ==> Days(start, end)[|Days(start, end)| - 1] == end
    ensures forall i, j :: 0 <= i < j < |Days(start, end)| ==> Key(Days(start, end)[i]) < Key(Days(start, end)[j])
    decreases Key(end) - Key(start)
  {
    if Key(start) <= Key(end) {
      var rest := Days(NextDay(start), end);
      DaysCover(NextDay(start), end);
      forall d: Date | InRange(d, start, end)
        ensures d in Days(start, end)
      {
        if d != start {
          KeyOrder(start, d);
          NextDayIsSuccessor(start, d);
          assert d in rest;
        }
      }
      if |rest| == 0 {
        if start != end {
          KeyOrder(start, end);
          NextDayIsSuccessor(start, end);
        }
      }
    }
  }

  /** The walk from `start` to n days later is the days start + 0 .. start + n. */
  lemma {:induction false} DaysAhead(start: Date, n: nat)
    ensures Days(start, PlusDays(start, n)) == seq(n + 1, i requires 0 <= i <= n => PlusDays(start, i))
    decreases n
  {
    PlusDaysKey(start, n);
    if n == 0 {
      assert Days(NextDay(start), start) == [];
    } else {
      var end := PlusDays(start, n);
      assert PlusDays(NextDay(start), n - 1) == end by {
        PlusDaysShift(start, n - 1);
      }
      var rest := Days(NextDay(start), end);
      assert Days(start, end) == [start] + rest;
      assert rest == seq(n, i requires 0 <= i < n => PlusDays(NextDay(start), i)) by {
        DaysAhead(NextDay(start), n - 1);
      }
      DaysFromNext(start, n);
    }
  }

  /** The days start + 0 .. start + n are `start` followed by the days
      NextDay(start) + 0 .. NextDay(start) + (n - 1). */
  lemma DaysFromNext(start: Date, n: nat)
    requires n > 0
    ensures seq(n + 1, i requires 0 <= i <= n => PlusDays(start, i))
            == [start] + seq(n, i requires 0 <= i < n => PlusDays(NextDay(start), i))
  {
    var want := seq(n + 1, i requires 0 <= i <= n => PlusDays(start, i));
    var got := [start] + seq(n, i requires 0 <= i < n => PlusDays(NextDay(start), i));
    forall i | 0 <= i <= n
      ensures want[i] == got[i]
    {
      if i > 0 {
        PlusDaysShift(start, i - 1);
      }
    }
  }

  /** Inside a month, adding days only moves the day of the month. */
  lemma {:induction false} PlusDaysSameMonth(d: Date, n: nat)
    requires d.day + n <= LengthOfMonth(d.year, d.month)
    ensures PlusDays(d, n) == YMD(d.year, d.month, d.day + n)
    decreases n
  {
    if n > 0 {
      PlusDaysSameMonth(d, n - 1);
    }
  }

  /** The month before (year, month): `minusMonths(1)` on the month. */
  function PrevMonth(year: int, month: int): (r: (int, int))
    requires 1 <= month <= 12
    ensures 1 <= r.1 <= 12
  {
    if month == 1 then (year - 1, 12) else (year, month - 1)
  }

  /** The month after (year, month). */
  function NextMonth(year: int, month: int): (r: (int, int))
    requires 1 <= month <= 12
    ensures 1 <= r.1 <= 12
  {
    if month == 12 then (year + 1, 1) else (year, month + 1)
  }

  lemma PrevNextMonthInverse(year: int, month: int)
    requires 1 <= month <= 12
    ensures NextMonth(PrevMonth(year, month).0, PrevMonth(year, month).1) == (year, month)
    ensures PrevMonth(NextMonth(year, month).0, NextMonth(year, month).1) == (year, month)
  {
  }

  /** Two-digit zero-padded rendering of 0..99 (`dd`, `MM`). */
  function Pad2(n: int): (s: string)
    requires 0 <= n <= 99
    ensures |s| == 2 && Text.AllDigits(s)
    ensures Text.DigitsValue(s) == n
  {
    var tens, ones := Text.DigitChar(n / 10), Text.DigitChar(n % 10);
    Text.DigitsValueSnoc([], tens);
    Text.DigitsValueSnoc([tens], ones);
    assert [] + [tens] == [tens];
    [tens] + [ones]
  }

  /** `date.format(DateTimeFormatter.ofPattern("dd/MM"))`: the day's two
      digits, a slash and the month's two digits, which read back as the
      day and the month. */
  function FormatDdMm(d: Date): (s: string)
    ensures |s| == 5 && s[2] == '/'
    ensures s[..2] == Pad2(d.day) && s[3..] == Pad2(d.month)
    ensures Text.AllDigits(s[..2]) && Text.DigitsValue(s[..2]) == d.day
    ensures Text.AllDigits(s[3..]) && Text.DigitsValue(s[3..]) == d.month
  {
    var s := Pad2(d.day) + "/" + Pad2(d.month);
    assert s[..2] == Pad2(d.day) && s[3..] == Pad2(d.month);
    s
  }
}

=== FILE: card_display.dfy ===
/** The credit-card helpers that the wallet page and the cards page both
    carry: the "best day to buy" badge, the usage bar with its colour
    band, the available limit and the new-card form. The colour fallback is
    the wallet page's alone; the cards page paints `card.color` as it is.
    Money is integer cents; the usage ratio does not depend on the unit. */
module CardDisplay {
  import opened Wrappers
  import opened Text
  import opened Calendar
  import opened JsNumbers

  const DefaultColour: string := "#3b82f6"

  /* ---------------------------------------------------------------- */
  /* Best day to buy                                                  */
  /* ---------------------------------------------------------------- */

  /** `isBestDayToBuy(closingDay)` on day `today` of the month: the day
      after closing, or the 1st when the card closes on the 31st or
      later. */
  predicate IsBestDayToBuy(closingDay: int, today: int) {
    var bestDay := if closingDay >= 31 then 1 else closingDay + 1;
    today == bestDay
  }

  /** Read against the calendar: a card closing on day 1..30 is flagged
      exactly on the day whose yesterday was its closing day in the same
      month; a card closing on the 31st is flagged on every 1st. */
  lemma BestDayFollowsClosing(closingDay: int, today: Date)
    ensures 1 <= closingDay <= 30 ==>
              (IsBestDayToBuy(closingDay, today.day) <==> PrevDay(today) == YMD(today.year, today.month, closingDay))
    ensures closingDay >= 31 ==> (IsBestDayToBuy(closingDay, today.day) <==> today.day == 1)
  {
  }

  /** A card closing on the 30th is never flagged in a 30-day month, and
      the day after its closing there (the 1st of the next month) is not
      flagged either. */
  lemma ThirtiethInShortMonth()
    ensures forall day :: 1 <= day <= LengthOfMonth(2025, 4) ==> !IsBestDayToBuy(30, day)
    ensures NextDay(YMD(2025, 4, 30)) == YMD(2025, 5, 1) && !IsBestDayToBuy(30, 1)
  {
    assert LengthOfMonth(2025, 4) == 30;
  }

  /* ---------------------------------------------------------------- */
  /* Usage bar                                                        */
  /* ---------------------------------------------------------------- */

  /** `Math.min((limitUsed / limitTotal) * 100, 100)`. */
  function UsagePercentage(used: int, total: int): (p: Num)
    ensures total != 0 ==> p.Finite? && p.v <= 100.0
    ensures total > 0 && used >= 0 ==> 0.0 <= p.v
    ensures total > 0 ==> (p.v == 100.0 <==> used >= total)
    ensures total > 0 && used <= total ==> p.v * total as real == used as real * 100.0
    ensures total == 0 && used > 0 ==> p == Finite(100.0)
    ensures total == 0 && used == 0 ==> p == NaN
    ensures total == 0 && used < 0 ==> p == NegInf
  {
    RatioAgainstWhole(used, total);
    MinWith(Scale(Div(used as real, total as real), 100.0), 100.0)
  }

  /** With a positive limit, the used share reaches 1 exactly when the
      limit is used up. */
  lemma RatioAgainstWhole(used: int, total: int)
    ensures total > 0 ==> (used >= total <==> Div(used as real, total as real).v * 100.0 >= 100.0)
  {
    if total > 0 {
      ScaleOrder(1.0, Div(used as real, total as real).v, total as real);
    }
  }

  datatype Band = Green | Yellow | Red

  function Severity(b: Band): nat {
    match b
    case Green => 0
    case Yellow => 1
    case Red => 2
  }

  /** `percentage > 90 ? red : percentage > 70 ? yellow : green`. */
  function UsageBand(p: Num): Band {
    if Gt(p, 90.0) then Red else if Gt(p, 70.0) then Yellow else Green
  }

  /** The band in terms of the card itself: with a positive limit, red
      means more than 90% of it is used and yellow more than 70%; with a
      zero limit any use is red and no use at all (NaN) is green. */
  lemma BandOfUsage(used: int, total: int)
    ensures total > 0 ==> (UsageBand(UsagePercentage(used, total)) == Red <==> 10 * used > 9 * total)
    ensures total > 0 ==> (UsageBand(UsagePercentage(used, total)) == Yellow <==> 7 * total < 10 * used <= 9 * total)
    ensures total == 0 ==> (UsageBand(UsagePercentage(used, total)) == Red <==> used > 0)
  {
    if total > 0 {
      var t, u := total as real, used as real;
      var x := Div(u, t).v;
      ShareAbove(x, t, u, 0.9);
      ShareAbove(x, t, u, 0.7);
      var p := UsagePercentage(used, total);
      assert p == MinWith(Finite(x * 100.0), 100.0);
      assert Gt(p, 90.0) <==> x > 0.9;
      assert Gt(p, 70.0) <==> x > 0.7;
    }
  }

  /** Using more of the same limit never makes the band less severe. */
  lemma BandMonotone(used: int, more: int, total: int)
    requires used <= more
    ensures total >= 0 ==> Severity(UsageBand(UsagePercentage(used, total))) <= Severity(UsageBand(UsagePercentage(more, total)))
  {
    if total > 0 {
      BandOfUsage(used, total);
      BandOfUsage(more, total);
    } else if total == 0 {
      BandOfUsage(used, total);
      BandOfUsage(more, total);
    }
  }

  /** `limitTotal - limitUsed`: what is left, negative exactly when the
      card is over its limit. */
  function Available(used: int, total: int): (a: int)
    ensures a + used == total
    ensures a < 0 <==> used > total
  {
    total - used
  }

  /** `card.color || '#3b82f6'`: a missing or empty colour falls back to
      the default, any other is kept. */
  function DisplayColour(colour: Option<string>): (c: string)
    ensures c != ""
    ensures colour.Some? && colour.value != "" ==> c == colour.value
    ensures colour.None? || colour == Some("") ==> c == DefaultColour
  {
    if colour.Some? && colour.value != "" then colour.value else DefaultColour
  }

  /* ---------------------------------------------------------------- */
  /* New-card form                                                    */
  /* ---------------------------------------------------------------- */

  /** The form's text fields. */
  datatype CardForm = CardForm(name: string, lastFourDigits: string, limitTotal: string, closingDay: string, dueDay: string, colour: string)

  /** The body posted to `/credit-cards`. A NaN from parsing travels as
      JSON `null`, written `None` here. */
  datatype CardPayload = CardPayload(name: string, lastFourDigits: string, limitTotal: Option<real>, closingDay: Option<nat>, dueDay: Option<nat>, colour: string)

  /** `resetForm` / `resetCardForm`, and the form's initial state. */
  function ResetForm(): (f: CardForm)
    ensures f.name == "" && f.lastFourDigits == "" && f.limitTotal == ""
    ensures f.closingDay == "" && f.dueDay == "" && f.colour == DefaultColour
  {
    CardForm("", "", "", "", "", DefaultColour)
  }

  /** `handleSubmit` / `handleSaveCard`: `parseFloat` on the limit (a
      parameter: decimal parsing is not modelled) and `parseInt` on the
      two days. */
  function Payload(f: CardForm, parseFloat: string -> Option<real>): (p: CardPayload)
    ensures p.name == f.name && p.lastFourDigits == f.lastFourDigits && p.colour == f.colour
    ensures p.limitTotal == parseFloat(f.limitTotal)
    ensures p.closingDay == ParseInt(f.closingDay) && p.dueDay == ParseInt(f.dueDay)
  {
    CardPayload(f.name, f.lastFourDigits, parseFloat(f.limitTotal), ParseInt(f.closingDay), ParseInt(f.dueDay), f.colour)
  }

  /** Days typed as decimal numbers reach the server unchanged; a form
      submitted straight after a reset sends no days and the default
      colour. */
  lemma PayloadDays(f: CardForm, parseFloat: string -> Option<real>, closing: nat, due: nat)
    ensures f.closingDay == NatToString(closing) && f.dueDay == NatToString(due) ==>
              Payload(f, parseFloat).closingDay == Some(closing) && Payload(f, parseFloat).dueDay == Some(due)
    ensures var p := Payload(ResetForm(), parseFloat);
            p.closingDay.None? && p.dueDay.None? && p.colour == DefaultColour && p.name == ""
  {
    ParseIntNatToString(closing);
    ParseIntNatToString(due);
  }
}

=== FILE: cards.dfy ===
/** `CreditCardController`: creating a card behind the plan limit, and
    editing or deleting one behind the ownership checks. `limitUsed` is
    bookkeeping owned by the transaction handlers: an edit never touches
    it. */
module Cards {
  import opened Wrappers
  import opened Seqs
  import opened Domain
  import opened UsageLimit

  const NotFoundMessage: string := "Card not found"
  const DeniedMessage: string := "Access denied"

  function Owned(st: Store, user: UserId, id: Id): Result<CreditCard> {
    FindOwned(st.cards, id, CardId, CardOwner, user, NotFoundMessage, DeniedMessage)
  }

  /** `getAllCards`: `findByUser`. */
  function CardsOf(st: Store, user: UserId): (r: seq<CreditCard>)
    ensures forall c :: c in r <==> c in st.cards && c.owner == user
  {
    FilterMembershipAll(st.cards, (c: CreditCard) => c.owner == user);
    Filter(st.cards, (c: CreditCard) => c.owner == user)
  }

  /** `createCard`: the plan check runs first and a refusal writes
      nothing; otherwise the body is saved as the caller's under a new id.
      A body that carries its own id would be merged over that row by
      `save`; that branch is not modelled. */
  function CreateCard(st: Store, user: User, now: int, body: CreditCard): (o: Outcome<CreditCard>)
    ensures CheckCreditCardLimit(user, st, now).Err? ==>
              o.store == st && o.response.Err?
              && o.response.status == CheckCreditCardLimit(user, st, now).status
              && o.response.message == CheckCreditCardLimit(user, st, now).message
    ensures CheckCreditCardLimit(user, st, now).Ok? ==>
              o.response.Ok?
              && o.response.value == body.(id := o.response.value.id, owner := user.id)
              && (forall k :: 0 <= k < |st.cards| ==> st.cards[k].id != o.response.value.id)
              && o.store == st.(cards := st.cards + [o.response.value])
  {
    match CheckCreditCardLimit(user, st, now)
    case Err(s, m) => Outcome(st, Err(s, m))
    case Ok(_) =>
      var c := body.(id := FreshId(st.cards, CardId), owner := user.id);
      Outcome(st.(cards := st.cards + [c]), Ok(c))
  }

  /** A FREE user's second card is refused, whatever else the request says. */
  lemma SecondFreeCardRefused(st: Store, user: User, now: int, body: CreditCard)
    requires user.plan == Free
    requires exists k :: 0 <= k < |st.cards| && st.cards[k].owner == user.id
    ensures CreateCard(st, user, now, body).response.Err?
    ensures CreateCard(st, user, now, body).store == st
  {
    var k :| 0 <= k < |st.cards| && st.cards[k].owner == user.id;
    OwnedCountPositive(st.cards, CardOwner, user.id, k);
  }

  /** A new card that starts unused keeps the bookkeeping in step: no
      transaction can be charged to an id nobody had. */
  lemma CreateCardKeepsLimitsInSync(st: Store, user: User, now: int, body: CreditCard)
    requires LimitsInSync(st) && ReferencesResolve(st) && body.limitUsed == 0
    ensures LimitsInSync(CreateCard(st, user, now, body).store)
  {
    var o := CreateCard(st, user, now, body);
    if o.response.Ok? {
      var c := o.response.value;
      forall k | 0 <= k < |st.transactions|
        ensures CardCharge(st.transactions[k], c.id) == 0
      {
        if st.transactions[k].creditCard == Some(c.id) {
          var found := FindById(st.cards, c.id, CardId);
          assert false;
        }
      }
      SumByZero(st.transactions, ChargeOf(c.id));
    }
  }

  /** `updateCard`: NOT_FOUND or FORBIDDEN before any write; then name,
      last four digits, total limit, closing day, due day and colour come
      from the body, and id, owner and `limitUsed` stay. */
  function UpdateCard(st: Store, user: UserId, id: Id, details: CreditCard): (o: Outcome<CreditCard>)
    ensures o.response.Err? ==> o.store == st
    ensures o.response.Err? <==> Owned(st, user, id).Err?
    ensures o.response.Ok? ==>
              var prev := Owned(st, user, id).value;
              var c := o.response.value;
              && c == details.(id := prev.id, owner := prev.owner, limitUsed := prev.limitUsed)
              && o.store == st.(cards := ReplaceById(st.cards, c, CardId))
  {
    match Owned(st, user, id)
    case Err(s, m) => Outcome(st, Err(s, m))
    case Ok(prev) =>
      var c := prev.(name := details.name, lastFourDigits := details.lastFourDigits, limitTotal := details.limitTotal,
                     closingDay := details.closingDay, dueDay := details.dueDay, color := details.color);
      Outcome(st.(cards := ReplaceById(st.cards, c, CardId)), Ok(c))
  }

  /** Editing a card never puts its `limitUsed` out of step. */
  lemma UpdateCardKeepsLimitsInSync(st: Store, user: UserId, id: Id, details: CreditCard)
    requires LimitsInSync(st) && UniqueIds(st.cards, CardId)
    ensures LimitsInSync(UpdateCard(st, user, id, details).store)
  {
  }

  /** The message of the foreign-key violation a referenced card raises. */
  const InUseMessage: string := "could not execute statement; constraint violation on credit_card_id"

  /** Some transaction is still linked to the card. */
  predicate CardInUse(st: Store, id: Id) {
    exists k :: 0 <= k < |st.transactions| && st.transactions[k].creditCard == Some(id)
  }

  /** `deleteCard`: NOT_FOUND or FORBIDDEN before anything is deleted. A
      card that transactions still reference cannot be deleted: the
      transactions' foreign key to the card has no cascade, so the delete
      fails in the database and surfaces as a 500 with nothing removed. */
  function DeleteCard(st: Store, user: UserId, id: Id): (o: Outcome<()>)
    ensures o.response.Err? ==> o.store == st
    ensures Owned(st, user, id).Err? ==>
              o.response.Err? && o.response.status == Owned(st, user, id).status
              && o.response.message == Owned(st, user, id).message
    ensures o.response.Ok? <==> Owned(st, user, id).Ok? && !CardInUse(st, id)
    ensures Owned(st, user, id).Ok? && CardInUse(st, id) ==> o.response == Err(ServerError, InUseMessage)
    ensures o.response.Ok? ==> o.store == st.(cards := DeleteById(st.cards, id, CardId))
  {
    match Owned(st, user, id)
    case Err(s, m) => Outcome(st, Err(s, m))
    case Ok(_) =>
      if CardInUse(st, id) then Outcome(st, Err(ServerError, InUseMessage))
      else Outcome(st.(cards := DeleteById(st.cards, id, CardId)), Ok(()))
  }

  /** Deleting a card never leaves a transaction pointing at a missing
      card, account or category. */
  lemma DeleteCardKeepsReferencesResolve(st: Store, user: UserId, id: Id)
    requires ReferencesResolve(st)
    ensures ReferencesResolve(DeleteCard(st, user, id).store)
  {
    var o := DeleteCard(st, user, id);
    if o.response.Ok? {
      forall k | 0 <= k < |st.transactions| && st.transactions[k].creditCard.Some?
        ensures FindById(o.store.cards, st.transactions[k].creditCard.value, CardId).Some?
      {
        var c := st.transactions[k].creditCard.value;
        var found := FindById(st.cards, c, CardId);
        var j :| 0 <= j < |st.cards| && st.cards[j] == found.value;
        assert c != id;
        assert st.cards[j] in o.store.cards;
        var i :| 0 <= i < |o.store.cards| && o.store.cards[i] == st.cards[j];
        assert CardId(o.store.cards[i]) == c;
      }
    }
  }

  /** Removing a card leaves the other cards' `limitUsed` as they were, and
      no transaction was charged to the removed one. */
  lemma DeleteCardKeepsLimitsInSync(st: Store, user: UserId, id: Id)
    requires LimitsInSync(st)
    ensures LimitsInSync(DeleteCard(st, user, id).store)
  {
    var o := DeleteCard(st, user, id);
    if o.response.Ok? {
      forall k | 0 <= k < |o.store.cards|
        ensures o.store.cards[k].limitUsed == CardUsage(o.store.transactions, o.store.cards[k].id)
      {
        var j :| 0 <= j < |st.cards| && st.cards[j] == o.store.cards[k];
      }
    }
  }

  /** Deleting a card just created gives the table back as it was. */
  lemma CreateThenDeleteRestores(st: Store, user: User, now: int, body: CreditCard)
    requires CheckCreditCardLimit(user, st, now).Ok? && ReferencesResolve(st)
    ensures var o := CreateCard(st, user, now, body);
            var d := DeleteCard(o.store, user.id, o.response.value.id);
            d.response.Ok? && d.store == st
  {
    var o := CreateCard(st, user, now, body);
    var c := o.response.value;
    assert !CardInUse(o.store, c.id) by {
      forall k | 0 <= k < |st.transactions|
        ensures st.transactions[k].creditCard != Some(c.id)
      {
        if st.transactions[k].creditCard == Some(c.id) {
          var found := FindById(st.cards, c.id, CardId);
          assert false;
        }
      }
    }
    assert o.store.cards[|st.cards|] == o.response.value;
    DeleteInserted(st.cards, o.response.value, CardId);
  }
}

=== FILE: cash_flow_page.dfy ===
/** `CashFlowPage`: the month's per-day report as the client shows it,
    with a running balance added to each day, column totals, and month
    navigation. Amounts are integer cents. */
module CashFlowView {
  import opened Wrappers
  import opened Seqs
  import opened Calendar

  /** `CashFlowData`; the running balance is absent until the page adds
      it. */
  datatype Item = Item(date: string, totalIncome: int, totalExpense: int, netBalance: int, accumulatedBalance: Option<int>)

  function Income(x: Item): int { x.totalIncome }

  function Expense(x: Item): int { x.totalExpense }

  /** A day's movement as the running total counts it. */
  function Movement(x: Item): int { x.totalIncome - x.totalExpense }

  /** The fetch handler's `map`: each day gets the balance of all days up
      to and including it; every other field is kept. */
  method WithRunningBalance(data: seq<Item>) returns (r: seq<Item>)
    ensures |r| == |data|
    ensures forall i :: 0 <= i < |r| ==> r[i] == data[i].(accumulatedBalance := Some(SumBy(data[..i + 1], Movement)))
  {
    var running := 0;
    r := [];
    for i := 0 to |data|
      invariant |r| == i
      invariant running == SumBy(data[..i], Movement)
      invariant forall k :: 0 <= k < i ==> r[k] == data[k].(accumulatedBalance := Some(SumBy(data[..k + 1], Movement)))
    {
      assert data[..i + 1][..i] == data[..i];
      running := running + (data[i].totalIncome - data[i].totalExpense);
      r := r + [data[i].(accumulatedBalance := Some(running))];
    }
  }

  /** `totalIncome`, `totalExpense` and `periodBalance`. */
  datatype Totals = Totals(income: int, expense: int, balance: int)

  function PeriodTotals(data: seq<Item>): (t: Totals)
    ensures t.balance == t.income - t.expense
    ensures t.balance == SumBy(data, Movement)
  {
    SumByLinear(data, Movement, Expense, Income);
    Totals(SumBy(data, Income), SumBy(data, Expense), SumBy(data, Income) - SumBy(data, Expense))
  }

  /** On a non-empty month the last running balance is the period
      balance; an empty month shows none. */
  method LastRunningIsPeriodBalance(data: seq<Item>) returns (r: seq<Item>)
    ensures |r| == |data|
    ensures |r| > 0 ==> r[|r| - 1].accumulatedBalance == Some(PeriodTotals(data).balance)
  {
    r := WithRunningBalance(data);
    if |r| > 0 {
      assert data[..|data|] == data;
    }
  }

  /** Adding the running balance does not change the column totals. */
  method RunningBalanceKeepsTotals(data: seq<Item>) returns (r: seq<Item>)
    ensures PeriodTotals(r) == PeriodTotals(data)
  {
    r := WithRunningBalance(data);
    SumByMap(r, data, Income, Income);
    SumByMap(r, data, Expense, Expense);
  }

  /** The page's month: `currentDate`, as the first day of its month after
      any navigation. */
  function PrevMonthStart(d: Date): (r: Date)
    ensures r.day == 1
    ensures (r.year, r.month) == PrevMonth(d.year, d.month)
  {
    var (y, m) := PrevMonth(d.year, d.month);
    FirstDayOfMonth(y, m)
  }

  function NextMonthStart(d: Date): (r: Date)
    ensures r.day == 1
    ensures (r.year, r.month) == NextMonth(d.year, d.month)
  {
    var (y, m) := NextMonth(d.year, d.month);
    FirstDayOfMonth(y, m)
  }

  /** Back then forward (or forward then back) lands on the first day of
      the month one started in; January steps back into December of the
      year before. */
  lemma NavigationRoundTrip(d: Date)
    ensures NextMonthStart(PrevMonthStart(d)) == FirstDayOfMonth(d.year, d.month)
    ensures PrevMonthStart(NextMonthStart(d)) == FirstDayOfMonth(d.year, d.month)
    ensures d.month == 1 ==> PrevMonthStart(d) == FirstDayOfMonth(d.year - 1, 12)
    ensures d.month == 12 ==> NextMonthStart(d) == FirstDayOfMonth(d.year + 1, 1)
  {
    PrevNextMonthInverse(d.year, d.month);
  }

  /** The range the page requests: `new Date(y, m, 1)` to
      `new Date(y, m + 1, 0)`, the first and last day of the month. */
  function RequestedRange(d: Date): (r: (Date, Date))
    ensures forall x: Date :: InRange(x, r.0, r.1) <==> x.year == d.year && x.month == d.month
  {
    forall x: Date
      ensures InRange(x, FirstDayOfMonth(d.year, d.month), LastDayOfMonth(d.year, d.month)) <==> (x.year == d.year && x.month == d.month)
    {
      MonthRangeExact(x, d.year, d.month);
    }
    (FirstDayOfMonth(d.year, d.month), LastDayOfMonth(d.year, d.month))
  }
}

=== FILE: client_format.dfy ===
/** Client-side date labels. The server sends ISO dates ("YYYY-MM-DD");
    the cash-flow page turns them into "DD/MM" by splitting on '-', and a
    missing piece prints as JavaScript's "undefined". The dashboard page
    defines a guarded copy of that formatter but never calls it: its chart
    and tooltip show the server's "dd/MM" label as received. */
module ClientFormat {
  import opened Text
  import opened Calendar

  /** Four-digit zero-padded year, as `LocalDate` serialises 0..9999. */
  function Pad4(n: int): (s: string)
    requires 0 <= n <= 9999
    ensures |s| == 4 && AllDigits(s)
    ensures DigitsValue(s) == n
  {
    var hundreds := n / 100;
    assert n / 10 / 10 == hundreds && hundreds / 10 == n / 1000;
    var a, b, c, d := DigitChar(hundreds / 10), DigitChar(hundreds % 10), DigitChar(n / 10 % 10), DigitChar(n % 10);
    DigitsValueSnoc([], a);
    DigitsValueSnoc([a], b);
    DigitsValueSnoc([a, b], c);
    DigitsValueSnoc([a, b, c], d);
    assert [] + [a] == [a] && [a] + [b] == [a, b] && [a, b] + [c] == [a, b, c];
    [a, b, c] + [d]
  }

  /** The JSON text of a date. */
  function IsoText(d: Date): string
    requires 0 <= d.year <= 9999
  {
    Pad4(d.year) + "-" + Pad2(d.month) + "-" + Pad2(d.day)
  }

  /** Element `i` of a destructured array, `undefined` past its end. */
  function Piece(parts: seq<string>, i: nat): string {
    if i < |parts| then parts[i] else "undefined"
  }

  /** `formatDate` of the cash-flow page: `${day}/${month}` of
      `dateStr.split('-')`. */
  function FormatDate(dateStr: string): string {
    var parts := Split(dateStr, '-');
    Piece(parts, 2) + "/" + Piece(parts, 1)
  }

  /** `formatDate` of the dashboard: the same, but an empty string stays
      empty. The page defines it and never calls it. */
  function FormatDateOrEmpty(dateStr: string): (r: string)
    ensures dateStr == "" ==> r == ""
    ensures dateStr != "" ==> r == FormatDate(dateStr)
  {
    if dateStr == "" then "" else FormatDate(dateStr)
  }

  /** A digit string holds no '-'. */
  lemma NoDashInDigits(s: string)
    requires AllDigits(s)
    ensures '-' !in s
  {
    assert !IsDigit('-');
  }

  /** The cash-flow page labels a server date exactly as the server's own
      "dd/MM" formatter would; so would the dashboard's uncalled copy. */
  lemma FormatIsoDate(d: Date)
    requires 0 <= d.year <= 9999
    ensures FormatDate(IsoText(d)) == FormatDdMm(d)
    ensures FormatDateOrEmpty(IsoText(d)) == FormatDdMm(d)
  {
    var y, m, dd := Pad4(d.year), Pad2(d.month), Pad2(d.day);
    NoDashInDigits(y);
    NoDashInDigits(m);
    NoDashInDigits(dd);
    assert IsoText(d) == y + ['-'] + (m + ['-'] + dd);
    SplitAround(y, m + ['-'] + dd, '-');
    SplitAround(m, dd, '-');
    SplitNoSep(dd, '-');
    assert Split(IsoText(d), '-') == [y, m, dd];
  }

  /** The cash-flow label of an empty date is "undefined/undefined"; the
      guard of the dashboard's uncalled copy would give "". */
  lemma EmptyDateLabels()
    ensures FormatDate("") == "undefined/undefined"
    ensures FormatDateOrEmpty("") == ""
  {
  }
}

=== FILE: cpf.dfy ===
/** `CpfValidator.isValid`: the Brazilian CPF check. The input is reduced
    to its ASCII digits; a valid CPF has exactly eleven of them, not all
    the same, and its last two digits are the mod-11 check digits of the
    digits before them. */
module Cpf {
  import opened Wrappers
  import opened Text

  const CpfLength: nat := 11

  /** `Character.getNumericValue` of each character of a digit string. */
  function Values(s: string): (v: seq<int>)
    requires AllDigits(s)
    ensures |v| == |s| && forall k :: 0 <= k < |s| ==> v[k] == DigitValue(s[k]) && 0 <= v[k] <= 9
  {
    seq(|s|, k requires 0 <= k < |s| => DigitValue(s[k]))
  }

  /** Σ_{i<n} v[i] * (top - i): the weighted sum the check loops
      accumulate, with weights counting down from `top`. */
  function WeightedSum(v: seq<int>, n: nat, top: int): int
    requires n <= |v|
  {
    if n == 0 then 0 else WeightedSum(v, n - 1, top) + v[n - 1] * (top - (n - 1))
  }

  /** `11 - sum % 11`, with 10 and 11 folded to 0. */
  function CheckDigit(sum: int): (d: int)
    ensures 0 <= d <= 9
  {
    var d := 11 - sum % 11;
    if d >= 10 then 0 else d
  }

  /** The regular expression `(\d)\1{10}` on an eleven-digit string. */
  predicate AllSame(s: string) {
    forall k :: 0 <= k < |s| ==> s[k] == s[0]
  }

  predicate ChecksumsHold(s: string)
    requires |s| == CpfLength && AllDigits(s)
  {
    var v := Values(s);
    v[9] == CheckDigit(WeightedSum(v, 9, 10)) && v[10] == CheckDigit(WeightedSum(v, 10, 11))
  }

  /** `isValid`: null is invalid; otherwise the digits are checked. */
  function IsValid(cpf: Option<string>): (b: bool)
    ensures cpf.None? ==> !b
    ensures b ==> |DigitsOf(cpf.value)| == CpfLength && !AllSame(DigitsOf(cpf.value))
  {
    match cpf
    case None => false
    case Some(raw) =>
      var s := DigitsOf(raw);
      if |s| != CpfLength then false
      else if AllSame(s) then false
      else ChecksumsHold(s)
  }

  /** The check with the loops of the source: each check digit is summed
      by a loop whose invariant is the weighted prefix sum. */
  method CheckCpf(cpf: Option<string>) returns (valid: bool)
    ensures valid == IsValid(cpf)
  {
    if cpf.None? {
      return false;
    }
    var s := DigitsOf(cpf.value);
    if |s| != CpfLength {
      return false;
    }
    var same := true;
    var j := 1;
    while j < |s|
      invariant 1 <= j <= |s|
      invariant same <==> forall k :: 0 <= k < j ==> s[k] == s[0]
    {
      if s[j] != s[0] {
        same := false;
      }
      j := j + 1;
    }
    if same {
      return false;
    }
    var sum := 0;
    var i := 0;
    while i < 9
      invariant 0 <= i <= 9
      invariant sum == WeightedSum(Values(s), i, 10)
    {
      sum := sum + DigitValue(s[i]) * (10 - i);
      i := i + 1;
    }
    var first := 11 - sum % 11;
    if first >= 10 {
      first := 0;
    }
    if DigitValue(s[9]) != first {
      return false;
    }
    sum := 0;
    i := 0;
    while i < 10
      invariant 0 <= i <= 10
      invariant sum == WeightedSum(Values(s), i, 11)
    {
      sum := sum + DigitValue(s[i]) * (11 - i);
      i := i + 1;
    }
    var second := 11 - sum % 11;
    if second >= 10 {
      second := 0;
    }
    return DigitValue(s[10]) == second;
  }

  /** Only the digits of the input matter: punctuation, spaces and letters
      can be added or dropped without changing the verdict. */
  lemma DigitsOnly(raw: string)
    ensures IsValid(Some(raw)) == IsValid(Some(DigitsOf(raw)))
  {
    DigitsOfIdempotent(raw);
  }

  /** A digit string of any length but eleven is invalid. */
  lemma WrongLengthInvalid(raw: string)
    requires |DigitsOf(raw)| != CpfLength
    ensures !IsValid(Some(raw))
  {
  }

  /** The usual closed form of the check digit: ten times the weighted sum,
      mod 11, mod 10. */
  lemma CheckDigitModEleven(sum: int)
    ensures CheckDigit(sum) == (10 * sum) % 11 % 10
  {
    var q := sum / 11;
    var r := sum % 11;
    assert sum == 11 * q + r;
    if r == 0 {
      assert 10 * sum == 11 * (10 * q);
    } else {
      assert 10 * sum == 11 * (10 * q + r - 1) + (11 - r);
    }
  }

  /** Eleven equal digits are refused, and for zero this is the repetition
      rule alone: "00000000000" satisfies both check digits. */
  lemma RepeatedDigitsRejected(c: char)
    requires IsDigit(c)
    ensures !IsValid(Some(seq(11, _ => c)))
    ensures ChecksumsHold("00000000000")
  {
    DigitsOfAllDigits(seq(11, _ => c));
  }

  /** A well-known valid number, punctuated as users type it, and the
      same number with its last digit off by one. */
  lemma SampleIsValid()
    ensures IsValid(Some("529.982.247-25"))
    ensures !IsValid(Some("529.982.247-26"))
  {
    SampleTyped();
    DigitsOnly("529.982.247-25");
    DigitsOnly("529.982.247-26");
    SampleDigits();
  }

  lemma SampleTyped()
    ensures DigitsOf("529.982.247-25") == "52998224725"
    ensures DigitsOf("529.982.247-26") == "52998224726"
  {
    TypedDigits("529.982.247-25", "25");
    TypedDigits("529.982.247-26", "26");
  }

  /** The sample typed with punctuation and a given pair of final digits. */
  lemma TypedDigits(typed: string, last: string)
    requires AllDigits(last) && typed == "529.982.247-" + last
    ensures DigitsOf(typed) == "529982247" + last
  {
    Punctuated("529", "982", "247", last);
    assert typed == "529" + "." + "982" + "." + "247" + "-" + last;
    assert "529" + "982" + "247" + last == "529982247" + last;
  }

  lemma SampleDigits()
    ensures IsValid(Some("52998224725"))
    ensures !IsValid(Some("52998224726"))
  {
    SampleValues();
    SampleValid("52998224725");
    SampleInvalid("52998224726");
  }

  /** A number with the sample's digit values passes both checksums and
      is valid. */
  lemma SampleValid(s: string)
    requires |s| == CpfLength && AllDigits(s) && Values(s) == [5, 2, 9, 9, 8, 2, 2, 4, 7, 2, 5]
    ensures ChecksumsHold(s) && IsValid(Some(s))
  {
    SampleSums();
    ChecksumsOfSums(s, [5, 2, 9, 9, 8, 2, 2, 4, 7, 2, 5], 295, 347);
    DigitsOfAllDigits(s);
    assert s[1] != s[0];
  }

  /** With its last digit off by one, the second checksum fails. */
  lemma SampleInvalid(s: string)
    requires |s| == CpfLength && AllDigits(s) && Values(s) == [5, 2, 9, 9, 8, 2, 2, 4, 7, 2, 6]
    ensures !ChecksumsHold(s) && !IsValid(Some(s))
  {
    SampleSums();
    ChecksumsOfSums(s, [5, 2, 9, 9, 8, 2, 2, 4, 7, 2, 6], 295, 347);
    DigitsOfAllDigits(s);
  }

  lemma SampleValues()
    ensures Values("52998224725") == [5, 2, 9, 9, 8, 2, 2, 4, 7, 2, 5]
    ensures Values("52998224726") == [5, 2, 9, 9, 8, 2, 2, 4, 7, 2, 6]
  {
  }

  /** The two weighted sums of the sample and of its changed copy, and the
      check digits they give. */
  lemma SampleSums()
    ensures WeightedSum([5, 2, 9, 9, 8, 2, 2, 4, 7, 2, 5], 9, 10) == 295
    ensures WeightedSum([5, 2, 9, 9, 8, 2, 2, 4, 7, 2, 5], 10, 11) == 347
    ensures WeightedSum([5, 2, 9, 9, 8, 2, 2, 4, 7, 2, 6], 9, 10) == 295
    ensures WeightedSum([5, 2, 9, 9, 8, 2, 2, 4, 7, 2, 6], 10, 11) == 347
    ensures CheckDigit(295) == 2 && CheckDigit(347) == 5
  {
  }

  /** The checksums read off known digit values and weighted sums. */
  lemma ChecksumsOfSums(s: string, v: seq<int>, first: int, second: int)
    requires |s| == CpfLength && AllDigits(s) && Values(s) == v
    requires WeightedSum(v, 9, 10) == first && WeightedSum(v, 10, 11) == second
    ensures ChecksumsHold(s) <==> v[9] == CheckDigit(first) && v[10] == CheckDigit(second)
  {
  }

  /** The digits of a number typed as ddd.ddd.ddd-dd are its four groups. */
  lemma Punctuated(a: string, b: string, c: string, d: string)
    requires AllDigits(a) && AllDigits(b) && AllDigits(c) && AllDigits(d)
    ensures DigitsOf(a + "." + b + "." + c + "-" + d) == a + b + c + d
  {
    DigitsOfAllDigits(a);
    DigitsOfAllDigits(b);
    DigitsOfAllDigits(c);
    DigitsOfAllDigits(d);
    assert DigitsOf(".") == [] by { assert "."[..0] == []; }
    assert DigitsOf("-") == [] by { assert "-"[..0] == []; }
    var p1 := a + ".";
    DigitsOfConcat(a, ".");
    var p2 := p1 + b;
    DigitsOfConcat(p1, b);
    var p3 := p2 + ".";
    DigitsOfConcat(p2, ".");
    var p4 := p3 + c;
    DigitsOfConcat(p3, c);
    var p5 := p4 + "-";
    DigitsOfConcat(p4, "-");
    DigitsOfConcat(p5, d);
    assert DigitsOf(p5) == a + b + c;
  }
}

=== FILE: cpf_mask.dfy ===
/** The CPF field of the registration form (`handleCpfChange`): the typed
    text is reduced to its first eleven digits and punctuated as
    ddd.ddd.ddd-dd by three successive single `replace` calls; on submit
    the punctuation is stripped again. */
module CpfMask {
  import opened Seqs
  import opened Text

  const MaxDigits: nat := 11
  const MaxLength: nat := 14

  predicate DigitRun(s: string, i: nat, n: nat) {
    i + n <= |s| && forall k :: i <= k < i + n ==> IsDigit(s[k])
  }

  /** `s.replace(/(\d{3})(\d)/, '$1.$2')`: a dot after the first three
      digits of the leftmost run of four digits, if there is one. */
  function DotAfterThree(s: string): string
    decreases |s|
  {
    if |s| < 4 then s
    else if DigitRun(s, 0, 4) then s[..3] + "." + s[3..]
    else [s[0]] + DotAfterThree(s[1..])
  }

  /** `s.replace(/(\d{3})(\d{1,2})$/, '$1-$2')`: a dash after the first
      three digits of the leftmost place where three digits are followed
      by one or two digits that end the string. */
  function DashBeforeEnd(s: string): string
    decreases |s|
  {
    if |s| < 4 then s
    else if DigitRun(s, 0, 3) && 1 <= |s| - 3 <= 2 && AllDigits(s[3..]) then s[..3] + "-" + s[3..]
    else [s[0]] + DashBeforeEnd(s[1..])
  }

  /** `handleCpfChange`, step by step as written. */
  function Mask(input: string): string {
    var d := Take(DigitsOf(input), MaxDigits);
    DashBeforeEnd(DotAfterThree(DotAfterThree(d)))
  }

  /** What the mask is meant to produce for up to eleven digits: groups of
      three separated by dots, the last two digits after a dash. */
  function Punctuate(d: string): (r: string)
    requires |d| <= MaxDigits
  {
    if |d| <= 3 then d
    else if |d| <= 6 then d[..3] + "." + d[3..]
    else if |d| <= 9 then d[..3] + "." + d[3..6] + "." + d[6..]
    else d[..3] + "." + d[3..6] + "." + d[6..9] + "-" + d[9..]
  }

  /** `cpf.replace(/\D/g, '')` in `handleSubmit`. */
  function Clean(masked: string): (r: string)
    ensures AllDigits(r)
  {
    DigitsOf(masked)
  }

  lemma DotAfterThreeDigits(d: string)
    requires AllDigits(d)
    ensures DotAfterThree(d) == if |d| >= 4 then d[..3] + "." + d[3..] else d
  {
  }

  /** A dot within the first four characters shields everything before
      it from the four-digit pattern. */
  lemma {:induction false} DotAfterThreeSkips(p: string, t: string)
    requires |p| <= 3
    ensures DotAfterThree(p + "." + t) == p + "." + DotAfterThree(t)
    decreases |p|
  {
    var s := p + "." + t;
    if |s| < 4 {
      assert |t| < 4;
    } else if |p| == 0 {
      assert !IsDigit(s[0]);
      assert s[1..] == t;
    } else {
      assert !IsDigit(s[|p|]);
      assert s[1..] == p[1..] + "." + t;
      DotAfterThreeSkips(p[1..], t);
      assert [s[0]] + (p[1..] + "." + DotAfterThree(t)) == p + "." + DotAfterThree(t);
    }
  }

  lemma DashBeforeEndDigits(d: string)
    requires AllDigits(d) && |d| <= 5
    ensures DashBeforeEnd(d) == if |d| >= 4 then d[..3] + "-" + d[3..] else d
  {
  }

  /** A dot anywhere before the end pattern keeps it from matching there. */
  lemma {:induction false} DashBeforeEndSkips(p: string, t: string)
    ensures DashBeforeEnd(p + "." + t) == p + "." + DashBeforeEnd(t)
    decreases |p|
  {
    var s := p + "." + t;
    if |s| < 4 {
      assert |t| < 4;
    } else if |p| == 0 {
      assert !IsDigit(s[0]);
      assert s[1..] == t;
    } else {
      if |p| < 3 {
        assert !IsDigit(s[|p|]);
        assert !DigitRun(s, 0, 3);
      } else {
        assert s[3..][|p| - 3] == '.';
        assert !AllDigits(s[3..]);
      }
      assert s[1..] == p[1..] + "." + t;
      DashBeforeEndSkips(p[1..], t);
      assert [s[0]] + (p[1..] + "." + DashBeforeEnd(t)) == p + "." + DashBeforeEnd(t);
    }
  }

  /** The three replacements compute the intended punctuation. */
  lemma MaskIsPunctuate(input: string)
    ensures var d := Take(DigitsOf(input), MaxDigits);
            Mask(input) == Punctuate(d)
  {
    var d := Take(DigitsOf(input), MaxDigits);
    if |d| <= 3 {
      DotAfterThreeDigits(d);
      DashBeforeEndDigits(d);
    } else if |d| <= 6 {
      ReplacementsMid(d);
    } else {
      ReplacementsLong(d);
    }
  }

  lemma ReplacementsMid(d: string)
    requires AllDigits(d) && 4 <= |d| <= 6
    ensures DashBeforeEnd(DotAfterThree(DotAfterThree(d))) == Punctuate(d)
  {
    var a := d[..3];
    var b := d[3..];
    assert AllDigits(b);
    DotAfterThreeDigits(d);
    DotAfterThreeSkips(a, b);
    DotAfterThreeDigits(b);
    DashBeforeEndSkips(a, b);
    DashBeforeEndDigits(b);
  }

  lemma ReplacementsLong(d: string)
    requires AllDigits(d) && 7 <= |d| <= MaxDigits
    ensures DashBeforeEnd(DotAfterThree(DotAfterThree(d))) == Punctuate(d)
  {
    TwoDots(d);
    DashStep(d);
  }

  lemma DashStep(d: string)
    requires AllDigits(d) && 7 <= |d| <= MaxDigits
    ensures DashBeforeEnd(d[..3] + "." + d[3..6] + "." + d[6..]) == Punctuate(d)
  {
    var head := d[..3] + "." + d[3..6];
    var c := d[6..];
    assert AllDigits(c);
    DashOnTail(head, c);
    if |d| >= 10 {
      assert c[..3] == d[6..9] && c[3..] == d[9..];
    }
  }

  lemma DashOnTail(head: string, c: string)
    requires AllDigits(c) && |c| <= 5
    ensures DashBeforeEnd(head + "." + c) == head + "." + (if |c| >= 4 then c[..3] + "-" + c[3..] else c)
  {
    DashBeforeEndSkips(head, c);
    DashBeforeEndDigits(c);
  }

  lemma TwoDots(d: string)
    requires AllDigits(d) && 7 <= |d|
    ensures DotAfterThree(DotAfterThree(d)) == d[..3] + "." + d[3..6] + "." + d[6..]
  {
    var a, b := d[..3], d[3..];
    var b1, b2 := d[3..6], d[6..];
    var once := DotAfterThree(d);
    assert once == a + "." + b by {
      DotAfterThreeDigits(d);
    }
    assert DotAfterThree(b) == b1 + "." + b2 by {
      assert AllDigits(b) && b[..3] == b1 && b[3..] == b2;
      DotAfterThreeDigits(b);
    }
    assert DotAfterThree(once) == a + "." + (b1 + "." + b2) by {
      DotAfterThreeSkips(a, b);
    }
    assert a + "." + (b1 + "." + b2) == a + "." + b1 + "." + b2;
  }

  lemma DigitsOfSeparated(a: string, sep: char, b: string)
    requires !IsDigit(sep)
    ensures DigitsOf(a + [sep] + b) == DigitsOf(a) + DigitsOf(b)
  {
    DigitsOfConcat(a, [sep]);
    DigitsOfConcat(a + [sep], b);
    assert DigitsOf([sep]) == [] by { assert [sep][..0] == []; }
  }

  /** The punctuation adds no digits and loses none. */
  lemma PunctuateKeepsDigits(d: string)
    requires AllDigits(d) && |d| <= MaxDigits
    ensures DigitsOf(Punctuate(d)) == d
    ensures |Punctuate(d)| <= MaxLength
  {
    if |d| <= 3 {
      DigitsOfAllDigits(d);
    } else if |d| <= 6 {
      DigitsOfGroups(d[..3], d[3..]);
      assert d[..3] + d[3..] == d;
    } else if |d| <= 9 {
      DigitsOfGroups(d[..3], d[3..6]);
      DigitsOfSeparated(d[..3] + "." + d[3..6], '.', d[6..]);
      assert AllDigits(d[6..]);
      DigitsOfAllDigits(d[6..]);
      assert d[..3] + d[3..6] + d[6..] == d;
    } else {
      DigitsOfGroups(d[..3], d[3..6]);
      DigitsOfSeparated(d[..3] + "." + d[3..6], '.', d[6..9]);
      DigitsOfSeparated(d[..3] + "." + d[3..6] + "." + d[6..9], '-', d[9..]);
      assert AllDigits(d[6..9]) && AllDigits(d[9..]);
      DigitsOfAllDigits(d[6..9]);
      DigitsOfAllDigits(d[9..]);
      assert d[..3] + d[3..6] + d[6..9] + d[9..] == d;
    }
  }

  lemma DigitsOfGroups(a: string, b: string)
    requires AllDigits(a) && AllDigits(b)
    ensures DigitsOf(a + "." + b) == a + b
  {
    DigitsOfAllDigits(a);
    DigitsOfAllDigits(b);
    DigitsOfSeparated(a, '.', b);
  }

  /** The masked value holds exactly the first eleven digits typed, in
      order; cleaning it on submit gives them back; it never exceeds the
      field's 14 characters. */
  lemma MaskKeepsDigits(input: string)
    ensures DigitsOf(Mask(input)) == Take(DigitsOf(input), MaxDigits)
    ensures Clean(Mask(input)) == Take(DigitsOf(input), MaxDigits)
    ensures |Mask(input)| <= MaxLength
  {
    MaskIsPunctuate(input);
    PunctuateKeepsDigits(Take(DigitsOf(input), MaxDigits));
  }

  /** Typing into an already masked field and masking again changes
      nothing. */
  lemma MaskIdempotent(input: string)
    ensures Mask(Mask(input)) == Mask(input)
  {
    MaskKeepsDigits(input);
    var d := Take(DigitsOf(input), MaxDigits);
    assert Take(d, MaxDigits) == d;
  }

  /** Up to three digits come back without separators. */
  lemma ShortInputUnpunctuated(input: string)
    requires |DigitsOf(input)| <= 3
    ensures Mask(input) == DigitsOf(input)
  {
    MaskIsPunctuate(input);
  }

  /** Eleven digits come back as ddd.ddd.ddd-dd. */
  lemma FullInputShape(input: string)
    requires |DigitsOf(input)| >= MaxDigits
    ensures var m := Mask(input);
            |m| == MaxLength && m[3] == '.' && m[7] == '.' && m[11] == '-'
            && forall k :: 0 <= k < MaxLength && k != 3 && k != 7 && k != 11 ==> IsDigit(m[k])
  {
    MaskIsPunctuate(input);
    var d := Take(DigitsOf(input), MaxDigits);
    assert |d| == 11 && AllDigits(d);
  }
}

=== FILE: dashboard.dfy ===
/** `DashboardService.getDashboardV2Data`: the 30-day spending chart, the
    month's totals against last month's, last month's top categories, the
    latest transactions, the bills due soon and the net worth with its
    change since the start of the month. `LocalDate.now()` is the
    parameter `now`. */
module Dashboard {
  import opened Wrappers
  import opened Seqs
  import opened Calendar
  import opened Money
  import opened Grouping
  import opened Domain
  import opened TransactionQueries
  import opened Reports
  import opened TopCategories
  import opened TransactionView
  import opened Accounts

  /* ---------------------------------------------------------------- */
  /* Spending pace: the last 30 days                                  */
  /* ---------------------------------------------------------------- */

  /** `ChartDataDTO`: a "dd/MM" label and that day's total. */
  datatype ChartData = ChartData(date: string, total: int)

  function ChartTotal(c: ChartData): int { c.total }

  const ChartDays: nat := 30

  /** The first day of the chart, 29 days before today. */
  function WindowStart(now: Date): Date { MinusDays(now, ChartDays - 1) }

  /** The day at position i of the chart. */
  function ChartDay(now: Date, i: nat): Date { PlusDays(WindowStart(now), i) }

  /** The EXPENSE rows dated inside the window. */
  function WindowRows(ts: seq<Transaction>, user: UserId, now: Date): seq<Transaction> {
    FindByTypeAndDateRange(ts, user, WindowStart(now), now, Expense)
  }

  /** One entry per day of the window, days without expenses included, each
      holding the EXPENSE sum of its day. */
  function DailyExpenses(ts: seq<Transaction>, user: UserId, now: Date): (r: seq<ChartData>)
    ensures |r| == ChartDays
    ensures forall i :: 0 <= i < |r| ==>
              && r[i].date == FormatDdMm(ChartDay(now, i))
              && r[i].total == KeySum(WindowRows(ts, user, now), TxDate, Amount, ChartDay(now, i))
  {
    var byDay := GroupSum(WindowRows(ts, user, now), TxDate, Amount);
    seq(ChartDays, i requires 0 <= i < ChartDays => ChartData(FormatDdMm(ChartDay(now, i)), TotalOf(byDay, ChartDay(now, i))))
  }

  /** The chart walks the calendar one day at a time and ends today, so its
      days are the window from today - 29 to today with none repeated. */
  lemma ChartDaysAreTheWindow(now: Date)
    ensures ChartDay(now, ChartDays - 1) == now
    ensures forall i :: 0 <= i < ChartDays - 1 ==> ChartDay(now, i + 1) == NextDay(ChartDay(now, i))
    ensures Days(WindowStart(now), now) == seq(ChartDays, i requires 0 <= i < ChartDays => ChartDay(now, i))
  {
    PlusMinusDays(now, ChartDays - 1);
    DaysAhead(WindowStart(now), ChartDays - 1);
  }

  /** Every EXPENSE of the window is drawn exactly once: the daily totals
      add up to the window's EXPENSE sum. */
  lemma DailyExpensesAddUp(ts: seq<Transaction>, user: UserId, now: Date)
    ensures SumBy(DailyExpenses(ts, user, now), ChartTotal) == SumWhere(ts, KindInRange(user, Expense, WindowStart(now), now))
  {
    var rows := WindowRows(ts, user, now);
    var days := Days(WindowStart(now), now);
    var r := DailyExpenses(ts, user, now);
    ChartDaysAreTheWindow(now);
    DaysCover(WindowStart(now), now);
    SumByMap(r, days, ChartTotal, KeySumOf(rows, TxDate, Amount));
    KeySumsCover(rows, TxDate, Amount, days);
    SumWhereIsFilteredSum(ts, KindInRange(user, Expense, WindowStart(now), now));
  }

  /* ---------------------------------------------------------------- */
  /* Monthly totals and the change against last month                 */
  /* ---------------------------------------------------------------- */

  function OfKind(kind: TxType): Transaction -> bool {
    (t: Transaction) => t.kind == kind
  }

  /** `.filter(t -> t.getType() == kind).map(getAmount).reduce(ZERO, add)`. */
  function KindTotal(rows: seq<Transaction>, kind: TxType): int {
    SumBy(Filter(rows, OfKind(kind)), Amount)
  }

  /** The user's rows of the month of `d`. */
  function MonthRows(ts: seq<Transaction>, user: UserId, year: int, month: int): seq<Transaction>
    requires 1 <= month <= 12
  {
    FindByDateRange(ts, user, FirstDayOfMonth(year, month), LastDayOfMonth(year, month))
  }

  function KindOfMonth(user: UserId, kind: TxType, year: int, month: int): Transaction -> bool {
    (t: Transaction) => t.owner == user && t.kind == kind && t.date.year == year && t.date.month == month
  }

  /** Totalling a type over the month's rows is summing that type over the
      user's rows dated in that month. */
  lemma MonthKindTotal(ts: seq<Transaction>, user: UserId, kind: TxType, year: int, month: int)
    requires 1 <= month <= 12
    ensures KindTotal(MonthRows(ts, user, year, month), kind) == SumWhere(ts, KindOfMonth(user, kind, year, month))
  {
    var first := FirstDayOfMonth(year, month);
    var last := LastDayOfMonth(year, month);
    var rows := MonthRows(ts, user, year, month);
    SumWhereIsFilteredSum(rows, OfKind(kind));
    forall t: Transaction {
      MonthRangeExact(t.date, year, month);
    }
    TypedRowsSum(ts, UserInRange(user, first, last), kind, KindOfMonth(user, kind, year, month));
  }

  /** Filtering twice sums like filtering once by the conjunction. */
  lemma {:induction false} TypedRowsSum(ts: seq<Transaction>, p: Transaction -> bool, kind: TxType, q: Transaction -> bool)
    requires forall k :: 0 <= k < |ts| ==> q(ts[k]) == (p(ts[k]) && ts[k].kind == kind)
    ensures SumWhere(Filter(ts, p), OfKind(kind)) == SumWhere(ts, q)
    decreases |ts|
  {
    if |ts| > 0 {
      var ts' := ts[..|ts| - 1];
      TypedRowsSum(ts', p, kind, q);
      if p(ts[|ts| - 1]) {
        assert Filter(ts, p) == Filter(ts', p) + [ts[|ts| - 1]];
        assert (Filter(ts', p) + [ts[|ts| - 1]])[..|Filter(ts', p)|] == Filter(ts', p);
      }
    }
  }

  /** The spending change in hundredths of a percent: zero unless last
      month's spending is positive, otherwise (current - previous) /
      previous rounded HALF_UP to four places, times 100. */
  function SpendingChange(current: int, previous: int): (p: int)
    ensures previous <= 0 ==> p == 0
    ensures previous > 0 ==> 2 * Abs(p * previous - (current - previous) * 10000) <= previous
    ensures previous > 0 && current >= previous ==> p >= 0
    ensures previous > 0 && current < previous ==> p <= 0
    ensures previous > 0 && current == previous ==> p == 0
    ensures previous > 0 && current == 2 * previous ==> p == 10000
  {
    if previous > 0 then
      DoubledIsHundredPercent(current, previous);
      PercentHundredths(current - previous, previous)
    else 0
  }

  lemma DoubledIsHundredPercent(current: int, previous: int)
    requires previous > 0
    ensures current == 2 * previous ==> PercentHundredths(current - previous, previous) == 10000
  {
    if current == 2 * previous {
      PercentOfWhole(previous);
    }
  }

  /** The month figures of the dashboard. */
  datatype MonthFigures = MonthFigures(
    totalSpentCurrentMonth: int,
    spendingChangePercentage: int,
    monthlyIncome: int,
    monthlyExpense: int,
    monthlyResult: int)

  /** This month's EXPENSE and INCOME totals, their difference, and the
      change in spending against the month before. */
  function MonthlyFigures(ts: seq<Transaction>, user: UserId, now: Date): (f: MonthFigures)
    ensures f.totalSpentCurrentMonth == SumWhere(ts, KindOfMonth(user, Expense, now.year, now.month))
    ensures f.monthlyIncome == SumWhere(ts, KindOfMonth(user, Income, now.year, now.month))
    ensures f.monthlyExpense == f.totalSpentCurrentMonth
    ensures f.monthlyResult == f.monthlyIncome - f.monthlyExpense
    ensures var (py, pm) := PrevMonth(now.year, now.month);
            f.spendingChangePercentage
              == SpendingChange(f.totalSpentCurrentMonth, SumWhere(ts, KindOfMonth(user, Expense, py, pm)))
  {
    var (py, pm) := PrevMonth(now.year, now.month);
    var current := MonthRows(ts, user, now.year, now.month);
    var previous := MonthRows(ts, user, py, pm);
    MonthKindTotal(ts, user, Expense, now.year, now.month);
    MonthKindTotal(ts, user, Income, now.year, now.month);
    MonthKindTotal(ts, user, Expense, py, pm);
    var spent := KindTotal(current, Expense);
    var income := KindTotal(current, Income);
    MonthFigures(spent, SpendingChange(spent, KindTotal(previous, Expense)), income, spent, income - spent)
  }

  /** An INCOME booked this month raises the income and the result by its
      amount and leaves the spending figures alone. */
  lemma IncomeMovesResult(ts: seq<Transaction>, user: UserId, now: Date, t: Transaction)
    requires t.owner == user && t.kind == Income && t.date.year == now.year && t.date.month == now.month
    ensures var before := MonthlyFigures(ts, user, now);
            var after := MonthlyFigures(ts + [t], user, now);
            && after.monthlyIncome == before.monthlyIncome + t.amount
            && after.monthlyResult == before.monthlyResult + t.amount
            && after.totalSpentCurrentMonth == before.totalSpentCurrentMonth
            && after.spendingChangePercentage == before.spendingChangePercentage
  {
    assert (ts + [t])[..|ts|] == ts;
    var (py, pm) := PrevMonth(now.year, now.month);
    assert SumWhere(ts + [t], KindOfMonth(user, Expense, py, pm)) == SumWhere(ts, KindOfMonth(user, Expense, py, pm));
  }

  /* ---------------------------------------------------------------- */
  /* Net worth                                                        */
  /* ---------------------------------------------------------------- */

  /** `NetWorthDataDTO`: the percentage is in hundredths of a percent. */
  datatype NetWorthData = NetWorthData(totalBalance: int, totalAssets: int, netWorth: int, percentageChange: int)

  function BalanceIn(ts: seq<Transaction>): Account -> int {
    (a: Account) => Balance(ts, a)
  }

  /** The sum of the balances of the user's accounts. */
  function AccountsTotal(st: Store, user: UserId): int {
    SumBy(Filter(st.accounts, OwnedBy(user)), BalanceIn(st.transactions))
  }

  function AssetOf(user: UserId): Asset -> bool {
    (a: Asset) => a.owner == user
  }

  /** `.map(Asset::getValue)`: the possibly-null values, in order. */
  function AssetValues(assets: seq<Asset>): (r: seq<Option<int>>)
    ensures |r| == |assets| && forall k :: 0 <= k < |assets| ==> r[k] == assets[k].value
  {
    seq(|assets|, k requires 0 <= k < |assets| => assets[k].value)
  }

  /** `.filter(Objects::nonNull)`: the values present, in order. */
  function Present(vs: seq<Option<int>>): (r: seq<int>)
    ensures |r| <= |vs|
    decreases |vs|
  {
    if |vs| == 0 then []
    else
      var last := vs[|vs| - 1];
      Present(vs[..|vs| - 1]) + (if last.Some? then [last.value] else [])
  }

  function IntValue(x: int): int { x }

  function OrZero(v: Option<int>): int { v.GetOr(0) }

  /** Dropping the nulls and adding up is adding up with nulls as zero. */
  lemma {:induction false} PresentSum(vs: seq<Option<int>>)
    ensures SumBy(Present(vs), IntValue) == SumBy(vs, OrZero)
    decreases |vs|
  {
    if |vs| > 0 {
      var last := vs[|vs| - 1];
      PresentSum(vs[..|vs| - 1]);
      if last.Some? {
        SumByConcat(Present(vs[..|vs| - 1]), [last.value], IntValue);
        SumBySingleton(last.value, IntValue);
      } else {
        assert Present(vs) == Present(vs[..|vs| - 1]);
      }
    }
  }

  /** The sum of the user's non-null asset values. */
  function AssetsTotal(st: Store, user: UserId): int {
    SumBy(Present(AssetValues(Filter(st.assets, AssetOf(user)))), IntValue)
  }

  function AssetWorth(a: Asset): int { a.value.GetOr(0) }

  /** The assets count at their value, and an asset without one counts as
      nothing. */
  lemma AssetsTotalIsSum(st: Store, user: UserId)
    ensures AssetsTotal(st, user) == SumBy(Filter(st.assets, AssetOf(user)), AssetWorth)
  {
    var mine := Filter(st.assets, AssetOf(user));
    PresentSum(AssetValues(mine));
    SumByMap(AssetValues(mine), mine, OrZero, AssetWorth);
  }

  function ListedBalance(v: AccountView): int { v.currentBalance }

  /** The dashboard's account total agrees with the account listing: it is
      the sum of the `currentBalance` of every account the user is shown. */
  lemma AccountsTotalMatchesListing(st: Store, user: UserId)
    ensures AccountsTotal(st, user) == SumBy(AccountsOf(st, user), ListedBalance)
  {
    var mine := Filter(st.accounts, OwnedBy(user));
    SumByMap(mine, AccountsOf(st, user), BalanceIn(st.transactions), ListedBalance);
  }

  /** `calculateNetWorth`: the net worth is accounts plus assets; the net
      worth at the start of the month is recovered by taking this month's
      income minus expense back out; the change is measured against that
      start, is 100% when the start is zero but the net worth is not, and
      0 when both are zero. */
  function NetWorth(st: Store, user: UserId, monthlyIncome: int, monthlyExpense: int): (n: NetWorthData)
    ensures n.totalBalance == AccountsTotal(st, user)
    ensures n.totalAssets == AssetsTotal(st, user)
    ensures n.netWorth == n.totalBalance + n.totalAssets
    ensures var start := n.netWorth - (monthlyIncome - monthlyExpense);
            && (start != 0 ==> 2 * Abs(n.percentageChange * start - (monthlyIncome - monthlyExpense) * 10000) <= Abs(start))
            && (start == 0 && n.netWorth != 0 ==> n.percentageChange == 10000)
            && (start == 0 && n.netWorth == 0 ==> n.percentageChange == 0)
            && (start != 0 && (monthlyIncome - monthlyExpense >= 0) == (start > 0) ==> n.percentageChange >= 0)
            && (start != 0 && (monthlyIncome - monthlyExpense >= 0) != (start > 0) ==> n.percentageChange <= 0)
  {
    var accounts := AccountsTotal(st, user);
    var assets := AssetsTotal(st, user);
    var current := accounts + assets;
    var start := current - (monthlyIncome - monthlyExpense);
    var change :=
      if start != 0 then PercentHundredths(current - start, start)
      else if current != 0 then 10000
      else 0;
    NetWorthData(accounts, assets, current, change)
  }

  /** A month whose income equals its expense shows no change, whatever the
      net worth. */
  lemma FlatMonthNoChange(st: Store, user: UserId, amount: int)
    ensures NetWorth(st, user, amount, amount).percentageChange == 0
  {
    var n := NetWorth(st, user, amount, amount);
    if n.netWorth != 0 {
      var p := n.percentageChange;
      assert 2 * Abs(p * n.netWorth) <= Abs(n.netWorth);
      ProductMagnitude(p, n.netWorth);
    }
  }

  /* ---------------------------------------------------------------- */
  /* Recent transactions                                              */
  /* ---------------------------------------------------------------- */

  const RecentLimit: nat := 5
  const RecentDays: nat := 7

  /** The user's rows dated from a week ago on, newest first. */
  function RecentRows(ts: seq<Transaction>, user: UserId, now: Date): seq<Transaction> {
    FindRecent(ts, user, MinusDays(now, RecentDays))
  }

  /** `findRecentTransactionsByUser(user, now.minusDays(7))`, the first five
      in the shape they are listed in. */
  function RecentTransactions(st: Store, user: UserId, now: Date): (r: seq<TransactionDto>)
    requires forall k :: 0 <= k < |st.transactions| ==> Resolves(st, st.transactions[k])
    ensures |r| <= RecentLimit
    ensures |r| == RecentLimit || |r| == |RecentRows(st.transactions, user, now)|
    ensures forall k :: 0 <= k < |r| ==>
              k < |RecentRows(st.transactions, user, now)| && r[k] == FromEntity(st, RecentRows(st.transactions, user, now)[k])
  {
    var rows := RecentRows(st.transactions, user, now);
    RecentRowsResolve(st, user, now);
    var shown := Take(rows, RecentLimit);
    seq(|shown|, k requires 0 <= k < |shown| => FromEntity(st, shown[k]))
  }

  /** The recent rows are rows of the store, so their links resolve. */
  lemma RecentRowsResolve(st: Store, user: UserId, now: Date)
    requires forall k :: 0 <= k < |st.transactions| ==> Resolves(st, st.transactions[k])
    ensures forall k :: 0 <= k < |RecentRows(st.transactions, user, now)| ==>
              Resolves(st, RecentRows(st.transactions, user, now)[k])
  {
    var rows := RecentRows(st.transactions, user, now);
    FindRecentSpec(st.transactions, user, MinusDays(now, RecentDays));
    forall k | 0 <= k < |rows|
      ensures Resolves(st, rows[k])
    {
      assert rows[k] in rows;
      var j :| 0 <= j < |st.transactions| && st.transactions[j] == rows[k];
    }
  }

  predicate IsRecent(user: UserId, now: Date, t: Transaction) {
    t.owner == user && Key(t.date) >= Key(MinusDays(now, RecentDays))
  }

  /** An entry of the list that some recent transaction of the user's is
      shown as. */
  predicate ShowsRecent(st: Store, user: UserId, now: Date, d: TransactionDto) {
    exists t :: t in st.transactions && IsRecent(user, now, t) && Resolves(st, t) && d == FromEntity(st, t)
  }

  /** The list shows only the user's transactions of the last week on,
      later dates included. */
  lemma RecentFromLastWeek(st: Store, user: UserId, now: Date)
    requires forall k :: 0 <= k < |st.transactions| ==> Resolves(st, st.transactions[k])
    ensures var r := RecentTransactions(st, user, now);
            forall k :: 0 <= k < |r| ==> ShowsRecent(st, user, now, r[k])
  {
    var r := RecentTransactions(st, user, now);
    var rows := RecentRows(st.transactions, user, now);
    FindRecentSpec(st.transactions, user, MinusDays(now, RecentDays));
    forall k | 0 <= k < |r|
      ensures ShowsRecent(st, user, now, r[k])
    {
      var t := rows[k];
      assert t in rows;
      assert Resolves(st, t) && r[k] == FromEntity(st, t);
    }
  }

  /** Newest first. */
  lemma RecentNewestFirst(st: Store, user: UserId, now: Date)
    requires forall k :: 0 <= k < |st.transactions| ==> Resolves(st, st.transactions[k])
    ensures var r := RecentTransactions(st, user, now);
            forall i, j :: 0 <= i < j < |r| ==> Key(r[j].date) <= Key(r[i].date)
  {
    var r := RecentTransactions(st, user, now);
    var rows := RecentRows(st.transactions, user, now);
    FindRecentSpec(st.transactions, user, MinusDays(now, RecentDays));
    forall i, j | 0 <= i < j < |r|
      ensures Key(r[j].date) <= Key(r[i].date)
    {
      assert DateKey(rows[j]) <= DateKey(rows[i]);
    }
  }

  /** A list shorter than five leaves none of the week's transactions out. */
  lemma RecentCompleteWhenShort(st: Store, user: UserId, now: Date)
    requires forall k :: 0 <= k < |st.transactions| ==> Resolves(st, st.transactions[k])
    ensures var r := RecentTransactions(st, user, now);
            |r| < RecentLimit ==>
              forall t :: t in st.transactions && IsRecent(user, now, t) ==>
                exists k :: 0 <= k < |r| && r[k] == FromEntity(st, t)
  {
    var r := RecentTransactions(st, user, now);
    var rows := RecentRows(st.transactions, user, now);
    FindRecentSpec(st.transactions, user, MinusDays(now, RecentDays));
    if |r| < RecentLimit {
      forall t | t in st.transactions && IsRecent(user, now, t)
        ensures exists k :: 0 <= k < |r| && r[k] == FromEntity(st, t)
      {
        assert t in rows;
        var k :| 0 <= k < |rows| && rows[k] == t;
        assert r[k] == FromEntity(st, t);
      }
    }
  }

  /* ---------------------------------------------------------------- */
  /* Upcoming bills                                                   */
  /* ---------------------------------------------------------------- */

  const UpcomingDays: nat := 14

  function DueFirst(r: RecurringTransaction): int { -r.dueDay }

  /** The filter as written: `dueDay >= today's day` and `dueDay <= the day
      of today + 14`. Across a month end the second bound is a small day
      number of the next month. */
  function DueInWindowAsWritten(user: UserId, now: Date): RecurringTransaction -> bool {
    (r: RecurringTransaction) => r.owner == user && r.dueDay >= now.day && r.dueDay <= PlusDays(now, UpcomingDays).day
  }

  /** The upcoming list as written: the user's recurring rows passing that
      filter, sorted by due day ascending (a stable sort). */
  function UpcomingAsWritten(rs: seq<RecurringTransaction>, user: UserId, now: Date): (r: seq<RecurringTransaction>)
    ensures forall k :: 0 <= k < |r| ==> r[k] in rs && DueInWindowAsWritten(user, now)(r[k])
    ensures forall x :: x in rs && DueInWindowAsWritten(user, now)(x) ==> x in r
    ensures forall i, j :: 0 <= i < j < |r| ==> r[i].dueDay <= r[j].dueDay
  {
    var p := DueInWindowAsWritten(user, now);
    var r := SortDesc(Filter(rs, p), DueFirst);
    SortedFilterMembers(rs, p, DueFirst);
    assert forall i, j :: 0 <= i < j < |r| ==> DueFirst(r[i]) >= DueFirst(r[j]);
    r
  }

  /** When today + 14 falls in the next month its day is below today's, no
      due day can lie between the two, and the list is empty: from the
      18th of a 31-day month on, nothing is ever upcoming. */
  lemma UpcomingEmptyAcrossMonthEnd(rs: seq<RecurringTransaction>, user: UserId, now: Date)
    requires PlusDays(now, UpcomingDays).day < now.day
    ensures UpcomingAsWritten(rs, user, now) == []
  {
    FilterNone(rs, DueInWindowAsWritten(user, now));
  }

  /** On 20 January 2024 a bill due on the 25th, five days later, is not
      listed: today + 14 is 3 February and 25 > 3. */
  lemma BillFiveDaysAwayMissed()
    ensures var now: Date := YMD(2024, 1, 20);
            var bill := RecurringTransaction(1, "Aluguel", 150000, Expense, None, "MONTHLY", 25, 7);
            && PlusDays(now, 5) == YMD(2024, 1, 25)
            && PlusDays(now, UpcomingDays) == YMD(2024, 2, 3)
            && UpcomingAsWritten([bill], 7, now) == []
  {
    var now: Date := YMD(2024, 1, 20);
    PlusDaysSameMonth(now, 5);
    PlusDaysSameMonth(now, 11);
    assert PlusDays(now, 11) == YMD(2024, 1, 31);
    assert PlusDays(now, 12) == YMD(2024, 2, 1);
    assert PlusDays(now, 13) == YMD(2024, 2, 2);
    assert PlusDays(now, 14) == YMD(2024, 2, 3);
    UpcomingEmptyAcrossMonthEnd([RecurringTransaction(1, "Aluguel", 150000, Expense, None, "MONTHLY", 25, 7)], 7, now);
  }

  /** The first offset i in from..14 at which the day of today + i is the
      due day, if there is one. */
  function FirstDueFrom(now: Date, dueDay: int, from: nat): (r: Option<nat>)
    requires from <= UpcomingDays + 1
    ensures r.Some? ==> from <= r.value <= UpcomingDays && PlusDays(now, r.value).day == dueDay
    ensures r.Some? ==> forall j :: from <= j < r.value ==> PlusDays(now, j).day != dueDay
    ensures r.None? ==> forall j :: from <= j <= UpcomingDays ==> PlusDays(now, j).day != dueDay
    decreases UpcomingDays + 1 - from
  {
    if from > UpcomingDays then None
    else if PlusDays(now, from).day == dueDay then Some(from)
    else FirstDueFrom(now, dueDay, from + 1)
  }

  /** How many days until a bill due on `dueDay` falls due, when that is
      within the next 14 days. */
  function DaysUntilDue(now: Date, dueDay: int): (r: Option<nat>)
    ensures r.Some? ==> r.value <= UpcomingDays && PlusDays(now, r.value).day == dueDay
    ensures r.Some? ==> forall j :: 0 <= j < r.value ==> PlusDays(now, j).day != dueDay
    ensures r.None? <==> forall j :: 0 <= j <= UpcomingDays ==> PlusDays(now, j).day != dueDay
  {
    FirstDueFrom(now, dueDay, 0)
  }

  function DueWithinTwoWeeks(user: UserId, now: Date): RecurringTransaction -> bool {
    (r: RecurringTransaction) => r.owner == user && DaysUntilDue(now, r.dueDay).Some?
  }

  /** Sooner first: the fewer days until the due date, the larger the key. */
  function SoonerFirst(now: Date): RecurringTransaction -> int {
    (r: RecurringTransaction) => -(DaysUntilDue(now, r.dueDay).GetOr(UpcomingDays + 1) as int)
  }

  /** Some day of the next 14, today included, has `dueDay` as its day of
      the month. */
  ghost predicate ComesDueWithin(now: Date, dueDay: int) {
    exists j :: 0 <= j <= UpcomingDays && PlusDays(now, j).day == dueDay
  }

  lemma DaysUntilDueFound(now: Date, dueDay: int)
    ensures DaysUntilDue(now, dueDay).Some? <==> ComesDueWithin(now, dueDay)
  {
    var r := DaysUntilDue(now, dueDay);
    if r.Some? {
      assert PlusDays(now, r.value).day == dueDay;
    }
  }

  /** The upcoming list as intended: the user's recurring rows whose due
      day comes up in the next 14 days, month end or not, soonest first. */
  function Upcoming(rs: seq<RecurringTransaction>, user: UserId, now: Date): (r: seq<RecurringTransaction>)
    ensures forall k :: 0 <= k < |r| ==> r[k] in rs && DueWithinTwoWeeks(user, now)(r[k])
    ensures forall x :: x in rs && DueWithinTwoWeeks(user, now)(x) ==> x in r
    ensures forall i, j :: 0 <= i < j < |r| ==>
              DaysUntilDue(now, r[i].dueDay).GetOr(0) <= DaysUntilDue(now, r[j].dueDay).GetOr(0)
  {
    var p := DueWithinTwoWeeks(user, now);
    var r := SortDesc(Filter(rs, p), SoonerFirst(now));
    SortedFilterMembers(rs, p, SoonerFirst(now));
    SoonestFirst(r, user, now);
    r
  }

  /** Among rows that all come due within two weeks, the sooner-first
      order is ascending days until due. */
  lemma SoonestFirst(r: seq<RecurringTransaction>, user: UserId, now: Date)
    requires forall k :: 0 <= k < |r| ==> DueWithinTwoWeeks(user, now)(r[k])
    requires SortedDesc(r, SoonerFirst(now))
    ensures forall i, j :: 0 <= i < j < |r| ==>
              DaysUntilDue(now, r[i].dueDay).GetOr(0) <= DaysUntilDue(now, r[j].dueDay).GetOr(0)
  {
    forall i, j | 0 <= i < j < |r|
      ensures DaysUntilDue(now, r[i].dueDay).GetOr(0) <= DaysUntilDue(now, r[j].dueDay).GetOr(0)
    {
      assert SoonerFirst(now)(r[i]) >= SoonerFirst(now)(r[j]);
      assert DueWithinTwoWeeks(user, now)(r[i]) && DueWithinTwoWeeks(user, now)(r[j]);
    }
  }

  /** What the intended list holds: exactly the user's recurring rows whose
      due day is the day of the month of one of the next 14 days. */
  lemma UpcomingMembers(rs: seq<RecurringTransaction>, user: UserId, now: Date, x: RecurringTransaction)
    ensures x in Upcoming(rs, user, now) <==> x in rs && x.owner == user && ComesDueWithin(now, x.dueDay)
  {
    DaysUntilDueFound(now, x.dueDay);
    if x in Upcoming(rs, user, now) {
      var r := Upcoming(rs, user, now);
      var k :| 0 <= k < |r| && r[k] == x;
    }
  }

  /** Inside one month the day of today + j is today's day + j, so the
      days until a due day are its distance from today. */
  lemma DaysUntilDueInMonth(now: Date, dueDay: int)
    requires now.day + UpcomingDays <= LengthOfMonth(now.year, now.month)
    ensures DaysUntilDue(now, dueDay) == if now.day <= dueDay <= now.day + UpcomingDays then Some(dueDay - now.day) else None
  {
    var r := DaysUntilDue(now, dueDay);
    if now.day <= dueDay <= now.day + UpcomingDays {
      PlusDaysSameMonth(now, dueDay - now.day);
    }
    if r.Some? {
      PlusDaysSameMonth(now, r.value);
    }
  }

  /** Away from a month end the code as written and the intended list
      agree, order included. */
  lemma UpcomingAgreesWithinMonth(rs: seq<RecurringTransaction>, user: UserId, now: Date)
    requires now.day + UpcomingDays <= LengthOfMonth(now.year, now.month)
    ensures Upcoming(rs, user, now) == UpcomingAsWritten(rs, user, now)
  {
    PlusDaysSameMonth(now, UpcomingDays);
    forall k | 0 <= k < |rs|
      ensures DueWithinTwoWeeks(user, now)(rs[k]) == DueInWindowAsWritten(user, now)(rs[k])
    {
      DaysUntilDueInMonth(now, rs[k].dueDay);
    }
    FilterAgree(rs, DueWithinTwoWeeks(user, now), DueInWindowAsWritten(user, now));
    var due := Filter(rs, DueInWindowAsWritten(user, now));
    forall k | 0 <= k < |due|
      ensures SoonerFirst(now)(due[k]) == DueFirst(due[k]) + now.day
    {
      DaysUntilDueInMonth(now, due[k].dueDay);
    }
    SortDescShift(due, DueFirst, SoonerFirst(now), now.day);
  }

  /* ---------------------------------------------------------------- */
  /* The whole dashboard                                              */
  /* ---------------------------------------------------------------- */

  const TopLimit: nat := 5

  /** `DashboardV2DTO` without its two lists that are always empty. */
  datatype DashboardData = DashboardData(
    dailyExpenses: seq<ChartData>,
    figures: MonthFigures,
    topCategories: seq<Group<string>>,
    recentTransactions: seq<TransactionDto>,
    upcomingExpenses: seq<RecurringTransaction>,
    netWorthData: NetWorthData)

  /** Last month's ranking: every row of the previous month, ranked by
      category name, five at most. */
  function LastMonthTop(st: Store, user: UserId, now: Date, limit: nat): (r: seq<Group<string>>)
    ensures |r| <= limit && SortedDesc(r, GroupTotal) && DistinctBy(r, GroupKey)
    ensures var (py, pm) := PrevMonth(now.year, now.month);
            var rows := FindAllByDateRange(st.transactions, user, FirstDayOfMonth(py, pm), LastDayOfMonth(py, pm));
            r == Top(rows, st.categories, limit)
  {
    var (py, pm) := PrevMonth(now.year, now.month);
    Top(FindAllByDateRange(st.transactions, user, FirstDayOfMonth(py, pm), LastDayOfMonth(py, pm)), st.categories, limit)
  }

  /** A row of last month counts toward the ranking exactly when it is the
      user's and is an EXPENSE or has a negative amount. */
  lemma LastMonthRowsCounted(st: Store, user: UserId, now: Date, t: Transaction)
    ensures var (py, pm) := PrevMonth(now.year, now.month);
            var rows := FindAllByDateRange(st.transactions, user, FirstDayOfMonth(py, pm), LastDayOfMonth(py, pm));
            t in Filter(rows, Spending()) <==>
              t in st.transactions && t.owner == user && t.date.year == py && t.date.month == pm
              && (t.kind == Expense || t.amount < 0)
  {
    var (py, pm) := PrevMonth(now.year, now.month);
    var rows := FindAllByDateRange(st.transactions, user, FirstDayOfMonth(py, pm), LastDayOfMonth(py, pm));
    FilterMembership(rows, Spending(), t);
    MonthRangeExact(t.date, py, pm);
  }

  /** `getDashboardV2Data`, with the upcoming bills as intended: the
      source's own filter, `UpcomingAsWritten`, gives the same list while
      today + 14 days stays in the month and an empty one otherwise. */
  function GetDashboard(st: Store, user: UserId, now: Date): (d: DashboardData)
    requires forall k :: 0 <= k < |st.transactions| ==> Resolves(st, st.transactions[k])
    ensures |d.dailyExpenses| == ChartDays
    ensures d.figures == MonthlyFigures(st.transactions, user, now)
    ensures |d.topCategories| <= TopLimit && SortedDesc(d.topCategories, GroupTotal)
    ensures |d.recentTransactions| <= RecentLimit
    ensures d.upcomingExpenses == Upcoming(st.recurring, user, now)
    ensures now.day + UpcomingDays <= LengthOfMonth(now.year, now.month) ==>
              d.upcomingExpenses == UpcomingAsWritten(st.recurring, user, now)
    ensures d.netWorthData.netWorth == AccountsTotal(st, user) + AssetsTotal(st, user)
    ensures d.netWorthData == NetWorth(st, user, d.figures.monthlyIncome, d.figures.monthlyExpense)
  {
    var figures := MonthlyFigures(st.transactions, user, now);
    assert now.day + UpcomingDays <= LengthOfMonth(now.year, now.month) ==>
             Upcoming(st.recurring, user, now) == UpcomingAsWritten(st.recurring, user, now) by {
      if now.day + UpcomingDays <= LengthOfMonth(now.year, now.month) {
        UpcomingAgreesWithinMonth(st.recurring, user, now);
      }
    }
    DashboardData(
      DailyExpenses(st.transactions, user, now),
      figures,
      LastMonthTop(st, user, now, TopLimit),
      RecentTransactions(st, user, now),
      Upcoming(st.recurring, user, now),
      NetWorth(st, user, figures.monthlyIncome, figures.monthlyExpense))
  }
}

=== FILE: dashboard_page.dfy ===
/** `DashboardPage`: what the page draws from the dashboard payload (with
    its fallbacks for a missing payload), the chart series, the two
    cash-flow bars, the category bars and their colours, and the account
    total it adds up itself. */
module DashboardView {
  import opened Wrappers
  import opened Seqs
  import opened Calendar
  import opened Grouping
  import opened Domain
  import opened Accounts
  import opened Dashboard
  import opened TransactionView
  import opened TransactionQueries
  import opened JsNumbers
  import WalletView

  /** A point of the spending chart: `{ name: item.date, value: item.total || 0 }`. */
  datatype ChartPoint = ChartPoint(name: string, value: int)

  function PointValue(p: ChartPoint): int { p.value }

  /** The figures the page reads off the payload. */
  datatype View = View(
    income: int,
    expense: int,
    result: int,
    categories: seq<Group<string>>,
    chart: seq<ChartPoint>,
    netWorth: int,
    totalBalance: int,
    totalAssetsValue: int,
    netWorthChange: int)

  /** The fallbacks: with no payload every figure is 0 and every list
      empty; with one, each figure is the payload's (a number `|| 0` only
      changes 0 and NaN, and the payload's numbers are never NaN), and the
      chart keeps one point per day in the payload's order. */
  function Present(data: Option<DashboardData>): (v: View)
    ensures data.None? ==>
              && v.income == 0 && v.expense == 0 && v.result == 0
              && v.categories == [] && v.chart == []
              && v.netWorth == 0 && v.totalBalance == 0 && v.totalAssetsValue == 0 && v.netWorthChange == 0
    ensures data.Some? ==>
              && v.income == data.value.figures.monthlyIncome
              && v.expense == data.value.figures.monthlyExpense
              && v.result == data.value.figures.monthlyResult
              && v.categories == data.value.topCategories
              && v.netWorth == data.value.netWorthData.netWorth
              && v.totalBalance == data.value.netWorthData.totalBalance
              && v.totalAssetsValue == data.value.netWorthData.totalAssets
              && v.netWorthChange == data.value.netWorthData.percentageChange
    ensures data.Some? ==> |v.chart| == |data.value.dailyExpenses|
    ensures data.Some? ==> forall i :: 0 <= i < |v.chart| ==>
              v.chart[i].name == data.value.dailyExpenses[i].date && v.chart[i].value == data.value.dailyExpenses[i].total
  {
    match data
    case None => View(0, 0, 0, [], [], 0, 0, 0, 0)
    case Some(d) =>
      var chart := seq(|d.dailyExpenses|, i requires 0 <= i < |d.dailyExpenses| =>
                     ChartPoint(d.dailyExpenses[i].date, d.dailyExpenses[i].total));
      View(d.figures.monthlyIncome, d.figures.monthlyExpense, d.figures.monthlyResult, d.topCategories, chart,
           d.netWorthData.netWorth, d.netWorthData.totalBalance, d.netWorthData.totalAssets, d.netWorthData.percentageChange)
  }

  /** On the server's payload the chart has one point per day of the last
      30, labelled "dd/MM" and ending today, its values add up to the
      window's expenses, the result is income minus expense, and the net
      worth is balance plus assets. */
  lemma ServerDashboardView(st: Store, user: UserId, now: Date)
    requires forall k :: 0 <= k < |st.transactions| ==> Resolves(st, st.transactions[k])
    ensures var v := Present(Some(GetDashboard(st, user, now)));
            && |v.chart| == ChartDays
            && (forall i :: 0 <= i < |v.chart| ==> v.chart[i].name == FormatDdMm(ChartDay(now, i)))
            && SumBy(v.chart, PointValue) == SumWhere(st.transactions, KindInRange(user, Expense, WindowStart(now), now))
            && v.result == v.income - v.expense
            && v.netWorth == v.totalBalance + v.totalAssetsValue
  {
    var d := GetDashboard(st, user, now);
    assert d.dailyExpenses == DailyExpenses(st.transactions, user, now);
    ChartOfPayload(d);
    DailyExpensesAddUp(st.transactions, user, now);
  }

  /** The chart carries the payload's daily totals, so it adds up to
      their sum. */
  lemma ChartOfPayload(d: DashboardData)
    ensures SumBy(Present(Some(d)).chart, PointValue) == SumBy(d.dailyExpenses, ChartTotal)
  {
    SumByMap(Present(Some(d)).chart, d.dailyExpenses, PointValue, ChartTotal);
  }

  /** `totalAssets`: the page's own sum over the accounts list agrees with
      the balance part of the net worth the server sends. */
  lemma TotalAssetsMatchesNetWorthBalance(st: Store, user: UserId, now: Date)
    requires forall k :: 0 <= k < |st.transactions| ==> Resolves(st, st.transactions[k])
    ensures WalletView.ListedTotal(AccountsOf(st, user)) == Present(Some(GetDashboard(st, user, now))).totalBalance
  {
    AccountsTotalMatchesListing(st, user);
  }

  /* ---------------------------------------------------------------- */
  /* Bars                                                             */
  /* ---------------------------------------------------------------- */

  /** Where `x = a / m * 100` sits for a positive whole m. */
  lemma ShareOfPositive(a: int, m: int, x: real)
    requires m > 0 && x == a as real / m as real * 100.0
    ensures x * m as real == a as real * 100.0
    ensures a <= m ==> x <= 100.0
    ensures 0 <= a ==> 0.0 <= x
    ensures a == m ==> x == 100.0
  {
    var ar, mr := a as real, m as real;
    var q := ar / mr;
    assert q * mr == ar;
    assert x * mr == (q * mr) * 100.0;
    ScaleOrder(q, 1.0, mr);
    ScaleOrder(0.0, q, mr);
  }

  /** `(a / m) * 100` in JavaScript. */
  function PercentOf(a: int, m: int): (r: Num)
    ensures m > 0 ==> r.Finite? && r.v * m as real == a as real * 100.0
    ensures m > 0 && a <= m ==> r.Finite? && r.v <= 100.0
    ensures m > 0 && 0 <= a ==> r.Finite? && 0.0 <= r.v
    ensures m > 0 && a == m ==> r == Finite(100.0)
    ensures m == 0 && a == 0 ==> r == NaN
  {
    PercentOfPositive(a, m);
    Scale(Div(a as real, m as real), 100.0)
  }

  lemma PercentOfPositive(a: int, m: int)
    ensures m > 0 ==> Scale(Div(a as real, m as real), 100.0) == Finite(a as real / m as real * 100.0)
    ensures m > 0 ==> var x := a as real / m as real * 100.0;
              && x * m as real == a as real * 100.0
              && (a <= m ==> x <= 100.0)
              && (0 <= a ==> 0.0 <= x)
              && (a == m ==> x == 100.0)
  {
    if m > 0 {
      ShareOfPositive(a, m, a as real / m as real * 100.0);
    }
  }

  /** `incomeBarPercentage` and `expenseBarPercentage`. */
  datatype FlowBars = FlowBars(incomeBar: real, expenseBar: real)

  /** Both bars are scaled to the larger of the two flows, which is drawn
      full; when neither flow is positive both bars are empty. */
  function Bars(income: int, expense: int): (b: FlowBars)
    ensures income <= 0 && expense <= 0 ==> b == FlowBars(0.0, 0.0)
    ensures income > 0 || expense > 0 ==>
              var m := if income >= expense then income else expense;
              && b.incomeBar * m as real == income as real * 100.0
              && b.expenseBar * m as real == expense as real * 100.0
    ensures income > 0 && income >= expense ==> b.incomeBar == 100.0
    ensures expense > 0 && expense >= income ==> b.expenseBar == 100.0
    ensures 0 <= income && 0 <= expense ==> 0.0 <= b.incomeBar <= 100.0 && 0.0 <= b.expenseBar <= 100.0
  {
    var maxFlow := if income >= expense then income else expense;
    if maxFlow > 0 then
      var m := maxFlow as real;
      ShareOfPositive(income, maxFlow, income as real / m * 100.0);
      ShareOfPositive(expense, maxFlow, expense as real / m * 100.0);
      FlowBars(income as real / m * 100.0, expense as real / m * 100.0)
    else FlowBars(0.0, 0.0)
  }

  /** Position of a largest total (`Math.max(...totals)`). */
  function MaxIndex(cats: seq<Group<string>>): (k: nat)
    requires |cats| > 0
    ensures k < |cats|
    ensures forall i :: 0 <= i < |cats| ==> cats[i].total <= cats[k].total
    decreases |cats|
  {
    if |cats| == 1 then 0
    else
      var k := MaxIndex(cats[..|cats| - 1]);
      if cats[k].total >= cats[|cats| - 1].total then k else |cats| - 1
  }

  /** `(cat.totalAmount / maxAmount) * 100` for each category; nothing is
      drawn for an empty list. */
  function CategoryBars(cats: seq<Group<string>>): (r: seq<Num>)
    ensures |r| == |cats|
  {
    if |cats| == 0 then []
    else
      var m := cats[MaxIndex(cats)].total;
      seq(|cats|, i requires 0 <= i < |cats| => PercentOf(cats[i].total, m))
  }

  /** With a positive largest total every bar is finite and at most
      full, a largest one is exactly full and none is negative for a
      non-negative total; when the largest total is zero, a zero total
      draws a NaN bar. Each bar is `PercentOf` its total against the
      largest. */
  lemma CategoryBarsScale(cats: seq<Group<string>>)
    requires |cats| > 0
    ensures var m := cats[MaxIndex(cats)].total;
            m > 0 ==> CategoryBars(cats)[MaxIndex(cats)] == Finite(100.0)
    ensures var m := cats[MaxIndex(cats)].total;
            m > 0 ==> forall i :: 0 <= i < |cats| ==> CategoryBars(cats)[i].Finite? && CategoryBars(cats)[i].v <= 100.0
    ensures var m := cats[MaxIndex(cats)].total;
            m > 0 ==> forall i :: 0 <= i < |cats| && cats[i].total >= 0 ==> 0.0 <= CategoryBars(cats)[i].v
    ensures var m := cats[MaxIndex(cats)].total;
            m == 0 ==> forall i :: 0 <= i < |cats| && cats[i].total == 0 ==> CategoryBars(cats)[i] == NaN
  {
    var k := MaxIndex(cats);
    var m := cats[k].total;
    forall i | 0 <= i < |cats|
      ensures CategoryBars(cats)[i] == PercentOf(cats[i].total, m)
    {
    }
  }

  /** The server sends the categories largest first, so the first bar is
      the full one. */
  lemma FirstCategoryBarFull(st: Store, user: UserId, now: Date)
    requires forall k :: 0 <= k < |st.transactions| ==> Resolves(st, st.transactions[k])
    ensures var cats := Present(Some(GetDashboard(st, user, now))).categories;
            |cats| > 0 && cats[0].total > 0 ==> CategoryBars(cats)[0] == Finite(100.0)
  {
    var d := GetDashboard(st, user, now);
    var cats := d.topCategories;
    assert Present(Some(d)).categories == cats;
    if |cats| > 0 && cats[0].total > 0 {
      LeadingBarFull(cats);
    }
  }

  /** In a list sorted largest first with a positive leader, the first bar
      is the full one. */
  lemma LeadingBarFull(cats: seq<Group<string>>)
    requires SortedDesc(cats, GroupTotal) && |cats| > 0 && cats[0].total > 0
    ensures CategoryBars(cats)[0] == Finite(100.0)
  {
    CategoryBarsScale(cats);
    var k := MaxIndex(cats);
    assert cats[k].total == cats[0].total by {
      assert GroupTotal(cats[0]) >= GroupTotal(cats[k]);
    }
    assert CategoryBars(cats)[0] == PercentOf(cats[0].total, cats[k].total);
  }

  /* ---------------------------------------------------------------- */
  /* Colours                                                          */
  /* ---------------------------------------------------------------- */

  const Palette: seq<string> := ["#3b82f6", "#f59e0b", "#10b981", "#8b5cf6", "#ef4444"]

  /** `colors[index % colors.length]`. */
  function CategoryColour(index: nat): (c: string)
    ensures c in Palette
  {
    Palette[index % |Palette|]
  }

  /** The colours repeat every five categories and the first five are all
      different. */
  lemma ColoursCycle(i: nat, j: nat)
    ensures CategoryColour(i + |Palette|) == CategoryColour(i)
    ensures i < j < |Palette| ==> CategoryColour(i) != CategoryColour(j)
  {
    assert (i + |Palette|) % |Palette| == i % |Palette|;
  }

  /** The server sends at most five categories, so every category on the
      dashboard gets a colour of its own. */
  lemma DashboardColoursDistinct(st: Store, user: UserId, now: Date)
    requires forall k :: 0 <= k < |st.transactions| ==> Resolves(st, st.transactions[k])
    ensures var cats := Present(Some(GetDashboard(st, user, now))).categories;
            forall i, j :: 0 <= i < j < |cats| ==> CategoryColour(i) != CategoryColour(j)
  {
    var d := GetDashboard(st, user, now);
    assert |d.topCategories| <= |Palette|;
    forall i, j | 0 <= i < j < |d.topCategories|
      ensures CategoryColour(i) != CategoryColour(j)
    {
      ColoursCycle(i, j);
    }
  }
}

=== FILE: debug_controller.dfy ===
/** `DebugController.topCategories`: last month's spending ranking of the
    user with a given e-mail, the same aggregation as the dashboard's but
    cut at ten names. */
module DebugEndpoint {
  import opened Wrappers
  import opened Seqs
  import opened Calendar
  import opened Grouping
  import opened Domain
  import opened TopCategories
  import opened Dashboard
  import TransactionQueries
  import Reports

  const DefaultEmail: string := "demo@lume.com"
  const DebugLimit: nat := 10

  /** `userRepository.findByEmail`: the first user with that e-mail, or
      null. */
  function UserByEmail(users: seq<User>, email: string): (r: Option<User>)
    ensures r.Some? ==> r.value in users && r.value.email == email
    ensures r.None? <==> forall k :: 0 <= k < |users| ==> users[k].email != email
  {
    match FindIndex(users, (u: User) => u.email == email)
    case Some(i) => Some(users[i])
    case None => None
  }

  /** The endpoint: the e-mail defaults to the demo account's; an unknown
      e-mail makes the range query run for a null user, which matches no
      row, so the answer is empty. */
  function TopCategoriesLastMonth(users: seq<User>, st: Store, now: Date, email: Option<string>)
    : (r: seq<Group<string>>)
    ensures |r| <= DebugLimit && SortedDesc(r, GroupTotal) && DistinctBy(r, GroupKey)
    ensures UserByEmail(users, email.GetOr(DefaultEmail)).None? ==> r == []
    ensures UserByEmail(users, email.GetOr(DefaultEmail)).Some? ==>
              r == LastMonthTop(st, UserByEmail(users, email.GetOr(DefaultEmail)).value.id, now, DebugLimit)
  {
    match UserByEmail(users, email.GetOr(DefaultEmail))
    case None => []
    case Some(u) => LastMonthTop(st, u.id, now, DebugLimit)
  }

  /** Cutting a ranking at five after cutting it at ten is cutting it at
      five. */
  lemma TakeTake<T>(s: seq<T>, m: nat, n: nat)
    requires n <= m
    ensures Take(Take(s, m), n) == Take(s, n)
  {
  }

  /** The dashboard's five top categories are the first five the debug
      endpoint returns for the same user. */
  lemma DashboardTopIsPrefix(users: seq<User>, st: Store, now: Date, email: Option<string>)
    requires UserByEmail(users, email.GetOr(DefaultEmail)).Some?
    ensures var u := UserByEmail(users, email.GetOr(DefaultEmail)).value;
            Take(TopCategoriesLastMonth(users, st, now, email), TopLimit) == LastMonthTop(st, u.id, now, TopLimit)
  {
    var u := UserByEmail(users, email.GetOr(DefaultEmail)).value;
    var (py, pm) := PrevMonth(now.year, now.month);
    var rows := FindAllByDateRangeOf(st, u.id, py, pm);
    var counted := Filter(rows, Spending());
    var gs := GroupSum(counted, Reports.CategoryLabel(st.categories), AbsAmount);
    TakeTake(RankDesc(gs), DebugLimit, TopLimit);
  }

  function FindAllByDateRangeOf(st: Store, user: UserId, year: int, month: int): seq<Transaction>
    requires 1 <= month <= 12
  {
    TransactionQueries.FindAllByDateRange(st.transactions, user, FirstDayOfMonth(year, month), LastDayOfMonth(year, month))
  }
}

=== FILE: demo_mode.dfy ===
/** `useDemoMode`: the shared demonstration account is recognised by its
    exact e-mail, and every guarded action is skipped for it. An action is
    modelled as a state transformer, so "invoked once" and "not invoked"
    become statements about the state it leaves and a run count. */
module DemoMode {
  import opened Wrappers

  const DemoEmail: string := "demo@lume.app"
  const BlockedNotice: string := "Esta função está bloqueada no Modo Demonstração."

  /** `user?.email === 'demo@lume.app'`: no user, or any other spelling of
      the address, is not the demo account. */
  function IsDemo(email: Option<string>): (b: bool)
    ensures b ==> email.Some? && |email.value| == |DemoEmail|
    ensures email.None? ==> !b
    ensures email.Some? && email.value != DemoEmail ==> !b
    ensures email == Some(DemoEmail) ==> b
  {
    email == Some(DemoEmail)
  }

  /** The state after a gated action, how often the action ran, and the
      toast shown. */
  datatype Gated<S> = Gated(state: S, runs: nat, toast: Option<string>)

  /** `checkDemo(action)`. */
  function CheckDemo<S>(isDemo: bool, action: S -> S, s: S): (r: Gated<S>)
    ensures isDemo ==> r.runs == 0 && r.state == s && r.toast == Some(BlockedNotice)
    ensures !isDemo ==> r.runs == 1 && r.state == action(s) && r.toast.None?
  {
    if isDemo then Gated(s, 0, Some(BlockedNotice)) else Gated(action(s), 1, None)
  }

  /** The comparison is case-sensitive: the address with a capital letter
      is an ordinary user. */
  lemma DemoIsCaseSensitive()
    ensures !IsDemo(Some("Demo@lume.app"))
    ensures IsDemo(Some(DemoEmail))
  {
    assert "Demo@lume.app"[0] != DemoEmail[0];
  }

  /** Two gated actions in a row: in demo mode nothing happens at all; for
      anyone else both run, once each, in order. */
  lemma CheckDemoSequence<S>(isDemo: bool, a: S -> S, b: S -> S, s: S)
    ensures var first := CheckDemo(isDemo, a, s);
            var second := CheckDemo(isDemo, b, first.state);
            && (isDemo ==> second.state == s && first.runs + second.runs == 0)
            && (!isDemo ==> second.state == b(a(s)) && first.runs + second.runs == 2)
  {
  }
}

=== FILE: domain.dfy ===
/** The persistent entities of the backend and the database that holds
    them. Every table is a sequence with unique ids; an entity's `@ManyToOne`
    reference is the id of the referenced row. Money fields are integer
    cents and dates are calendar dates. */
module Domain {
  import opened Wrappers
  import opened Calendar
  import opened Seqs

  /** A generated `Long` primary key. */
  type Id = nat

  /** A user's `UUID` primary key. */
  type UserId = nat

  datatype TxType = Income | Expense

  datatype Plan = Free | Pro | Lifetime

  /** `createdAt` is a `LocalDateTime`, kept as milliseconds since the epoch;
      `None` marks a legacy row without one. */
  datatype User = User(
    id: UserId,
    name: Option<string>,
    email: string,
    password: string,
    cpf: string,
    profileImage: Option<string>,
    createdAt: Option<int>,
    plan: Plan)

  datatype Category = Category(id: Id, name: string, kind: TxType, owner: UserId)

  /** `initialBalance` defaults to zero but the column is nullable. */
  datatype Account = Account(
    id: Id,
    name: string,
    bank: string,
    initialBalance: Option<int>,
    kind: string,
    owner: UserId)

  datatype CreditCard = CreditCard(
    id: Id,
    name: string,
    lastFourDigits: string,
    limitTotal: int,
    limitUsed: int,
    closingDay: int,
    dueDay: int,
    color: Option<string>,
    owner: UserId)

  datatype Transaction = Transaction(
    id: Id,
    owner: UserId,
    description: Option<string>,
    amount: int,
    date: Date,
    kind: TxType,
    account: Option<Id>,
    creditCard: Option<Id>,
    category: Option<Id>)

  datatype RecurringTransaction = RecurringTransaction(
    id: Id,
    description: string,
    amount: int,
    kind: TxType,
    category: Option<Id>,
    frequency: string,
    dueDay: int,
    owner: UserId)

  datatype Budget = Budget(id: Id, category: Id, amount: int, month: int, year: int, owner: UserId)

  datatype Asset = Asset(id: Id, name: string, value: Option<int>, owner: UserId)

  datatype Notification = Notification(message: string, isRead: bool, owner: UserId)

  /** The database: one sequence per table. */
  datatype Store = Store(
    categories: seq<Category>,
    accounts: seq<Account>,
    cards: seq<CreditCard>,
    transactions: seq<Transaction>,
    recurring: seq<RecurringTransaction>,
    budgets: seq<Budget>,
    assets: seq<Asset>,
    notifications: seq<Notification>)

  predicate UniqueIds<T>(s: seq<T>, idOf: T -> Id) {
    forall i, j :: 0 <= i < j < |s| ==> idOf(s[i]) != idOf(s[j])
  }

  /** `findById`: the row with that id, if there is one. */
  function FindById<T>(s: seq<T>, id: Id, idOf: T -> Id): (r: Option<T>)
    ensures r.Some? ==> r.value in s && idOf(r.value) == id
    ensures r.None? ==> forall k :: 0 <= k < |s| ==> idOf(s[k]) != id
  {
    match FindIndex(s, x => idOf(x) == id)
    case Some(i) => Some(s[i])
    case None => None
  }

  /** An id larger than every id in the table (`IDENTITY` generation). */
  function FreshId<T>(s: seq<T>, idOf: T -> Id): (r: Id)
    ensures forall k :: 0 <= k < |s| ==> idOf(s[k]) < r
    decreases |s|
  {
    if |s| == 0 then 1
    else
      var m := FreshId(s[..|s| - 1], idOf);
      if idOf(s[|s| - 1]) < m then m else idOf(s[|s| - 1]) + 1
  }

  /** `save` of a new row: appended under a fresh id. */
  lemma InsertKeepsUnique<T>(s: seq<T>, x: T, idOf: T -> Id)
    requires UniqueIds(s, idOf)
    requires idOf(x) == FreshId(s, idOf)
    ensures UniqueIds(s + [x], idOf)
  {
  }

  /** `save` of an existing row: the row with that id is replaced. */
  function ReplaceById<T>(s: seq<T>, x: T, idOf: T -> Id): (r: seq<T>)
    ensures |r| == |s|
    ensures forall k :: 0 <= k < |s| ==> r[k] == (if idOf(s[k]) == idOf(x) then x else s[k])
  {
    seq(|s|, k requires 0 <= k < |s| => if idOf(s[k]) == idOf(x) then x else s[k])
  }

  /** Replacing a row that exists makes the lookup by its id find the new
      row, and replacing it again changes nothing. */
  lemma ReplaceThenFind<T>(s: seq<T>, x: T, idOf: T -> Id)
    requires exists k :: 0 <= k < |s| && idOf(s[k]) == idOf(x)
    ensures FindById(ReplaceById(s, x, idOf), idOf(x), idOf) == Some(x)
    ensures ReplaceById(ReplaceById(s, x, idOf), x, idOf) == ReplaceById(s, x, idOf)
  {
    var r := ReplaceById(s, x, idOf);
    var k :| 0 <= k < |s| && idOf(s[k]) == idOf(x);
    assert idOf(r[k]) == idOf(x);
    var i := FindIndex(r, y => idOf(y) == idOf(x));
    assert i.Some?;
    assert r[i.value] == x;
  }

  /** `deleteById`: the rows with that id are dropped, the others kept in
      order. */
  function DeleteById<T>(s: seq<T>, id: Id, idOf: T -> Id): (r: seq<T>)
    ensures forall k :: 0 <= k < |r| ==> r[k] in s && idOf(r[k]) != id
    ensures forall k :: 0 <= k < |s| && idOf(s[k]) != id ==> s[k] in r
  {
    var p := OtherId(idOf, id);
    assert forall k :: 0 <= k < |s| && p(s[k]) ==> s[k] in Filter(s, p) by {
      forall k | 0 <= k < |s| && p(s[k])
        ensures s[k] in Filter(s, p)
      {
        FilterMembership(s, p, s[k]);
      }
    }
    assert forall k :: 0 <= k < |Filter(s, p)| ==> Filter(s, p)[k] in s by {
      forall k | 0 <= k < |Filter(s, p)|
        ensures Filter(s, p)[k] in s
      {
        FilterMembership(s, p, Filter(s, p)[k]);
      }
    }
    Filter(s, p)
  }

  function OtherId<T>(idOf: T -> Id, id: Id): T -> bool {
    x => idOf(x) != id
  }

  /** Deleting the row just inserted under a fresh id restores the table. */
  lemma DeleteInserted<T>(s: seq<T>, x: T, idOf: T -> Id)
    requires forall k :: 0 <= k < |s| ==> idOf(s[k]) != idOf(x)
    ensures DeleteById(s + [x], idOf(x), idOf) == s
  {
    var p := OtherId(idOf, idOf(x));
    FilterConcat(s, [x], p);
    FilterKeepsAll(s, p);
    assert Filter([x], p) == [] by { assert [x][..0] == []; }
  }

  /** In a table with unique ids, deleting the id found at position k
      drops exactly that position. */
  lemma {:induction false} DeleteByIdAt<T>(s: seq<T>, k: nat, idOf: T -> Id)
    requires UniqueIds(s, idOf) && k < |s|
    ensures DeleteById(s, idOf(s[k]), idOf) == s[..k] + s[k + 1..]
  {
    var p := OtherId(idOf, idOf(s[k]));
    assert s == s[..k] + [s[k]] + s[k + 1..];
    FilterConcat(s[..k] + [s[k]], s[k + 1..], p);
    FilterConcat(s[..k], [s[k]], p);
    FilterKeepsAll(s[..k], p);
    FilterKeepsAll(s[k + 1..], p);
    assert Filter([s[k]], p) == [] by { assert [s[k]][..0] == []; }
  }

  /** A handler's effect: the database after the request, which keeps
      every repository write made before a failure, and the response. */
  datatype Outcome<T> = Outcome(store: Store, response: Result<T>)

  /** `findById(id).orElseThrow(NOT_FOUND)` followed by the owner check
      that throws FORBIDDEN. */
  function FindOwned<T>(s: seq<T>, id: Id, idOf: T -> Id, ownerOf: T -> UserId, user: UserId,
                        notFound: string, forbidden: string): (r: Result<T>)
    ensures r.Ok? ==> r.value in s && idOf(r.value) == id && ownerOf(r.value) == user
    ensures (r.Err? && r.status == NotFound) <==> forall k :: 0 <= k < |s| ==> idOf(s[k]) != id
    ensures r.Err? ==> (r.status == NotFound && r.message == notFound) || (r.status == Forbidden && r.message == forbidden)
    ensures UniqueIds(s, idOf) ==>
              (r.Ok? <==> exists k :: 0 <= k < |s| && idOf(s[k]) == id && ownerOf(s[k]) == user)
  {
    match FindById(s, id, idOf)
    case None => Err(NotFound, notFound)
    case Some(x) => if ownerOf(x) != user then Err(Forbidden, forbidden) else Ok(x)
  }

  /** The lookup reads only ids and owners: two tables that agree on those,
      row by row, give the same refusal, or both find the row. */
  lemma FindOwnedReadsIdsAndOwners<T>(s: seq<T>, s': seq<T>, id: Id, idOf: T -> Id, ownerOf: T -> UserId,
                                      user: UserId, notFound: string, forbidden: string)
    requires |s| == |s'|
    requires forall k :: 0 <= k < |s| ==> idOf(s[k]) == idOf(s'[k]) && ownerOf(s[k]) == ownerOf(s'[k])
    ensures var r, r' := FindOwned(s, id, idOf, ownerOf, user, notFound, forbidden),
                         FindOwned(s', id, idOf, ownerOf, user, notFound, forbidden);
            && r.Ok? == r'.Ok?
            && (r.Err? ==> r == r')
            && (r.Ok? ==> exists k :: 0 <= k < |s| && r.value == s[k] && r'.value == s'[k])
  {
    var p := (x: T) => idOf(x) == id;
    FindIndexAgrees(s, p, s', p);
    match FindIndex(s, p)
    case None =>
    case Some(k) =>
      assert FindById(s, id, idOf) == Some(s[k]) && FindById(s', id, idOf) == Some(s'[k]);
  }

  function CategoryId(c: Category): Id { c.id }
  function AccountId(a: Account): Id { a.id }
  function CardId(c: CreditCard): Id { c.id }
  function TransactionId(t: Transaction): Id { t.id }
  function RecurringId(r: RecurringTransaction): Id { r.id }
  function BudgetId(b: Budget): Id { b.id }
  function AssetId(a: Asset): Id { a.id }

  function CategoryOwner(c: Category): UserId { c.owner }
  function AccountOwner(a: Account): UserId { a.owner }
  function CardOwner(c: CreditCard): UserId { c.owner }
  function TransactionOwner(t: Transaction): UserId { t.owner }
  function RecurringOwner(r: RecurringTransaction): UserId { r.owner }
  function BudgetOwner(b: Budget): UserId { b.owner }

  /** The share of a card's limit one transaction takes: its amount when it
      is an EXPENSE charged to that card, otherwise nothing. */
  function CardCharge(t: Transaction, card: Id): int {
    if t.creditCard == Some(card) && t.kind == Expense then t.amount else 0
  }

  function ChargeOf(card: Id): Transaction -> int {
    t => CardCharge(t, card)
  }

  /** The sum of the EXPENSE amounts charged to a card. */
  function CardUsage(ts: seq<Transaction>, card: Id): int {
    SumBy(ts, ChargeOf(card))
  }

  /** A transaction is linked to a card or to an account, never both. */
  predicate LinkExclusive(ts: seq<Transaction>) {
    forall k :: 0 <= k < |ts| ==> ts[k].account.None? || ts[k].creditCard.None?
  }

  /** Every reference a transaction holds names an existing row. */
  predicate ReferencesResolve(st: Store) {
    forall k :: 0 <= k < |st.transactions| ==>
      (st.transactions[k].account.Some? ==> FindById(st.accounts, st.transactions[k].account.value, AccountId).Some?)
      && (st.transactions[k].creditCard.Some? ==> FindById(st.cards, st.transactions[k].creditCard.value, CardId).Some?)
      && (st.transactions[k].category.Some? ==> FindById(st.categories, st.transactions[k].category.value, CategoryId).Some?)
  }

  /** The bookkeeping promise: every card's `limitUsed` is the sum of the
      EXPENSE transactions charged to it. */
  predicate LimitsInSync(st: Store) {
    forall k :: 0 <= k < |st.cards| ==> st.cards[k].limitUsed == CardUsage(st.transactions, st.cards[k].id)
  }

  predicate WellFormed(st: Store) {
    UniqueIds(st.categories, CategoryId)
    && UniqueIds(st.accounts, AccountId)
    && UniqueIds(st.cards, CardId)
    && UniqueIds(st.transactions, TransactionId)
    && UniqueIds(st.recurring, RecurringId)
    && UniqueIds(st.budgets, BudgetId)
  }
}

=== FILE: grouping.dfy ===
/** `Collectors.groupingBy(key, reducing(0, value, add))` and JPQL
    `GROUP BY ... SUM(...)`: one group per distinct key, holding the sum of
    the values of the elements with that key. Groups appear in the order
    their keys are first met; callers sort them afterwards. */
module Grouping {
  import opened Seqs

  datatype Group<K> = Group(key: K, total: int)

  function GroupKey<K>(g: Group<K>): K { g.key }

  function GroupTotal<K>(g: Group<K>): int { g.total }

  function Keys<K>(gs: seq<Group<K>>): (r: seq<K>)
    ensures |r| == |gs| && forall j :: 0 <= j < |gs| ==> r[j] == gs[j].key
  {
    seq(|gs|, j requires 0 <= j < |gs| => gs[j].key)
  }

  /** The sum of the values of the elements whose key is `k`. */
  function KeySum<T, K(==)>(s: seq<T>, key: T -> K, val: T -> int, k: K): int
    decreases |s|
  {
    if |s| == 0 then 0
    else KeySum(s[..|s| - 1], key, val, k) + (if key(s[|s| - 1]) == k then val(s[|s| - 1]) else 0)
  }

  /** The total recorded under key `k`, or 0 when no group has that key. */
  function TotalOf<K(==)>(gs: seq<Group<K>>, k: K): (t: int)
    requires DistinctBy(gs, GroupKey)
    ensures forall j :: 0 <= j < |gs| && gs[j].key == k ==> t == gs[j].total
    ensures k !in Keys(gs) ==> t == 0
    decreases |gs|
  {
    if |gs| == 0 then 0
    else if gs[0].key == k then gs[0].total
    else
      assert DistinctBy(gs[1..], GroupKey);
      assert forall j :: 1 <= j < |gs| ==> gs[1..][j - 1] == gs[j];
      TotalOf(gs[1..], k)
  }

  /** `v` at the key `c`, nothing elsewhere. */
  function Indicator<K(==)>(c: K, v: int): K -> int {
    k => if k == c then v else 0
  }

  /** Summed over distinct keys, the indicator of `c` gives `v` when `c`
      is among them and nothing otherwise. */
  lemma {:induction false} SumIndicator<K>(ks: seq<K>, c: K, v: int)
    requires forall i, j :: 0 <= i < j < |ks| ==> ks[i] != ks[j]
    ensures SumBy(ks, Indicator(c, v)) == if c in ks then v else 0
    decreases |ks|
  {
    if |ks| > 0 {
      var ks' := ks[..|ks| - 1];
      SumIndicator(ks', c, v);
      assert ks == ks' + [ks[|ks| - 1]];
      if ks[|ks| - 1] == c {
        assert c !in ks';
      }
    }
  }

  function KeySumOf<T, K(==)>(s: seq<T>, key: T -> K, val: T -> int): K -> int {
    k => KeySum(s, key, val, k)
  }

  /** Summing the per-key sums over a list of distinct keys that covers
      every element's key gives the sum of everything. */
  lemma {:induction false} KeySumsCover<T, K>(s: seq<T>, key: T -> K, val: T -> int, ks: seq<K>)
    requires forall i, j :: 0 <= i < j < |ks| ==> ks[i] != ks[j]
    requires forall i :: 0 <= i < |s| ==> key(s[i]) in ks
    ensures SumBy(ks, KeySumOf(s, key, val)) == SumBy(s, val)
    decreases |s|
  {
    if |s| > 0 {
      var s' := s[..|s| - 1];
      var x := s[|s| - 1];
      assert forall i :: 0 <= i < |s'| ==> s'[i] == s[i];
      KeySumsCover(s', key, val, ks);
      forall j | 0 <= j < |ks|
        ensures KeySumOf(s, key, val)(ks[j]) == KeySumOf(s', key, val)(ks[j]) + Indicator(key(x), val(x))(ks[j])
      {
      }
      assert key(x) in ks;
      SumByLinear(ks, KeySumOf(s', key, val), Indicator(key(x), val(x)), KeySumOf(s, key, val));
      SumIndicator(ks, key(x), val(x));
      assert SumBy(s, val) == SumBy(s', val) + val(x);
    } else {
      SumByZero(ks, KeySumOf(s, key, val));
    }
  }

  /** With no negative values, one key's sum lies between 0 and the sum of
      everything. */
  lemma {:induction false} KeySumBounds<T, K>(s: seq<T>, key: T -> K, val: T -> int, k: K)
    requires forall i :: 0 <= i < |s| ==> val(s[i]) >= 0
    ensures 0 <= KeySum(s, key, val, k) <= SumBy(s, val)
    decreases |s|
  {
    if |s| > 0 {
      KeySumBounds(s[..|s| - 1], key, val, k);
    }
  }

  /** Adds `v` to the group of `k`, opening a new group at the end when
      there is none yet. */
  function AddTo<K(==,!new)>(gs: seq<Group<K>>, k: K, v: int): (r: seq<Group<K>>)
    requires DistinctBy(gs, GroupKey)
    ensures DistinctBy(r, GroupKey)
    ensures forall k' :: k' in Keys(r) <==> k' in Keys(gs) || k' == k
    ensures forall k' :: TotalOf(r, k') == TotalOf(gs, k') + (if k' == k then v else 0)
    ensures SumBy(r, GroupTotal) == SumBy(gs, GroupTotal) + v
  {
    if k in Keys(gs) then
      var i :| 0 <= i < |gs| && Keys(gs)[i] == k;
      AddToExisting(gs, i, v);
      gs[i := Group(k, gs[i].total + v)]
    else
      AddToNew(gs, k, v);
      gs + [Group(k, v)]
  }

  /** Raising the total of group `i` by `v`. */
  lemma AddToExisting<K>(gs: seq<Group<K>>, i: nat, v: int)
    requires DistinctBy(gs, GroupKey) && i < |gs|
    ensures var r := gs[i := Group(gs[i].key, gs[i].total + v)];
            && DistinctBy(r, GroupKey)
            && Keys(r) == Keys(gs)
            && (forall k' :: TotalOf(r, k') == TotalOf(gs, k') + (if k' == gs[i].key then v else 0))
            && SumBy(r, GroupTotal) == SumBy(gs, GroupTotal) + v
  {
    var k := gs[i].key;
    var r := gs[i := Group(k, gs[i].total + v)];
    SumByUpdate(gs, i, Group(k, gs[i].total + v), GroupTotal);
    assert Keys(r) == Keys(gs);
    assert DistinctBy(r, GroupKey);
    forall k' ensures TotalOf(r, k') == TotalOf(gs, k') + (if k' == k then v else 0) {
      if k' !in Keys(gs) {
      } else {
        var j :| 0 <= j < |gs| && Keys(gs)[j] == k';
        assert r[j].key == k';
      }
    }
  }

  /** Opening a group for a key not yet present. */
  lemma AddToNew<K>(gs: seq<Group<K>>, k: K, v: int)
    requires DistinctBy(gs, GroupKey) && k !in Keys(gs)
    ensures var r := gs + [Group(k, v)];
            && DistinctBy(r, GroupKey)
            && Keys(r) == Keys(gs) + [k]
            && (forall k' :: TotalOf(r, k') == TotalOf(gs, k') + (if k' == k then v else 0))
            && SumBy(r, GroupTotal) == SumBy(gs, GroupTotal) + v
  {
    var r := gs + [Group(k, v)];
    SumByConcat(gs, [Group(k, v)], GroupTotal);
    SumBySingleton(Group(k, v), GroupTotal);
    assert Keys(r) == Keys(gs) + [k];
    assert forall j :: 0 <= j < |gs| ==> gs[j].key != k by {
      forall j | 0 <= j < |gs| ensures gs[j].key != k { assert Keys(gs)[j] == gs[j].key; }
    }
    assert DistinctBy(r, GroupKey);
    forall k' ensures TotalOf(r, k') == TotalOf(gs, k') + (if k' == k then v else 0) {
      if k' == k {
        assert r[|gs|].key == k;
      } else if k' in Keys(gs) {
        var j :| 0 <= j < |gs| && Keys(gs)[j] == k';
        assert r[j].key == k';
      } else {
        assert k' !in Keys(r);
      }
    }
  }

  /** Groups `s` by `key`, summing `val`: one group per key that occurs,
      each holding its key's sum, and the groups together hold the sum of
      everything. */
  function GroupSum<T, K(==,!new)>(s: seq<T>, key: T -> K, val: T -> int): (gs: seq<Group<K>>)
    ensures DistinctBy(gs, GroupKey)
    ensures forall k :: k in Keys(gs) <==> exists i :: 0 <= i < |s| && key(s[i]) == k
    ensures forall k :: TotalOf(gs, k) == KeySum(s, key, val, k)
    ensures SumBy(gs, GroupTotal) == SumBy(s, val)
    decreases |s|
  {
    if |s| == 0 then []
    else
      var s' := s[..|s| - 1];
      var gs' := GroupSum(s', key, val);
      var r := AddTo(gs', key(s[|s| - 1]), val(s[|s| - 1]));
      GroupSumStep(s, s', key, val, gs', r);
      r
  }

  /** Adding the last element to the groups of the ones before it gives
      the groups of the whole sequence. */
  lemma GroupSumStep<T, K(!new)>(s: seq<T>, init: seq<T>, key: T -> K, val: T -> int, gs': seq<Group<K>>, r: seq<Group<K>>)
    requires |s| > 0 && init == s[..|s| - 1]
    requires DistinctBy(gs', GroupKey) && DistinctBy(r, GroupKey)
    requires forall k :: k in Keys(gs') <==> exists i :: 0 <= i < |init| && key(init[i]) == k
    requires forall k :: TotalOf(gs', k) == KeySum(init, key, val, k)
    requires SumBy(gs', GroupTotal) == SumBy(init, val)
    requires forall k' :: k' in Keys(r) <==> k' in Keys(gs') || k' == key(s[|s| - 1])
    requires forall k' :: TotalOf(r, k') == TotalOf(gs', k') + (if k' == key(s[|s| - 1]) then val(s[|s| - 1]) else 0)
    requires SumBy(r, GroupTotal) == SumBy(gs', GroupTotal) + val(s[|s| - 1])
    ensures forall k :: k in Keys(r) <==> exists i :: 0 <= i < |s| && key(s[i]) == k
    ensures forall k :: TotalOf(r, k) == KeySum(s, key, val, k)
    ensures SumBy(r, GroupTotal) == SumBy(s, val)
  {
    forall k
      ensures k in Keys(r) <==> exists i :: 0 <= i < |s| && key(s[i]) == k
    {
      KeysStep(s, init, key, k, k in Keys(gs'));
    }
  }

  /** A key occurs in a non-empty sequence exactly when it occurs before
      the last element or is the last element's key. */
  lemma KeysStep<T, K>(s: seq<T>, init: seq<T>, key: T -> K, k: K, before: bool)
    requires |s| > 0 && init == s[..|s| - 1]
    requires before <==> exists i :: 0 <= i < |init| && key(init[i]) == k
    ensures (before || k == key(s[|s| - 1])) <==> exists i :: 0 <= i < |s| && key(s[i]) == k
  {
    if before {
      var i :| 0 <= i < |init| && key(init[i]) == k;
      assert key(s[i]) == k;
    }
    if exists i :: 0 <= i < |s| && key(s[i]) == k {
      var i :| 0 <= i < |s| && key(s[i]) == k;
      if i < |init| {
        assert key(init[i]) == k;
      }
    }
  }

  /** The groups ordered by descending total (`ORDER BY SUM(..) DESC`,
      `sorted((a, b) -> b.total.compareTo(a.total))`). */
  function RankDesc<K(==)>(gs: seq<Group<K>>): (r: seq<Group<K>>)
    requires DistinctBy(gs, GroupKey)
    ensures SortedDesc(r, GroupTotal)
    ensures DistinctBy(r, GroupKey)
    ensures |r| == |gs| && multiset(r) == multiset(gs)
    ensures SumBy(r, GroupTotal) == SumBy(gs, GroupTotal)
  {
    var r := SortDesc(gs, GroupTotal);
    SortDescDistinct(gs, GroupTotal, GroupKey);
    SumByPerm(r, gs, GroupTotal);
    r
  }

  /** A reordering of the groups has the same keys. */
  lemma PermutedKeys<K>(gs: seq<Group<K>>, r: seq<Group<K>>)
    requires multiset(r) == multiset(gs)
    ensures forall k :: k in Keys(r) <==> k in Keys(gs)
  {
    forall k
      ensures k in Keys(r) <==> k in Keys(gs)
    {
      if k in Keys(gs) {
        var j :| 0 <= j < |gs| && gs[j].key == k;
        assert gs[j] in multiset(r);
        var i :| 0 <= i < |r| && r[i] == gs[j];
        assert Keys(r)[i] == k;
      }
      if k in Keys(r) {
        var i :| 0 <= i < |r| && r[i].key == k;
        assert r[i] in multiset(gs);
        var j :| 0 <= j < |gs| && gs[j] == r[i];
        assert Keys(gs)[j] == k;
      }
    }
  }

  /** Any reordering of the groups holds each key's recorded total. */
  lemma MemberTotals<K>(gs: seq<Group<K>>, r: seq<Group<K>>)
    requires DistinctBy(gs, GroupKey) && multiset(r) == multiset(gs)
    ensures forall g :: g in r ==> g.total == TotalOf(gs, g.key)
  {
    forall g | g in r
      ensures g.total == TotalOf(gs, g.key)
    {
      assert g in multiset(gs);
    }
  }

  /** A reordering of the groups still has a group for the key of every
      element, and only for those keys. */
  lemma RankedKeysCover<T, K(!new)>(s: seq<T>, key: T -> K, val: T -> int, r: seq<Group<K>>)
    requires multiset(r) == multiset(GroupSum(s, key, val))
    ensures forall x :: x in s ==> exists g :: g in r && g.key == key(x)
    ensures forall g :: g in r ==> exists x :: x in s && key(x) == g.key
  {
    forall x | x in s
      ensures exists g :: g in r && g.key == key(x)
    {
      RankedHasKey(s, key, val, r, x);
    }
    forall g | g in r
      ensures exists x :: x in s && key(x) == g.key
    {
      RankedKeyFromRow(s, key, val, r, g);
    }
  }

  lemma RankedHasKey<T, K(!new)>(s: seq<T>, key: T -> K, val: T -> int, r: seq<Group<K>>, x: T)
    requires multiset(r) == multiset(GroupSum(s, key, val)) && x in s
    ensures exists g :: g in r && g.key == key(x)
  {
    var gs := GroupSum(s, key, val);
    var i :| 0 <= i < |s| && s[i] == x;
    assert key(x) in Keys(gs);
    var j :| 0 <= j < |gs| && Keys(gs)[j] == key(x);
    assert gs[j] in multiset(r);
  }

  lemma RankedKeyFromRow<T, K(!new)>(s: seq<T>, key: T -> K, val: T -> int, r: seq<Group<K>>, g: Group<K>)
    requires multiset(r) == multiset(GroupSum(s, key, val)) && g in r
    ensures exists x :: x in s && key(x) == g.key
  {
    var gs := GroupSum(s, key, val);
    assert g in multiset(gs);
    var j :| 0 <= j < |gs| && gs[j] == g;
    assert g.key in Keys(gs) by { assert Keys(gs)[j] == g.key; }
    var i :| 0 <= i < |s| && key(s[i]) == g.key;
    assert s[i] in s;
  }
}

=== FILE: js_number.dfy ===
/** The few JavaScript `number` operations the client's percentages go
    through, with the values a division by zero produces. The finite part
    is an exact rational: rounding of doubles is not modelled. */
module JsNumbers {
  datatype Num = Finite(v: real) | PosInf | NegInf | NaN

  /** `a / b`: a non-zero numerator over zero gives an infinity of its
      sign, zero over zero gives NaN. */
  function Div(a: real, b: real): (r: Num)
    ensures r.Finite? <==> b != 0.0
    ensures r.Finite? ==> r.v * b == a
    ensures r == NaN <==> a == 0.0 && b == 0.0
  {
    if b != 0.0 then Finite(a / b)
    else if a > 0.0 then PosInf
    else if a < 0.0 then NegInf
    else NaN
  }

  /** `x * k` for a positive constant. */
  function Scale(x: Num, k: real): (r: Num)
    requires k > 0.0
    ensures x.Finite? <==> r.Finite?
    ensures x.Finite? ==> r.v == x.v * k
    ensures !x.Finite? ==> r == x
  {
    if x.Finite? then Finite(x.v * k) else x
  }

  /** `Math.min(x, c)`: NaN wins over everything. */
  function MinWith(x: Num, c: real): (r: Num)
    ensures x == NaN <==> r == NaN
    ensures r.Finite? ==> r.v <= c
    ensures x.Finite? ==> r.Finite? && (r.v == x.v || r.v == c)
    ensures x == PosInf ==> r == Finite(c)
    ensures x == NegInf ==> r == NegInf
  {
    match x
    case Finite(v) => Finite(if v <= c then v else c)
    case PosInf => Finite(c)
    case NegInf => NegInf
    case NaN => NaN
  }

  /** `x > c`: every comparison with NaN is false. */
  predicate Gt(x: Num, c: real) {
    match x
    case Finite(v) => v > c
    case PosInf => true
    case NegInf => false
    case NaN => false
  }

  /** A share of a positive whole is above a fraction exactly when the
      part is above that fraction of the whole. */
  lemma ShareAbove(x: real, t: real, u: real, c: real)
    requires t > 0.0 && x * t == u
    ensures x > c <==> u > c * t
  {
    ScaleOrder(c, x, t);
  }

  /** Multiplying by a positive number keeps the order. */
  lemma ScaleOrder(a: real, b: real, t: real)
    requires t > 0.0
    ensures a <= b <==> a * t <= b * t
    ensures a < b <==> a * t < b * t
  {
    if a <= b {
      assert (b - a) * t >= 0.0;
    } else {
      assert (a - b) * t > 0.0;
    }
  }
}

=== FILE: login_attempts.dfy ===
/** `LoginAttemptService`: a failure counter and an unblock time per key
    (the client's IP). The fifth failure, and every one after it, blocks
    the key for fifteen minutes; a check after the block has run out
    forgets the key; a success forgets it at once. The clock is the
    parameter `now`, in milliseconds. */
module LoginThrottle {

  const MaxAttempts: nat := 5
  const BlockMillis: nat := 15 * 60 * 1000

  /** The two caches: failures counted per key, and unblock times. */
  datatype Throttle = Throttle(attempts: map<string, int>, blocks: map<string, int>)

  const Empty: Throttle := Throttle(map[], map[])

  function Count(th: Throttle, key: string): int {
    if key in th.attempts then th.attempts[key] else 0
  }

  /** Entries of other keys are equal in the two states. */
  ghost predicate SameElsewhere(a: Throttle, b: Throttle, key: string) {
    (forall k :: k != key ==> (k in a.attempts <==> k in b.attempts))
    && (forall k :: k != key && k in a.attempts ==> a.attempts[k] == b.attempts[k])
    && (forall k :: k != key ==> (k in a.blocks <==> k in b.blocks))
    && (forall k :: k != key && k in a.blocks ==> a.blocks[k] == b.blocks[k])
  }

  /** `loginSucceeded`. */
  function Succeeded(th: Throttle, key: string): (r: Throttle)
    ensures key !in r.attempts && key !in r.blocks
    ensures SameElsewhere(th, r, key)
  {
    Throttle(th.attempts - {key}, th.blocks - {key})
  }

  /** `loginFailed`: one more failure; from the fifth on, the key is
      blocked until fifteen minutes from now. */
  function Failed(th: Throttle, key: string, now: int): (r: Throttle)
    ensures key in r.attempts && r.attempts[key] == Count(th, key) + 1
    ensures Count(th, key) + 1 >= MaxAttempts ==> key in r.blocks && r.blocks[key] == now + BlockMillis
    ensures Count(th, key) + 1 < MaxAttempts ==> (key in r.blocks <==> key in th.blocks)
                                                 && (key in th.blocks ==> r.blocks[key] == th.blocks[key])
    ensures SameElsewhere(th, r, key)
  {
    var n := Count(th, key) + 1;
    Throttle(th.attempts[key := n], if n >= MaxAttempts then th.blocks[key := now + BlockMillis] else th.blocks)
  }

  /** `isBlocked`: true while the unblock time lies strictly ahead. A check
      that finds an expired block removes the key from both caches. */
  function IsBlocked(th: Throttle, key: string, now: int): (r: (bool, Throttle))
    ensures r.0 <==> key in th.blocks && now < th.blocks[key]
    ensures key !in th.blocks ==> r.1 == th
    ensures r.0 ==> r.1 == th
    ensures key in th.blocks && !r.0 ==> key !in r.1.attempts && key !in r.1.blocks
    ensures SameElsewhere(th, r.1, key)
  {
    if key in th.blocks then
      if now < th.blocks[key] then (true, th)
      else (false, Throttle(th.attempts - {key}, th.blocks - {key}))
    else (false, th)
  }

  /** The state the service keeps: a key is blocked exactly when it has
      failed at least five times since it was last forgotten, and a
      counted key has failed at least once. */
  ghost predicate Consistent(th: Throttle) {
    (forall k :: k in th.blocks <==> k in th.attempts && th.attempts[k] >= MaxAttempts)
    && (forall k :: k in th.attempts ==> th.attempts[k] >= 1)
  }

  lemma EmptyConsistent()
    ensures Consistent(Empty)
  {
  }

  /** Each operation keeps the state consistent. */
  lemma OperationsKeepConsistent(th: Throttle, key: string, now: int)
    requires Consistent(th)
    ensures Consistent(Succeeded(th, key))
    ensures Consistent(Failed(th, key, now))
    ensures Consistent(IsBlocked(th, key, now).1)
  {
    var f := Failed(th, key, now);
    forall k ensures k in f.blocks <==> k in f.attempts && f.attempts[k] >= MaxAttempts {
      if k == key && Count(th, key) + 1 < MaxAttempts {
        assert key !in th.blocks;
      }
    }
  }

  /** A key with fewer than five failures since it was last forgotten has
      no block and is let through. */
  lemma FewFailuresNotBlocked(th: Throttle, key: string, now: int)
    requires Consistent(th) && Count(th, key) < MaxAttempts
    ensures key !in th.blocks
    ensures !IsBlocked(th, key, now).0
  {
  }

  /** `n` failures in a row on a key that starts forgotten. */
  function FailAll(th: Throttle, key: string, times: seq<int>): Throttle
    decreases |times|
  {
    if |times| == 0 then th else Failed(FailAll(th, key, times[..|times| - 1]), key, times[|times| - 1])
  }

  /** After `n` failures the count is `n`; the key is blocked exactly when
      `n` is at least five, until fifteen minutes after the last one. */
  lemma {:induction false} FailuresCount(th: Throttle, key: string, times: seq<int>)
    requires key !in th.attempts && key !in th.blocks
    ensures Count(FailAll(th, key, times), key) == |times|
    ensures key in FailAll(th, key, times).blocks <==> |times| >= MaxAttempts
    ensures |times| >= MaxAttempts ==> FailAll(th, key, times).blocks[key] == times[|times| - 1] + BlockMillis
    decreases |times|
  {
    if |times| > 0 {
      FailuresCount(th, key, times[..|times| - 1]);
    }
  }

  /** A check after the block has run out forgets the key, so the next
      failure counts from one again. */
  lemma ExpiryResets(th: Throttle, key: string, now: int, later: int)
    requires key in th.blocks && now >= th.blocks[key]
    ensures var (blocked, th') := IsBlocked(th, key, now);
            !blocked && Count(Failed(th', key, later), key) == 1
  {
  }
}

=== FILE: money.dfy ===
/** Money and percentages. Amounts are integer cents. A backend
    percentage `a.divide(b, 4, HALF_UP).multiply(100)` is kept exactly as
    an integer number of hundredths of a percent: the quotient a/b scaled
    by 10000 and rounded half away from zero, which is what BigDecimal's
    `HALF_UP` does for both signs. */
module Money {

  function Abs(x: int): (r: int)
    ensures r >= 0 && (r == x || r == -x)
  {
    if x < 0 then -x else x
  }

  lemma MulNeg(a: int, b: int)
    ensures (-a) * b == -(a * b) && a * (-b) == -(a * b)
  {
  }

  /** Rounds n/m to the nearest integer, halves upwards, for n >= 0. */
  function RoundNat(n: nat, m: nat): (r: nat)
    requires m > 0
    ensures 2 * (r * m) <= 2 * n + m < 2 * (r * m) + 2 * m
  {
    var r := (2 * n + m) / (2 * m);
    assert r * (2 * m) + (2 * n + m) % (2 * m) == 2 * n + m;
    assert r * (2 * m) == 2 * (r * m);
    r
  }

  /** The sign bookkeeping of `RoundHalfUpDiv`: the product has the
      magnitude k*m and the sign of q. */
  lemma SignedProduct(k: int, m: int, q: int, d: int, r: int)
    requires m == Abs(d)
    requires r == if (q >= 0) == (d > 0) then k else -k
    ensures r * d == if q >= 0 then k * m else -(k * m)
  {
    MulNeg(k, m);
    MulNeg(k, d);
  }

  /** BigDecimal `HALF_UP` division of q by d to an integer: the nearest
      integer to q/d, with a tie going away from zero. */
  function RoundHalfUpDiv(q: int, d: int): (r: int)
    requires d != 0
    ensures 2 * Abs(r * d - q) <= Abs(d)
    ensures 2 * Abs(r * d - q) == Abs(d) ==> Abs(r * d) > Abs(q)
    ensures (q >= 0) == (d > 0) ==> r >= 0
    ensures (q >= 0) != (d > 0) ==> r <= 0
  {
    var k: int := RoundNat(Abs(q), Abs(d));
    var r: int := if (q >= 0) == (d > 0) then k else -k;
    SignedRounding(q, d, k, r);
    r
  }

  /** Giving the rounded magnitude the sign of the quotient keeps it the
      nearest integer, ties away from zero. */
  lemma SignedRounding(q: int, d: int, k: int, r: int)
    requires d != 0 && k >= 0
    requires 2 * (k * Abs(d)) <= 2 * Abs(q) + Abs(d) < 2 * (k * Abs(d)) + 2 * Abs(d)
    requires r == if (q >= 0) == (d > 0) then k else -k
    ensures 2 * Abs(r * d - q) <= Abs(d)
    ensures 2 * Abs(r * d - q) == Abs(d) ==> Abs(r * d) > Abs(q)
    ensures (q >= 0) == (d > 0) ==> r >= 0
    ensures (q >= 0) != (d > 0) ==> r <= 0
  {
    var n, m := Abs(q), Abs(d);
    var p := k * m;
    assert r * d - q == if q >= 0 then p - n else -(p - n) by {
      SignedProduct(k, m, q, d, r);
    }
    assert Abs(r * d) == p by {
      SignedProduct(k, m, q, d, r);
    }
  }

  /** `value.divide(total, 4, HALF_UP).multiply(100)` in hundredths of a
      percent: 12.34% is 1234. */
  function PercentHundredths(value: int, total: int): int
    requires total != 0
  {
    RoundHalfUpDiv(value * 10000, total)
  }

  lemma MulMono(a: int, b: int, c: int)
    requires a <= b && c >= 0
    ensures a * c <= b * c
  {
    assert b * c - a * c == (b - a) * c;
  }

  /** A part of a positive whole lies between 0% and 100%. */
  lemma PercentBounds(value: int, total: int)
    requires 0 <= value <= total && total > 0
    ensures 0 <= PercentHundredths(value, total) <= 10000
  {
    var r := PercentHundredths(value, total);
    assert 2 * (r * total - value * 10000) <= total;
    MulMono(value, total, 10000);
    if r >= 10001 {
      MulMono(10001, r, total);
      assert false;
    }
  }

  /** The whole is exactly 100%. */
  lemma PercentOfWhole(total: int)
    requires total != 0
    ensures PercentHundredths(total, total) == 10000
  {
    var r := PercentHundredths(total, total);
    var e := r - 10000;
    var p := e * total;
    assert r * total - total * 10000 == p;
    assert 2 * Abs(p) <= Abs(total);
    ProductMagnitude(e, total);
  }

  /** A non-zero multiple of x is at least as large as x. */
  lemma ProductMagnitude(e: int, x: int)
    requires x != 0 && 2 * Abs(e * x) <= Abs(x)
    ensures e == 0
  {
    if e != 0 {
      var a := Abs(e);
      var b := Abs(x);
      assert Abs(e * x) == a * b by { MulNeg(a, b); MulNeg(e, x); }
      MulMono(1, a, b);
    }
  }

  lemma MulSucc(a: int, b: int)
    ensures (a + 1) * b == a * b + b
  {
  }

  /** A larger part of the same positive whole never shows a smaller
      percentage, rounding included. */
  lemma PercentMono(v1: int, v2: int, total: int)
    requires v1 <= v2 && total > 0
    ensures PercentHundredths(v1, total) <= PercentHundredths(v2, total)
  {
    var r1 := PercentHundredths(v1, total);
    var r2 := PercentHundredths(v2, total);
    if v1 < v2 && r1 > r2 {
      var p1, q1 := r1 * total, v1 * 10000;
      var p2, q2 := r2 * total, v2 * 10000;
      assert 2 * Abs(p1 - q1) <= total;
      assert 2 * Abs(p2 - q2) <= total;
      MulMono(r2 + 1, r1, total);
      MulSucc(r2, total);
      MulMono(v1 + 1, v2, 10000);
      MulSucc(v1, 10000);
      assert false;
    }
  }

  /** Reaching or passing the whole shows at least 100%. */
  lemma PercentAtLeastWhole(value: int, total: int)
    requires value >= total > 0
    ensures PercentHundredths(value, total) >= 10000
  {
    PercentOfWhole(total);
    PercentMono(total, value, total);
  }
}

=== FILE: recurring.dfy ===
/** `RecurringController`: bill templates a user keeps (rent, salary, ...)
    and the "launch" action that books one of them as a transaction in a
    chosen month, on the template's due day clamped to the month's length. */
module Recurring {
  import opened Wrappers
  import opened Seqs
  import opened Calendar
  import opened Domain

  const NotFoundMessage: string := "Recurring transaction not found"
  const DeniedMessage: string := "Access denied"

  function Owned(st: Store, user: UserId, id: Id): (r: Result<RecurringTransaction>)
    ensures r.Ok? ==> r.value in st.recurring && r.value.id == id && r.value.owner == user
  {
    FindOwned(st.recurring, id, RecurringId, RecurringOwner, user, NotFoundMessage, DeniedMessage)
  }

  /** `createRecurring`: the body is saved as the caller's, under a new id.
      A body that carries its own id would be merged over that row by
      `save`; that branch is not modelled. */
  function Create(st: Store, user: UserId, body: RecurringTransaction): (o: Outcome<RecurringTransaction>)
    ensures o.response.Ok?
    ensures var r := o.response.value;
            && r == body.(id := r.id, owner := user)
            && (forall k :: 0 <= k < |st.recurring| ==> st.recurring[k].id != r.id)
            && o.store == st.(recurring := st.recurring + [r])
  {
    var r := body.(id := FreshId(st.recurring, RecurringId), owner := user);
    Outcome(st.(recurring := st.recurring + [r]), Ok(r))
  }

  /** `updateRecurring`: after the NOT_FOUND and FORBIDDEN checks the six
      editable fields are taken from the body; id and owner stay. */
  function Update(st: Store, user: UserId, id: Id, details: RecurringTransaction): (o: Outcome<RecurringTransaction>)
    ensures o.response.Err? ==> o.store == st
    ensures o.response.Err? <==> Owned(st, user, id).Err?
    ensures o.response.Ok? ==>
              var r := o.response.value;
              && r.id == id && r.owner == user
              && r.description == details.description && r.amount == details.amount
              && r.kind == details.kind && r.category == details.category
              && r.dueDay == details.dueDay && r.frequency == details.frequency
              && o.store == st.(recurring := ReplaceById(st.recurring, r, RecurringId))
  {
    match Owned(st, user, id)
    case Err(s, m) => Outcome(st, Err(s, m))
    case Ok(prev) =>
      var r := prev.(description := details.description, amount := details.amount, kind := details.kind,
                     category := details.category, dueDay := details.dueDay, frequency := details.frequency);
      Outcome(st.(recurring := ReplaceById(st.recurring, r, RecurringId)), Ok(r))
  }

  /** Sending the same edit twice is the same as sending it once. */
  lemma UpdateIdempotent(st: Store, user: UserId, id: Id, details: RecurringTransaction)
    requires Update(st, user, id, details).response.Ok?
    ensures var o := Update(st, user, id, details);
            Update(o.store, user, id, details) == o
  {
    var o := Update(st, user, id, details);
    var r := o.response.value;
    var prev := Owned(st, user, id).value;
    assert prev in st.recurring && RecurringId(prev) == RecurringId(r);
    ReplaceThenFind(st.recurring, r, RecurringId);
  }

  /** `deleteRecurring`. */
  function Delete(st: Store, user: UserId, id: Id): (o: Outcome<()>)
    ensures o.response.Err? ==> o.store == st
    ensures o.response.Err? <==> Owned(st, user, id).Err?
    ensures o.response.Ok? ==> o.store == st.(recurring := DeleteById(st.recurring, id, RecurringId))
  {
    match Owned(st, user, id)
    case Err(s, m) => Outcome(st, Err(s, m))
    case Ok(_) => Outcome(st.(recurring := DeleteById(st.recurring, id, RecurringId)), Ok(()))
  }

  /** Deleting a template just created gives the table back as it was. */
  lemma CreateThenDeleteRestores(st: Store, user: UserId, body: RecurringTransaction)
    ensures var o := Create(st, user, body);
            var d := Delete(o.store, user, o.response.value.id);
            d.response.Ok? && d.store == st
  {
    var o := Create(st, user, body);
    var r := o.response.value;
    assert o.store.recurring[|st.recurring|] == r;
    DeleteInserted(st.recurring, r, RecurringId);
  }

  /** The day a bill falls on in a month: its due day, or the month's last
      day when the month is shorter. */
  function ClampedDay(dueDay: int, year: int, month: int): (day: int)
    requires 1 <= month <= 12
    ensures day <= LengthOfMonth(year, month) && day <= dueDay
    ensures day == dueDay || day == LengthOfMonth(year, month)
  {
    if dueDay < LengthOfMonth(year, month) then dueDay else LengthOfMonth(year, month)
  }

  /** `createTransactionFromRecurring`. A missing "year" or "month" falls
      back to today's; `LocalDate.of` refuses a month outside 1..12 and
      `withDayOfMonth` a day below 1, both surfacing as server errors. The
      new transaction copies the template and is linked to no account and
      no card; the template itself is not written. */
  function Launch(st: Store, user: UserId, id: Id, year: Option<int>, month: Option<int>, today: Date)
    : (o: Outcome<Transaction>)
    ensures o.response.Err? ==> o.store == st
    ensures Owned(st, user, id).Err? ==> o.response.Err? && o.response.status != ServerError
    ensures o.response.Ok? <==>
              Owned(st, user, id).Ok? && 1 <= month.GetOr(today.month) <= 12 && Owned(st, user, id).value.dueDay >= 1
    ensures o.response.Ok? ==>
              var tpl := Owned(st, user, id).value;
              var t := o.response.value;
              && t.date.year == year.GetOr(today.year) && t.date.month == month.GetOr(today.month)
              && (t.date.day == tpl.dueDay || (t.date.day < tpl.dueDay && t.date.day == LengthOfMonth(t.date.year, t.date.month)))
              && t.description == Some(tpl.description) && t.amount == tpl.amount
              && t.kind == tpl.kind && t.category == tpl.category
              && t.account.None? && t.creditCard.None? && t.owner == user
              && (forall k :: 0 <= k < |st.transactions| ==> st.transactions[k].id != t.id)
              && o.store == st.(transactions := st.transactions + [t])
  {
    match Owned(st, user, id)
    case Err(s, m) => Outcome(st, Err(s, m))
    case Ok(tpl) =>
      var y := year.GetOr(today.year);
      var m := month.GetOr(today.month);
      match Of(y, m, 1)
      case None => Outcome(st, Err(ServerError, "Invalid value for MonthOfYear"))
      case Some(first) =>
        match WithDayOfMonth(first, ClampedDay(tpl.dueDay, y, m))
        case None => Outcome(st, Err(ServerError, "Invalid value for DayOfMonth"))
        case Some(date) =>
          var t := Transaction(FreshId(st.transactions, TransactionId), user, Some(tpl.description), tpl.amount,
                               date, tpl.kind, None, None, tpl.category);
          Outcome(st.(transactions := st.transactions + [t]), Ok(t))
  }

  /** A bill due on the 30th lands on the 29th of February in a leap year
      and on the 28th otherwise. */
  lemma FebruaryClamp(st: Store, user: UserId, id: Id, year: int, today: Date)
    requires Owned(st, user, id).Ok? && Owned(st, user, id).value.dueDay == 30
    ensures var o := Launch(st, user, id, Some(year), Some(2), today);
            o.response.Ok? && o.response.value.date == YMD(year, 2, if IsLeapYear(year) then 29 else 28)
  {
  }

  /** Launching never touches card limits: the new row is charged to no
      card, and it is linked to at most one source (none). */
  lemma LaunchKeepsBookkeeping(st: Store, user: UserId, id: Id, year: Option<int>, month: Option<int>, today: Date)
    requires LimitsInSync(st) && LinkExclusive(st.transactions)
    ensures var o := Launch(st, user, id, year, month, today);
            LimitsInSync(o.store) && LinkExclusive(o.store.transactions) && o.store.cards == st.cards
  {
    var o := Launch(st, user, id, year, month, today);
    if o.response.Ok? {
      var t := o.response.value;
      forall k | 0 <= k < |st.cards|
        ensures st.cards[k].limitUsed == CardUsage(o.store.transactions, st.cards[k].id)
      {
        SumByConcat(st.transactions, [t], ChargeOf(st.cards[k].id));
        SumBySingleton(t, ChargeOf(st.cards[k].id));
      }
    }
  }
}

=== FILE: reports.dfy ===
/** `ReportService`: the per-day cash flow of a date range and the
    month's expenses broken down by category with their shares. */
module Reports {
  import opened Wrappers
  import opened Seqs
  import opened Calendar
  import opened Money
  import opened Grouping
  import opened Domain
  import opened TransactionQueries

  /** `CashFlowDTO`: one day's income, expense and their difference. */
  datatype CashFlowEntry = CashFlowEntry(date: Date, totalIncome: int, totalExpense: int, netBalance: int)

  function IncomeAmount(t: Transaction): int { if t.kind == Income then t.amount else 0 }

  function ExpenseAmount(t: Transaction): int { if t.kind == Expense then t.amount else 0 }

  function EntryIncome(e: CashFlowEntry): int { e.totalIncome }

  function EntryExpense(e: CashFlowEntry): int { e.totalExpense }

  /** One entry per listed day, summing the rows dated that day. */
  function DailyEntries(rows: seq<Transaction>, days: seq<Date>): (r: seq<CashFlowEntry>)
    ensures |r| == |days|
    ensures forall i :: 0 <= i < |days| ==>
              && r[i].date == days[i]
              && r[i].totalIncome == KeySum(rows, TxDate, IncomeAmount, days[i])
              && r[i].totalExpense == KeySum(rows, TxDate, ExpenseAmount, days[i])
              && r[i].netBalance == r[i].totalIncome - r[i].totalExpense
    ensures SumBy(r, EntryIncome) == SumBy(days, KeySumOf(rows, TxDate, IncomeAmount))
    ensures SumBy(r, EntryExpense) == SumBy(days, KeySumOf(rows, TxDate, ExpenseAmount))
    decreases |days|
  {
    if |days| == 0 then []
    else
      var d := days[|days| - 1];
      var income := KeySum(rows, TxDate, IncomeAmount, d);
      var expense := KeySum(rows, TxDate, ExpenseAmount, d);
      var r := DailyEntries(rows, days[..|days| - 1]) + [CashFlowEntry(d, income, expense, income - expense)];
      assert r[..|r| - 1] == DailyEntries(rows, days[..|days| - 1]);
      r
  }

  /** `generateCashFlow`: the user's rows inside the range, then one entry
      per day from `start` to `end`, days without rows included. */
  function CashFlow(ts: seq<Transaction>, user: UserId, start: Date, end: Date): (r: seq<CashFlowEntry>)
    ensures |r| == |Days(start, end)|
    ensures Key(end) < Key(start) <==> |r| == 0
    ensures forall i :: 0 <= i < |r| ==>
              && r[i].date == Days(start, end)[i]
              && r[i].totalIncome == KeySum(Filter(ts, UserInRange(user, start, end)), TxDate, IncomeAmount, r[i].date)
              && r[i].totalExpense == KeySum(Filter(ts, UserInRange(user, start, end)), TxDate, ExpenseAmount, r[i].date)
              && r[i].netBalance == r[i].totalIncome - r[i].totalExpense
  {
    DailyEntries(Filter(ts, UserInRange(user, start, end)), Days(start, end))
  }

  /** The days come in calendar order, one per day of the range, the first
      being `start` and the last `end`. */
  lemma CashFlowDays(ts: seq<Transaction>, user: UserId, start: Date, end: Date)
    ensures var r := CashFlow(ts, user, start, end);
            && (forall i, j :: 0 <= i < j < |r| ==> Key(r[i].date) < Key(r[j].date))
            && (forall d: Date :: InRange(d, start, end) <==> exists i :: 0 <= i < |r| && r[i].date == d)
            && (|r| > 0 ==> r[0].date == start && r[|r| - 1].date == end)
  {
    DaysCover(start, end);
    var r := CashFlow(ts, user, start, end);
    forall d: Date | InRange(d, start, end)
      ensures exists i :: 0 <= i < |r| && r[i].date == d
    {
      var i :| 0 <= i < |Days(start, end)| && Days(start, end)[i] == d;
      assert r[i].date == d;
    }
  }

  /** The user's INCOME rows inside the range. */
  function RangeIncome(user: UserId, start: Date, end: Date): Transaction -> bool {
    (t: Transaction) => t.owner == user && InRange(t.date, start, end) && t.kind == Income
  }

  function RangeExpense(user: UserId, start: Date, end: Date): Transaction -> bool {
    (t: Transaction) => t.owner == user && InRange(t.date, start, end) && t.kind == Expense
  }

  /** Summed over the days, the columns give the user's INCOME and EXPENSE
      totals inside the range; rows outside it count nowhere. */
  lemma {:induction false} CashFlowTotals(ts: seq<Transaction>, user: UserId, start: Date, end: Date)
    ensures SumBy(CashFlow(ts, user, start, end), EntryIncome) == SumWhere(ts, RangeIncome(user, start, end))
    ensures SumBy(CashFlow(ts, user, start, end), EntryExpense) == SumWhere(ts, RangeExpense(user, start, end))
  {
    var rows := Filter(ts, UserInRange(user, start, end));
    var days := Days(start, end);
    DaysCover(start, end);
    assert forall i :: 0 <= i < |rows| ==> TxDate(rows[i]) in days;
    KeySumsCover(rows, TxDate, IncomeAmount, days);
    KeySumsCover(rows, TxDate, ExpenseAmount, days);
    RowsSum(ts, UserInRange(user, start, end), RangeIncome(user, start, end), IncomeAmount);
    RowsSum(ts, UserInRange(user, start, end), RangeExpense(user, start, end), ExpenseAmount);
  }

  /** Summing `f` over the rows passing `p` is summing the amounts of the
      rows passing `q`, when `f` is the amount exactly where `q` refines `p`. */
  lemma {:induction false} RowsSum(ts: seq<Transaction>, p: Transaction -> bool, q: Transaction -> bool, f: Transaction -> int)
    requires forall k :: 0 <= k < |ts| ==> (q(ts[k]) ==> p(ts[k]))
    requires forall k :: 0 <= k < |ts| ==> p(ts[k]) ==> f(ts[k]) == (if q(ts[k]) then ts[k].amount else 0)
    ensures SumBy(Filter(ts, p), f) == SumWhere(ts, q)
    decreases |ts|
  {
    if |ts| > 0 {
      var ts' := ts[..|ts| - 1];
      var x := ts[|ts| - 1];
      assert forall k :: 0 <= k < |ts'| ==> ts'[k] == ts[k];
      RowsSum(ts', p, q, f);
      if p(x) {
        SumByConcat(Filter(ts', p), [x], f);
        SumBySingleton(x, f);
      }
    }
  }

  /* ---------------------------------------------------------------- */
  /* Expenses by category                                             */
  /* ---------------------------------------------------------------- */

  const Uncategorized: string := "Sem Categoria"

  /** `CategoryReportDTO`: a category's expense total and its share of the
      month, in hundredths of a percent. */
  datatype CategoryReport = CategoryReport(categoryName: string, totalValue: int, percentage: int)

  /** The category name of a row, "Sem Categoria" when it has none. */
  function CategoryLabel(cats: seq<Category>): Transaction -> string {
    (t: Transaction) =>
      match t.category
      case None => Uncategorized
      case Some(c) =>
        match FindById(cats, c, CategoryId)
        case None => Uncategorized
        case Some(cat) => cat.name
  }

  function MonthExpense(user: UserId, first: Date, last: Date): Transaction -> bool {
    (t: Transaction) => t.owner == user && t.kind == Expense && InRange(t.date, first, last)
  }

  function ReportValue(r: CategoryReport): int { r.totalValue }

  function ToReports(gs: seq<Group<string>>, total: int): (r: seq<CategoryReport>)
    requires total != 0
    ensures |r| == |gs|
    ensures forall i :: 0 <= i < |gs| ==>
              r[i] == CategoryReport(gs[i].key, gs[i].total, PercentHundredths(gs[i].total, total))
    decreases |gs|
  {
    if |gs| == 0 then [] else ToReports(gs[..|gs| - 1], total) + [CategoryReport(gs[|gs| - 1].key, gs[|gs| - 1].total, PercentHundredths(gs[|gs| - 1].total, total))]
  }

  function Names(rs: seq<CategoryReport>): (r: seq<string>)
    ensures |r| == |rs| && forall i :: 0 <= i < |rs| ==> r[i] == rs[i].categoryName
  {
    seq(|rs|, i requires 0 <= i < |rs| => rs[i].categoryName)
  }

  /** The category label of each row, in order. */
  function Labels(rows: seq<Transaction>, cats: seq<Category>): (r: seq<string>)
    ensures |r| == |rows| && forall k :: 0 <= k < |rows| ==> r[k] == CategoryLabel(cats)(rows[k])
  {
    seq(|rows|, k requires 0 <= k < |rows| => CategoryLabel(cats)(rows[k]))
  }

  /** Ranking groups and turning them into reports keeps them largest
      first and keeps the grand total. */
  lemma RankedOrder(gs: seq<Group<string>>, total: int)
    requires DistinctBy(gs, GroupKey) && total != 0
    ensures SortedDesc(ToReports(RankDesc(gs), total), ReportValue)
    ensures SumBy(ToReports(RankDesc(gs), total), ReportValue) == SumBy(gs, GroupTotal)
  {
    ReportsFollowGroups(RankDesc(gs), total);
  }

  /** ... with one report per key of the grouping ... */
  lemma RankedNames(gs: seq<Group<string>>, total: int)
    requires DistinctBy(gs, GroupKey) && total != 0
    ensures var r := ToReports(RankDesc(gs), total);
            && (forall i, j :: 0 <= i < j < |r| ==> r[i].categoryName != r[j].categoryName)
            && (forall name :: name in Names(r) <==> name in Keys(gs))
  {
    var ranked := RankDesc(gs);
    var r := ToReports(ranked, total);
    PermutedKeys(gs, ranked);
    assert Names(r) == Keys(ranked);
    assert forall i :: 0 <= i < |r| ==> r[i].categoryName == GroupKey(ranked[i]);
  }

  /** ... each holding its key's total. */
  lemma RankedTotals(gs: seq<Group<string>>, total: int)
    requires DistinctBy(gs, GroupKey) && total != 0
    ensures var r := ToReports(RankDesc(gs), total);
            forall i :: 0 <= i < |r| ==> r[i].totalValue == TotalOf(gs, r[i].categoryName)
  {
    var ranked := RankDesc(gs);
    MemberTotals(gs, ranked);
    assert forall i :: 0 <= i < |ranked| ==> ranked[i] in ranked;
  }

  /** ... and its share of the total. */
  lemma RankedShares(gs: seq<Group<string>>, total: int)
    requires DistinctBy(gs, GroupKey) && total != 0
    ensures var r := ToReports(RankDesc(gs), total);
            forall i :: 0 <= i < |r| ==> r[i].percentage == PercentHundredths(r[i].totalValue, total)
  {
  }

  /** The keys of the grouping are the labels that occur. */
  lemma GroupedLabels(rows: seq<Transaction>, cats: seq<Category>)
    ensures forall name :: name in Keys(GroupSum(rows, CategoryLabel(cats), Amount)) <==> name in Labels(rows, cats)
  {
    forall name
      ensures name in Keys(GroupSum(rows, CategoryLabel(cats), Amount)) <==> name in Labels(rows, cats)
    {
      if name in Labels(rows, cats) {
        var k :| 0 <= k < |rows| && Labels(rows, cats)[k] == name;
        assert CategoryLabel(cats)(rows[k]) == name;
      }
    }
  }

  /** The grouped, ranked report of a non-zero total. */
  function CategoryReports(rows: seq<Transaction>, cats: seq<Category>, total: int): (r: seq<CategoryReport>)
    requires total == SumBy(rows, Amount) && total != 0
    ensures SortedDesc(r, ReportValue)
    ensures forall i, j :: 0 <= i < j < |r| ==> r[i].categoryName != r[j].categoryName
    ensures forall name :: name in Names(r) <==> name in Labels(rows, cats)
    ensures forall i :: 0 <= i < |r| ==>
              && r[i].totalValue == KeySum(rows, CategoryLabel(cats), Amount, r[i].categoryName)
              && r[i].percentage == PercentHundredths(r[i].totalValue, total)
    ensures SumBy(r, ReportValue) == total
  {
    var gs := GroupSum(rows, CategoryLabel(cats), Amount);
    RankedOrder(gs, total);
    RankedNames(gs, total);
    RankedTotals(gs, total);
    RankedShares(gs, total);
    GroupedLabels(rows, cats);
    var r := ToReports(RankDesc(gs), total);
    assert forall i :: 0 <= i < |r| ==> r[i].totalValue == KeySum(rows, CategoryLabel(cats), Amount, r[i].categoryName) by {
      forall i | 0 <= i < |r|
        ensures r[i].totalValue == KeySum(rows, CategoryLabel(cats), Amount, r[i].categoryName)
      {
        assert r[i].totalValue == TotalOf(gs, r[i].categoryName);
      }
    }
    r
  }

  /** `getExpensesByCategory(month, year)`. `LocalDate.of` refuses a month
      outside 1..12. The month's EXPENSE rows are grouped by category name
      ("Sem Categoria" for none); a month whose total is zero reports
      nothing. */
  function ExpensesByCategory(ts: seq<Transaction>, cats: seq<Category>, user: UserId, month: int, year: int)
    : (r: Result<seq<CategoryReport>>)
    ensures r.Err? <==> !(1 <= month <= 12)
    ensures r.Err? ==> r.status == ServerError
    ensures r.Ok? ==>
              var rows := Filter(ts, MonthExpense(user, FirstDayOfMonth(year, month), LastDayOfMonth(year, month)));
              var total := SumBy(rows, Amount);
              && (total == 0 ==> r.value == [])
              && (total != 0 ==>
                    && SortedDesc(r.value, ReportValue)
                    && (forall i, j :: 0 <= i < j < |r.value| ==> r.value[i].categoryName != r.value[j].categoryName)
                    && (forall name :: name in Names(r.value) <==> name in Labels(rows, cats))
                    && (forall i :: 0 <= i < |r.value| ==>
                          && r.value[i].totalValue == KeySum(rows, CategoryLabel(cats), Amount, r.value[i].categoryName)
                          && r.value[i].percentage == PercentHundredths(r.value[i].totalValue, total))
                    && SumBy(r.value, ReportValue) == total)
  {
    if !(1 <= month <= 12) then Err(ServerError, "Invalid value for MonthOfYear")
    else
      var rows := Filter(ts, MonthExpense(user, FirstDayOfMonth(year, month), LastDayOfMonth(year, month)));
      var total := SumBy(rows, Amount);
      if total == 0 then Ok([]) else Ok(CategoryReports(rows, cats, total))
  }

  lemma {:induction false} ReportsFollowGroups(gs: seq<Group<string>>, total: int)
    requires total != 0
    ensures SumBy(ToReports(gs, total), ReportValue) == SumBy(gs, GroupTotal)
    ensures SortedDesc(gs, GroupTotal) ==> SortedDesc(ToReports(gs, total), ReportValue)
    decreases |gs|
  {
    if |gs| > 0 {
      ReportsFollowGroups(gs[..|gs| - 1], total);
    }
  }

  /** Keeping some rows keeps no negative amount in. */
  lemma KeptAmountsNonNeg(ts: seq<Transaction>, p: Transaction -> bool)
    requires forall k :: 0 <= k < |ts| ==> ts[k].amount >= 0
    ensures forall k :: 0 <= k < |Filter(ts, p)| ==> Amount(Filter(ts, p)[k]) >= 0
  {
    var rows := Filter(ts, p);
    forall k | 0 <= k < |rows|
      ensures Amount(rows[k]) >= 0
    {
      FilterMembership(ts, p, rows[k]);
    }
  }

  /** With no negative amounts, every share lies between 0% and 100%. */
  lemma SharesInRange(ts: seq<Transaction>, cats: seq<Category>, user: UserId, month: int, year: int)
    requires 1 <= month <= 12
    requires forall k :: 0 <= k < |ts| ==> ts[k].amount >= 0
    ensures var r := ExpensesByCategory(ts, cats, user, month, year);
            forall i :: 0 <= i < |r.value| ==> 0 <= r.value[i].percentage <= 10000
  {
    var rows := Filter(ts, MonthExpense(user, FirstDayOfMonth(year, month), LastDayOfMonth(year, month)));
    var r := ExpensesByCategory(ts, cats, user, month, year);
    var total := SumBy(rows, Amount);
    if total != 0 {
      KeptAmountsNonNeg(ts, MonthExpense(user, FirstDayOfMonth(year, month), LastDayOfMonth(year, month)));
      SumByNonNeg(rows, Amount);
      forall i | 0 <= i < |r.value|
        ensures 0 <= r.value[i].percentage <= 10000
      {
        KeySumBounds(rows, CategoryLabel(cats), Amount, r.value[i].categoryName);
        PercentBounds(r.value[i].totalValue, total);
      }
    }
  }

  /** Only the month's EXPENSE rows count: an INCOME row, or one dated
      outside the month, changes nothing. */
  lemma OtherRowsIgnored(ts: seq<Transaction>, cats: seq<Category>, user: UserId, month: int, year: int, t: Transaction)
    requires 1 <= month <= 12
    requires t.kind == Income || t.owner != user || t.date.year != year || t.date.month != month
    ensures ExpensesByCategory(ts + [t], cats, user, month, year) == ExpensesByCategory(ts, cats, user, month, year)
  {
    var p := MonthExpense(user, FirstDayOfMonth(year, month), LastDayOfMonth(year, month));
    MonthRangeExact(t.date, year, month);
    FilterConcat(ts, [t], p);
    assert Filter([t], p) == [] by { assert [t][..0] == []; }
    assert Filter(ts + [t], p) == Filter(ts, p);
  }
}

=== FILE: seqs.dfy ===
/** Sequence helpers: sums (the `reduce`/`SUM` of the source), searches by
    predicate (the repositories' `findById`), and a stable descending
    insertion sort (the `sorted(...)` and `ORDER BY ... DESC` calls). */
module Seqs {
  import opened Wrappers

  /** Sum of `f` over `s`, folded from the left as `reduce(ZERO, add)` is. */
  function SumBy<T>(s: seq<T>, f: T -> int): int
    decreases |s|
  {
    if |s| == 0 then 0 else SumBy(s[..|s| - 1], f) + f(s[|s| - 1])
  }

  lemma {:induction false} SumByConcat<T>(a: seq<T>, b: seq<T>, f: T -> int)
    ensures SumBy(a + b, f) == SumBy(a, f) + SumBy(b, f)
    decreases |b|
  {
    if |b| == 0 {
      assert a + b == a;
    } else {
      var b' := b[..|b| - 1];
      assert (a + b)[..|a + b| - 1] == a + b';
      SumByConcat(a, b', f);
    }
  }

  lemma SumBySingleton<T>(x: T, f: T -> int)
    ensures SumBy([x], f) == f(x)
  {
    assert [x][..0] == [];
  }

  /** Removing the element at `i` removes exactly its share of the sum. */
  lemma SumByRemove<T>(s: seq<T>, i: nat, f: T -> int)
    requires i < |s|
    ensures SumBy(s[..i] + s[i + 1..], f) == SumBy(s, f) - f(s[i])
  {
    var front, x, back := s[..i], s[i], s[i + 1..];
    var rest := [x] + back;
    assert rest == s[i..] by {
      assert |rest| == |s[i..]| && forall k :: 0 <= k < |rest| ==> rest[k] == s[i..][k];
    }
    assert s == front + rest by {
      assert s == s[..i] + s[i..];
    }
    SumByConcat(front, rest, f);
    SumByConcat([x], back, f);
    SumByConcat(front, back, f);
    SumBySingleton(x, f);
  }

  /** Replacing the element at `i` swaps its share of the sum. */
  lemma SumByUpdate<T>(s: seq<T>, i: nat, x: T, f: T -> int)
    requires i < |s|
    ensures SumBy(s[i := x], f) == SumBy(s, f) - f(s[i]) + f(x)
  {
    assert s == s[..i] + ([s[i]] + s[i + 1..]);
    assert s[i := x] == s[..i] + ([x] + s[i + 1..]);
    SumByConcat(s[..i], [s[i]] + s[i + 1..], f);
    SumByConcat([s[i]], s[i + 1..], f);
    SumByConcat(s[..i], [x] + s[i + 1..], f);
    SumByConcat([x], s[i + 1..], f);
    SumBySingleton(s[i], f);
    SumBySingleton(x, f);
  }

  lemma {:induction false} SumByPointwise<T>(s: seq<T>, f: T -> int, g: T -> int)
    requires forall k :: 0 <= k < |s| ==> f(s[k]) == g(s[k])
    ensures SumBy(s, f) == SumBy(s, g)
    decreases |s|
  {
    if |s| > 0 {
      SumByPointwise(s[..|s| - 1], f, g);
    }
  }

  lemma {:induction false} SumByLinear<T>(s: seq<T>, f: T -> int, g: T -> int, h: T -> int)
    requires forall k :: 0 <= k < |s| ==> h(s[k]) == f(s[k]) + g(s[k])
    ensures SumBy(s, h) == SumBy(s, f) + SumBy(s, g)
    decreases |s|
  {
    if |s| > 0 {
      SumByLinear(s[..|s| - 1], f, g, h);
    }
  }

  lemma {:induction false} SumByMono<T>(s: seq<T>, f: T -> int, g: T -> int)
    requires forall k :: 0 <= k < |s| ==> f(s[k]) <= g(s[k])
    ensures SumBy(s, f) <= SumBy(s, g)
    decreases |s|
  {
    if |s| > 0 {
      SumByMono(s[..|s| - 1], f, g);
    }
  }

  lemma {:induction false} SumByZero<T>(s: seq<T>, f: T -> int)
    requires forall k :: 0 <= k < |s| ==> f(s[k]) == 0
    ensures SumBy(s, f) == 0
    decreases |s|
  {
    if |s| > 0 {
      SumByZero(s[..|s| - 1], f);
    }
  }

  lemma {:induction false} SumByNonNeg<T>(s: seq<T>, f: T -> int)
    requires forall k :: 0 <= k < |s| ==> 0 <= f(s[k])
    ensures 0 <= SumBy(s, f)
    decreases |s|
  {
    if |s| > 0 {
      SumByNonNeg(s[..|s| - 1], f);
    }
  }

  /** Two sequences matched element by element have the same sum. */
  lemma {:induction false} SumByMap<A, B>(s: seq<A>, t: seq<B>, f: A -> int, g: B -> int)
    requires |s| == |t|
    requires forall i :: 0 <= i < |s| ==> f(s[i]) == g(t[i])
    ensures SumBy(s, f) == SumBy(t, g)
    decreases |s|
  {
    if |s| > 0 {
      SumByMap(s[..|s| - 1], t[..|t| - 1], f, g);
    }
  }

  /** The elements of `s` that satisfy `p`, in order (`stream().filter`). */
  function Filter<T>(s: seq<T>, p: T -> bool): (r: seq<T>)
    ensures |r| <= |s|
    ensures forall k :: 0 <= k < |r| ==> p(r[k])
    decreases |s|
  {
    if |s| == 0 then []
    else if p(s[|s| - 1]) then Filter(s[..|s| - 1], p) + [s[|s| - 1]]
    else Filter(s[..|s| - 1], p)
  }

  lemma {:induction false} FilterMembership<T>(s: seq<T>, p: T -> bool, x: T)
    ensures x in Filter(s, p) <==> x in s && p(x)
    decreases |s|
  {
    if |s| > 0 {
      FilterMembership(s[..|s| - 1], p, x);
      assert s == s[..|s| - 1] + [s[|s| - 1]];
    }
  }

  lemma FilterMembershipAll<T>(s: seq<T>, p: T -> bool)
    ensures forall x :: x in Filter(s, p) <==> x in s && p(x)
  {
    forall x
      ensures x in Filter(s, p) <==> x in s && p(x)
    {
      FilterMembership(s, p, x);
    }
  }

  /** Summing over the filtered sequence is summing `f` where `p` holds. */
  lemma {:induction false} SumByFilter<T>(s: seq<T>, p: T -> bool, f: T -> int, g: T -> int)
    requires forall k :: 0 <= k < |s| ==> g(s[k]) == (if p(s[k]) then f(s[k]) else 0)
    ensures SumBy(Filter(s, p), f) == SumBy(s, g)
    decreases |s|
  {
    if |s| > 0 {
      var s' := s[..|s| - 1];
      SumByFilter(s', p, f, g);
      if p(s[|s| - 1]) {
        SumByConcat(Filter(s', p), [s[|s| - 1]], f);
        SumBySingleton(s[|s| - 1], f);
      }
    }
  }

  lemma {:induction false} FilterConcat<T>(a: seq<T>, b: seq<T>, p: T -> bool)
    ensures Filter(a + b, p) == Filter(a, p) + Filter(b, p)
    decreases |b|
  {
    if |b| == 0 {
      assert a + b == a;
    } else {
      var b' := b[..|b| - 1];
      assert (a + b)[..|a + b| - 1] == a + b';
      FilterConcat(a, b', p);
    }
  }

  /** A filter every element passes returns the sequence itself. */
  lemma {:induction false} FilterKeepsAll<T>(s: seq<T>, p: T -> bool)
    requires forall k :: 0 <= k < |s| ==> p(s[k])
    ensures Filter(s, p) == s
    decreases |s|
  {
    if |s| > 0 {
      FilterKeepsAll(s[..|s| - 1], p);
      assert s[..|s| - 1] + [s[|s| - 1]] == s;
    }
  }

  /** Leftmost index whose element satisfies `p` (`findById`, `findFirst`). */
  function FindIndex<T>(s: seq<T>, p: T -> bool): (r: Option<nat>)
    ensures r.Some? ==> r.value < |s| && p(s[r.value])
    ensures r.Some? ==> forall k :: 0 <= k < r.value ==> !p(s[k])
    ensures r.None? ==> forall k :: 0 <= k < |s| ==> !p(s[k])
    decreases |s|
  {
    if |s| == 0 then None
    else if p(s[0]) then Some(0)
    else
      match FindIndex(s[1..], p)
      case None => None
      case Some(i) => Some(i + 1)
  }

  /** Two searches whose predicates answer alike position by position stop
      at the same index. */
  lemma FindIndexAgrees<T, U>(s: seq<T>, p: T -> bool, s': seq<U>, p': U -> bool)
    requires |s| == |s'|
    requires forall k :: 0 <= k < |s| ==> p(s[k]) == p'(s'[k])
    ensures FindIndex(s, p) == FindIndex(s', p')
  {
    var a, b := FindIndex(s, p), FindIndex(s', p');
    if a.Some? && b.Some? {
      assert !(a.value < b.value) && !(b.value < a.value);
    }
  }

  /** `s` with the element at `i` removed (`deleteById`). */
  function RemoveAt<T>(s: seq<T>, i: nat): (r: seq<T>)
    requires i < |s|
    ensures |r| == |s| - 1
    ensures forall k :: 0 <= k < i ==> r[k] == s[k]
    ensures forall k :: i <= k < |r| ==> r[k] == s[k + 1]
  {
    s[..i] + s[i + 1..]
  }

  /** The first `n` elements (`stream().limit(n)`). */
  function Take<T>(s: seq<T>, n: nat): (r: seq<T>)
    ensures |r| == if |s| < n then |s| else n
    ensures r == s[..|r|]
  {
    if |s| <= n then s else s[..n]
  }

  predicate SortedDesc<T>(s: seq<T>, key: T -> int) {
    forall i, j :: 0 <= i < j < |s| ==> key(s[i]) >= key(s[j])
  }

  /** Inserts `x` before the first element whose key is not larger, so
      that elements with equal keys keep their relative order. */
  function InsertDesc<T>(x: T, s: seq<T>, key: T -> int): (r: seq<T>)
    requires SortedDesc(s, key)
    ensures |r| == |s| + 1
    ensures multiset(r) == multiset(s) + multiset{x}
    ensures SortedDesc(r, key)
    ensures forall k :: 0 <= k < |r| ==> key(r[k]) <= key(x) || (|s| > 0 && key(r[k]) <= key(s[0]))
    decreases |s|
  {
    if |s| == 0 then [x]
    else if key(s[0]) <= key(x) then [x] + s
    else
      var rest := InsertDesc(x, s[1..], key);
      assert s == [s[0]] + s[1..];
      [s[0]] + rest
  }

  /** Stable sort by descending key: `sorted((a, b) -> b.k.compareTo(a.k))`. */
  function SortDesc<T>(s: seq<T>, key: T -> int): (r: seq<T>)
    ensures |r| == |s|
    ensures multiset(r) == multiset(s)
    ensures SortedDesc(r, key)
    decreases |s|
  {
    if |s| == 0 then []
    else
      assert s == [s[0]] + s[1..];
      InsertDesc(s[0], SortDesc(s[1..], key), key)
  }

  predicate DistinctBy<T, K(==)>(s: seq<T>, key: T -> K) {
    forall i, j :: 0 <= i < j < |s| ==> key(s[i]) != key(s[j])
  }

  /** Inserting an element with a new key keeps the keys distinct. */
  lemma {:induction false} InsertDescDistinct<T, K>(x: T, s: seq<T>, key: T -> int, k: T -> K)
    requires SortedDesc(s, key) && DistinctBy(s, k)
    requires forall j :: 0 <= j < |s| ==> k(s[j]) != k(x)
    ensures DistinctBy(InsertDesc(x, s, key), k)
    decreases |s|
  {
    if |s| > 0 && key(s[0]) > key(x) {
      var rest := InsertDesc(x, s[1..], key);
      InsertDescDistinct(x, s[1..], key, k);
      forall j | 0 <= j < |rest|
        ensures k(rest[j]) != k(s[0])
      {
        assert rest[j] in multiset(rest);
        assert rest[j] == x || rest[j] in s[1..];
      }
    }
  }

  /** Sorting never makes two keys equal. */
  lemma {:induction false} SortDescDistinct<T, K>(s: seq<T>, key: T -> int, k: T -> K)
    requires DistinctBy(s, k)
    ensures DistinctBy(SortDesc(s, key), k)
    decreases |s|
  {
    if |s| > 0 {
      var sorted := SortDesc(s[1..], key);
      SortDescDistinct(s[1..], key, k);
      forall j | 0 <= j < |sorted|
        ensures k(sorted[j]) != k(s[0])
      {
        assert sorted[j] in multiset(s[1..]);
      }
      InsertDescDistinct(s[0], sorted, key, k);
    }
  }

  /** Sorting keeps exactly the same elements. */
  lemma SortDescMembers<T>(s: seq<T>, key: T -> int, x: T)
    ensures x in SortDesc(s, key) <==> x in s
  {
    assert x in SortDesc(s, key) <==> x in multiset(SortDesc(s, key));
  }

  /** Sorting the kept elements keeps exactly the elements that pass. */
  lemma SortedFilterMembers<T>(s: seq<T>, p: T -> bool, key: T -> int)
    ensures forall k :: 0 <= k < |SortDesc(Filter(s, p), key)| ==>
              SortDesc(Filter(s, p), key)[k] in s && p(SortDesc(Filter(s, p), key)[k])
    ensures forall x :: x in s && p(x) ==> x in SortDesc(Filter(s, p), key)
  {
    var r := SortDesc(Filter(s, p), key);
    forall x
      ensures x in r <==> x in s && p(x)
    {
      SortDescMembers(Filter(s, p), key, x);
      FilterMembership(s, p, x);
    }
    forall k | 0 <= k < |r|
      ensures r[k] in s && p(r[k])
    {
      assert r[k] in r;
      SortDescMembers(Filter(s, p), key, r[k]);
      FilterMembership(s, p, r[k]);
    }
  }

  /** Reordering does not change a sum. */
  lemma {:induction false} SumByPerm<T>(a: seq<T>, b: seq<T>, f: T -> int)
    requires multiset(a) == multiset(b)
    ensures SumBy(a, f) == SumBy(b, f)
    decreases |a|
  {
    if |a| > 0 {
      var x := a[|a| - 1];
      var a' := a[..|a| - 1];
      assert a == a' + [x];
      assert x in multiset(b);
      var i :| 0 <= i < |b| && b[i] == x;
      var b' := b[..i] + b[i + 1..];
      assert b == b[..i] + [x] + b[i + 1..];
      assert multiset(b') == multiset(b) - multiset{x};
      SumByPerm(a', b', f);
      SumByRemove(b, i, f);
    } else {
      assert |b| == |multiset(b)| == 0;
    }
  }

  /** Inserting by a key shifted by a constant inserts at the same place. */
  lemma {:induction false} InsertDescShift<T>(x: T, s: seq<T>, key: T -> int, key2: T -> int, c: int)
    requires SortedDesc(s, key) && SortedDesc(s, key2)
    requires key2(x) == key(x) + c
    requires forall k :: 0 <= k < |s| ==> key2(s[k]) == key(s[k]) + c
    ensures InsertDesc(x, s, key) == InsertDesc(x, s, key2)
    decreases |s|
  {
    if |s| > 0 && key(s[0]) > key(x) {
      InsertDescShift(x, s[1..], key, key2, c);
    }
  }

  /** Sorting depends only on how keys compare: shifting the key of every
      element by the same constant gives the same order. */
  lemma {:induction false} SortDescShift<T>(s: seq<T>, key: T -> int, key2: T -> int, c: int)
    requires forall k :: 0 <= k < |s| ==> key2(s[k]) == key(s[k]) + c
    ensures SortDesc(s, key) == SortDesc(s, key2)
    decreases |s|
  {
    if |s| > 0 {
      assert forall k :: 0 <= k < |s[1..]| ==> s[1..][k] == s[k + 1];
      SortDescShift(s[1..], key, key2, c);
      var sorted := SortDesc(s[1..], key);
      forall k | 0 <= k < |sorted|
        ensures key2(sorted[k]) == key(sorted[k]) + c
      {
        assert sorted[k] in multiset(s[1..]);
      }
      assert SortedDesc(sorted, key2);
      InsertDescShift(s[0], sorted, key, key2, c);
    }
  }

  /** Two tests that agree on every element select the same elements. */
  lemma {:induction false} FilterAgree<T>(s: seq<T>, p: T -> bool, q: T -> bool)
    requires forall k :: 0 <= k < |s| ==> p(s[k]) == q(s[k])
    ensures Filter(s, p) == Filter(s, q)
    decreases |s|
  {
    if |s| > 0 {
      FilterAgree(s[..|s| - 1], p, q);
    }
  }

  /** A test no element passes selects nothing. */
  lemma {:induction false} FilterNone<T>(s: seq<T>, p: T -> bool)
    requires forall k :: 0 <= k < |s| ==> !p(s[k])
    ensures Filter(s, p) == []
    decreases |s|
  {
    if |s| > 0 {
      FilterNone(s[..|s| - 1], p);
    }
  }
}

=== FILE: settings_page.dfy ===
/** `SettingsPage.getInitials`: the avatar letters shown for the user's
    name. */
module ProfileInitials {
  import opened Wrappers
  import opened Seqs
  import opened Text

  const Unknown: string := "?"

  /** `parts.map(n => n[0]).join('')`: an empty part yields `undefined`,
      which `join` writes as nothing. */
  function Firsts(parts: seq<string>): (r: string)
    ensures |r| <= |parts|
    decreases |parts|
  {
    if |parts| == 0 then ""
    else
      var last := parts[|parts| - 1];
      Firsts(parts[..|parts| - 1]) + (if |last| == 0 then "" else [last[0]])
  }

  /** `getInitials(name)`. */
  function Initials(name: Option<string>): (r: string)
    ensures |r| <= 2
  {
    if name.None? || name.value == "" then Unknown
    else Take(Upper(Firsts(Split(name.value, ' '))), 2)
  }

  function NonEmpty(w: string): bool { |w| > 0 }

  /** The words of a name: its space-separated parts that are not
      empty. */
  function Words(name: string): seq<string> {
    Filter(Split(name, ' '), NonEmpty)
  }

  /** The first letters of a list of words. */
  function Heads(ws: seq<string>): (r: string)
    requires forall k :: 0 <= k < |ws| ==> |ws[k]| > 0
    ensures |r| == |ws|
  {
    seq(|ws|, k requires 0 <= k < |ws| => ws[k][0])
  }

  /** Joining the first characters skips exactly the empty parts. */
  lemma {:induction false} FirstsAreHeadsOfWords(parts: seq<string>)
    ensures Firsts(parts) == Heads(Filter(parts, NonEmpty))
    decreases |parts|
  {
    if |parts| > 0 {
      var init := parts[..|parts| - 1];
      FirstsAreHeadsOfWords(init);
      var last := parts[|parts| - 1];
      if |last| > 0 {
        assert Filter(parts, NonEmpty) == Filter(init, NonEmpty) + [last];
      }
    }
  }

  /** A missing or empty name shows '?'; any other shows at most two
      characters: the upper-cased first letters of its first two words.
      Empty words, from repeated or surrounding spaces, contribute
      nothing. */
  lemma InitialsOfWords(name: Option<string>)
    ensures name.None? || name == Some("") ==> Initials(name) == Unknown
    ensures name.Some? && name.value != "" ==>
              var ws := Words(name.value);
              && |Initials(name)| <= 2
              && |Initials(name)| == (if |ws| < 2 then |ws| else 2)
              && forall k :: 0 <= k < |Initials(name)| ==> Initials(name)[k] == UpperChar(ws[k][0])
  {
    if name.Some? && name.value != "" {
      FirstsAreHeadsOfWords(Split(name.value, ' '));
    }
  }

  /** A single word gives its first letter, upper-cased. */
  lemma OneWord(name: string)
    requires |name| > 0 && ' ' !in name
    ensures Initials(Some(name)) == [UpperChar(name[0])]
  {
    SplitNoSep(name, ' ');
    FirstsAreHeadsOfWords([name]);
    assert Filter([name], NonEmpty) == [name] by { assert [name][..0] == []; }
  }

  /** A name made of spaces only is not empty, yet has no words: its
      initials are the empty string rather than '?'. */
  lemma OnlySpaces(name: string)
    requires |name| > 0 && forall i :: 0 <= i < |name| ==> name[i] == ' '
    ensures Initials(Some(name)) == ""
  {
    var parts := Split(name, ' ');
    SplitAllEmpty(name, ' ');
    assert forall k :: 0 <= k < |parts| ==> parts[k] == "";
    assert forall k :: 0 <= k < |parts| ==> !NonEmpty(parts[k]);
    FirstsAreHeadsOfWords(parts);
    FilterNone(parts, NonEmpty);
  }
}

=== FILE: text.dfy ===
/** String helpers with the semantics the source relies on: the `\D` /
    `[^0-9]` digit filter, ASCII case mapping, substring search
    (`includes`), `split` on one separator character, and decimal
    rendering and parsing of non-negative integers. */
module Text {
  import opened Wrappers

  predicate IsDigit(c: char) {
    '0' <= c <= '9'
  }

  predicate AllDigits(s: string) {
    forall k :: 0 <= k < |s| ==> IsDigit(s[k])
  }

  function DigitValue(c: char): int
    requires IsDigit(c)
  {
    c as int - '0' as int
  }

  function DigitChar(n: int): (c: char)
    requires 0 <= n <= 9
    ensures IsDigit(c) && DigitValue(c) == n
  {
    ('0' as int + n) as char
  }

  /** `s.replaceAll("[^0-9]", "")` in Java and `s.replace(/\D/g, '')` in
      JavaScript: both keep exactly the ASCII digits, in order. */
  function DigitsOf(s: string): (r: string)
    ensures AllDigits(r)
    ensures |r| <= |s|
    decreases |s|
  {
    if |s| == 0 then ""
    else if IsDigit(s[|s| - 1]) then DigitsOf(s[..|s| - 1]) + [s[|s| - 1]]
    else DigitsOf(s[..|s| - 1])
  }

  lemma {:induction false} DigitsOfConcat(a: string, b: string)
    ensures DigitsOf(a + b) == DigitsOf(a) + DigitsOf(b)
    decreases |b|
  {
    if |b| == 0 {
      assert a + b == a;
    } else {
      var b' := b[..|b| - 1];
      assert (a + b)[..|a + b| - 1] == a + b';
      DigitsOfConcat(a, b');
    }
  }

  /** A string of digits only is left unchanged by the filter. */
  lemma {:induction false} DigitsOfAllDigits(s: string)
    requires AllDigits(s)
    ensures DigitsOf(s) == s
    decreases |s|
  {
    if |s| > 0 {
      DigitsOfAllDigits(s[..|s| - 1]);
    }
  }

  /** The filter is idempotent. */
  lemma DigitsOfIdempotent(s: string)
    ensures DigitsOf(DigitsOf(s)) == DigitsOf(s)
  {
    DigitsOfAllDigits(DigitsOf(s));
  }

  function LowerChar(c: char): char {
    if 'A' <= c <= 'Z' then (c as int + 32) as char else c
  }

  function UpperChar(c: char): char {
    if 'a' <= c <= 'z' then (c as int - 32) as char else c
  }

  /** `toLowerCase()` restricted to ASCII letters. */
  function Lower(s: string): (r: string)
    ensures |r| == |s|
    ensures forall k :: 0 <= k < |s| ==> r[k] == LowerChar(s[k])
  {
    seq(|s|, k requires 0 <= k < |s| => LowerChar(s[k]))
  }

  /** `toUpperCase()` restricted to ASCII letters. */
  function Upper(s: string): (r: string)
    ensures |r| == |s|
    ensures forall k :: 0 <= k < |s| ==> r[k] == UpperChar(s[k])
  {
    seq(|s|, k requires 0 <= k < |s| => UpperChar(s[k]))
  }

  predicate OccursAt(s: string, sub: string, i: nat) {
    i + |sub| <= |s| && s[i..i + |sub|] == sub
  }

  /** `s.includes(sub)`: the needle occurs at some position. */
  ghost predicate Contains(s: string, sub: string) {
    exists i: nat :: OccursAt(s, sub, i)
  }

  lemma ContainsEmpty(s: string)
    ensures Contains(s, "")
  {
    assert OccursAt(s, "", 0);
  }

  /** Executable search for `includes`, proved equal to `Contains`. */
  function Includes(s: string, sub: string): (b: bool)
    ensures b <==> Contains(s, sub)
    decreases |s|
  {
    if |sub| <= |s| && s[..|sub|] == sub then
      assert OccursAt(s, sub, 0);
      true
    else if |s| == 0 then
      assert forall i: nat :: !OccursAt(s, sub, i);
      false
    else
      var r := Includes(s[1..], sub);
      if r then
        var i: nat :| OccursAt(s[1..], sub, i);
        assert OccursAt(s, sub, i + 1);
        true
      else
        assert forall i: nat :: OccursAt(s, sub, i) ==> i >= 1 && OccursAt(s[1..], sub, i - 1);
        false
  }

  /** JavaScript `s.split(sep)` for a one-character separator: every
      separator cuts, empty pieces are kept, and "" splits into [""]. */
  function Split(s: string, sep: char): (parts: seq<string>)
    ensures |parts| >= 1
    decreases |s|
  {
    if |s| == 0 then [""]
    else
      var rest := Split(s[1..], sep);
      if s[0] == sep then [""] + rest
      else [[s[0]] + rest[0]] + rest[1..]
  }

  /** The parts glued back together with the separator between them. */
  function Join(parts: seq<string>, sep: char): string
    requires |parts| >= 1
    decreases |parts|
  {
    if |parts| == 1 then parts[0] else parts[0] + [sep] + Join(parts[1..], sep)
  }

  /** Every part is separator-free and joining the parts with the
      separator gives the input back. */
  lemma {:induction false} SplitJoin(s: string, sep: char)
    ensures Join(Split(s, sep), sep) == s
    ensures forall k :: 0 <= k < |Split(s, sep)| ==> sep !in Split(s, sep)[k]
    decreases |s|
  {
    if |s| > 0 {
      SplitJoin(s[1..], sep);
      var rest := Split(s[1..], sep);
      if s[0] != sep {
        var parts := Split(s, sep);
        assert parts[1..] == rest[1..];
        if |rest| == 1 {
          assert s == [s[0]] + s[1..];
        } else {
          assert Join(rest, sep) == rest[0] + [sep] + Join(rest[1..], sep);
          assert s == [s[0]] + s[1..];
        }
      } else {
        assert s == [s[0]] + s[1..];
      }
    }
  }

  /** Split of a separator-free string is the string itself. */
  lemma {:induction false} SplitNoSep(s: string, sep: char)
    requires sep !in s
    ensures Split(s, sep) == [s]
    decreases |s|
  {
    if |s| > 0 {
      SplitNoSep(s[1..], sep);
      assert s == [s[0]] + s[1..];
    }
  }

  /** Split distributes over a separator in the middle. */
  lemma {:induction false} SplitAround(a: string, b: string, sep: char)
    requires sep !in a
    ensures Split(a + [sep] + b, sep) == [a] + Split(b, sep)
    decreases |a|
  {
    if |a| == 0 {
      assert a + [sep] + b == [sep] + b;
      assert ([sep] + b)[1..] == b;
    } else {
      assert (a + [sep] + b)[1..] == a[1..] + [sep] + b;
      SplitAround(a[1..], b, sep);
      assert a == [a[0]] + a[1..];
    }
  }

  /** Every part of a split is empty exactly when the string is made of
      separators only. */
  lemma {:induction false} SplitAllEmpty(s: string, sep: char)
    ensures (forall k :: 0 <= k < |Split(s, sep)| ==> Split(s, sep)[k] == "")
            <==> (forall i :: 0 <= i < |s| ==> s[i] == sep)
    decreases |s|
  {
    if |s| > 0 {
      SplitAllEmpty(s[1..], sep);
      var rest := Split(s[1..], sep);
      if s[0] == sep {
        var parts := Split(s, sep);
        assert parts == [""] + rest;
        assert forall k :: 0 <= k < |rest| ==> parts[k + 1] == rest[k];
        assert (forall k :: 0 <= k < |parts| ==> parts[k] == "") <==> (forall k :: 0 <= k < |rest| ==> rest[k] == "");
        assert forall i :: 1 <= i < |s| ==> s[i] == s[1..][i - 1];
        assert (forall i :: 0 <= i < |s| ==> s[i] == sep) <==> (forall i :: 0 <= i < |s[1..]| ==> s[1..][i] == sep);
      } else {
        assert Split(s, sep)[0] != "";
      }
    }
  }

  /** Drops the empty strings at the end of a list of parts. */
  function DropTrailingEmpty(parts: seq<string>): (r: seq<string>)
    ensures |r| <= |parts| && r == parts[..|r|]
    ensures |r| > 0 ==> r[|r| - 1] != ""
    ensures forall k :: |r| <= k < |parts| ==> parts[k] == ""
    decreases |parts|
  {
    if |parts| == 0 then []
    else if parts[|parts| - 1] == "" then DropTrailingEmpty(parts[..|parts| - 1])
    else parts
  }

  /** Java `s.split(String.valueOf(sep))`: like `Split`, but trailing empty
      strings are removed, unless the separator does not occur at all, in
      which case the result is the string itself. */
  function JavaSplit(s: string, sep: char): (parts: seq<string>)
  {
    if sep !in s then [s] else DropTrailingEmpty(Split(s, sep))
  }

  /** `split(",")[0]` fails exactly on a non-empty string of separators;
      otherwise it is the text before the first separator. */
  lemma JavaSplitFirst(s: string, sep: char)
    ensures |JavaSplit(s, sep)| == 0 <==> |s| > 0 && forall i :: 0 <= i < |s| ==> s[i] == sep
    ensures |JavaSplit(s, sep)| > 0 ==>
              var f := JavaSplit(s, sep)[0];
              f <= s && sep !in f && (f == s || s[|f|] == sep)
  {
    var parts := Split(s, sep);
    SplitJoin(s, sep);
    SplitAllEmpty(s, sep);
    if sep in s {
      var r := DropTrailingEmpty(parts);
      if |r| == 0 {
        assert forall k :: 0 <= k < |parts| ==> parts[k] == "";
      } else {
        assert r[0] == parts[0];
        assert !(forall k :: 0 <= k < |parts| ==> parts[k] == "");
      }
      assert |parts| > 1;
      assert s == parts[0] + [sep] + Join(parts[1..], sep);
      assert s[|parts[0]|] == sep;
    } else {
      assert !(|s| > 0 && forall i :: 0 <= i < |s| ==> s[i] == sep) by {
        if |s| > 0 {
          assert s[0] in s;
        }
      }
    }
  }

  /** Decimal rendering of a non-negative integer without leading zeros. */
  function NatToString(n: nat): (s: string)
    ensures |s| >= 1 && AllDigits(s)
    decreases n
  {
    if n < 10 then [DigitChar(n)] else NatToString(n / 10) + [DigitChar(n % 10)]
  }

  /** Value of a string of digits. */
  function DigitsValue(s: string): nat
    requires AllDigits(s)
    decreases |s|
  {
    if |s| == 0 then 0 else 10 * DigitsValue(s[..|s| - 1]) + DigitValue(s[|s| - 1]) as nat
  }

  /** Appending a digit shifts the value one place and adds the digit. */
  lemma DigitsValueSnoc(s: string, c: char)
    requires AllDigits(s) && IsDigit(c)
    ensures AllDigits(s + [c]) && DigitsValue(s + [c]) == 10 * DigitsValue(s) + DigitValue(c)
  {
    assert (s + [c])[..|s|] == s;
  }

  /** Length of the longest all-digit prefix. */
  function DigitPrefixLength(s: string): (n: nat)
    ensures n <= |s| && AllDigits(s[..n])
    ensures n < |s| ==> !IsDigit(s[n])
    decreases |s|
  {
    if |s| == 0 || !IsDigit(s[0]) then 0
    else
      var m := DigitPrefixLength(s[1..]);
      assert s[..m + 1] == [s[0]] + s[1..][..m];
      m + 1
  }

  /** JavaScript `parseInt(s)` for unsigned decimal text: the value of the
      leading digits, or NaN (`None`) when there are none. */
  function ParseInt(s: string): Option<nat> {
    var n := DigitPrefixLength(s);
    if n == 0 then None else Some(DigitsValue(s[..n]))
  }

  lemma {:induction false} NatToStringValue(n: nat)
    ensures DigitsValue(NatToString(n)) == n
    decreases n
  {
    if n >= 10 {
      NatToStringValue(n / 10);
      var s := NatToString(n);
      assert s[..|s| - 1] == NatToString(n / 10);
    }
  }

  lemma DigitPrefixOfDigits(s: string)
    requires AllDigits(s)
    ensures DigitPrefixLength(s) == |s|
  {
  }

  /** `parseInt` reads back what decimal rendering wrote. */
  lemma ParseIntNatToString(n: nat)
    ensures ParseInt(NatToString(n)) == Some(n)
  {
    var s := NatToString(n);
    DigitPrefixOfDigits(s);
    assert s[..|s|] == s;
    NatToStringValue(n);
  }
}

=== FILE: top_categories.dfy ===
/** The "top categories of last month" ranking shared by the dashboard and
    the debug endpoint: the month's rows that look like spending (EXPENSE,
    or any negative amount) grouped by category name, each contributing its
    absolute amount, largest first, cut to a fixed length. */
module TopCategories {
  import opened Seqs
  import opened Money
  import opened Grouping
  import opened Domain
  import opened Reports

  /** The filter `type == EXPENSE || amount < 0`. */
  function Spending(): Transaction -> bool {
    (t: Transaction) => t.kind == Expense || t.amount < 0
  }

  /** `t.getAmount().abs()`. */
  function AbsAmount(t: Transaction): int { Abs(t.amount) }

  /** The first `limit` groups of the ranking: `sorted(desc).limit(n)`. */
  function TopN(gs: seq<Group<string>>, limit: nat): (r: seq<Group<string>>)
    requires DistinctBy(gs, GroupKey)
    ensures |r| == if |gs| < limit then |gs| else limit
    ensures SortedDesc(r, GroupTotal) && DistinctBy(r, GroupKey)
    ensures forall i :: 0 <= i < |r| ==> r[i].total == TotalOf(gs, r[i].key) && r[i].key in Keys(gs)
    ensures forall k :: k in Keys(gs) && k !in Keys(r) ==> forall i :: 0 <= i < |r| ==> TotalOf(gs, k) <= r[i].total
    ensures |r| < limit ==> forall k :: k in Keys(gs) ==> k in Keys(r)
  {
    var ranked := RankDesc(gs);
    var r := Take(ranked, limit);
    PrefixMembers(gs, ranked, r);
    LeftOutNotAbove(gs, ranked, r);
    PermutedKeys(gs, ranked);
    assert |r| < limit ==> r == ranked;
    r
  }

  /** Every group of a prefix of a reordering of the groups carries its
      key's total. */
  lemma PrefixMembers(gs: seq<Group<string>>, ranked: seq<Group<string>>, r: seq<Group<string>>)
    requires DistinctBy(gs, GroupKey) && multiset(ranked) == multiset(gs)
    requires |r| <= |ranked| && r == ranked[..|r|]
    ensures forall i :: 0 <= i < |r| ==> r[i].total == TotalOf(gs, r[i].key) && r[i].key in Keys(gs)
  {
    PermutedKeys(gs, ranked);
    MemberTotals(gs, ranked);
    forall i | 0 <= i < |r|
      ensures r[i].total == TotalOf(gs, r[i].key) && r[i].key in Keys(gs)
    {
      assert r[i] == ranked[i] && ranked[i] in ranked;
      assert Keys(ranked)[i] == r[i].key;
    }
  }

  /** A key left out of a prefix of the ranking totals no more than any
      group kept. */
  lemma LeftOutNotAbove(gs: seq<Group<string>>, ranked: seq<Group<string>>, r: seq<Group<string>>)
    requires DistinctBy(gs, GroupKey) && multiset(ranked) == multiset(gs) && SortedDesc(ranked, GroupTotal)
    requires |r| <= |ranked| && r == ranked[..|r|]
    ensures forall k :: k in Keys(gs) && k !in Keys(r) ==> forall i :: 0 <= i < |r| ==> TotalOf(gs, k) <= r[i].total
  {
    PermutedKeys(gs, ranked);
    MemberTotals(gs, ranked);
    forall k | k in Keys(gs) && k !in Keys(r)
      ensures forall i :: 0 <= i < |r| ==> TotalOf(gs, k) <= r[i].total
    {
      assert k in Keys(ranked);
      var j :| 0 <= j < |ranked| && Keys(ranked)[j] == k;
      assert ranked[j] in ranked;
      assert j >= |r| by {
        assert forall t :: 0 <= t < |r| ==> Keys(r)[t] == ranked[t].key;
      }
      forall i | 0 <= i < |r|
        ensures TotalOf(gs, k) <= r[i].total
      {
        assert r[i] == ranked[i];
      }
    }
  }

  /** The ranking of a month's rows: at most `limit` category names, each
      with the absolute sum of its spending rows, largest first. A name
      left out never outweighs one kept, and when fewer than `limit` names
      occur they all appear. */
  function Top(rows: seq<Transaction>, cats: seq<Category>, limit: nat): (r: seq<Group<string>>)
    ensures |r| <= limit
    ensures SortedDesc(r, GroupTotal) && DistinctBy(r, GroupKey)
    ensures forall i :: 0 <= i < |r| ==>
              && r[i].total == KeySum(Filter(rows, Spending()), CategoryLabel(cats), AbsAmount, r[i].key)
              && r[i].key in Labels(Filter(rows, Spending()), cats)
    ensures forall name :: name in Labels(Filter(rows, Spending()), cats) && name !in Keys(r) ==>
              forall i :: 0 <= i < |r| ==>
                KeySum(Filter(rows, Spending()), CategoryLabel(cats), AbsAmount, name) <= r[i].total
    ensures |r| < limit ==> forall name :: name in Labels(Filter(rows, Spending()), cats) ==> name in Keys(r)
  {
    var counted := Filter(rows, Spending());
    var gs := GroupSum(counted, CategoryLabel(cats), AbsAmount);
    GroupedLabelsBy(counted, cats, AbsAmount);
    TopN(gs, limit)
  }

  /** The keys of a grouping by category label are the labels that occur,
      whatever is summed. */
  lemma GroupedLabelsBy(rows: seq<Transaction>, cats: seq<Category>, val: Transaction -> int)
    ensures forall name :: name in Keys(GroupSum(rows, CategoryLabel(cats), val)) <==> name in Labels(rows, cats)
  {
    forall name
      ensures name in Keys(GroupSum(rows, CategoryLabel(cats), val)) <==> name in Labels(rows, cats)
    {
      if name in Labels(rows, cats) {
        var k :| 0 <= k < |rows| && Labels(rows, cats)[k] == name;
        assert CategoryLabel(cats)(rows[k]) == name;
      }
    }
  }

  /** Every total is a sum of absolute values, so none is negative, and an
      INCOME row with a positive amount is never counted. */
  lemma TopTotalsNonNegative(rows: seq<Transaction>, cats: seq<Category>, limit: nat)
    ensures forall i :: 0 <= i < |Top(rows, cats, limit)| ==> Top(rows, cats, limit)[i].total >= 0
    ensures forall t: Transaction :: t.kind == Income && t.amount >= 0 ==> !Spending()(t)
  {
    var r := Top(rows, cats, limit);
    var counted := Filter(rows, Spending());
    forall i | 0 <= i < |r|
      ensures r[i].total >= 0
    {
      KeySumBounds(counted, CategoryLabel(cats), AbsAmount, r[i].key);
    }
  }
}

=== FILE: transaction_controller.dfy ===
/** The transaction endpoints: listing a month, and create, update and
    delete with their card-limit bookkeeping. A transaction is linked to a
    card or to an account; an EXPENSE on a card adds its amount to the
    card's `limitUsed`. The handlers are not `@Transactional`, so every
    repository `save` commits on its own: a request that fails half-way
    keeps the writes made before the failure, and an `Outcome` carries the
    database as the failure left it.

    `HtmlUtils.htmlEscape` and the pt-BR currency formatter are library
    code and enter as the parameters `escape` and `formatCurrency`. */
module TransactionLedger {
  import opened Wrappers
  import opened Calendar
  import opened Seqs
  import opened Domain
  import opened UsageLimit
  import opened TransactionQueries
  import opened TransactionView

  /** The request body: each reference is the id the client sent, or
      `None` when the reference or its id is null. */
  datatype TxRequest = TxRequest(
    description: Option<string>,
    amount: int,
    date: Date,
    kind: TxType,
    account: Option<Id>,
    creditCard: Option<Id>,
    category: Option<Id>)

  /** The link a request resolved to. */
  datatype Source = ViaCard(card: CreditCard) | ViaAccount(account: Account) | Unlinked

  const ExpenseNotice: string := "Você registrou uma nova despesa de "

  /* ---------------------------------------------------------------- */
  /* Listing                                                          */
  /* ---------------------------------------------------------------- */

  /** `getAllTransactions`: the month defaults to today's, the range runs
      from day 1 to the month's last day, and an impossible month makes
      `LocalDate.of` throw. */
  function List(st: Store, user: UserId, today: Date, month: Option<int>, year: Option<int>,
                categoryId: Option<Id>): (r: Result<seq<TransactionDto>>)
    requires forall k :: 0 <= k < |st.transactions| ==> Resolves(st, st.transactions[k])
    ensures r.Ok? <==> 1 <= month.GetOr(today.month) <= 12
    ensures r.Err? ==> r.status == ServerError
    ensures r.Ok? ==>
              var m := month.GetOr(today.month);
              var y := year.GetOr(today.year);
              var rows := FindFiltered(st.transactions, user, FirstDayOfMonth(y, m), LastDayOfMonth(y, m), categoryId);
              |r.value| == |rows| && forall k :: 0 <= k < |rows| ==> r.value[k] == FromEntity(st, rows[k])
  {
    var m := month.GetOr(today.month);
    var y := year.GetOr(today.year);
    match Of(y, m, 1)
    case None => Err(ServerError, "Invalid date")
    case Some(start) =>
      var end := LastDayOfMonth(y, m);
      var rows := FindFiltered(st.transactions, user, start, end, categoryId);
      assert forall k :: 0 <= k < |rows| ==> rows[k] in st.transactions by {
        FindFilteredSpec(st.transactions, user, start, end, categoryId);
      }
      Ok(seq(|rows|, k requires 0 <= k < |rows| => FromEntity(st, rows[k])))
  }

  /** The listing of a month holds the user's transactions of that month
      and no others. */
  lemma ListIsTheMonth(st: Store, user: UserId, today: Date, month: Option<int>, year: Option<int>)
    requires forall k :: 0 <= k < |st.transactions| ==> Resolves(st, st.transactions[k])
    requires 1 <= month.GetOr(today.month) <= 12
    ensures var rows := FindFiltered(st.transactions, user,
                                     FirstDayOfMonth(year.GetOr(today.year), month.GetOr(today.month)),
                                     LastDayOfMonth(year.GetOr(today.year), month.GetOr(today.month)), None);
            forall t :: t in rows <==>
              t in st.transactions && t.owner == user
              && t.date.year == year.GetOr(today.year) && t.date.month == month.GetOr(today.month)
  {
    var y := year.GetOr(today.year);
    var m := month.GetOr(today.month);
    FindFilteredSpec(st.transactions, user, FirstDayOfMonth(y, m), LastDayOfMonth(y, m), None);
    forall t: Transaction {
      MonthRangeExact(t.date, y, m);
    }
  }

  /* ---------------------------------------------------------------- */
  /* Validation shared by create and update                           */
  /* ---------------------------------------------------------------- */

  /** The description is escaped when present and stays null otherwise. */
  function EscapeDescription(d: Option<string>, escape: string -> string): (r: Option<string>)
    ensures r.None? <==> d.None?
    ensures d.Some? ==> r.value == escape(d.value)
  {
    match d
    case None => None
    case Some(s) => Some(escape(s))
  }

  /** The card reference wins: the account is looked at only when no card
      id is given, and the referenced row must exist and be the user's. */
  function ChooseSource(st: Store, user: UserId, card: Option<Id>, account: Option<Id>): (r: Result<Source>)
    ensures card.Some? && r.Ok? ==> r.value.ViaCard? && r.value.card in st.cards
                                     && r.value.card.id == card.value && r.value.card.owner == user
    ensures card.None? && account.Some? && r.Ok? ==> r.value.ViaAccount? && r.value.account in st.accounts
                                                     && r.value.account.id == account.value && r.value.account.owner == user
    ensures card.None? && account.None? ==> r == Ok(Unlinked)
    ensures r.Err? ==> r.status == NotFound || r.status == Forbidden
  {
    if card.Some? then
      match FindOwned(st.cards, card.value, CardId, CardOwner, user,
                      "Credit Card not found", "Credit Card does not belong to user")
      case Err(s, msg) => Err(s, msg)
      case Ok(c) => Ok(ViaCard(c))
    else if account.Some? then
      match FindOwned(st.accounts, account.value, AccountId, AccountOwner, user,
                      "Account not found", "Account does not belong to user")
      case Err(s, msg) => Err(s, msg)
      case Ok(a) => Ok(ViaAccount(a))
    else Ok(Unlinked)
  }

  /** The category becomes null when no id is given; a given id must name
      one of the user's categories. */
  function ResolveCategory(st: Store, user: UserId, category: Option<Id>): (r: Result<Option<Id>>)
    ensures category.None? ==> r == Ok(None)
    ensures r.Ok? ==> r.value == category
    ensures r.Ok? && category.Some? ==>
              exists k :: 0 <= k < |st.categories| && st.categories[k].id == category.value
                          && st.categories[k].owner == user
    ensures r.Err? ==> r.status == NotFound || r.status == Forbidden
  {
    match category
    case None => Ok(None)
    case Some(c) =>
      match FindOwned(st.categories, c, CategoryId, CategoryOwner, user,
                      "Category not found", "Category does not belong to user")
      case Err(s, msg) => Err(s, msg)
      case Ok(_) => Ok(Some(c))
  }

  function AccountLink(src: Source): Option<Id> {
    if src.ViaAccount? then Some(src.account.id) else None
  }

  function CardLink(src: Source): Option<Id> {
    if src.ViaCard? then Some(src.card.id) else None
  }

  /* ---------------------------------------------------------------- */
  /* Card bookkeeping                                                 */
  /* ---------------------------------------------------------------- */

  /** `card.setLimitUsed(card.getLimitUsed() + delta)` then `save(card)`:
      the row with that id gets the new `limitUsed`. */
  function AdjustLimit(cards: seq<CreditCard>, card: Id, delta: int): (r: seq<CreditCard>)
    ensures |r| == |cards|
    ensures forall k :: 0 <= k < |cards| ==>
              r[k] == if cards[k].id == card then cards[k].(limitUsed := cards[k].limitUsed + delta) else cards[k]
  {
    seq(|cards|, k requires 0 <= k < |cards| =>
      if cards[k].id == card then cards[k].(limitUsed := cards[k].limitUsed + delta) else cards[k])
  }

  /** Books a transaction on its card: an EXPENSE on a card raises that
      card's `limitUsed` by its amount, anything else changes nothing. */
  function Debit(cards: seq<CreditCard>, t: Transaction): (r: seq<CreditCard>)
    ensures |r| == |cards|
    ensures forall k :: 0 <= k < |cards| ==>
              r[k] == cards[k].(limitUsed := cards[k].limitUsed + CardCharge(t, cards[k].id))
  {
    if t.creditCard.Some? && t.kind == Expense then AdjustLimit(cards, t.creditCard.value, t.amount) else cards
  }

  /** Takes a transaction off its card: the reverse of `Debit`. */
  function Credit(cards: seq<CreditCard>, t: Transaction): (r: seq<CreditCard>)
    ensures |r| == |cards|
    ensures forall k :: 0 <= k < |cards| ==>
              r[k] == cards[k].(limitUsed := cards[k].limitUsed - CardCharge(t, cards[k].id))
  {
    if t.creditCard.Some? && t.kind == Expense then AdjustLimit(cards, t.creditCard.value, -t.amount) else cards
  }

  /** Refunding what was charged gives back the same cards. */
  lemma CreditUndoesDebit(cards: seq<CreditCard>, t: Transaction)
    ensures Credit(Debit(cards, t), t) == cards
  {
    assert forall k :: 0 <= k < |cards| ==> Credit(Debit(cards, t), t)[k] == cards[k];
  }

  /** The expense notification: amount, then the card's name or "na conta". */
  function NoticeFor(t: Transaction, src: Source, user: UserId, formatCurrency: int -> string): Notification {
    var source := if src.ViaCard? then "no cartão " + src.card.name else "na conta";
    Notification(ExpenseNotice + formatCurrency(t.amount) + " " + source, false, user)
  }

  function Notify(ns: seq<Notification>, t: Transaction, src: Source, user: UserId,
                  formatCurrency: int -> string): (r: seq<Notification>)
    ensures t.kind == Expense ==> r == ns + [NoticeFor(t, src, user, formatCurrency)]
    ensures t.kind == Income ==> r == ns
  {
    if t.kind == Expense then ns + [NoticeFor(t, src, user, formatCurrency)] else ns
  }

  /** Position of the row with that id. */
  function TxIndex(ts: seq<Transaction>, id: Id): (r: Option<nat>)
    ensures r.Some? ==> r.value < |ts| && ts[r.value].id == id
    ensures r.None? ==> forall k :: 0 <= k < |ts| ==> ts[k].id != id
  {
    FindIndex(ts, (t: Transaction) => t.id == id)
  }

  /* ---------------------------------------------------------------- */
  /* Create                                                           */
  /* ---------------------------------------------------------------- */

  /** The row a create saves, before its category is set, under a fresh
      id: a body that carries its own id would be merged over that row by
      `save`, and that branch is not modelled. */
  function NewRow(st: Store, user: UserId, req: TxRequest, src: Source, escape: string -> string): (t: Transaction)
    ensures t.id == FreshId(st.transactions, TransactionId)
  {
    Transaction(FreshId(st.transactions, TransactionId), user, EscapeDescription(req.description, escape),
                req.amount, req.date, req.kind, AccountLink(src), CardLink(src), None)
  }

  /** `createTransaction` as written: the card's `limitUsed` is saved as
      soon as the card is resolved, before the category is checked, so a
      bad category leaves the card charged for a transaction that was
      never saved. */
  function CreateAsWritten(st: Store, user: User, now: int, req: TxRequest,
                           escape: string -> string, formatCurrency: int -> string): (o: Outcome<Transaction>)
    ensures CheckTransactionLimit(user, st, now).Err? ==>
              o.store == st && o.response.Err? && o.response.status == Forbidden
    ensures CheckTransactionLimit(user, st, now).Ok? && ChooseSource(st, user.id, req.creditCard, req.account).Err? ==>
              o.store == st && o.response.Err?
    ensures o.response.Err? ==>
              && o.response.status in {Forbidden, NotFound}
              && o.store == st.(cards := o.store.cards)
    ensures o.response.Ok? ==> ResolveCategory(st, user.id, req.category).Ok?
  {
    match CheckTransactionLimit(user, st, now)
    case Err(s, msg) => Outcome(st, Err(s, msg))
    case Ok(_) =>
      match ChooseSource(st, user.id, req.creditCard, req.account)
      case Err(s, msg) => Outcome(st, Err(s, msg))
      case Ok(src) =>
        var t0 := NewRow(st, user.id, req, src, escape);
        var st1 := st.(cards := Debit(st.cards, t0));
        assert ResolveCategory(st1, user.id, req.category) == ResolveCategory(st, user.id, req.category) by {
          assert st1.categories == st.categories;
        }
        match ResolveCategory(st1, user.id, req.category)
        case Err(s, msg) => Outcome(st1, Err(s, msg))
        case Ok(cat) =>
          var t := t0.(category := cat);
          Outcome(st1.(transactions := st1.transactions + [t],
                       notifications := Notify(st1.notifications, t, src, user.id, formatCurrency)),
                  Ok(t))
  }

  /** A category refused after the card was resolved leaves the card
      charged for the row that was never saved; nothing else is written. */
  lemma CreateAsWrittenKeepsCardCharge(st: Store, user: User, now: int, req: TxRequest,
                                       escape: string -> string, formatCurrency: int -> string)
    requires CheckTransactionLimit(user, st, now).Ok?
    requires ChooseSource(st, user.id, req.creditCard, req.account).Ok?
    requires ResolveCategory(st, user.id, req.category).Err?
    ensures var src := ChooseSource(st, user.id, req.creditCard, req.account).value;
            var o := CreateAsWritten(st, user, now, req, escape, formatCurrency);
            && o.response == ResolveCategory(st, user.id, req.category).PropagateFailure()
            && o.store == st.(cards := Debit(st.cards, NewRow(st, user.id, req, src, escape)))
  {
    var src := ChooseSource(st, user.id, req.creditCard, req.account).value;
    assert st.(cards := Debit(st.cards, NewRow(st, user.id, req, src, escape))).categories == st.categories;
  }

  /** `createTransaction` with every check made before the first write: a
      rejected request changes nothing. */
  function Create(st: Store, user: User, now: int, req: TxRequest,
                  escape: string -> string, formatCurrency: int -> string): (o: Outcome<Transaction>)
    ensures CheckTransactionLimit(user, st, now).Err? ==>
              o.store == st && o.response.Err? && o.response.status == Forbidden
    ensures o.response.Err? ==> o.store == st
    ensures o.response.Err? ==> o.response.status in {Forbidden, NotFound}
    ensures o.response.Ok? ==>
              var t := o.response.value;
              && t.id == FreshId(st.transactions, TransactionId)
              && t.owner == user.id && t.amount == req.amount && t.date == req.date && t.kind == req.kind
              && t.description == EscapeDescription(req.description, escape)
              && t.category == req.category
              && (req.creditCard.Some? ==> t.creditCard == req.creditCard && t.account.None?)
              && (req.creditCard.None? ==> t.creditCard.None? && t.account == req.account)
              && o.store.transactions == st.transactions + [t]
              && o.store.cards == Debit(st.cards, t)
              && |o.store.notifications| == |st.notifications| + (if t.kind == Expense then 1 else 0)
              && o.store.categories == st.categories && o.store.accounts == st.accounts
              && o.store.recurring == st.recurring && o.store.budgets == st.budgets
              && o.store.assets == st.assets
  {
    match CheckTransactionLimit(user, st, now)
    case Err(s, msg) => Outcome(st, Err(s, msg))
    case Ok(_) =>
      match ChooseSource(st, user.id, req.creditCard, req.account)
      case Err(s, msg) => Outcome(st, Err(s, msg))
      case Ok(src) =>
        match ResolveCategory(st, user.id, req.category)
        case Err(s, msg) => Outcome(st, Err(s, msg))
        case Ok(cat) =>
          var t := NewRow(st, user.id, req, src, escape).(category := cat);
          Outcome(st.(cards := Debit(st.cards, t),
                      transactions := st.transactions + [t],
                      notifications := Notify(st.notifications, t, src, user.id, formatCurrency)),
                  Ok(t))
  }

  /** When the category is fine the two versions agree; they differ only
      in what a rejected category leaves behind. */
  lemma CreateAgreesWhenCategoryResolves(st: Store, user: User, now: int, req: TxRequest,
                                         escape: string -> string, formatCurrency: int -> string)
    requires ResolveCategory(st, user.id, req.category).Ok?
    ensures CreateAsWritten(st, user, now, req, escape, formatCurrency) == Create(st, user, now, req, escape, formatCurrency)
  {
    match ChooseSource(st, user.id, req.creditCard, req.account)
    case Err(_, _) =>
    case Ok(src) =>
      var t0 := NewRow(st, user.id, req, src, escape);
      var st1 := st.(cards := Debit(st.cards, t0));
      assert ResolveCategory(st1, user.id, req.category) == ResolveCategory(st, user.id, req.category) by {
        assert st1.categories == st.categories;
      }
      assert Debit(st.cards, t0) == Debit(st.cards, t0.(category := req.category));
  }

  /** A card, account or category of another user is refused. */
  lemma CreateRejectsForeignRows(st: Store, user: User, now: int, req: TxRequest,
                                 escape: string -> string, formatCurrency: int -> string)
    requires CheckTransactionLimit(user, st, now).Ok?
    requires UniqueIds(st.cards, CardId) && UniqueIds(st.accounts, AccountId) && UniqueIds(st.categories, CategoryId)
    ensures req.creditCard.Some? && (exists k :: 0 <= k < |st.cards| && st.cards[k].id == req.creditCard.value
                                                  && st.cards[k].owner != user.id)
            ==> Create(st, user, now, req, escape, formatCurrency) == Outcome(st, Err(Forbidden, "Credit Card does not belong to user"))
    ensures req.creditCard.None? && req.account.Some?
            && (exists k :: 0 <= k < |st.accounts| && st.accounts[k].id == req.account.value
                            && st.accounts[k].owner != user.id)
            ==> Create(st, user, now, req, escape, formatCurrency) == Outcome(st, Err(Forbidden, "Account does not belong to user"))
    ensures ChooseSource(st, user.id, req.creditCard, req.account).Ok? && req.category.Some?
            && (exists k :: 0 <= k < |st.categories| && st.categories[k].id == req.category.value
                            && st.categories[k].owner != user.id)
            ==> Create(st, user, now, req, escape, formatCurrency) == Outcome(st, Err(Forbidden, "Category does not belong to user"))
  {
  }

  /** Creating keeps every card's `limitUsed` equal to its EXPENSE total. */
  lemma {:induction false} CreateKeepsLimitsInSync(st: Store, user: User, now: int, req: TxRequest,
                                                   escape: string -> string, formatCurrency: int -> string)
    requires LimitsInSync(st)
    ensures LimitsInSync(Create(st, user, now, req, escape, formatCurrency).store)
  {
    var o := Create(st, user, now, req, escape, formatCurrency);
    if o.response.Ok? {
      var t := o.response.value;
      forall k | 0 <= k < |o.store.cards|
        ensures o.store.cards[k].limitUsed == CardUsage(o.store.transactions, o.store.cards[k].id)
      {
        var id := st.cards[k].id;
        SumByConcat(st.transactions, [t], ChargeOf(id));
        SumBySingleton(t, ChargeOf(id));
      }
    }
  }

  /** A created row is linked to at most one of card and account. */
  lemma CreateKeepsLinksExclusive(st: Store, user: User, now: int, req: TxRequest,
                                  escape: string -> string, formatCurrency: int -> string)
    requires LinkExclusive(st.transactions)
    ensures LinkExclusive(Create(st, user, now, req, escape, formatCurrency).store.transactions)
  {
  }

  /* ---------------------------------------------------------------- */
  /* Update                                                           */
  /* ---------------------------------------------------------------- */

  /** The row an update saves: new values, the requested link or, when the
      request names neither card nor account, the row's previous link. */
  function UpdatedRow(prev: Transaction, req: TxRequest, src: Source, cat: Option<Id>,
                      escape: string -> string): (t: Transaction)
    ensures t.id == prev.id && t.owner == prev.owner
    ensures t.amount == req.amount && t.date == req.date && t.kind == req.kind && t.category == cat
    ensures t.description == EscapeDescription(req.description, escape)
    ensures src.Unlinked? ==> t.account == prev.account && t.creditCard == prev.creditCard
    ensures src.ViaCard? ==> t.creditCard == Some(src.card.id) && t.account.None?
    ensures src.ViaAccount? ==> t.account == Some(src.account.id) && t.creditCard.None?
  {
    var account := if src.Unlinked? then prev.account else AccountLink(src);
    var card := if src.Unlinked? then prev.creditCard else CardLink(src);
    Transaction(prev.id, prev.owner, EscapeDescription(req.description, escape),
                req.amount, req.date, req.kind, account, card, cat)
  }

  /** `after` is `before` with at most the row of that id changed. */
  predicate AtMostRowChanged(before: seq<Transaction>, after: seq<Transaction>, id: Id) {
    |after| == |before|
    && forall k :: 0 <= k < |before| && before[k].id != id ==> after[k] == before[k]
  }

  /** Overwriting the row at `i` changes at most the row with its id. */
  lemma OverwriteChangesOneRow(ts: seq<Transaction>, i: nat, t: Transaction)
    requires i < |ts|
    ensures AtMostRowChanged(ts, ts[i := t], ts[i].id)
  {
  }

  /** `updateTransaction` as written: NOT_FOUND, then FORBIDDEN, both
      before any write, then the edit of `EditAsWritten`. */
  function UpdateAsWritten(st: Store, user: UserId, id: Id, req: TxRequest, escape: string -> string): (o: Outcome<Transaction>)
    ensures TxIndex(st.transactions, id).None? ==> o == Outcome(st, Err(NotFound, "Transaction not found"))
    ensures TxIndex(st.transactions, id).Some? && st.transactions[TxIndex(st.transactions, id).value].owner != user
            ==> o == Outcome(st, Err(Forbidden, "Transaction does not belong to user"))
    ensures o.response.Err? ==>
              && o.response.status in {Forbidden, NotFound}
              && o.store == st.(cards := o.store.cards, transactions := o.store.transactions)
              && AtMostRowChanged(st.transactions, o.store.transactions, id)
    ensures o.response.Ok? ==>
              var i := TxIndex(st.transactions, id).value;
              var prev := st.transactions[i];
              var t := o.response.value;
              && prev.owner == user && t.id == id && t.owner == user
              && t.amount == req.amount && t.date == req.date && t.kind == req.kind
              && t.description == EscapeDescription(req.description, escape)
              && t.category == req.category
              && (req.creditCard.Some? ==> t.creditCard == req.creditCard && t.account.None?)
              && (req.creditCard.None? && req.account.Some? ==> t.account == req.account && t.creditCard.None?)
              && (req.creditCard.None? && req.account.None? ==>
                    t.account == prev.account && t.creditCard == prev.creditCard)
              && o.store.transactions == st.transactions[i := t]
              && o.store.cards == if req.creditCard.Some? then Debit(Credit(st.cards, prev), t)
                                  else Credit(st.cards, prev)
  {
    match TxIndex(st.transactions, id)
    case None => Outcome(st, Err(NotFound, "Transaction not found"))
    case Some(i) =>
      if st.transactions[i].owner != user then Outcome(st, Err(Forbidden, "Transaction does not belong to user"))
      else EditAsWritten(st, user, i, req, escape)
  }

  /** The edit of `updateTransaction` as written, once the row at `i` is
      known to be the caller's. The old charge is refunded and saved first;
      the new amount is charged only in the branch that resolves a
      requested card; a failure after either write keeps it. The loaded
      row stays managed for the whole request (Spring's default
      open-session-in-view), and its fields are set before the card lookup,
      so the `save(card)` of a card EXPENSE also flushes the edited row,
      still with its old category: a category refusal after that keeps the
      edit too. */
  function EditAsWritten(st: Store, user: UserId, i: nat, req: TxRequest, escape: string -> string): (o: Outcome<Transaction>)
    requires i < |st.transactions| && st.transactions[i].owner == user
    ensures o.response.Err? ==>
              && o.response.status in {Forbidden, NotFound}
              && o.store == st.(cards := o.store.cards, transactions := o.store.transactions)
              && AtMostRowChanged(st.transactions, o.store.transactions, st.transactions[i].id)
    ensures o.response.Ok? ==>
              var prev := st.transactions[i];
              var t := o.response.value;
              && t.id == prev.id && t.owner == user
              && t.amount == req.amount && t.date == req.date && t.kind == req.kind
              && t.description == EscapeDescription(req.description, escape)
              && t.category == req.category
              && (req.creditCard.Some? ==> t.creditCard == req.creditCard && t.account.None?)
              && (req.creditCard.None? && req.account.Some? ==> t.account == req.account && t.creditCard.None?)
              && (req.creditCard.None? && req.account.None? ==>
                    t.account == prev.account && t.creditCard == prev.creditCard)
              && o.store.transactions == st.transactions[i := t]
              && o.store.cards == if req.creditCard.Some? then Debit(Credit(st.cards, prev), t)
                                  else Credit(st.cards, prev)
  {
    var prev := st.transactions[i];
    var st1 := st.(cards := Credit(st.cards, prev));
    match ChooseSource(st1, user, req.creditCard, req.account)
    case Err(s, msg) => Outcome(st1, Err(s, msg))
    case Ok(src) =>
      var t0 := UpdatedRow(prev, req, src, prev.category, escape);
      var st2 := if src.ViaCard? && t0.kind == Expense
                 then st1.(cards := Debit(st1.cards, t0), transactions := st1.transactions[i := t0])
                 else st1;
      assert ResolveCategory(st2, user, req.category) == ResolveCategory(st, user, req.category) by {
        assert st2.categories == st.categories;
      }
      OverwriteChangesOneRow(st.transactions, i, t0);
      match ResolveCategory(st2, user, req.category)
      case Err(s, msg) => Outcome(st2, Err(s, msg))
      case Ok(cat) =>
        var t := t0.(category := cat);
        Outcome(st2.(transactions := st2.transactions[i := t]), Ok(t))
  }

  /** What a refusal after the ownership check leaves behind: the refund
      of the old charge is already saved. When the request named a card,
      is an EXPENSE and only the category was refused, the new charge and
      the flushed edit of the row, with its old category, are saved as
      well; otherwise the transactions stay as they were. */
  lemma UpdateAsWrittenKeepsPartialWrites(st: Store, user: UserId, id: Id, req: TxRequest, escape: string -> string)
    requires TxIndex(st.transactions, id).Some?
    requires st.transactions[TxIndex(st.transactions, id).value].owner == user
    ensures var prev := st.transactions[TxIndex(st.transactions, id).value];
            var st1 := st.(cards := Credit(st.cards, prev));
            var src := ChooseSource(st1, user, req.creditCard, req.account);
            var o := UpdateAsWritten(st, user, id, req, escape);
            && (src.Err? ==> o == Outcome(st1, Err(src.status, src.message)))
            && (src.Ok? && ResolveCategory(st, user, req.category).Err? ==>
                  && o.response.Err?
                  && o.store.transactions == (if req.creditCard.Some? && req.kind == Expense
                                              then st.transactions[TxIndex(st.transactions, id).value :=
                                                     UpdatedRow(prev, req, src.value, prev.category, escape)]
                                              else st.transactions)
                  && o.store.cards == if req.creditCard.Some?
                                      then Debit(st1.cards, UpdatedRow(prev, req, src.value, prev.category, escape))
                                      else st1.cards)
  {
    var prev := st.transactions[TxIndex(st.transactions, id).value];
    var st1 := st.(cards := Credit(st.cards, prev));
    assert st1.categories == st.categories;
  }

  /** `updateTransaction` with the checks made first and the kept card link
      charged like a requested one: the old row comes off its card and the
      new row goes onto its card, whichever way it got there. */
  function Update(st: Store, user: UserId, id: Id, req: TxRequest, escape: string -> string): (o: Outcome<Transaction>)
    ensures TxIndex(st.transactions, id).None? ==> o == Outcome(st, Err(NotFound, "Transaction not found"))
    ensures TxIndex(st.transactions, id).Some? && st.transactions[TxIndex(st.transactions, id).value].owner != user
            ==> o == Outcome(st, Err(Forbidden, "Transaction does not belong to user"))
    ensures o.response.Err? ==> o.store == st
    ensures o.response.Ok? ==>
              var i := TxIndex(st.transactions, id).value;
              var prev := st.transactions[i];
              var t := o.response.value;
              && prev.owner == user && t.id == id && t.owner == user
              && t.amount == req.amount && t.date == req.date && t.kind == req.kind
              && t.category == req.category
              && (req.creditCard.Some? ==> t.creditCard == req.creditCard && t.account.None?)
              && (req.creditCard.None? && req.account.Some? ==> t.account == req.account && t.creditCard.None?)
              && (req.creditCard.None? && req.account.None? ==>
                    t.account == prev.account && t.creditCard == prev.creditCard)
              && o.store.transactions == st.transactions[i := t]
              && o.store.cards == Debit(Credit(st.cards, prev), t)
              && o.store.categories == st.categories && o.store.accounts == st.accounts
              && o.store.notifications == st.notifications
  {
    match TxIndex(st.transactions, id)
    case None => Outcome(st, Err(NotFound, "Transaction not found"))
    case Some(i) =>
      var prev := st.transactions[i];
      if prev.owner != user then Outcome(st, Err(Forbidden, "Transaction does not belong to user"))
      else
        match ChooseSource(st, user, req.creditCard, req.account)
        case Err(s, msg) => Outcome(st, Err(s, msg))
        case Ok(src) =>
          match ResolveCategory(st, user, req.category)
          case Err(s, msg) => Outcome(st, Err(s, msg))
          case Ok(cat) =>
            var t := UpdatedRow(prev, req, src, cat, escape);
            Outcome(st.(cards := Debit(Credit(st.cards, prev), t),
                        transactions := st.transactions[i := t]),
                    Ok(t))
  }

  /** Refunding a charge changes only `limitUsed`, so the refunded cards
      resolve a request's card or account exactly as before. */
  lemma ChooseSourceAfterCredit(st: Store, prev: Transaction, user: UserId, card: Option<Id>, account: Option<Id>)
    ensures var r := ChooseSource(st, user, card, account);
            var r' := ChooseSource(st.(cards := Credit(st.cards, prev)), user, card, account);
            && r.Ok? == r'.Ok?
            && (r.Err? ==> r == r')
            && (r.Ok? ==> CardLink(r.value) == CardLink(r'.value) && r.value.ViaAccount? == r'.value.ViaAccount?
                          && (r.value.ViaAccount? ==> r.value == r'.value))
  {
    var cards := Credit(st.cards, prev);
    if card.Some? {
      FindOwnedReadsIdsAndOwners(st.cards, cards, card.value, CardId, CardOwner, user,
                                 "Credit Card not found", "Credit Card does not belong to user");
    }
  }

  /** When the request names a card or an account and every reference
      resolves, the two versions agree: the kept-link case is the only one
      where the written code loses the charge on success. */
  lemma UpdateAgreesWhenLinkNamed(st: Store, user: UserId, id: Id, req: TxRequest, escape: string -> string)
    requires req.creditCard.Some? || req.account.Some?
    requires ChooseSource(st, user, req.creditCard, req.account).Ok?
    requires ResolveCategory(st, user, req.category).Ok?
    ensures UpdateAsWritten(st, user, id, req, escape) == Update(st, user, id, req, escape)
  {
    match TxIndex(st.transactions, id)
    case None =>
    case Some(i) =>
      if st.transactions[i].owner == user {
        EditAgreesWhenLinkNamed(st, user, i, req, escape);
      }
  }

  /** The edit step of `UpdateAgreesWhenLinkNamed`: the edit as written
      ends where the corrected update does. */
  lemma EditAgreesWhenLinkNamed(st: Store, user: UserId, i: nat, req: TxRequest, escape: string -> string)
    requires i < |st.transactions| && st.transactions[i].owner == user
    requires req.creditCard.Some? || req.account.Some?
    requires ChooseSource(st, user, req.creditCard, req.account).Ok?
    requires ResolveCategory(st, user, req.category).Ok?
    ensures var prev := st.transactions[i];
            var t := UpdatedRow(prev, req, ChooseSource(st, user, req.creditCard, req.account).value, req.category, escape);
            EditAsWritten(st, user, i, req, escape)
              == Outcome(st.(cards := Debit(Credit(st.cards, prev), t), transactions := st.transactions[i := t]), Ok(t))
  {
    var prev := st.transactions[i];
    var st1 := st.(cards := Credit(st.cards, prev));
    ChooseSourceAfterCredit(st, prev, user, req.creditCard, req.account);
    var src := ChooseSource(st, user, req.creditCard, req.account).value;
    var src' := ChooseSource(st1, user, req.creditCard, req.account).value;
    var t := UpdatedRow(prev, req, src, req.category, escape);
    var t0 := UpdatedRow(prev, req, src', prev.category, escape);
    assert t0.(category := req.category) == t;
    var st2 := if src'.ViaCard? && t0.kind == Expense
               then st1.(cards := Debit(st1.cards, t0), transactions := st1.transactions[i := t0])
               else st1;
    assert st2.cards == Debit(st1.cards, t);
    assert st2.transactions[i := t] == st.transactions[i := t];
    assert ResolveCategory(st2, user, req.category) == Ok(req.category) by {
      assert st2.categories == st.categories;
    }
  }

  /** Updating keeps every card's `limitUsed` equal to its EXPENSE total. */
  lemma {:induction false} UpdateKeepsLimitsInSync(st: Store, user: UserId, id: Id, req: TxRequest, escape: string -> string)
    requires LimitsInSync(st)
    ensures LimitsInSync(Update(st, user, id, req, escape).store)
  {
    var o := Update(st, user, id, req, escape);
    if o.response.Ok? {
      var i := TxIndex(st.transactions, id).value;
      var t := o.response.value;
      forall k | 0 <= k < |o.store.cards|
        ensures o.store.cards[k].limitUsed == CardUsage(o.store.transactions, o.store.cards[k].id)
      {
        SumByUpdate(st.transactions, i, t, ChargeOf(st.cards[k].id));
      }
    }
  }

  lemma UpdateKeepsLinksExclusive(st: Store, user: UserId, id: Id, req: TxRequest, escape: string -> string)
    requires LinkExclusive(st.transactions)
    ensures LinkExclusive(Update(st, user, id, req, escape).store.transactions)
  {
  }

  /* ---------------------------------------------------------------- */
  /* Delete                                                           */
  /* ---------------------------------------------------------------- */

  /** `deleteTransaction`: ownership first, then the card refund, then the
      row goes. */
  function Delete(st: Store, user: UserId, id: Id): (o: Outcome<()>)
    ensures TxIndex(st.transactions, id).None? ==> o == Outcome(st, Err(NotFound, "Transaction not found"))
    ensures TxIndex(st.transactions, id).Some? && st.transactions[TxIndex(st.transactions, id).value].owner != user
            ==> o == Outcome(st, Err(Forbidden, "Transaction does not belong to user"))
    ensures o.response.Err? ==> o.store == st
    ensures o.response.Ok? ==>
              var i := TxIndex(st.transactions, id).value;
              && st.transactions[i].owner == user
              && o.store.transactions == RemoveAt(st.transactions, i)
              && o.store.cards == Credit(st.cards, st.transactions[i])
              && o.store.categories == st.categories && o.store.accounts == st.accounts
  {
    match TxIndex(st.transactions, id)
    case None => Outcome(st, Err(NotFound, "Transaction not found"))
    case Some(i) =>
      var prev := st.transactions[i];
      if prev.owner != user then Outcome(st, Err(Forbidden, "Transaction does not belong to user"))
      else Outcome(st.(cards := Credit(st.cards, prev), transactions := RemoveAt(st.transactions, i)), Ok(()))
  }

  lemma {:induction false} DeleteKeepsLimitsInSync(st: Store, user: UserId, id: Id)
    requires LimitsInSync(st)
    ensures LimitsInSync(Delete(st, user, id).store)
  {
    var o := Delete(st, user, id);
    if o.response.Ok? {
      var i := TxIndex(st.transactions, id).value;
      forall k | 0 <= k < |o.store.cards|
        ensures o.store.cards[k].limitUsed == CardUsage(o.store.transactions, o.store.cards[k].id)
      {
        SumByRemove(st.transactions, i, ChargeOf(st.cards[k].id));
      }
    }
  }

  lemma DeleteKeepsLinksExclusive(st: Store, user: UserId, id: Id)
    requires LinkExclusive(st.transactions)
    ensures LinkExclusive(Delete(st, user, id).store.transactions)
  {
  }

  /** Deleting a transaction just created gives every card back its
      `limitUsed` and the table back its rows. */
  lemma CreateThenDeleteRestores(st: Store, user: User, now: int, req: TxRequest,
                                 escape: string -> string, formatCurrency: int -> string)
    requires Create(st, user, now, req, escape, formatCurrency).response.Ok?
    ensures var o := Create(st, user, now, req, escape, formatCurrency);
            var d := Delete(o.store, user.id, o.response.value.id);
            d.response.Ok? && d.store.cards == st.cards && d.store.transactions == st.transactions
  {
    var o := Create(st, user, now, req, escape, formatCurrency);
    var t := o.response.value;
    var ts := o.store.transactions;
    assert ts == st.transactions + [t];
    assert ts[|st.transactions|] == t;
    assert TxIndex(ts, t.id) == Some(|st.transactions|);
    var d := Delete(o.store, user.id, t.id);
    assert d.response.Ok? && d.store.cards == Credit(o.store.cards, t);
    assert o.store.cards == Debit(st.cards, t);
    CreditUndoesDebit(st.cards, t);
    assert RemoveAt(ts, |st.transactions|) == st.transactions;
  }

  /* ---------------------------------------------------------------- */
  /* Where the code as written loses the bookkeeping                  */
  /* ---------------------------------------------------------------- */

  function Verbatim(s: string): string { s }

  function SampleCard(limitUsed: int): CreditCard {
    CreditCard(1, "Nubank", "1234", 100000, limitUsed, 5, 12, None, 7)
  }

  function SampleExpense(): Transaction {
    Transaction(1, 7, None, 5000, YMD(2024, 1, 10), Expense, None, Some(1), None)
  }

  /** Editing a card EXPENSE without naming a card or an account keeps the
      card link but refunds the charge and never books it again. */
  lemma UpdateAsWrittenDropsKeptCharge()
    ensures var st := Store([], [], [SampleCard(5000)], [SampleExpense()], [], [], [], []);
            var req := TxRequest(None, 5000, YMD(2024, 1, 10), Expense, None, None, None);
            var o := UpdateAsWritten(st, 7, 1, req, Verbatim);
            && LimitsInSync(st)
            && o.response.Ok? && o.response.value.creditCard == Some(1)
            && o.store.cards[0].limitUsed == 0
            && CardUsage(o.store.transactions, 1) == 5000
            && !LimitsInSync(o.store)
  {
    var st := Store([], [], [SampleCard(5000)], [SampleExpense()], [], [], [], []);
    var req := TxRequest(None, 5000, YMD(2024, 1, 10), Expense, None, None, None);
    var o := UpdateAsWritten(st, 7, 1, req, Verbatim);
    assert TxIndex(st.transactions, 1) == Some(0);
    SumBySingleton(SampleExpense(), ChargeOf(1));
    assert CardUsage(st.transactions, 1) == 5000;
    assert o.store.transactions == [o.response.value];
    SumBySingleton(o.response.value, ChargeOf(1));
  }

  /** The same edit through `Update` keeps the card's `limitUsed` right. */
  lemma UpdateKeepsKeptCharge()
    ensures var st := Store([], [], [SampleCard(5000)], [SampleExpense()], [], [], [], []);
            var req := TxRequest(None, 5000, YMD(2024, 1, 10), Expense, None, None, None);
            var o := Update(st, 7, 1, req, Verbatim);
            o.response.Ok? && o.store.cards[0].limitUsed == 5000 && LimitsInSync(o.store)
  {
    var st := Store([], [], [SampleCard(5000)], [SampleExpense()], [], [], [], []);
    var req := TxRequest(None, 5000, YMD(2024, 1, 10), Expense, None, None, None);
    assert TxIndex(st.transactions, 1) == Some(0);
    SumBySingleton(SampleExpense(), ChargeOf(1));
    UpdateKeepsLimitsInSync(st, 7, 1, req, Verbatim);
  }

  /** Raising a card EXPENSE from 50.00 to 80.00 while naming a category
      that does not exist is refused with NOT_FOUND, yet the flushed edit
      and the new charge are both saved. */
  lemma UpdateAsWrittenSavesRefusedEdit()
    ensures var st := Store([], [], [SampleCard(5000)], [SampleExpense()], [], [], [], []);
            var req := TxRequest(None, 8000, YMD(2024, 1, 10), Expense, None, Some(1), Some(3));
            var o := UpdateAsWritten(st, 7, 1, req, Verbatim);
            && o.response == Err(NotFound, "Category not found")
            && o.store.transactions[0].amount == 8000
            && o.store.cards[0].limitUsed == 8000
  {
    var st := Store([], [], [SampleCard(5000)], [SampleExpense()], [], [], [], []);
    assert TxIndex(st.transactions, 1) == Some(0);
  }

  /** The same request through `Update` leaves the database untouched. */
  lemma UpdateRefusesWithoutWriting()
    ensures var st := Store([], [], [SampleCard(5000)], [SampleExpense()], [], [], [], []);
            var req := TxRequest(None, 8000, YMD(2024, 1, 10), Expense, None, Some(1), Some(3));
            var o := Update(st, 7, 1, req, Verbatim);
            o.response == Err(NotFound, "Category not found") && o.store == st
  {
    var st := Store([], [], [SampleCard(5000)], [SampleExpense()], [], [], [], []);
    assert TxIndex(st.transactions, 1) == Some(0);
  }

  function SampleUser(): User {
    User(7, None, "ana@example.com", "hash", "52998224725", None, None, Pro)
  }

  /** A card EXPENSE whose category does not exist is rejected, yet the
      card stays charged for it. */
  lemma CreateAsWrittenChargesRejectedRow()
    ensures var st := Store([], [], [SampleCard(0)], [], [], [], [], []);
            var req := TxRequest(None, 5000, YMD(2024, 1, 10), Expense, None, Some(1), Some(3));
            var o := CreateAsWritten(st, SampleUser(), 0, req, Verbatim, FixedLabel);
            && LimitsInSync(st)
            && o.response == Err(NotFound, "Category not found")
            && o.store.transactions == [] && o.store.cards[0].limitUsed == 5000
            && !LimitsInSync(o.store)
  {
  }

  /** The same request through `Create` leaves the database untouched. */
  lemma CreateRejectsWithoutWriting()
    ensures var st := Store([], [], [SampleCard(0)], [], [], [], [], []);
            var req := TxRequest(None, 5000, YMD(2024, 1, 10), Expense, None, Some(1), Some(3));
            var o := Create(st, SampleUser(), 0, req, Verbatim, FixedLabel);
            o.response == Err(NotFound, "Category not found") && o.store == st
  {
  }

  function FixedLabel(n: int): string { "R$" }
}

=== FILE: transaction_dto.dfy ===
/** `TransactionDTO.fromEntity`: the shape a transaction is listed in,
    with the name of its source (card or account) resolved. */
module TransactionView {
  import opened Wrappers
  import opened Calendar
  import opened Domain

  datatype CategoryDto = CategoryDto(id: Id, name: string, kind: TxType)

  datatype TransactionDto = TransactionDto(
    id: Id,
    description: Option<string>,
    amount: int,
    date: Date,
    kind: TxType,
    accountName: string,
    category: Option<CategoryDto>)

  const CardPrefix: string := "Cartão: "
  const NoSource: string := "N/A"

  /** The entity graph reaches every row a transaction references. */
  predicate Resolves(st: Store, t: Transaction) {
    (t.account.Some? ==> FindById(st.accounts, t.account.value, AccountId).Some?)
    && (t.creditCard.Some? ==> FindById(st.cards, t.creditCard.value, CardId).Some?)
    && (t.category.Some? ==> FindById(st.categories, t.category.value, CategoryId).Some?)
  }

  /** The source column: the card wins over the account, "N/A" when
      neither is set. */
  function SourceName(st: Store, t: Transaction): string
    requires Resolves(st, t)
  {
    if t.creditCard.Some? then CardPrefix + FindById(st.cards, t.creditCard.value, CardId).value.name
    else if t.account.Some? then FindById(st.accounts, t.account.value, AccountId).value.name
    else NoSource
  }

  /** `CategoryDTO.fromEntity`. */
  function CategoryView(c: Category): (d: CategoryDto)
    ensures d.id == c.id && d.name == c.name && d.kind == c.kind
  {
    CategoryDto(c.id, c.name, c.kind)
  }

  function FromEntity(st: Store, t: Transaction): (d: TransactionDto)
    requires Resolves(st, t)
    ensures d.id == t.id && d.description == t.description && d.amount == t.amount
    ensures d.date == t.date && d.kind == t.kind
    ensures d.category.None? <==> t.category.None?
    ensures t.category.Some? ==> d.category.value.id == t.category.value
  {
    TransactionDto(
      t.id, t.description, t.amount, t.date, t.kind,
      SourceName(st, t),
      match t.category
      case None => None
      case Some(c) => Some(CategoryView(FindById(st.categories, c, CategoryId).value)))
  }

  /** Which source the listing names, for each way a transaction can be
      linked. */
  lemma SourceNameCases(st: Store, t: Transaction)
    requires Resolves(st, t)
    ensures t.creditCard.Some? ==>
              exists c :: c in st.cards && c.id == t.creditCard.value && FromEntity(st, t).accountName == CardPrefix + c.name
    ensures t.creditCard.None? && t.account.Some? ==>
              exists a :: a in st.accounts && a.id == t.account.value && FromEntity(st, t).accountName == a.name
    ensures t.creditCard.None? && t.account.None? ==> FromEntity(st, t).accountName == NoSource
  {
  }
}

=== FILE: transaction_form.dfy ===
/** `TransactionModal`: the create/edit form for one transaction. The
    account-or-card choice travels as one string, "account-N" or "card-N",
    which the submit handler splits back into the two references of the
    request body, exactly one of them set. `parseFloat` on the amount text
    is library code and enters as a parameter. */
module TransactionForm {
  import opened Wrappers
  import opened Text
  import opened Domain

  const AccountTag: string := "account"
  const CardTag: string := "card"
  const DemoBlocked: string := "Funcionalidade bloqueada no modo Demonstração."
  const NoSource: string := "Selecione uma conta ou cartão."

  /** `` `account-${id}` `` */
  function AccountSource(id: nat): string { AccountTag + "-" + NatToString(id) }

  /** `` `card-${id}` `` */
  function CardSource(id: nat): string { CardTag + "-" + NatToString(id) }

  /** `const [sourceType, idStr] = sourceId.split('-')`: the first piece,
      and the second when there is one (`undefined` otherwise). */
  function SourceParts(sourceId: string): (r: (string, Option<string>))
    ensures '-' !in r.0 && r.0 <= sourceId
    ensures r.1.Some? <==> '-' in sourceId
  {
    var parts := Split(sourceId, '-');
    SplitJoin(sourceId, '-');
    assert parts[0] in parts;
    if |parts| > 1 then
      assert sourceId == parts[0] + ['-'] + Join(parts[1..], '-');
      assert sourceId[|parts[0]|] == '-';
      (parts[0], Some(parts[1]))
    else
      assert sourceId == parts[0];
      (parts[0], None)
  }

  /** `parseInt(idStr)`, NaN (`None`) when the piece is missing or has no
      leading digits. */
  function SourceNumber(sourceId: string): Option<nat> {
    match SourceParts(sourceId).1
    case None => None
    case Some(text) => ParseInt(text)
  }

  /** The form fields, all held as text as the inputs hold them. */
  datatype Form = Form(
    kind: TxType,
    description: string,
    amount: string,
    categoryId: string,
    date: string,
    sourceId: string)

  /** The request body. A reference is `None` for JSON null; a present
      reference whose id is NaN carries `None` inside. */
  datatype Payload = Payload(
    description: string,
    amount: real,
    kind: TxType,
    category: Option<Option<nat>>,
    date: string,
    account: Option<Option<nat>>,
    creditCard: Option<Option<nat>>)

  /** A submit either shows an error toast and stops, or hands a payload to
      `onSave` and closes the form. */
  datatype Submission = Blocked(message: string) | Saved(payload: Payload)

  /** `handleSubmit`: the demo gate, then the missing-source gate, then the
      payload. Any tag other than "account" is read as a card. */
  function Submit(f: Form, isDemo: bool, parseFloat: string -> real): (r: Submission)
    ensures isDemo ==> r == Blocked(DemoBlocked)
    ensures !isDemo && f.sourceId == "" ==> r == Blocked(NoSource)
    ensures r.Saved? <==> !isDemo && f.sourceId != ""
    ensures r.Saved? ==>
              var p := r.payload;
              && (p.account.Some? <==> p.creditCard.None?)
              && (p.account.Some? <==> SourceParts(f.sourceId).0 == AccountTag)
              && (p.account.Some? ==> p.account.value == SourceNumber(f.sourceId))
              && (p.creditCard.Some? ==> p.creditCard.value == SourceNumber(f.sourceId))
              && (p.category.None? <==> f.categoryId == "")
              && (p.category.Some? ==> p.category.value == ParseInt(f.categoryId))
              && p.description == f.description && p.kind == f.kind && p.date == f.date
              && p.amount == parseFloat(f.amount)
  {
    if isDemo then Blocked(DemoBlocked)
    else if f.sourceId == "" then Blocked(NoSource)
    else
      var (tag, _) := SourceParts(f.sourceId);
      var id := SourceNumber(f.sourceId);
      var category := if f.categoryId != "" then Some(ParseInt(f.categoryId)) else None;
      var base := Payload(f.description, parseFloat(f.amount), f.kind, category, f.date, None, None);
      if tag == AccountTag then Saved(base.(account := Some(id)))
      else Saved(base.(creditCard := Some(id)))
  }

  /** "account-N" splits into the tag and the digits of N, and the digits
      read back as N; likewise "card-N". */
  lemma {:induction false} SourceRoundTrip(n: nat)
    ensures SourceParts(AccountSource(n)) == (AccountTag, Some(NatToString(n)))
    ensures SourceParts(CardSource(n)) == (CardTag, Some(NatToString(n)))
    ensures SourceNumber(AccountSource(n)) == Some(n)
    ensures SourceNumber(CardSource(n)) == Some(n)
  {
    var digits := NatToString(n);
    assert !IsDigit('-');
    SplitNoSep(digits, '-');
    assert '-' !in AccountTag && '-' !in CardTag;
    assert AccountSource(n) == AccountTag + ['-'] + digits;
    assert CardSource(n) == CardTag + ['-'] + digits;
    SplitAround(AccountTag, digits, '-');
    SplitAround(CardTag, digits, '-');
    ParseIntNatToString(n);
  }

  /** Submitting "account-N" sends `account = {id: N}` and no card;
      submitting "card-N" sends the reverse. */
  lemma SubmitSource(f: Form, parseFloat: string -> real, n: nat)
    ensures f.sourceId == AccountSource(n) ==>
              var r := Submit(f, false, parseFloat);
              r.Saved? && r.payload.account == Some(Some(n)) && r.payload.creditCard.None?
    ensures f.sourceId == CardSource(n) ==>
              var r := Submit(f, false, parseFloat);
              r.Saved? && r.payload.creditCard == Some(Some(n)) && r.payload.account.None?
  {
    SourceRoundTrip(n);
    assert AccountTag != CardTag;
  }

  /* ---------------------------------------------------------------- */
  /* Choices offered by the form                                      */
  /* ---------------------------------------------------------------- */

  datatype CategoryOption = CategoryOption(id: nat, name: string, kind: TxType)

  /** An account or a card as listed in the source drop-down. */
  datatype Named = Named(id: nat, name: string)

  /** `categories.filter(cat => cat.type === type)`, in list order. */
  function OfferedCategories(cats: seq<CategoryOption>, kind: TxType): (r: seq<CategoryOption>)
    ensures |r| <= |cats|
    ensures forall c :: c in r <==> c in cats && c.kind == kind
    decreases |cats|
  {
    if |cats| == 0 then []
    else
      var rest := OfferedCategories(cats[1..], kind);
      assert forall c :: c in cats <==> c == cats[0] || c in cats[1..];
      if cats[0].kind == kind then [cats[0]] + rest else rest
  }

  /** The type buttons: the type changes and the chosen category is
      cleared; nothing else moves. */
  function SelectType(f: Form, kind: TxType): (r: Form)
    ensures r.kind == kind && r.categoryId == ""
    ensures r.description == f.description && r.amount == f.amount
    ensures r.date == f.date && r.sourceId == f.sourceId
  {
    f.(kind := kind, categoryId := "")
  }

  /** After a type switch the form cannot submit a category of the other
      type: it submits none until one is picked again. */
  lemma SwitchingTypeDropsCategory(f: Form, kind: TxType, parseFloat: string -> real)
    ensures var r := Submit(SelectType(f, kind), false, parseFloat);
            r.Saved? ==> r.payload.category.None? && r.payload.kind == kind
  {
  }

  /** The source options: one per account, then one per card only for an
      EXPENSE when there are cards. */
  function SourceOptions(accounts: seq<Named>, cards: seq<Named>, kind: TxType): (r: seq<string>)
    ensures |r| == |accounts| + (if kind == Expense then |cards| else 0)
    ensures forall i :: 0 <= i < |accounts| ==> r[i] == AccountSource(accounts[i].id)
    ensures forall j :: |accounts| <= j < |r| ==> kind == Expense && r[j] == CardSource(cards[j - |accounts|].id)
  {
    var acc := seq(|accounts|, i requires 0 <= i < |accounts| => AccountSource(accounts[i].id));
    var crd := seq(|cards|, j requires 0 <= j < |cards| => CardSource(cards[j].id));
    if kind == Expense && |cards| > 0 then acc + crd else acc
  }

  /** Whatever option an INCOME form offers, submitting it links an
      account and never charges a card; an offered option always names an
      account or card of the lists. */
  lemma OfferedSourcesDecode(accounts: seq<Named>, cards: seq<Named>, f: Form, parseFloat: string -> real)
    requires f.sourceId in SourceOptions(accounts, cards, f.kind)
    ensures var r := Submit(f, false, parseFloat);
            && r.Saved?
            && (f.kind == Income ==> r.payload.creditCard.None?)
            && (r.payload.account.Some? ==> exists a :: a in accounts && r.payload.account == Some(Some(a.id)))
            && (r.payload.creditCard.Some? ==> exists c :: c in cards && r.payload.creditCard == Some(Some(c.id)))
  {
    var opts := SourceOptions(accounts, cards, f.kind);
    var i :| 0 <= i < |opts| && opts[i] == f.sourceId;
    if i < |accounts| {
      SubmitSource(f, parseFloat, accounts[i].id);
      assert accounts[i] in accounts;
    } else {
      var c := cards[i - |accounts|];
      SubmitSource(f, parseFloat, c.id);
      assert c in cards;
    }
  }

  /* ---------------------------------------------------------------- */
  /* Opening the form                                                 */
  /* ---------------------------------------------------------------- */

  /** `transactionToEdit` as the form reads it: the category id, if any,
      and the account and card links the object may carry. */
  datatype Editing = Editing(
    kind: TxType,
    description: string,
    amount: string,
    category: Option<nat>,
    date: string,
    account: Option<nat>,
    creditCard: Option<nat>)

  /** Opening on an existing transaction: the fields are copied, an
      account link wins over a card link, and with neither the previous
      source stays. `category?.id || ''` also turns a category id 0 into
      no category. */
  function OpenForEdit(previousSource: string, e: Editing): (r: Form)
    ensures r.kind == e.kind && r.description == e.description && r.amount == e.amount && r.date == e.date
    ensures e.account.Some? ==> r.sourceId == AccountSource(e.account.value)
    ensures e.account.None? && e.creditCard.Some? ==> r.sourceId == CardSource(e.creditCard.value)
    ensures e.account.None? && e.creditCard.None? ==> r.sourceId == previousSource
    ensures r.categoryId == "" <==> e.category.None? || e.category.value == 0
  {
    var source :=
      if e.account.Some? then AccountSource(e.account.value)
      else if e.creditCard.Some? then CardSource(e.creditCard.value)
      else previousSource;
    var category := if e.category.Some? && e.category.value != 0 then NatToString(e.category.value) else "";
    Form(e.kind, e.description, e.amount, category, e.date, source)
  }

  /** Saving an edited transaction unchanged sends back its own links and
      category: the account when it has one (even if a card is also set),
      else the card. */
  lemma EditRoundTrip(previousSource: string, e: Editing, parseFloat: string -> real)
    requires e.account.Some? || e.creditCard.Some?
    ensures var r := Submit(OpenForEdit(previousSource, e), false, parseFloat);
            && r.Saved?
            && (e.account.Some? ==> r.payload.account == Some(e.account) && r.payload.creditCard.None?)
            && (e.account.None? ==> r.payload.creditCard == Some(e.creditCard) && r.payload.account.None?)
            && (e.category.Some? && e.category.value != 0 ==> r.payload.category == Some(e.category))
            && (e.category.None? ==> r.payload.category.None?)
  {
    var f := OpenForEdit(previousSource, e);
    if e.account.Some? {
      SubmitSource(f, parseFloat, e.account.value);
    } else {
      SubmitSource(f, parseFloat, e.creditCard.value);
    }
    if e.category.Some? && e.category.value != 0 {
      ParseIntNatToString(e.category.value);
    }
  }

  /** The list page opens the form on a `TransactionDTO`, which names its
      source only as display text and carries neither an account nor a
      card link. So the form keeps whatever source was chosen last, and a
      re-submit sends that source, not the row's own link: with no earlier
      choice it is refused, with "account-N" it books the row on account
      N, with "card-N" on card N. */
  lemma EditWithoutLinksResendsPrevious(previousSource: string, e: Editing, parseFloat: string -> real)
    requires e.account.None? && e.creditCard.None?
    ensures var r := Submit(OpenForEdit(previousSource, e), false, parseFloat);
            && (r.Saved? <==> previousSource != "")
            && (previousSource == "" ==> r == Blocked(NoSource))
            && (r.Saved? ==>
                  && (r.payload.account.Some? <==> SourceParts(previousSource).0 == AccountTag)
                  && (r.payload.account.Some? ==> r.payload.account.value == SourceNumber(previousSource))
                  && (r.payload.creditCard.Some? ==> r.payload.creditCard.value == SourceNumber(previousSource))
                  && r.payload.kind == e.kind && r.payload.date == e.date)
  {
    var f := OpenForEdit(previousSource, e);
    assert f.sourceId == previousSource;
  }

  /** A card EXPENSE opened from the list, after the form last showed
      account 4, is sent back booked on account 4 and on no card. */
  lemma EditFromListMovesCardRowToAccount(parseFloat: string -> real)
    ensures var e := Editing(Expense, "Mercado", "50.00", Some(3), "2024-01-10", None, None);
            var r := Submit(OpenForEdit(AccountSource(4), e), false, parseFloat);
            r.Saved? && r.payload.account == Some(Some(4)) && r.payload.creditCard.None?
  {
    var e := Editing(Expense, "Mercado", "50.00", Some(3), "2024-01-10", None, None);
    SubmitSource(OpenForEdit(AccountSource(4), e), parseFloat, 4);
  }

  /** Opening for a new transaction: EXPENSE, empty texts, today's date.
      The source is not cleared here. */
  function OpenForNew(previousSource: string, today: string): (r: Form)
    ensures r.kind == Expense && r.description == "" && r.amount == "" && r.categoryId == ""
    ensures r.date == today && r.sourceId == previousSource
  {
    Form(Expense, "", "", "", today, previousSource)
  }

  /** The accounts callback: a new transaction with no source yet gets
      the first account. */
  function DefaultSource(editing: bool, accounts: seq<Named>, current: string): (r: string)
    ensures !editing && |accounts| > 0 && current == "" ==> r == AccountSource(accounts[0].id)
    ensures editing || |accounts| == 0 || current != "" ==> r == current
  {
    if !editing && |accounts| > 0 && current == "" then AccountSource(accounts[0].id) else current
  }

  /** A fresh form submitted as it opens (with no source chosen before)
      records an EXPENSE on the first account, with no category. */
  lemma NewFormSubmitsFirstAccount(accounts: seq<Named>, today: string, parseFloat: string -> real)
    requires |accounts| > 0
    ensures var f0 := OpenForNew("", today);
            var f := f0.(sourceId := DefaultSource(false, accounts, f0.sourceId));
            var r := Submit(f, false, parseFloat);
            && r.Saved?
            && r.payload.kind == Expense
            && r.payload.account == Some(Some(accounts[0].id)) && r.payload.creditCard.None?
            && r.payload.category.None?
  {
    var f0 := OpenForNew("", today);
    var f := f0.(sourceId := DefaultSource(false, accounts, f0.sourceId));
    SubmitSource(f, parseFloat, accounts[0].id);
  }
}

=== FILE: transaction_repo.dfy ===
/** The JPQL queries of the transaction repository as functions over the
    transaction table. `SUM` over no rows is SQL NULL (`None`); `ORDER BY`
    is a stable sort of the matching rows in table order. */
module TransactionQueries {
  import opened Wrappers
  import opened Calendar
  import opened Seqs
  import opened Grouping
  import opened Domain

  function DateKey(t: Transaction): int { Key(t.date) }

  function Amount(t: Transaction): int { t.amount }

  /** The sum of the amounts of the rows satisfying `p`. */
  function SumWhere(ts: seq<Transaction>, p: Transaction -> bool): int
    decreases |ts|
  {
    if |ts| == 0 then 0
    else SumWhere(ts[..|ts| - 1], p) + (if p(ts[|ts| - 1]) then ts[|ts| - 1].amount else 0)
  }

  lemma {:induction false} SumWhereIsFilteredSum(ts: seq<Transaction>, p: Transaction -> bool)
    ensures SumBy(Filter(ts, p), Amount) == SumWhere(ts, p)
    decreases |ts|
  {
    if |ts| > 0 {
      var ts' := ts[..|ts| - 1];
      SumWhereIsFilteredSum(ts', p);
      if p(ts[|ts| - 1]) {
        SumByConcat(Filter(ts', p), [ts[|ts| - 1]], Amount);
        SumBySingleton(ts[|ts| - 1], Amount);
      }
    }
  }

  lemma {:induction false} FilterEmpty(ts: seq<Transaction>, p: Transaction -> bool)
    ensures |Filter(ts, p)| == 0 <==> forall k :: 0 <= k < |ts| ==> !p(ts[k])
    decreases |ts|
  {
    if |ts| > 0 {
      FilterEmpty(ts[..|ts| - 1], p);
      assert forall k :: 0 <= k < |ts| - 1 ==> ts[..|ts| - 1][k] == ts[k];
    }
  }

  /** `SELECT SUM(t.amount) ... WHERE p`: NULL when no row matches. */
  function SqlSum(ts: seq<Transaction>, p: Transaction -> bool): (r: Option<int>)
    ensures r.None? <==> forall k :: 0 <= k < |ts| ==> !p(ts[k])
    ensures r.Some? ==> r.value == SumWhere(ts, p)
  {
    var rows := Filter(ts, p);
    FilterEmpty(ts, p);
    SumWhereIsFilteredSum(ts, p);
    if |rows| == 0 then None else Some(SumBy(rows, Amount))
  }

  /** The rows satisfying `p`, newest first. */
  function NewestFirst(ts: seq<Transaction>, p: Transaction -> bool): (r: seq<Transaction>)
    ensures SortedDesc(r, DateKey)
    ensures multiset(r) == multiset(Filter(ts, p))
    ensures forall k :: 0 <= k < |r| ==> r[k] in ts && p(r[k])
    ensures forall k :: 0 <= k < |ts| && p(ts[k]) ==> ts[k] in r
  {
    var r := SortDesc(Filter(ts, p), DateKey);
    forall k | 0 <= k < |r|
      ensures r[k] in ts && p(r[k])
    {
      assert r[k] in multiset(Filter(ts, p));
      FilterMembership(ts, p, r[k]);
    }
    forall k | 0 <= k < |ts| && p(ts[k])
      ensures ts[k] in r
    {
      FilterMembership(ts, p, ts[k]);
      assert ts[k] in multiset(r);
    }
    r
  }

  /** The rows of the user, between two dates inclusive, and in the
      category when one is given. */
  function FilteredMatch(user: UserId, start: Date, end: Date, categoryId: Option<Id>): Transaction -> bool {
    (t: Transaction) => t.owner == user && InRange(t.date, start, end) && (categoryId.None? || t.category == categoryId)
  }

  /** `findFiltered(user, startDate, endDate, categoryId)`. */
  function FindFiltered(ts: seq<Transaction>, user: UserId, start: Date, end: Date, categoryId: Option<Id>): seq<Transaction> {
    NewestFirst(ts, FilteredMatch(user, start, end, categoryId))
  }

  /** The listing contains exactly the user's rows in the range (and in
      the category, when one is given), newest first. */
  lemma FindFilteredSpec(ts: seq<Transaction>, user: UserId, start: Date, end: Date, categoryId: Option<Id>)
    ensures SortedDesc(FindFiltered(ts, user, start, end, categoryId), DateKey)
    ensures forall t :: t in FindFiltered(ts, user, start, end, categoryId) <==>
      t in ts && t.owner == user && Key(start) <= Key(t.date) <= Key(end)
        && (categoryId.None? || t.category == categoryId)
  {
  }

  function RecentMatch(user: UserId, start: Date): Transaction -> bool {
    (t: Transaction) => t.owner == user && Key(t.date) >= Key(start)
  }

  /** `findRecentTransactionsByUser(user, startDate)`. */
  function FindRecent(ts: seq<Transaction>, user: UserId, start: Date): seq<Transaction> {
    NewestFirst(ts, RecentMatch(user, start))
  }

  lemma FindRecentSpec(ts: seq<Transaction>, user: UserId, start: Date)
    ensures SortedDesc(FindRecent(ts, user, start), DateKey)
    ensures forall t :: t in FindRecent(ts, user, start) <==>
      t in ts && t.owner == user && Key(t.date) >= Key(start)
  {
  }

  function KindInRange(user: UserId, kind: TxType, start: Date, end: Date): Transaction -> bool {
    (t: Transaction) => t.owner == user && t.kind == kind && InRange(t.date, start, end)
  }

  /** `sumIncomeBetweenByUser`. */
  function SumIncomeBetween(ts: seq<Transaction>, user: UserId, start: Date, end: Date): Option<int> {
    SqlSum(ts, KindInRange(user, Income, start, end))
  }

  /** `sumExpenseBetweenByUser`. */
  function SumExpenseBetween(ts: seq<Transaction>, user: UserId, start: Date, end: Date): Option<int> {
    SqlSum(ts, KindInRange(user, Expense, start, end))
  }

  function AccountKind(account: Id, kind: TxType): Transaction -> bool {
    (t: Transaction) => t.account == Some(account) && t.kind == kind
  }

  /** `sumIncomeByAccount(account)`. */
  function SumIncomeByAccount(ts: seq<Transaction>, account: Id): Option<int> {
    SqlSum(ts, AccountKind(account, Income))
  }

  /** `sumExpenseByAccount(account)`. */
  function SumExpenseByAccount(ts: seq<Transaction>, account: Id): Option<int> {
    SqlSum(ts, AccountKind(account, Expense))
  }

  /** Only rows of that account and that type count toward its sums, and a
      sum is NULL exactly when no such row exists. */
  lemma AccountSumsSpec(ts: seq<Transaction>, account: Id)
    ensures SumIncomeByAccount(ts, account).None? <==>
      forall k :: 0 <= k < |ts| ==> !(ts[k].account == Some(account) && ts[k].kind == Income)
    ensures SumExpenseByAccount(ts, account).None? <==>
      forall k :: 0 <= k < |ts| ==> !(ts[k].account == Some(account) && ts[k].kind == Expense)
    ensures SumIncomeByAccount(ts, account).GetOr(0) == SumWhere(ts, AccountKind(account, Income))
    ensures SumExpenseByAccount(ts, account).GetOr(0) == SumWhere(ts, AccountKind(account, Expense))
  {
    if SumIncomeByAccount(ts, account).None? {
      assert forall k :: 0 <= k < |ts| ==> !AccountKind(account, Income)(ts[k]);
      SumWhereNone(ts, AccountKind(account, Income));
    }
    if SumExpenseByAccount(ts, account).None? {
      assert forall k :: 0 <= k < |ts| ==> !AccountKind(account, Expense)(ts[k]);
      SumWhereNone(ts, AccountKind(account, Expense));
    }
  }

  lemma {:induction false} SumWhereNone(ts: seq<Transaction>, p: Transaction -> bool)
    requires forall k :: 0 <= k < |ts| ==> !p(ts[k])
    ensures SumWhere(ts, p) == 0
    decreases |ts|
  {
    if |ts| > 0 {
      SumWhereNone(ts[..|ts| - 1], p);
    }
  }

  /** Reading a NULL sum as zero gives the plain sum. */
  lemma SqlSumOrZero(ts: seq<Transaction>, p: Transaction -> bool)
    ensures SqlSum(ts, p).GetOr(0) == SumWhere(ts, p)
  {
    if SqlSum(ts, p).None? {
      SumWhereNone(ts, p);
    }
  }

  function CategoryExpenseInRange(user: UserId, category: Id, start: Date, end: Date): Transaction -> bool {
    (t: Transaction) => t.owner == user && t.category == Some(category) && t.kind == Expense && InRange(t.date, start, end)
  }

  /** `sumExpenseByCategoryAndDateRange(user, category, start, end)`. */
  function SumExpenseByCategoryAndDateRange(ts: seq<Transaction>, user: UserId, category: Id, start: Date, end: Date): Option<int> {
    SqlSum(ts, CategoryExpenseInRange(user, category, start, end))
  }

  /** `findByTypeAndDateRange`: `date >= start AND date <= end`. */
  function FindByTypeAndDateRange(ts: seq<Transaction>, user: UserId, start: Date, end: Date, kind: TxType): (r: seq<Transaction>)
    ensures forall t :: t in r <==> t in ts && t.owner == user && Key(start) <= Key(t.date) <= Key(end) && t.kind == kind
  {
    FilterMembershipAll(ts, KindInRange(user, kind, start, end));
    Filter(ts, KindInRange(user, kind, start, end))
  }

  /** The derived query `findByUserAndDateBetweenAndType`. */
  function FindByUserAndDateBetweenAndType(ts: seq<Transaction>, user: UserId, start: Date, end: Date, kind: TxType): seq<Transaction> {
    Filter(ts, KindInRange(user, kind, start, end))
  }

  function UserInRange(user: UserId, start: Date, end: Date): Transaction -> bool {
    (t: Transaction) => t.owner == user && InRange(t.date, start, end)
  }

  /** `findByDateRange`. */
  function FindByDateRange(ts: seq<Transaction>, user: UserId, start: Date, end: Date): (r: seq<Transaction>)
    ensures forall t :: t in r <==> t in ts && t.owner == user && Key(start) <= Key(t.date) <= Key(end)
  {
    FilterMembershipAll(ts, UserInRange(user, start, end));
    Filter(ts, UserInRange(user, start, end))
  }

  /** `findAllByDateRange`, whose text repeats `findByDateRange`. */
  function FindAllByDateRange(ts: seq<Transaction>, user: UserId, start: Date, end: Date): (r: seq<Transaction>)
    ensures forall t :: t in r <==> t in ts && t.owner == user && Key(start) <= Key(t.date) <= Key(end)
  {
    FilterMembershipAll(ts, UserInRange(user, start, end));
    Filter(ts, UserInRange(user, start, end))
  }

  /** The two range queries and the two typed range queries agree. */
  lemma RangeQueriesAgree(ts: seq<Transaction>, user: UserId, start: Date, end: Date, kind: TxType)
    ensures FindByDateRange(ts, user, start, end) == FindAllByDateRange(ts, user, start, end)
    ensures FindByTypeAndDateRange(ts, user, start, end, kind) == FindByUserAndDateBetweenAndType(ts, user, start, end, kind)
  {
  }

  /** The category name of a row, through the inner join `t.category.name`
      implies: rows without a resolvable category have none. */
  function JoinedCategoryName(cats: seq<Category>, t: Transaction): Option<string> {
    match t.category
    case None => None
    case Some(c) =>
      match FindById(cats, c, CategoryId)
      case None => None
      case Some(cat) => Some(cat.name)
  }

  function TopCategoryRow(cats: seq<Category>, user: UserId, start: Date, end: Date): Transaction -> bool {
    (t: Transaction) => t.owner == user && t.kind == Expense && InRange(t.date, start, end) && JoinedCategoryName(cats, t).Some?
  }

  function JoinedName(cats: seq<Category>): Transaction -> string {
    t => JoinedCategoryName(cats, t).GetOr("")
  }

  /** `findTopCategoriesByUser`: in-range EXPENSE sums per category name,
      largest first. */
  function FindTopCategories(ts: seq<Transaction>, cats: seq<Category>, user: UserId, start: Date, end: Date): (r: seq<Group<string>>)
    ensures SortedDesc(r, GroupTotal)
    ensures DistinctBy(r, GroupKey)
    ensures forall g :: g in r ==>
      g.total == KeySum(Filter(ts, TopCategoryRow(cats, user, start, end)), JoinedName(cats), Amount, g.key)
    ensures SumBy(r, GroupTotal) == SumWhere(ts, TopCategoryRow(cats, user, start, end))
    ensures forall t :: t in Filter(ts, TopCategoryRow(cats, user, start, end)) ==>
              exists g :: g in r && g.key == JoinedName(cats)(t)
    ensures forall g :: g in r ==>
              exists t :: t in Filter(ts, TopCategoryRow(cats, user, start, end)) && JoinedName(cats)(t) == g.key
  {
    var rows := Filter(ts, TopCategoryRow(cats, user, start, end));
    var gs := GroupSum(rows, JoinedName(cats), Amount);
    var r := RankDesc(gs);
    MemberTotals(gs, r);
    RankedKeysCover(rows, JoinedName(cats), Amount, r);
    SumWhereIsFilteredSum(ts, TopCategoryRow(cats, user, start, end));
    r
  }

  function ExpenseSince(user: UserId, start: Date): Transaction -> bool {
    (t: Transaction) => t.owner == user && t.kind == Expense && Key(t.date) >= Key(start)
  }

  function TxDate(t: Transaction): Date { t.date }

  function OldestFirstKey(g: Group<Date>): int { -Key(g.key) }

  /** Distinct days sorted oldest first are strictly increasing. */
  lemma StrictlyAscending(r: seq<Group<Date>>)
    requires SortedDesc(r, OldestFirstKey) && DistinctBy(r, GroupKey)
    ensures forall i, j :: 0 <= i < j < |r| ==> Key(r[i].key) < Key(r[j].key)
  {
    forall i, j | 0 <= i < j < |r|
      ensures Key(r[i].key) < Key(r[j].key)
    {
      assert OldestFirstKey(r[i]) >= OldestFirstKey(r[j]);
      assert GroupKey(r[i]) != GroupKey(r[j]);
      KeyOrder(r[i].key, r[j].key);
    }
  }

  /** `findDailyExpensesByUser`: one EXPENSE sum per day since `start`,
      oldest day first. */
  function FindDailyExpenses(ts: seq<Transaction>, user: UserId, start: Date): (r: seq<Group<Date>>)
    ensures forall i, j :: 0 <= i < j < |r| ==> Key(r[i].key) < Key(r[j].key)
    ensures forall g :: g in r ==> g.total == KeySum(Filter(ts, ExpenseSince(user, start)), TxDate, Amount, g.key)
    ensures SumBy(r, GroupTotal) == SumWhere(ts, ExpenseSince(user, start))
  {
    var rows := Filter(ts, ExpenseSince(user, start));
    var gs := GroupSum(rows, TxDate, Amount);
    var r := SortDesc(gs, OldestFirstKey);
    SortDescDistinct(gs, OldestFirstKey, GroupKey);
    SumByPerm(r, gs, GroupTotal);
    StrictlyAscending(r);
    MemberTotals(gs, r);
    SumWhereIsFilteredSum(ts, ExpenseSince(user, start));
    r
  }
}

=== FILE: transactions_page.dfy ===
/** `TransactionsPage`: the month's list as the client shows it. A search
    term narrows the fetched rows, a summary adds them up, and the rows are
    grouped by date with a running total per day; in selection mode rows
    and whole days are ticked for bulk actions.

    Amounts are integer cents here; `Number.prototype.toString`, which the
    search applies to the amount, is library code and enters as the
    parameter `numberText`. */
module TransactionList {
  import opened Wrappers
  import opened Seqs
  import opened Text
  import opened Domain

  /** `TransactionDTO` as the page receives it. */
  datatype Row = Row(
    id: nat,
    description: string,
    amount: int,
    date: string,
    kind: TxType,
    accountName: string,
    category: Option<string>)

  /* ---------------------------------------------------------------- */
  /* Selection                                                        */
  /* ---------------------------------------------------------------- */

  /** `toggleSelect`: the id changes side, every other id stays. */
  function ToggleSelect(selected: set<nat>, id: nat): (r: set<nat>)
    ensures id in r <==> id !in selected
    ensures forall x :: x != id ==> (x in r <==> x in selected)
  {
    if id in selected then selected - {id} else selected + {id}
  }

  /** Toggling the same row twice restores the selection. */
  lemma ToggleSelectTwice(selected: set<nat>, id: nat)
    ensures ToggleSelect(ToggleSelect(selected, id), id) == selected
  {
  }

  /** `ids.every(id => newSelected.has(id))`. */
  predicate AllSelected(selected: set<nat>, ids: seq<nat>) {
    forall k :: 0 <= k < |ids| ==> ids[k] in selected
  }

  /** `toggleSelectAllGroup`: the header tick of one day. When the whole
      day is ticked it is unticked, otherwise all of it is ticked; ids
      outside the day keep their state. */
  method ToggleSelectAllGroup(selected: set<nat>, ids: seq<nat>) returns (r: set<nat>)
    ensures AllSelected(selected, ids) ==> forall k :: 0 <= k < |ids| ==> ids[k] !in r
    ensures !AllSelected(selected, ids) ==> AllSelected(r, ids)
    ensures forall x :: x !in ids ==> (x in r <==> x in selected)
  {
    var all := AllSelected(selected, ids);
    r := selected;
    for i := 0 to |ids|
      invariant forall k :: 0 <= k < i ==> (ids[k] in r <==> !all)
      invariant forall x :: x !in ids[..i] ==> (x in r <==> x in selected)
    {
      assert forall x :: x in ids[..i + 1] <==> x in ids[..i] || x == ids[i];
      if all {
        r := r - {ids[i]};
      } else {
        r := r + {ids[i]};
      }
    }
    assert ids[..|ids|] == ids;
  }

  /** A day that was all ticked or not ticked at all is back where it was
      after two clicks on its header. */
  method ToggleGroupTwice(selected: set<nat>, ids: seq<nat>) returns (r: set<nat>)
    requires AllSelected(selected, ids) || forall k :: 0 <= k < |ids| ==> ids[k] !in selected
    ensures r == selected
  {
    var once := ToggleSelectAllGroup(selected, ids);
    r := ToggleSelectAllGroup(once, ids);
    if |ids| > 0 && !AllSelected(selected, ids) {
      assert ids[0] !in selected;
      assert AllSelected(once, ids);
    } else if |ids| > 0 {
      assert ids[0] !in once;
    }
    forall x
      ensures x in r <==> x in selected
    {
      if x in ids {
        var k :| 0 <= k < |ids| && ids[k] == x;
      }
    }
  }

  /** The page's selection state. */
  datatype Selection = Selection(mode: bool, selected: set<nat>)

  /** `toggleSelectionMode`: the mode flips and nothing stays ticked. */
  function ToggleSelectionMode(s: Selection): (r: Selection)
    ensures r.mode != s.mode && r.selected == {}
  {
    Selection(!s.mode, {})
  }

  /** A completed fetch: the mode stays and the ticks are dropped. */
  function AfterFetch(s: Selection): (r: Selection)
    ensures r.mode == s.mode && r.selected == {}
  {
    s.(selected := {})
  }

  /* ---------------------------------------------------------------- */
  /* Search, summary and grouping                                     */
  /* ---------------------------------------------------------------- */

  /** The search predicate: the lower-cased description contains the
      lower-cased term, or the amount's text contains the term as typed. */
  function Matches(term: string, numberText: int -> string): Row -> bool {
    (t: Row) => Includes(Lower(t.description), Lower(term)) || Includes(numberText(t.amount), term)
  }

  /** The `filtered` list of the memo, in fetch order. */
  function Search(rows: seq<Row>, term: string, numberText: int -> string): (r: seq<Row>)
    ensures |r| <= |rows|
    ensures forall t :: t in r <==>
              t in rows && (Contains(Lower(t.description), Lower(term)) || Contains(numberText(t.amount), term))
  {
    FilterMembershipAll(rows, Matches(term, numberText));
    Filter(rows, Matches(term, numberText))
  }

  /** An empty search box shows every fetched row. */
  lemma EmptySearchKeepsAll(rows: seq<Row>, numberText: int -> string)
    ensures Search(rows, "", numberText) == rows
  {
    forall k | 0 <= k < |rows|
      ensures Matches("", numberText)(rows[k])
    {
      ContainsEmpty(Lower(rows[k].description));
      assert Lower("") == "";
    }
    FilterKeepsAll(rows, Matches("", numberText));
  }

  /** The search ignores the case of letters in the description. */
  lemma SearchIgnoresCase(rows: seq<Row>, term: string, numberText: int -> string, t: Row)
    requires t in rows && Contains(Lower(t.description), Lower(term))
    ensures t in Search(rows, Upper(term), numberText)
  {
    LowerUpper(term);
  }

  /** Lower-casing forgets an upper-casing. */
  lemma LowerUpper(s: string)
    ensures Lower(Upper(s)) == Lower(s)
  {
  }

  /** A row's share of `summary.income`. */
  function IncomeAmount(t: Row): int { if t.kind == Income then t.amount else 0 }

  /** A row's share of `summary.expense`: every type but INCOME. */
  function OtherAmount(t: Row): int { if t.kind == Income then 0 else t.amount }

  datatype Summary = Summary(income: int, expense: int)

  /** The summary `reduce`: INCOME amounts go to `income`, every other
      amount to `expense`, row by row. */
  function Summarize(rows: seq<Row>): (r: Summary)
    ensures r.income == SumBy(rows, IncomeAmount)
    ensures r.expense == SumBy(rows, OtherAmount)
    decreases |rows|
  {
    if |rows| == 0 then Summary(0, 0)
    else
      var t := rows[|rows| - 1];
      var acc := Summarize(rows[..|rows| - 1]);
      if t.kind == Income then acc.(income := acc.income + t.amount)
      else acc.(expense := acc.expense + t.amount)
  }

  /** The "Líquido" card. */
  function Net(s: Summary): int { s.income - s.expense }

  /** One row's effect on a day's balance. */
  function Signed(t: Row): int { if t.kind == Income then t.amount else -t.amount }

  /** The net of the summary is the signed sum of the rows. */
  lemma {:induction false} NetIsSignedSum(rows: seq<Row>)
    ensures Net(Summarize(rows)) == SumBy(rows, Signed)
    decreases |rows|
  {
    if |rows| > 0 {
      NetIsSignedSum(rows[..|rows| - 1]);
    }
  }

  /** The rows of one date, in list order. */
  datatype DayGroup = DayGroup(date: string, rows: seq<Row>)

  function OnDate(d: string): Row -> bool {
    (t: Row) => t.date == d
  }

  function GroupDates(gs: seq<DayGroup>): (r: seq<string>)
    ensures |r| == |gs| && forall i :: 0 <= i < |gs| ==> r[i] == gs[i].date
  {
    seq(|gs|, i requires 0 <= i < |gs| => gs[i].date)
  }

  /** One step of the grouping `reduce`: the row joins the end of its
      date's group, or opens a new group at the end. */
  function AddRow(gs: seq<DayGroup>, t: Row): seq<DayGroup> {
    match FindIndex(gs, (g: DayGroup) => g.date == t.date)
    case Some(i) => gs[i := DayGroup(gs[i].date, gs[i].rows + [t])]
    case None => gs + [DayGroup(t.date, [t])]
  }

  /** `groupedTransactions`: the grouping `reduce`, one row at a time.
      `GroupByDateGroups` states what it builds. */
  function GroupByDate(rows: seq<Row>): seq<DayGroup>
    decreases |rows|
  {
    if |rows| == 0 then [] else AddRow(GroupByDate(rows[..|rows| - 1]), rows[|rows| - 1])
  }

  /** One group per date that occurs, in the order the dates are first met
      (`Object.entries` keeps insertion order for such keys), each holding
      exactly that date's rows in list order. */
  lemma {:induction false} GroupByDateGroups(rows: seq<Row>)
    ensures GroupsOf(rows, GroupByDate(rows))
    decreases |rows|
  {
    if |rows| > 0 {
      var prefix := rows[..|rows| - 1];
      var t := rows[|rows| - 1];
      assert prefix + [t] == rows;
      GroupByDateGroups(prefix);
      GroupStep(prefix, GroupByDate(prefix), t);
    }
  }

  /** The three facts `GroupByDate` keeps: distinct dates, each group is
      its date's rows, and every row's date has a group. */
  predicate GroupsOf(rows: seq<Row>, gs: seq<DayGroup>) {
    && (forall i, j :: 0 <= i < j < |gs| ==> gs[i].date != gs[j].date)
    && (forall i :: 0 <= i < |gs| ==> gs[i].rows == Filter(rows, OnDate(gs[i].date)) && |gs[i].rows| > 0)
    && (forall k :: 0 <= k < |rows| ==> rows[k].date in GroupDates(gs))
  }

  lemma FilterAppend(s: seq<Row>, t: Row, p: Row -> bool)
    ensures Filter(s + [t], p) == Filter(s, p) + (if p(t) then [t] else [])
  {
    assert (s + [t])[..|s|] == s;
  }

  /** The grouping step keeps the facts of `GroupByDate`. */
  lemma GroupStep(prefix: seq<Row>, gs: seq<DayGroup>, t: Row)
    requires GroupsOf(prefix, gs)
    ensures GroupsOf(prefix + [t], AddRow(gs, t))
  {
    match FindIndex(gs, (g: DayGroup) => g.date == t.date)
    case Some(i) => GroupStepJoin(prefix, gs, t, i);
    case None => GroupStepOpen(prefix, gs, t);
  }

  lemma GroupStepJoin(prefix: seq<Row>, gs: seq<DayGroup>, t: Row, i: nat)
    requires GroupsOf(prefix, gs)
    requires i < |gs| && gs[i].date == t.date
    ensures GroupsOf(prefix + [t], gs[i := DayGroup(gs[i].date, gs[i].rows + [t])])
  {
    var rows := prefix + [t];
    var r := gs[i := DayGroup(gs[i].date, gs[i].rows + [t])];
    forall j | 0 <= j < |r|
      ensures r[j].rows == Filter(rows, OnDate(r[j].date)) && |r[j].rows| > 0
    {
      FilterAppend(prefix, t, OnDate(r[j].date));
    }
    assert GroupDates(r) == GroupDates(gs);
    forall k | 0 <= k < |rows|
      ensures rows[k].date in GroupDates(r)
    {
      if k < |prefix| {
        assert rows[k] == prefix[k];
      } else {
        assert GroupDates(gs)[i] == t.date;
      }
    }
  }

  lemma GroupStepOpen(prefix: seq<Row>, gs: seq<DayGroup>, t: Row)
    requires GroupsOf(prefix, gs)
    requires forall j :: 0 <= j < |gs| ==> gs[j].date != t.date
    ensures GroupsOf(prefix + [t], gs + [DayGroup(t.date, [t])])
  {
    OpenGroupRows(prefix, gs, t);
    OpenGroupDates(prefix, gs, t);
  }

  /** A new date's group holds just the new row, and the old groups keep
      their rows. */
  lemma OpenGroupRows(prefix: seq<Row>, gs: seq<DayGroup>, t: Row)
    requires GroupsOf(prefix, gs)
    requires forall j :: 0 <= j < |gs| ==> gs[j].date != t.date
    ensures var rows, r := prefix + [t], gs + [DayGroup(t.date, [t])];
            forall j :: 0 <= j < |r| ==> r[j].rows == Filter(rows, OnDate(r[j].date)) && |r[j].rows| > 0
  {
    var rows := prefix + [t];
    var r := gs + [DayGroup(t.date, [t])];
    forall k | 0 <= k < |prefix|
      ensures !OnDate(t.date)(prefix[k])
    {
      var i :| 0 <= i < |gs| && GroupDates(gs)[i] == prefix[k].date;
    }
    FilterNone(prefix, OnDate(t.date));
    forall j | 0 <= j < |r|
      ensures r[j].rows == Filter(rows, OnDate(r[j].date)) && |r[j].rows| > 0
    {
      FilterAppend(prefix, t, OnDate(r[j].date));
    }
  }

  /** After opening a group for the new row's date every row's date has a
      group. */
  lemma OpenGroupDates(prefix: seq<Row>, gs: seq<DayGroup>, t: Row)
    requires forall k :: 0 <= k < |prefix| ==> prefix[k].date in GroupDates(gs)
    ensures var rows, r := prefix + [t], gs + [DayGroup(t.date, [t])];
            forall k :: 0 <= k < |rows| ==> rows[k].date in GroupDates(r)
  {
    var rows := prefix + [t];
    var r := gs + [DayGroup(t.date, [t])];
    forall k | 0 <= k < |rows|
      ensures rows[k].date in GroupDates(r)
    {
      if k < |prefix| {
        assert rows[k] == prefix[k] && prefix[k].date in GroupDates(gs);
        var i :| 0 <= i < |gs| && GroupDates(gs)[i] == prefix[k].date;
        assert GroupDates(r)[i] == prefix[k].date;
      } else {
        assert GroupDates(r)[|gs|] == t.date;
      }
    }
  }

  /** Every listed row is in exactly one group: the one of its date. */
  lemma EachRowInOneGroup(rows: seq<Row>, k: nat)
    requires k < |rows|
    ensures rows[k].date in GroupDates(GroupByDate(rows))
    ensures forall i :: 0 <= i < |GroupByDate(rows)| ==>
              (rows[k] in GroupByDate(rows)[i].rows <==> GroupByDate(rows)[i].date == rows[k].date)
  {
    var gs := GroupByDate(rows);
    GroupByDateGroups(rows);
    forall i | 0 <= i < |gs|
      ensures rows[k] in gs[i].rows <==> gs[i].date == rows[k].date
    {
      FilterMembership(rows, OnDate(gs[i].date), rows[k]);
    }
  }

  /** `dailyTotal` of one group. */
  function DailyTotal(g: DayGroup): int { SumBy(g.rows, Signed) }

  function GroupSum(f: Row -> int): DayGroup -> int {
    (g: DayGroup) => SumBy(g.rows, f)
  }

  /** Summing per group and then over the groups is summing over the
      rows: the groups split the list without loss or repetition. */
  lemma {:induction false} GroupSumsAddUp(rows: seq<Row>, f: Row -> int)
    ensures SumBy(GroupByDate(rows), GroupSum(f)) == SumBy(rows, f)
    decreases |rows|
  {
    if |rows| > 0 {
      var prefix := rows[..|rows| - 1];
      var t := rows[|rows| - 1];
      var gs := GroupByDate(prefix);
      GroupSumsAddUp(prefix, f);
      assert GroupByDate(rows) == AddRow(gs, t);
      assert SumBy(rows, f) == SumBy(prefix, f) + f(t);
      match FindIndex(gs, (g: DayGroup) => g.date == t.date)
      case Some(i) =>
        var g := DayGroup(gs[i].date, gs[i].rows + [t]);
        assert (gs[i].rows + [t])[..|gs[i].rows|] == gs[i].rows;
        assert GroupSum(f)(g) == GroupSum(f)(gs[i]) + f(t);
        SumByUpdate(gs, i, g, GroupSum(f));
      case None =>
        var g := DayGroup(t.date, [t]);
        assert (gs + [g])[..|gs|] == gs;
        SumBySingleton(t, f);
        assert SumBy(gs + [g], GroupSum(f)) == SumBy(gs, GroupSum(f)) + GroupSum(f)(g);
    }
  }

  /** The day balances add up to the net of the summary. */
  lemma DailyTotalsAddUp(rows: seq<Row>)
    ensures SumBy(GroupByDate(rows), DailyTotal) == Net(Summarize(rows))
  {
    GroupSumsAddUp(rows, Signed);
    NetIsSignedSum(rows);
    SumByPointwise(GroupByDate(rows), DailyTotal, GroupSum(Signed));
  }

  function GroupSize(g: DayGroup): int { |g.rows| }

  function One(t: Row): int { 1 }

  /** The groups together hold as many rows as the list. */
  lemma GroupsHoldEveryRow(rows: seq<Row>)
    ensures SumBy(GroupByDate(rows), GroupSize) == |rows|
  {
    var gs := GroupByDate(rows);
    GroupSumsAddUp(rows, One);
    forall i | 0 <= i < |gs|
      ensures GroupSize(gs[i]) == GroupSum(One)(gs[i])
    {
      CountOnes(gs[i].rows);
    }
    SumByPointwise(gs, GroupSize, GroupSum(One));
    CountOnes(rows);
  }

  lemma {:induction false} CountOnes(s: seq<Row>)
    ensures SumBy(s, One) == |s|
    decreases |s|
  {
    if |s| > 0 {
      CountOnes(s[..|s| - 1]);
    }
  }

  /* ---------------------------------------------------------------- */
  /* Recurring hint                                                   */
  /* ---------------------------------------------------------------- */

  const RecurringKeywords: seq<string> :=
    ["netflix", "spotify", "amazon", "youtube", "aluguel", "condominio", "internet",
     "vivo", "claro", "tim", "gympass", "smartfit"]

  /** `isRecurringLike`: some keyword occurs in the lower-cased
      description, anywhere, also inside a longer word. */
  function IsRecurringLike(description: string): (b: bool)
    ensures b <==> exists k :: 0 <= k < |RecurringKeywords| && Contains(Lower(description), RecurringKeywords[k])
  {
    AnyKeyword(Lower(description), RecurringKeywords)
  }

  function AnyKeyword(text: string, keys: seq<string>): (b: bool)
    ensures b <==> exists k :: 0 <= k < |keys| && Contains(text, keys[k])
    decreases |keys|
  {
    if |keys| == 0 then false
    else if Includes(text, keys[0]) then true
    else
      var b := AnyKeyword(text, keys[1..]);
      assert forall k :: 1 <= k < |keys| ==> keys[k] == keys[1..][k - 1];
      b
  }

  /** The match ignores the case of ASCII letters. */
  lemma RecurringLikeIgnoresCase(description: string)
    ensures IsRecurringLike(Upper(description)) == IsRecurringLike(description)
  {
    LowerUpper(description);
  }

  /** "NETFLIX" is flagged; so is a word that merely contains "tim". */
  lemma RecurringLikeExamples()
    ensures IsRecurringLike("NETFLIX")
    ensures IsRecurringLike("Estimativa")
  {
    NetflixFlagged();
    TimInsideWordFlagged();
  }

  lemma NetflixFlagged()
    ensures IsRecurringLike("NETFLIX")
  {
    assert Lower("NETFLIX") == "netflix";
    assert RecurringKeywords[0] == "netflix";
    KeywordFound("NETFLIX", "netflix", 0, 0);
  }

  lemma TimInsideWordFlagged()
    ensures IsRecurringLike("Estimativa")
  {
    assert Lower("Estimativa") == "estimativa";
    assert RecurringKeywords[9] == "tim";
    assert "estimativa"[2..5] == "tim";
    KeywordFound("Estimativa", "estimativa", 9, 2);
  }

  /** One keyword found at one place is enough. */
  lemma KeywordFound(description: string, lower: string, k: nat, at: nat)
    requires Lower(description) == lower && k < |RecurringKeywords|
    requires at + |RecurringKeywords[k]| <= |lower| && lower[at..at + |RecurringKeywords[k]|] == RecurringKeywords[k]
    ensures IsRecurringLike(description)
  {
    assert OccursAt(lower, RecurringKeywords[k], at);
  }
}

=== FILE: usage_limit.dfy ===
/** Plan gating: what a FREE user may still create, and the 30-day trial.
    PRO and LIFETIME users pass every check. The clock is a parameter. */
module UsageLimit {
  import opened Wrappers
  import opened Domain

  const MaxTransactionsFree: nat := 50
  const MaxAccountsFree: nat := 2
  const MaxCardsFree: nat := 1
  const TrialDays: nat := 30

  const MillisPerDay: nat := 86400000

  const TrialOverMessage: string := "Período de testes encerrado. Faça o upgrade para continuar."

  /** `ChronoUnit.DAYS.between(from, to)` on millisecond timestamps: whole
      days elapsed, truncated toward zero. */
  function DaysBetween(from: int, to: int): (days: int)
    ensures to >= from ==> days >= 0 && days * MillisPerDay <= to - from < (days + 1) * MillisPerDay
    ensures to < from ==> days <= 0 && (-days) * MillisPerDay <= from - to < (-days + 1) * MillisPerDay
  {
    if to >= from then (to - from) / MillisPerDay else -((from - to) / MillisPerDay)
  }

  /** `checkTrialPeriod`: no timestamp passes; otherwise more than 30 whole
      days is refused. */
  function CheckTrial(createdAt: Option<int>, now: int): (r: Result<()>)
    ensures createdAt.None? ==> r.Ok?
    ensures r.Err? ==> r.status == Forbidden && r.message == TrialOverMessage
  {
    match createdAt
    case None => Ok(())
    case Some(t) => if DaysBetween(t, now) > TrialDays then Err(Forbidden, TrialOverMessage) else Ok(())
  }

  /** The trial is over exactly when at least 31 full days have passed. */
  lemma TrialBoundary(createdAt: int, now: int)
    ensures CheckTrial(Some(createdAt), now).Err? <==> now - createdAt >= (TrialDays + 1) * MillisPerDay
  {
    var d := DaysBetween(createdAt, now);
    if now >= createdAt {
      if d > TrialDays {
        assert d * MillisPerDay >= (TrialDays + 1) * MillisPerDay;
      } else {
        assert (d + 1) * MillisPerDay <= (TrialDays + 1) * MillisPerDay;
      }
    }
  }

  /** The shared shape of the three checks: plan, then trial, then count. */
  function CheckLimit(user: User, count: nat, max: nat, now: int, limitMessage: string): (r: Result<()>)
    ensures !user.plan.Free? ==> r.Ok?
    ensures r.Err? ==> r.status == Forbidden
  {
    if user.plan.Lifetime? then Ok(())
    else if user.plan.Pro? then Ok(())
    else if CheckTrial(user.createdAt, now).Err? then CheckTrial(user.createdAt, now)
    else if count >= max then Err(Forbidden, limitMessage)
    else Ok(())
  }

  function OwnedCount<T>(s: seq<T>, ownerOf: T -> UserId, user: UserId): nat {
    if |s| == 0 then 0
    else OwnedCount(s[..|s| - 1], ownerOf, user) + (if ownerOf(s[|s| - 1]) == user then 1 else 0)
  }

  /** A table with one row of the user's counts at least one. */
  lemma {:induction false} OwnedCountPositive<T>(s: seq<T>, ownerOf: T -> UserId, user: UserId, k: nat)
    requires k < |s| && ownerOf(s[k]) == user
    ensures OwnedCount(s, ownerOf, user) >= 1
    decreases |s|
  {
    if k < |s| - 1 {
      OwnedCountPositive(s[..|s| - 1], ownerOf, user, k);
    }
  }

  function CheckTransactionLimit(user: User, st: Store, now: int): Result<()> {
    CheckLimit(user, OwnedCount(st.transactions, TransactionOwner, user.id), MaxTransactionsFree, now,
      "Limite de transações do plano gratuito atingido (50).")
  }

  function CheckAccountLimit(user: User, st: Store, now: int): Result<()> {
    CheckLimit(user, OwnedCount(st.accounts, AccountOwner, user.id), MaxAccountsFree, now,
      "Limite de contas do plano gratuito atingido (2).")
  }

  function CheckCreditCardLimit(user: User, st: Store, now: int): Result<()> {
    CheckLimit(user, OwnedCount(st.cards, CardOwner, user.id), MaxCardsFree, now,
      "Limite de cartões do plano gratuito atingido (1).")
  }

  /** Paying plans are never limited. */
  lemma PaidPlansPass(user: User, st: Store, now: int)
    requires user.plan == Pro || user.plan == Lifetime
    ensures CheckTransactionLimit(user, st, now).Ok?
    ensures CheckAccountLimit(user, st, now).Ok?
    ensures CheckCreditCardLimit(user, st, now).Ok?
  {
  }

  /** A FREE user inside the trial is refused exactly at the count limit. */
  lemma FreeCountLimits(user: User, st: Store, now: int)
    requires user.plan == Free && CheckTrial(user.createdAt, now).Ok?
    ensures CheckTransactionLimit(user, st, now).Err? <==> OwnedCount(st.transactions, TransactionOwner, user.id) >= 50
    ensures CheckAccountLimit(user, st, now).Err? <==> OwnedCount(st.accounts, AccountOwner, user.id) >= 2
    ensures CheckCreditCardLimit(user, st, now).Err? <==> OwnedCount(st.cards, CardOwner, user.id) >= 1
  {
    FreeInTrialLimit(user, OwnedCount(st.transactions, TransactionOwner, user.id), MaxTransactionsFree, now,
      "Limite de transações do plano gratuito atingido (50).");
    FreeInTrialLimit(user, OwnedCount(st.accounts, AccountOwner, user.id), MaxAccountsFree, now,
      "Limite de contas do plano gratuito atingido (2).");
    FreeInTrialLimit(user, OwnedCount(st.cards, CardOwner, user.id), MaxCardsFree, now,
      "Limite de cartões do plano gratuito atingido (1).");
  }

  /** Inside the trial, a FREE user is refused with the limit's own message
      exactly when the count has reached the limit. */
  lemma FreeInTrialLimit(user: User, count: nat, max: nat, now: int, limitMessage: string)
    requires user.plan == Free && CheckTrial(user.createdAt, now).Ok?
    ensures CheckLimit(user, count, max, now, limitMessage) == if count >= max then Err(Forbidden, limitMessage) else Ok(())
  {
  }

  /** An expired trial is what a FREE user hears, whatever the count. */
  lemma TrialReportedFirst(user: User, st: Store, now: int)
    requires user.plan == Free && CheckTrial(user.createdAt, now).Err?
    ensures CheckTransactionLimit(user, st, now) == Err(Forbidden, TrialOverMessage)
    ensures CheckAccountLimit(user, st, now) == Err(Forbidden, TrialOverMessage)
    ensures CheckCreditCardLimit(user, st, now) == Err(Forbidden, TrialOverMessage)
  {
  }
}

=== FILE: users.dfy ===
/** `UserController.updateMyProfile`: a partial profile edit. Only the
    name and the profile image can change, and each only when the request
    carries a value for it. */
module Users {
  import opened Wrappers
  import opened Domain

  /** `UpdateProfileDTO`: both fields may be absent (JSON null). */
  datatype UpdateProfile = UpdateProfile(name: Option<string>, profileImage: Option<string>)

  /** The name is replaced only by a present, non-empty one; the image by
      any present one, the empty string included. */
  function UpdateMyProfile(u: User, data: UpdateProfile): (r: User)
    ensures r.name == (if data.name.Some? && |data.name.value| > 0 then data.name else u.name)
    ensures r.profileImage == (if data.profileImage.Some? then data.profileImage else u.profileImage)
    ensures r.id == u.id && r.email == u.email && r.password == u.password
    ensures r.cpf == u.cpf && r.plan == u.plan && r.createdAt == u.createdAt
  {
    var u1 := if data.name.Some? && data.name.value != "" then u.(name := data.name) else u;
    if data.profileImage.Some? then u1.(profileImage := data.profileImage) else u1
  }

  /** An empty request saves the user unchanged, and so does an empty
      name with no image. */
  lemma NothingToUpdate(u: User)
    ensures UpdateMyProfile(u, UpdateProfile(None, None)) == u
    ensures UpdateMyProfile(u, UpdateProfile(Some(""), None)) == u
  {
  }

  /** Sending the same edit twice is the same as sending it once. */
  lemma UpdateIdempotent(u: User, data: UpdateProfile)
    ensures UpdateMyProfile(UpdateMyProfile(u, data), data) == UpdateMyProfile(u, data)
  {
  }
}

=== FILE: wallet_page.dfy ===
/** `WalletPage`: the accounts and cards side by side, the totals above
    them, and the local list update after an account is deleted. The
    card widgets are `CardDisplay`'s. */
module WalletView {
  import opened Seqs
  import opened Domain
  import opened Accounts
  import opened Cards
  import Dashboard

  function LimitUsed(c: CreditCard): int { c.limitUsed }

  function ViewId(v: AccountView): Id { v.account.id }

  /** `accounts.reduce((acc, account) => acc + account.currentBalance, 0)`,
      which the dashboard page computes too. */
  function ListedTotal(accounts: seq<AccountView>): int {
    SumBy(accounts, Dashboard.ListedBalance)
  }

  /** `totalBalance`, `totalLimitUsed` and `purchasingPower`. */
  datatype Totals = Totals(totalBalance: int, totalLimitUsed: int, purchasingPower: int)

  function WalletTotals(accounts: seq<AccountView>, cards: seq<CreditCard>): (t: Totals)
    ensures t.purchasingPower == t.totalBalance - t.totalLimitUsed
    ensures |accounts| == 0 && |cards| == 0 ==> t == Totals(0, 0, 0)
  {
    var balance := ListedTotal(accounts);
    var used := SumBy(cards, LimitUsed);
    Totals(balance, used, balance - used)
  }

  /** On the lists the server returns, the wallet's balance total is the
      dashboard's account total for the same user. */
  lemma WalletBalanceIsAccountsTotal(st: Store, user: UserId)
    ensures WalletTotals(AccountsOf(st, user), CardsOf(st, user)).totalBalance == Dashboard.AccountsTotal(st, user)
  {
    Dashboard.AccountsTotalMatchesListing(st, user);
  }

  /** A purchase of `amount` on one card lowers the purchasing power by
      exactly that amount. */
  lemma ChargeLowersPurchasingPower(accounts: seq<AccountView>, cards: seq<CreditCard>, k: nat, amount: int)
    requires k < |cards|
    ensures var charged := cards[k := cards[k].(limitUsed := cards[k].limitUsed + amount)];
            WalletTotals(accounts, charged).purchasingPower == WalletTotals(accounts, cards).purchasingPower - amount
  {
    SumByUpdate(cards, k, cards[k].(limitUsed := cards[k].limitUsed + amount), LimitUsed);
  }

  /** `setAccounts(accounts.filter(acc => acc.id !== id))` after a
      successful delete. */
  function DeleteAccountLocally(accounts: seq<AccountView>, id: Id): (r: seq<AccountView>)
    ensures forall v :: v in r <==> v in accounts && v.account.id != id
  {
    FilterMembershipAll(accounts, OtherId(ViewId, id));
    DeleteById(accounts, id, ViewId)
  }

  /** With unique ids the local delete drops that one account, and the
      balance total falls by its balance. */
  lemma DeleteAccountLowersBalance(accounts: seq<AccountView>, cards: seq<CreditCard>, k: nat)
    requires UniqueIds(accounts, ViewId) && k < |accounts|
    ensures DeleteAccountLocally(accounts, accounts[k].account.id) == accounts[..k] + accounts[k + 1..]
    ensures WalletTotals(DeleteAccountLocally(accounts, accounts[k].account.id), cards).totalBalance
            == WalletTotals(accounts, cards).totalBalance - accounts[k].currentBalance
  {
    DeleteByIdAt(accounts, k, ViewId);
    SumByRemove(accounts, k, Dashboard.ListedBalance);
  }
}

=== FILE: wrappers.dfy ===
/** Failure-compatible wrappers shared by every module of the model.
    `Option` stands for a Java/JS value that may be null or undefined;
    `Result` stands for a Spring handler that either returns a value or
    throws a `ResponseStatusException` with an HTTP status. */
module Wrappers {

  datatype Option<+T> = None | Some(value: T) {
    function GetOr(default: T): T {
      match this
      case Some(v) => v
      case None => default
    }
  }

  /** The HTTP statuses the modelled handlers answer with. `ServerError`
      stands for an unchecked Java exception (a `DateTimeException`, an
      `ArrayIndexOutOfBoundsException`, a constraint violation on save).
      `AuthenticationFailed` is a rethrown `BadCredentialsException`: the
      security configuration, not the handler, picks its HTTP status. */
  datatype Status =
    | BadRequest
    | Forbidden
    | NotFound
    | Conflict
    | TooManyRequests
    | AuthenticationFailed
    | ServerError

  datatype Result<+T> = Ok(value: T) | Err(status: Status, message: string) {
    predicate IsFailure() {
      Err?
    }

    function PropagateFailure<U>(): Result<U>
      requires Err?
    {
      Err(status, message)
    }

    function Extract(): T
      requires Ok?
    {
      value
    }
  }
}
